=== FILE: README.md ===
# Traffic Master: a verified model of the booking backend and the attack/defense flow engines

Traffic Master is a ticket-booking test bed. A Java backend sells seats through a queue, a
security challenge, seat holds, orders and payments. A Python "attack" engine (a0_poc) replays
the booking flow as a state machine S0..S6/SX driven by semantic events, with budgets, a failure
matrix and scenario assertions. A Python "defense" engine (d0_poc) watches the same flow:
it gathers evidence, decides a risk tier T0..T3, plans throttles, challenges and blocks, and
feeds its own DEF_ events back into the flow. Small scripts group decision logs by trace and
check an audit log.

This project models those parts in Dafny and proves what they promise:

- **Booking backend** (`seat_entities`, `seats`, `payments`, `security`, `queue`, `dto`,
  `sessions`). Each Java service is a class whose fields are the service's maps. Each method is
  proved against a step function on an immutable snapshot of those maps (`HoldStep`, `PayStep`,
  `VerifyStep`, `PollStep`, ...). Lemmas about the step functions give the invariants:
  - one active hold per session, and a seat ledger that matches the holds;
  - all-or-nothing seat holds;
  - at most one successful payment per order;
  - a queue position that never grows and never goes negative;
  - idempotent replays.
- **Attack engine** (`attack_*`). Covers:
  - states and events and the event registry;
  - the state store (a class);
  - transition and execution results;
  - the validator and the failure matrix;
  - the ROI counters and the decision logger (classes);
  - the orchestrator loop (a method proved against `RunLoop`);
  - scenario models, scenario assertions, the policy-profile loader and the runtime budget and timebox managers.
- **Defense engine** (`defense_*`). Covers:
  - the core transition (`engine.py`) and the harness loop;
  - evidence aggregation, the risk tier decision, the action planner and the actuator;
  - the scenario runner, a class whose context is updated in place;
  - the verifier, the signal validator and the event factory.
- **Tools** (`log_tools`, `audit_log`). Covers grouping log entries by trace with a stable sort by `seq`, and the audit log's schema, chronology and grouping checks.

Python exceptions are modelled as `Result`/`Option` error values where the model handles the
failing input; the exceptions it does not model are listed under "Left out". Randomness, clocks
and generated ids are parameters of the operations that use them.

## Model

Source paths are relative to the repository root. They use these prefixes:

- `platform/backend/src/main/java/com/trafficmaster/` for Java;
- `src/traffic_master_ai/attack/a0_poc/` for the attack engine;
- `src/traffic_master_ai/defense/d0_poc/` for the defense engine.

| member | source | states |
|---|---|---|
| SeatEntities.Int32 | platform/backend/src/main/java/com/trafficmaster/seat/SeatService.java:256-257 | Java `int` arithmetic: the result is in the 32-bit range and congruent to the mathematical value modulo 2^32 |
| SeatEntities.TotalPrice | platform/backend/src/main/java/com/trafficmaster/seat/SeatService.java:256-257 | the order total is exactly 25000 per seat for up to 85899 seats and wraps to a negative `int` at 85900 |
| SeatEntities.DefaultHold | platform/backend/src/main/java/com/trafficmaster/seat/Hold.java:25-26 | a hold built without a status is ACTIVE |
| SeatEntities.HoldExpiryBoundary | platform/backend/src/main/java/com/trafficmaster/seat/Hold.java:35-37 | a hold is never expired without a deadline; with one it is expired iff now is strictly after it, so not at the deadline instant |
| SeatEntities.HoldExpiryMonotone | platform/backend/src/main/java/com/trafficmaster/seat/Hold.java:35-37 | once expired, a hold stays expired at every later instant |
| SeatEntities.DefaultOrder | platform/backend/src/main/java/com/trafficmaster/seat/Order.java:35-36 | an order built without a status is ACTIVE |
| SeatEntities.PaymentExpiryBoundary | platform/backend/src/main/java/com/trafficmaster/seat/Order.java:44-46 | the payment window is never over without a deadline; with one it is over iff now is strictly after it, whatever the status |
| Seats.ClaimedSnoc | platform/backend/src/main/java/com/trafficmaster/seat/SeatService.java:194-196 | claiming one more seat is claiming the earlier ones, then that seat |
| Seats.EmptyConsistent | platform/backend/src/main/java/com/trafficmaster/seat/SeatService.java:45-53 | the empty service satisfies the seat-ledger invariant |
| Seats.OneActiveHoldPerSession | platform/backend/src/main/java/com/trafficmaster/seat/SeatService.java:136-154 | under the invariant, two ACTIVE holds of one session are the same hold |
| Seats.LedgerSeatsOfSession | platform/backend/src/main/java/com/trafficmaster/seat/SeatService.java:155-162 | a seat held by another session belongs to another pointed hold, so freeing one session's seats keeps it |
| Seats.DropSessionLedger | platform/backend/src/main/java/com/trafficmaster/seat/SeatService.java:155-162 | expiring a session's hold and freeing its seats keeps the ledger exact |
| Seats.DropSessionActive | platform/backend/src/main/java/com/trafficmaster/seat/SeatService.java:155-162 | expiring a hold and dropping its pointer keeps every ACTIVE hold pointed |
| Seats.ExpireStaleConsistent | platform/backend/src/main/java/com/trafficmaster/seat/SeatService.java:155-162 | stale-hold clean-up keeps the invariant, leaves the session without a pointer and frees no other session's seat |
| Seats.AddSessionLedger | platform/backend/src/main/java/com/trafficmaster/seat/SeatService.java:187-206 | giving free seats to a pointer-less session under a fresh hold keeps the ledger exact |
| Seats.NoneHeld | platform/backend/src/main/java/com/trafficmaster/seat/SeatService.java:165-185 | the availability scan finds no held seat iff no requested seat is in the ledger |
| Seats.ClaimStepConsistent | platform/backend/src/main/java/com/trafficmaster/seat/SeatService.java:187-233 | a fresh hold on free seats, for a session with no active hold, preserves the invariant |
| Seats.HoldStepConsistent | platform/backend/src/main/java/com/trafficmaster/seat/SeatService.java:112-233 | every `holdSeats` call preserves the invariant (one active hold per session, ledger equals the pointed holds' seats, orders consume holds) |
| Seats.HoldStep | platform/backend/src/main/java/com/trafficmaster/seat/SeatService.java:112-233 | a hold call never touches orders and never reuses an id; it stores its response under its idempotency key when there is one (a replay stores the same response again) and changes no other cache entry |
| Seats.CreateOrderStepConsistent | platform/backend/src/main/java/com/trafficmaster/seat/SeatService.java:235-288 | every `createOrder` call preserves the invariant |
| Seats.ExpiredHoldConsistent | platform/backend/src/main/java/com/trafficmaster/seat/SeatService.java:245-252 | marking an expired active hold EXPIRED keeps the invariant |
| Seats.OrderFromHoldConsistent | platform/backend/src/main/java/com/trafficmaster/seat/SeatService.java:254-281 | turning a live active hold into an order (hold consumed, seats released, session pointer dropped) keeps the invariant |
| Seats.CreateOrderStep | platform/backend/src/main/java/com/trafficmaster/seat/SeatService.java:235-288 | the response names the hold, carries an order id iff it is ACTIVE, and a refused call changes no order, no seat and no session pointer; the hold cache is untouched |
| Seats.HoldReplay | platform/backend/src/main/java/com/trafficmaster/seat/SeatService.java:113-120 | a key already cached replays its response, whatever the request, and changes nothing |
| Seats.HoldRejectsSecondActiveHold | platform/backend/src/main/java/com/trafficmaster/seat/SeatService.java:136-154 | a live ACTIVE hold of the session gives FAIL/ALREADY_HAS_ACTIVE_HOLD with no hold id, and only the cache changes |
| Seats.HoldAllOrNothing | platform/backend/src/main/java/com/trafficmaster/seat/SeatService.java:165-206 | a failed request claims no seat; a successful one gives every requested seat to the session and leaves every other ledger entry as it was |
| Seats.HeldByOthersExactly | platform/backend/src/main/java/com/trafficmaster/seat/SeatService.java:165-185 | HELD_BY_OTHERS is answered exactly when a requested seat is in the ledger after clean-up |
| Seats.HoldSuccessRecordsHold | platform/backend/src/main/java/com/trafficmaster/seat/SeatService.java:187-226 | a success stores a fresh ACTIVE hold that expires five minutes later and becomes the session's active hold; the response is SUCCESS with that id |
| Seats.HeldSeatBlocksOthers | platform/backend/src/main/java/com/trafficmaster/seat/SeatService.java:165-185 | once a session holds a seat, another session asking for it with a fresh key fails and the seat stays with its holder |
| Seats.CreateOrderInvalid | platform/backend/src/main/java/com/trafficmaster/seat/SeatService.java:236-243 | a missing or non-ACTIVE hold gives INVALID_HOLD and changes nothing |
| Seats.CreateOrderExpired | platform/backend/src/main/java/com/trafficmaster/seat/SeatService.java:245-252 | an expired ACTIVE hold is marked EXPIRED and HOLD_EXPIRED is answered; its seats and pointer stay |
| Seats.CreateOrderSuccess | platform/backend/src/main/java/com/trafficmaster/seat/SeatService.java:254-285 | a success stores an ACTIVE order costing 25000 per seat, payable for 300 s, and consumes the hold: seats leave the ledger, the pointer is cleared, the hold is EXPIRED |
| Seats.HoldYieldsOneOrder | platform/backend/src/main/java/com/trafficmaster/seat/SeatService.java:236-285 | asking for an order on an already-used hold gives INVALID_HOLD |
| Seats.ExpiredHoldStillBlocks | platform/backend/src/main/java/com/trafficmaster/seat/SeatService.java:165-168 | the availability scan ignores expiry: an uncleaned timed-out hold still blocks other sessions |
| Seats.MaskPhone | platform/backend/src/main/java/com/trafficmaster/seat/SeatService.java:297-304 | null or fewer than 10 characters is returned unchanged; otherwise the first three characters, "-****-" and the last four |
| Seats.MaskPhoneExample | platform/backend/src/main/java/com/trafficmaster/seat/SeatService.java:297-304 | "01012345678" masks to "010-****-5678" |
| Seats.SeatService.constructor | platform/backend/src/main/java/com/trafficmaster/seat/SeatService.java:45-56 | the service starts with empty maps and satisfies the invariant |
| Seats.SeatService.CacheIfKeyed | platform/backend/src/main/java/com/trafficmaster/seat/SeatService.java:306-311 | the response is stored under the key when there is one, and nothing else changes |
| Seats.SeatService.ReleaseSeats | platform/backend/src/main/java/com/trafficmaster/seat/SeatService.java:160 | the ledger loses exactly the given seats |
| Seats.SeatService.ExpireStaleHold | platform/backend/src/main/java/com/trafficmaster/seat/SeatService.java:155-162 | the new state is the stale-hold clean-up of the old one |
| Seats.SeatService.AnySeatHeld | platform/backend/src/main/java/com/trafficmaster/seat/SeatService.java:165-167 | answers whether any requested seat is in the ledger |
| Seats.SeatService.ClaimSeats | platform/backend/src/main/java/com/trafficmaster/seat/SeatService.java:194-196 | every given seat is put under the session and nothing else changes |
| Seats.SeatService.RecordHold | platform/backend/src/main/java/com/trafficmaster/seat/SeatService.java:189-226 | the new state and response are the successful tail of `holdSeats` |
| Seats.SeatService.HasLiveHold | platform/backend/src/main/java/com/trafficmaster/seat/SeatService.java:136-139 | true iff the session points at an ACTIVE hold that has not expired |
| Seats.SeatService.HoldSeats | platform/backend/src/main/java/com/trafficmaster/seat/SeatService.java:112-233 | keeps the invariant; the new state and response are `HoldStep` of the old state |
| Seats.SeatService.CreateOrder | platform/backend/src/main/java/com/trafficmaster/seat/SeatService.java:235-288 | keeps the invariant; the new state and response are `CreateOrderStep` of the old state |
| Seats.SeatService.GetOrder | platform/backend/src/main/java/com/trafficmaster/seat/SeatService.java:290-295 | the stored order when there is one, none otherwise |
| Payments.PayStepSettled | platform/backend/src/main/java/com/trafficmaster/seat/PaymentService.java:43-132 | the payment invariant (payments filed under their ids, a succeeded order is PAID or past its window, at most one success per order) survives every call made no earlier than the clock |
| Payments.SettledLater | platform/backend/src/main/java/com/trafficmaster/seat/Order.java:44-46 | a payment window once past stays past, so the invariant survives a later clock |
| Payments.ChargeSettled | platform/backend/src/main/java/com/trafficmaster/seat/PaymentService.java:80-129 | charging an open, unpaid order files one payment under a fresh id and keeps the invariant, on either outcome of the draw |
| Payments.PayStep | platform/backend/src/main/java/com/trafficmaster/seat/PaymentService.java:43-132 | a payment call never reuses an id, stores its response under its idempotency key when there is one (a replay stores the same response again) and changes no other cache entry, and logs at most one verification reset |
| Payments.PayRunSettled | platform/backend/src/main/java/com/trafficmaster/seat/PaymentService.java:43-132 | the payment invariant holds after any run of calls whose clock never goes back, at the last call's clock |
| Payments.AtMostOneSuccess | platform/backend/src/main/java/com/trafficmaster/seat/PaymentService.java:43-132 | from the empty payment store, after any run of calls whose clock never goes back, two SUCCEEDED payments of the same order are the same payment (payment calls only; `AtMostOneSuccessInterleaved` adds seat calls) |
| Payments.SettledExtendOrders | platform/backend/src/main/java/com/trafficmaster/seat/PaymentService.java:30-34 | adding orders while every existing order stays unchanged keeps the payment invariant |
| Payments.HoldKeepsSettled | platform/backend/src/main/java/com/trafficmaster/seat/SeatService.java:112-233 | a `holdSeats` call on the seat service the payment service shares leaves the payment invariant intact |
| Payments.CreateOrderKeepsSettled | platform/backend/src/main/java/com/trafficmaster/seat/SeatService.java:235-288 | a `createOrder` call on the shared seat service changes no existing order (it may add one under a fresh id), and the payment invariant holds over the new orders |
| Payments.PayStepKeepsSeats | platform/backend/src/main/java/com/trafficmaster/seat/PaymentService.java:67-129 | a payment call on the shared orders keeps the seat service's invariant |
| Payments.ShopStep | platform/backend/src/main/java/com/trafficmaster/seat/PaymentService.java:30 | whichever service is called, the seat service and the payment service still see one map of orders |
| Payments.ShopStepValid | platform/backend/src/main/java/com/trafficmaster/seat/PaymentService.java:30 | a hold, order-creation or payment call made no earlier than the clock keeps both services' invariants |
| Payments.ShopRunValid | platform/backend/src/main/java/com/trafficmaster/seat/PaymentService.java:30 | both invariants hold after any interleaving of hold, order-creation and payment calls whose clock never goes back |
| Payments.AtMostOneSuccessInterleaved | platform/backend/src/main/java/com/trafficmaster/seat/PaymentService.java:43-132 | from fresh services, after any interleaving of holds, order creations and payments whose clock never goes back, every payment names an order the seat service holds and two SUCCEEDED payments of the same order are the same payment |
| Payments.NoSecondSuccess | platform/backend/src/main/java/com/trafficmaster/seat/PaymentService.java:67-78 | once an order is paid, no later call on it succeeds |
| Payments.PayReplay | platform/backend/src/main/java/com/trafficmaster/seat/PaymentService.java:44-51 | a cached key replays its response; no payment is created and no order changes |
| Payments.PayOrderNotFound | platform/backend/src/main/java/com/trafficmaster/seat/PaymentService.java:54-57 | an unknown order gives FAILED/ORDER_NOT_FOUND without a payment id, and the answer is cached |
| Payments.PayWindowFirst | platform/backend/src/main/java/com/trafficmaster/seat/PaymentService.java:67-73 | past its window an order, even a PAID one, becomes EXPIRED and EXPIRED/PAYMENT_WINDOW_EXPIRED is answered |
| Payments.PayAlreadyPaid | platform/backend/src/main/java/com/trafficmaster/seat/PaymentService.java:76-78 | a PAID order inside its window gives FAILED/ALREADY_PAID and nothing is recorded |
| Payments.PayOutcome | platform/backend/src/main/java/com/trafficmaster/seat/PaymentService.java:81-129 | past the checks, a failure draw files one FAILED payment with PAYMENT_FAILED and leaves the order; a success files one SUCCEEDED payment for the order's total, marks it PAID and resets verification once |
| Payments.StatusChangeKeepsSeats | platform/backend/src/main/java/com/trafficmaster/seat/PaymentService.java:67-129 | a payment call only changes order statuses, so the seat invariant survives it |
| Payments.PaymentService.constructor | platform/backend/src/main/java/com/trafficmaster/seat/PaymentService.java:25-34 | the service starts with no payments and an empty cache over a valid seat service |
| Payments.PaymentService.BuildAndCache | platform/backend/src/main/java/com/trafficmaster/seat/PaymentService.java:134-146 | returns the response built from its arguments and caches it under a present key |
| Payments.PaymentService.ProcessPayment | platform/backend/src/main/java/com/trafficmaster/seat/PaymentService.java:43-132 | keeps the invariant; the new state and response are `PayStep` of the old state |
| Payments.PaymentService.Charge | platform/backend/src/main/java/com/trafficmaster/seat/PaymentService.java:81-129 | the new state and response are the charging tail of `processPayment` |
| Security.TrimStartSpec | platform/backend/src/main/java/com/trafficmaster/security/SecurityService.java:86 | trimming the start removes exactly the blank prefix (characters up to U+0020) |
| Security.TrimEndSpec | platform/backend/src/main/java/com/trafficmaster/security/SecurityService.java:86 | trimming the end removes exactly the blank suffix |
| Security.TrimSlice | platform/backend/src/main/java/com/trafficmaster/security/SecurityService.java:86 | `trim` keeps a contiguous slice whose end characters are not blank and drops only blanks around it |
| Security.Trim | platform/backend/src/main/java/com/trafficmaster/security/SecurityService.java:86 | the result is no longer than the input, and a text with no blank at either end is kept as it is |
| Security.TrimIgnoresPadding | platform/backend/src/main/java/com/trafficmaster/security/SecurityService.java:86-91 | surrounding blanks never change the verdict on an answer |
| Security.TrimIdempotent | platform/backend/src/main/java/com/trafficmaster/security/SecurityService.java:86 | trimming twice is trimming once |
| Security.CorrectAnswers | platform/backend/src/main/java/com/trafficmaster/security/SecurityService.java:86-91 | "7" and " 7 " are correct; "8" and "77" are not |
| Security.Remaining | platform/backend/src/main/java/com/trafficmaster/security/SecurityService.java:130-131 | the remaining count is never negative, and at most 3 for a non-negative failure count |
| Security.RemainingCountdown | platform/backend/src/main/java/com/trafficmaster/security/SecurityService.java:130-131 | the remaining count is 2, 1, 0 after one, two, three failures, 0 from then on, and never rises as failures grow |
| Security.IssueStepConsistent | platform/backend/src/main/java/com/trafficmaster/security/SecurityService.java:48-80 | issuing a challenge keeps the service invariant and uses a challenge id not issued before |
| Security.IssueStep | platform/backend/src/main/java/com/trafficmaster/security/SecurityService.java:48-80 | the new challenge is recorded for the session under an id below the counter, and no verification flag changes |
| Security.VerifyStepConsistent | platform/backend/src/main/java/com/trafficmaster/security/SecurityService.java:83-152 | verifying keeps the service invariant |
| Security.VerifyStep | platform/backend/src/main/java/com/trafficmaster/security/SecurityService.java:83-152 | the result is PASS iff the trimmed answer is correct, and no session loses its verification |
| Security.IssueKeepsCounter | platform/backend/src/main/java/com/trafficmaster/security/SecurityService.java:56 | issuing starts a counter at 0 for a new session and never resets an existing one |
| Security.VerifyPass | platform/backend/src/main/java/com/trafficmaster/security/SecurityService.java:115-127 | a correct answer gives PASS with 3 remaining, resets the counter to 0, marks the session verified and removes the challenge entries |
| Security.VerifyFail | platform/backend/src/main/java/com/trafficmaster/security/SecurityService.java:130-151 | a wrong answer raises the counter by one and gives FAIL with max(0, 3 - attempts) remaining |
| Security.VerifyOutcomes | platform/backend/src/main/java/com/trafficmaster/security/SecurityService.java:24-28 | only PASS and FAIL are ever returned, and the remaining count is never negative |
| Security.ChallengeIdIgnored | platform/backend/src/main/java/com/trafficmaster/security/SecurityService.java:83-89 | the challenge id plays no part in the verdict or the counter |
| Security.WrongAnswersCountDown | platform/backend/src/main/java/com/trafficmaster/security/SecurityService.java:130-151 | three wrong answers from a fresh session report 2, 1, 0 remaining, and a fourth still 0 |
| Security.VerificationFlag | platform/backend/src/main/java/com/trafficmaster/security/SecurityService.java:158-169 | an unknown session is not verified, and after a reset the session is not verified |
| Security.SecurityService.constructor | platform/backend/src/main/java/com/trafficmaster/security/SecurityService.java:40-44 | the service starts with empty maps |
| Security.SecurityService.IssueChallenge | platform/backend/src/main/java/com/trafficmaster/security/SecurityService.java:48-80 | keeps the invariant; the new state and response are `IssueStep` of the old state |
| Security.SecurityService.Verify | platform/backend/src/main/java/com/trafficmaster/security/SecurityService.java:83-152 | keeps the invariant; the new state and response are `VerifyStep` of the old state |
| Security.SecurityService.IsVerified | platform/backend/src/main/java/com/trafficmaster/security/SecurityService.java:158-160 | true only for a session marked verified, false by default |
| Security.SecurityService.ResetVerification | platform/backend/src/main/java/com/trafficmaster/security/SecurityService.java:166-169 | removes only this session's flag, after which it is not verified |
| Queue.DefaultTicket | platform/backend/src/main/java/com/trafficmaster/queue/QueueTicket.java:28-38 | a ticket built with defaults has mode RECOMMEND, status WAITING and estimatedWaitMs 5000 |
| Queue.TimeExpiryBoundary | platform/backend/src/main/java/com/trafficmaster/queue/QueueTicket.java:63-66 | never expired without a creation time; otherwise expired iff now - createdAt >= estimatedWaitMs, boundary included |
| Queue.Progress | platform/backend/src/main/java/com/trafficmaster/queue/QueueTicket.java:54-58 | the share of the initial position covered, in [0, 1], 0 at the start and 1 at the head |
| Queue.ToUpper | platform/backend/src/main/java/com/trafficmaster/queue/QueueService.java:159-165 | upper-casing keeps the length and maps each ASCII lower-case letter to its capital |
| Queue.ModeName | platform/backend/src/main/java/com/trafficmaster/queue/QueueService.java:147-157 | the name is "MAP" exactly for the MAP mode |
| Queue.ParseModeCases | platform/backend/src/main/java/com/trafficmaster/queue/QueueService.java:159-165 | "map" in any case gives MAP; "recommend" in any case, anything else and null give RECOMMEND |
| Queue.ParseModeName | platform/backend/src/main/java/com/trafficmaster/queue/QueueService.java:147-165 | parsing a mode's own name gives the mode back |
| Queue.ParseMode | platform/backend/src/main/java/com/trafficmaster/queue/QueueService.java:147-165 | MAP iff the name is "map" in any letter case; anything else, or no name, is RECOMMEND |
| Queue.ParseModeIgnoresCase | platform/backend/src/main/java/com/trafficmaster/queue/QueueService.java:159-165 | a name and its upper-case form parse to the same mode |
| Queue.GrantedResponse | platform/backend/src/main/java/com/trafficmaster/queue/QueueService.java:147-157 | the granted answer has position 0, progress 1, status GRANTED and nextUrl "/seats?mode=" + the mode's name |
| Queue.EnterStepConsistent | platform/backend/src/main/java/com/trafficmaster/queue/QueueService.java:37-78 | entering keeps the queue invariant (WAITING tickets have position > 0, GRANTED ones position 0, none is BLOCKED) |
| Queue.EnterStep | platform/backend/src/main/java/com/trafficmaster/queue/QueueService.java:37-78 | the new ticket is added under the returned id and every other ticket is unchanged |
| Queue.EnterWaits | platform/backend/src/main/java/com/trafficmaster/queue/QueueService.java:37-78 | a new ticket is stored WAITING at the drawn position in [1000, 20000], waits 5000 ms and reports progress 0 |
| Queue.PollStepConsistent | platform/backend/src/main/java/com/trafficmaster/queue/QueueService.java:82-145 | polling keeps the queue invariant |
| Queue.PollStep | platform/backend/src/main/java/com/trafficmaster/queue/QueueService.java:82-145 | polling adds and removes no ticket, keeps the id counter, and changes no other ticket |
| Queue.PollNotFound | platform/backend/src/main/java/com/trafficmaster/queue/QueueService.java:83-90 | polling an unknown id answers NOT_FOUND and changes nothing |
| Queue.PollGrantedAbsorbing | platform/backend/src/main/java/com/trafficmaster/queue/QueueService.java:93-95 | polling a granted ticket changes nothing and repeats the granted answer |
| Queue.PollAdvances | platform/backend/src/main/java/com/trafficmaster/queue/QueueService.java:98-121 | on a waiting ticket the position becomes max(0, position - d), so it never grows or goes negative; the ticket is granted, at position 0, iff that reaches 0 or the wait has elapsed |
| Queue.GrantedWithin | platform/backend/src/main/java/com/trafficmaster/queue/QueueService.java:98-107 | a waiting ticket whose position is at most 100 times the number of polls is granted, at position 0, by the end of them, whatever the clock |
| Queue.PollRunKeepsGranted | platform/backend/src/main/java/com/trafficmaster/queue/QueueService.java:93-95 | once granted, a ticket stays granted through any further polls |
| Queue.QueueService.constructor | platform/backend/src/main/java/com/trafficmaster/queue/QueueService.java:33 | the service starts with no tickets |
| Queue.QueueService.Enter | platform/backend/src/main/java/com/trafficmaster/queue/QueueService.java:37-78 | keeps the invariant; the new state and response are `EnterStep` of the old state |
| Queue.QueueService.Poll | platform/backend/src/main/java/com/trafficmaster/queue/QueueService.java:82-145 | keeps the invariant; the new state and response are `PollStep` of the old state |
| Dto.RangeViolations | platform/backend/src/main/java/com/trafficmaster/dto/PriceRangeDTO.java:17-28 | a range is accepted iff min >= 20000, max <= 100000 and min <= max; one message per violated constraint; Bean Validation returns them as an unordered set, and the model fixes the annotation order |
| Dto.DefaultRange | platform/backend/src/main/java/com/trafficmaster/dto/PriceRangeDTO.java:19-32 | the default range is 20000..100000 and is accepted |
| Dto.RangeBoundaries | platform/backend/src/main/java/com/trafficmaster/dto/PriceRangeDTO.java:17-28 | min = max is accepted; min 19999, max 100001 and min > max are each refused with their own message |
| Dto.DefaultPreferences | platform/backend/src/main/java/com/trafficmaster/dto/PreferencesDTO.java:17-30 | defaults are recommendation off, party size 2, price filter off and the default range |
| Dto.PreferenceViolations | platform/backend/src/main/java/com/trafficmaster/dto/PreferencesDTO.java:20-30 | when the only messages are the nested range's, the party size is within 1..10 |
| Dto.PreferencesAccepted | platform/backend/src/main/java/com/trafficmaster/dto/PreferencesDTO.java:20-30 | preferences are accepted iff partySize is in 1..10 and the nested range is accepted |
| Dto.PreferenceBoundaries | platform/backend/src/main/java/com/trafficmaster/dto/PreferencesDTO.java:20-23 | party sizes 1 and 10 are accepted; 0 and 11 are refused with their own message; the defaults are accepted |
| Sessions.CreateNew | platform/backend/src/main/java/com/trafficmaster/session/SessionData.java:28-37 | a new session has the given id, stage "S1", default preferences and both instants at now |
| Sessions.SaveThenGet | platform/backend/src/main/java/com/trafficmaster/session/InMemorySessionStore.java:18-27 | a saved session is read back unchanged, and saving leaves every other id alone |
| Sessions.NeverSaved | platform/backend/src/main/java/com/trafficmaster/session/InMemorySessionStore.java:18-32 | after any run of saves into any store, an id exists iff it was stored before or some saved session carries it, and `get` finds nothing iff the id does not exist |
| Sessions.GetOrCreateCases | platform/backend/src/main/java/com/trafficmaster/session/SessionStore.java:20-22 | an existing session is returned as stored; otherwise a fresh S1 session is stored and returned; either way the id then exists |
| Sessions.GetOrCreateIdempotent | platform/backend/src/main/java/com/trafficmaster/session/SessionStore.java:20-22 | a second call, at any later time, returns what the first stored and changes nothing |
| Sessions.InMemorySessionStore.constructor | platform/backend/src/main/java/com/trafficmaster/session/InMemorySessionStore.java:16 | the store starts empty |
| Sessions.InMemorySessionStore.Get | platform/backend/src/main/java/com/trafficmaster/session/InMemorySessionStore.java:18-21 | the stored session, present iff the id was saved |
| Sessions.InMemorySessionStore.Save | platform/backend/src/main/java/com/trafficmaster/session/InMemorySessionStore.java:23-27 | stores the session under its own id, overwriting only that entry, and returns it |
| Sessions.InMemorySessionStore.Exists | platform/backend/src/main/java/com/trafficmaster/session/InMemorySessionStore.java:29-32 | true iff something was saved under the id |
| Sessions.InMemorySessionStore.GetOrCreate | platform/backend/src/main/java/com/trafficmaster/session/SessionStore.java:20-22 | the store and result are `GetOrCreateStep` of the old store, and the id then maps to the result |
| AttackStates.ParseState | src/traffic_master_ai/attack/a0_poc/states.py:6-27 | a value parses only to the state with that value |
| AttackStates.ParseStateValue | src/traffic_master_ai/attack/a0_poc/states.py:6-27 | every state's value parses back to that state, so the values are distinct |
| AttackStates.StateRoles | src/traffic_master_ai/attack/a0_poc/states.py:29-48 | SX is the only terminal state and S3 the only security state; exactly S1, S2, S4, S5, S6 may be remembered before S3; the roles never overlap |
| AttackStates.IsTerminal | src/traffic_master_ai/attack/a0_poc/states.py:29-31 | a state is terminal iff its value is "SX" |
| AttackStates.IsSecurity | src/traffic_master_ai/attack/a0_poc/states.py:33-35 | a state is the security state iff its value is "S3" |
| AttackStates.CanBeLastNonSecurity | src/traffic_master_ai/attack/a0_poc/states.py:37-48 | a state may be remembered before S3 iff its value is S1, S2, S4, S5 or S6 |
| AttackStates.TerminalReasonsAreValues | src/traffic_master_ai/attack/a0_poc/states.py:52-68 | the literal reason set equals the set of `TerminalReason` values |
| AttackStates.ParseReason | src/traffic_master_ai/attack/a0_poc/states.py:55-68 | a value parses iff it is one of the reason literals, and then to the member with that value |
| AttackEvents.MakeEvent | src/traffic_master_ai/attack/a0_poc/events.py:29-34 | an event is built iff its type is non-empty, with the given fields |
| AttackSnapshots.InitialSnapshot | src/traffic_master_ai/attack/a0_poc/snapshots.py:25-29 | a snapshot built from a state has no remembered state, empty maps and elapsed 0 |
| AttackSnapshots.CopySnapshot | src/traffic_master_ai/attack/a0_poc/snapshots.py:31-39 | a copy has equal field values |
| AttackSnapshots.GetRule | src/traffic_master_ai/attack/a0_poc/snapshots.py:58-60 | the rule under the key if present, else the default |
| AttackStore.Bump | src/traffic_master_ai/attack/a0_poc/store.py:92-113 | the key's new value is its old value (0 when missing) plus the amount, and it is returned |
| AttackStore.BumpOtherKeys | src/traffic_master_ai/attack/a0_poc/store.py:92-113 | a bump changes no other key |
| AttackStore.BumpCancels | src/traffic_master_ai/attack/a0_poc/store.py:92-113 | raising by a and lowering by a restores the value (a missing key comes back as 0) |
| AttackStore.DecrementDoesNotClamp | src/traffic_master_ai/attack/a0_poc/store.py:103-113 | decrements do not clamp: a key at 0 goes to -amount |
| AttackStore.AddElapsed | src/traffic_master_ai/attack/a0_poc/store.py:176-192 | a negative delta is an error; otherwise the delta is added and the new total returned |
| AttackStore.AddAllMonotone | src/traffic_master_ai/attack/a0_poc/store.py:176-192 | a sequence of additions is accepted iff every delta is non-negative, and then elapsed time never decreases |
| AttackStore.StateStore.constructor | src/traffic_master_ai/attack/a0_poc/store.py:31-56 | the store starts in the initial state with no remembered state, the given budgets and counters, and elapsed 0 |
| AttackStore.StateStore.SetState | src/traffic_master_ai/attack/a0_poc/store.py:62-70 | only the current state changes |
| AttackStore.StateStore.SetLastNonSecurityState | src/traffic_master_ai/attack/a0_poc/store.py:76-82 | only the remembered state changes |
| AttackStore.StateStore.GetBudget | src/traffic_master_ai/attack/a0_poc/store.py:84-86 | the stored budget, or the default when missing |
| AttackStore.StateStore.SetBudget | src/traffic_master_ai/attack/a0_poc/store.py:88-90 | only the named budget changes, to the value |
| AttackStore.StateStore.IncrementBudget | src/traffic_master_ai/attack/a0_poc/store.py:92-101 | the named budget is bumped up as `Bump` says and the new value returned |
| AttackStore.StateStore.DecrementBudget | src/traffic_master_ai/attack/a0_poc/store.py:103-113 | the named budget is lowered by the amount, unclamped, and the new value returned |
| AttackStore.StateStore.ResetBudget | src/traffic_master_ai/attack/a0_poc/store.py:115-117 | only the named budget changes, to the value |
| AttackStore.StateStore.ResetAllBudgets | src/traffic_master_ai/attack/a0_poc/store.py:119-127 | the budgets become exactly the given values (none when not given) |
| AttackStore.StateStore.GetCounter | src/traffic_master_ai/attack/a0_poc/store.py:129-131 | the stored counter, or the default when missing |
| AttackStore.StateStore.SetCounter | src/traffic_master_ai/attack/a0_poc/store.py:133-135 | only the named counter changes, to the value |
| AttackStore.StateStore.IncrementCounter | src/traffic_master_ai/attack/a0_poc/store.py:137-146 | the named counter is bumped up and the new value returned |
| AttackStore.StateStore.DecrementCounter | src/traffic_master_ai/attack/a0_poc/store.py:148-157 | the named counter is lowered, unclamped, and the new value returned |
| AttackStore.StateStore.ResetCounter | src/traffic_master_ai/attack/a0_poc/store.py:159-161 | only the named counter changes, to the value |
| AttackStore.StateStore.ResetAllCounters | src/traffic_master_ai/attack/a0_poc/store.py:163-168 | the counters become empty |
| AttackStore.StateStore.AddElapsedMs | src/traffic_master_ai/attack/a0_poc/store.py:176-192 | a negative delta is an error leaving the store unchanged; otherwise elapsed grows by the delta and the total is returned |
| AttackStore.StateStore.ResetElapsedMs | src/traffic_master_ai/attack/a0_poc/store.py:194-198 | elapsed becomes 0 |
| AttackStore.StateStore.GetSnapshot | src/traffic_master_ai/attack/a0_poc/store.py:202-208 | the current snapshot, as a value independent of the store |
| AttackStore.StateStore.Copy | src/traffic_master_ai/attack/a0_poc/store.py:210-219 | a fresh store holding an equal snapshot |
| AttackTransition.MakeTransitionResult | src/traffic_master_ai/attack/a0_poc/transition.py:32-41 | a result is built iff a reason is present exactly when the next state is SX; it is terminal iff the next state is SX |
| AttackTransition.MakeExecutionResult | src/traffic_master_ai/attack/a0_poc/transition.py:122-127 | a result is built iff the state is SX and the reason is one of the four literals; an enum member is never one of them |
| AttackTransition.MemberReasonRefused | src/traffic_master_ai/attack/a0_poc/transition.py:122-127 | every `TerminalReason` member is refused, although its value is an accepted literal |
| AttackTransition.MakeExecutionResultByValue | src/traffic_master_ai/attack/a0_poc/transition.py:122-127 | passing the reason's value, a member is checked and judged like its literal |
| AttackTransition.ByValueAcceptsEveryReason | src/traffic_master_ai/attack/a0_poc/transition.py:122-131 | by value, every terminal reason is accepted for SX and DONE is a success |
| AttackTransition.SuccessOnlyWhenDone | src/traffic_master_ai/attack/a0_poc/transition.py:129-131 | `is_success` holds for "done" and nothing else |
| AttackTransition.IntMap | src/traffic_master_ai/attack/a0_poc/transition.py:76-94 | a string-to-int map renders with the same keys and integer values |
| AttackTransition.ToDict | src/traffic_master_ai/attack/a0_poc/transition.py:76-94 | a record whose stage is a state, absent or falsy gives the ten fields; states and the event type render as their value strings, a state stage as its value and any other stage as None, budgets and counters as integer maps |
| AttackRegistry.ParseEventType | src/traffic_master_ai/attack/a0_poc/event_registry.py:17-96 | the event type with the given value, or none |
| AttackRegistry.ParseEventTypeValue | src/traffic_master_ai/attack/a0_poc/event_registry.py:17-96 | each member's value parses back to the member |
| AttackRegistry.ValuesDistinct | src/traffic_master_ai/attack/a0_poc/event_registry.py:17-96 | two members with the same value are the same member |
| AttackRegistry.Value | src/traffic_master_ai/attack/a0_poc/event_registry.py:17-96 | every event type's value has at least 7 characters |
| AttackRegistry.FindByValue | src/traffic_master_ai/attack/a0_poc/event_registry.py:17-96 | a candidate with the given value if there is one; none iff no candidate has it |
| AttackRegistry.GetValidStates | src/traffic_master_ai/attack/a0_poc/event_registry.py:190-197 | the registered state set, or empty for an unregistered type; validity in a state is membership in it |
| AttackRegistry.RegistryIsTotal | src/traffic_master_ai/attack/a0_poc/event_registry.py:126-187 | every event type has a registry entry |
| AttackRegistry.FlowStartOnlyInS0 | src/traffic_master_ai/attack/a0_poc/event_registry.py:130 | FLOW_START is valid only in S0 |
| AttackRegistry.IsValidInState | src/traffic_master_ai/attack/a0_poc/event_registry.py:195-197 | the registry has an entry for the event type, so validity is membership in that entry and the empty default is never used |
| AttackRegistry.NothingValidInTerminal | src/traffic_master_ai/attack/a0_poc/event_registry.py:115-187 | no event type is valid in SX |
| AttackRegistry.ChallengeAndSectionEvents | src/traffic_master_ai/attack/a0_poc/event_registry.py:150-160 | the four challenge events are valid only in S3 and the three section events only in S4 |
| AttackRegistry.DefenseEventsInterruptible | src/traffic_master_ai/attack/a0_poc/event_registry.py:183-186 | the four DEF_ events are valid exactly in S1, S2, S4, S5, S6 |
| AttackValidator.Success | src/traffic_master_ai/attack/a0_poc/validator.py:56-60 | a success result is valid with no errors |
| AttackValidator.Failure | src/traffic_master_ai/attack/a0_poc/validator.py:61-65 | a failure result carries the errors and is valid iff there are none |
| AttackValidator.TypeErrorsAsWritten | src/traffic_master_ai/attack/a0_poc/validator.py:126-129 | the type check as written: an enum member is judged correctly, a non-empty plain string is reported as missing and an empty one as unknown |
| AttackValidator.RawTypeRefusedAsWritten | src/traffic_master_ai/attack/a0_poc/validator.py:126-129 | the registered type "FLOW_START" given as a plain string is refused as written and accepted by the corrected check |
| AttackValidator.TypeErrors | src/traffic_master_ai/attack/a0_poc/validator.py:96-102 | a type is reported missing iff its text is empty, accepted iff its text is an event-type value, with at most one message, whether member or string |
| AttackValidator.NoEmptyValue | src/traffic_master_ai/attack/a0_poc/event_registry.py:17-96 | no event type has the empty value |
| AttackValidator.SourceErrors | src/traffic_master_ai/attack/a0_poc/validator.py:131-134 | a source is refused iff it is present, not None, and not one of ui, api, timer, defense, mock |
| AttackValidator.StageErrors | src/traffic_master_ai/attack/a0_poc/validator.py:136-138 | a stage is refused iff it is present and not a `State` |
| AttackValidator.ValidateSchema | src/traffic_master_ai/attack/a0_poc/validator.py:108-142 | the errors are the type, source and stage errors in that order, and the result is valid iff there are none (corrected type check; see Findings) |
| AttackValidator.ValidateStateValidity | src/traffic_master_ai/attack/a0_poc/validator.py:144-180 | valid iff the type is known and registered for the current state |
| AttackValidator.Filter | src/traffic_master_ai/attack/a0_poc/validator.py:172-174 | the allowed states listed in the message are exactly the listed states that the registry allows |
| AttackValidator.Validate | src/traffic_master_ai/attack/a0_poc/validator.py:182-229 | schema errors if there are any, otherwise state errors; lenient validation always returns, strict raises iff there are errors (corrected type check; see Findings) |
| AttackValidator.ValidateAccepts | src/traffic_master_ai/attack/a0_poc/validator.py:182-229 | an event passes iff its type is registered for the state and its source and stage are acceptable (corrected type check; see Findings) |
| AttackValidator.StrictRaisesSameErrors | src/traffic_master_ai/attack/a0_poc/validator.py:216-229 | strict and lenient validation report the same errors |
| AttackFailure.Resolve | src/traffic_master_ai/attack/a0_poc/failure.py:201-210 | a "Self" recovery path becomes the queried state; any other is kept |
| AttackFailure.LookupAfterUpdate | src/traffic_master_ai/attack/a0_poc/failure.py:194-195 | adding a rule changes the lookup of its own pair only |
| AttackFailure.Ordinal | src/traffic_master_ai/attack/a0_poc/states.py:6-27 | a non-terminal state's ordinal is its position in S0..S6 |
| AttackFailure.OrderPositions | src/traffic_master_ai/attack/a0_poc/failure.py:145-169 | position i of S0..S6 holds a non-terminal state whose ordinal is i |
| AttackFailure.FailureMatrix.constructor | src/traffic_master_ai/attack/a0_poc/failure.py:72-192 | for every state and event type the matrix's lookup equals the rule table |
| AttackFailure.FailureMatrix.GetPolicy | src/traffic_master_ai/attack/a0_poc/failure.py:197-210 | the rule for the pair with "Self" resolved, or none when the pair has no rule |
| AttackFailure.TimeoutAndSessionEverywhere | src/traffic_master_ai/attack/a0_poc/failure.py:145-169 | TIMEOUT and SESSION_EXPIRED have a policy in every non-terminal state and none in SX |
| AttackFailure.PolicyFor | src/traffic_master_ai/attack/a0_poc/failure.py:197-210 | a policy exists only outside SX and always has a concrete recovery state; only a payment timeout in S6 recovers straight to SX |
| AttackFailure.SessionExpiredRecoversToS0 | src/traffic_master_ai/attack/a0_poc/failure.py:159-169 | SESSION_EXPIRED always recovers to S0 with F_SESSION_EXPIRED |
| AttackFailure.RulesAreSparse | src/traffic_master_ai/attack/a0_poc/failure.py:77-199 | only the listed pairs have a policy, and SX has none |
| AttackFailure.PaymentTimeoutEndsRun | src/traffic_master_ai/attack/a0_poc/failure.py:171-180 | S6 with PAYMENT_TIMEOUT recovers to SX with no budget key |
| AttackFailure.SeatTakenRule | src/traffic_master_ai/attack/a0_poc/failure.py:81-91 | S5 with SEAT_TAKEN gives F_SEAT_TAKEN, recovery S5, budget N_seat and a stop condition naming S4 |
| AttackRoi.InitialRoi | src/traffic_master_ai/attack/a0_poc/roi.py:49-71 | every total and every one of the six detailed counters starts at 0 |
| AttackRoi.CounterKey | src/traffic_master_ai/attack/a0_poc/roi.py:108-120 | a failure code names one of the six detailed counters other than rollbackCount, or none |
| AttackRoi.CountCode | src/traffic_master_ai/attack/a0_poc/roi.py:110-121 | bumping the code's own counter keeps exactly the six detailed counters as keys |
| AttackRoi.CountFailure | src/traffic_master_ai/attack/a0_poc/roi.py:108-125 | keeps exactly the six detailed counters as keys |
| AttackRoi.LogFailureStep | src/traffic_master_ai/attack/a0_poc/roi.py:73-106 | keeps exactly the six detailed counters as keys |
| AttackRoi.LogFailureTotals | src/traffic_master_ai/attack/a0_poc/roi.py:86-90 | each logged failure adds one attempt and replaces, not adds to, the total time |
| AttackRoi.OnlyOwnCounterMoves | src/traffic_master_ai/attack/a0_poc/roi.py:108-120 | a failure bumps only its own counter (and the rollback counter); only a challenge failure moves the challenge count |
| AttackRoi.TimeoutsShareCounter | src/traffic_master_ai/attack/a0_poc/roi.py:119-120 | network and throttling time-outs bump the same counter |
| AttackRoi.RollbackCounted | src/traffic_master_ai/attack/a0_poc/roi.py:123-125 | the rollback counters rise by one exactly when the recovery names "rollback" in any case, or S4 after a seat or hold failure |
| AttackRoi.StateRecoveryRollback | src/traffic_master_ai/attack/a0_poc/roi.py:123-125 | with a state value as recovery, a rollback is counted exactly for S4 after a seat or hold failure |
| AttackRoi.ROILogger.constructor | src/traffic_master_ai/attack/a0_poc/roi.py:49-71 | the logger starts with every count at 0 |
| AttackRoi.ROILogger.LogFailure | src/traffic_master_ai/attack/a0_poc/roi.py:73-106 | the counters move as `LogFailureStep` says |
| AttackRoi.ROILogger.UpdateCounters | src/traffic_master_ai/attack/a0_poc/roi.py:108-125 | the counters move as `CountFailure` says |
| AttackRoi.ROILogger.GetRoiSummary | src/traffic_master_ai/attack/a0_poc/roi.py:143-151 | the four totals and a copy of the detailed counters |
| AttackOrchestrator.PolicyOutcomeFor | src/traffic_master_ai/attack/a0_poc/orchestrator.py:153-169 | a unit of budget is spent iff the policy names a budget key and that budget is still positive (corrected stop branch; see Findings) |
| AttackOrchestrator.PolicyOutcomeAsWritten | src/traffic_master_ai/attack/a0_poc/orchestrator.py:153-169 | as written, an exhausted budget whose stop condition names S4 or SX raises AttributeError, because `State.S4` and `State.SX` do not exist; in every other case the outcome is the corrected one |
| AttackOrchestrator.BudgetedRulesStopAtS4OrSX | src/traffic_master_ai/attack/a0_poc/failure.py:80-192 | every rule of the failure matrix that has a budget key has a stop condition naming S4 or SX |
| AttackOrchestrator.ExhaustedRuleRaisesAsWritten | src/traffic_master_ai/attack/a0_poc/orchestrator.py:162-169 | for every matrix rule with a budget key, an exhausted budget raises as written; the corrected outcome moves to S4, or to SX with ABORT |
| AttackOrchestrator.ApplyPolicy | src/traffic_master_ai/attack/a0_poc/orchestrator.py:140-188 | only the snapshot's budgets change, and the ROI counters stay well-formed and present iff they were (corrected stop branch; see Findings) |
| AttackOrchestrator.SpendsOneUnit | src/traffic_master_ai/attack/a0_poc/orchestrator.py:154-161 | with budget left, the budget drops by exactly one and the run moves to a State recovery |
| AttackOrchestrator.StopConditionRule | src/traffic_master_ai/attack/a0_poc/orchestrator.py:162-169 | with no budget left the stop condition decides, and no budget changes (corrected stop branch; see Findings) |
| AttackOrchestrator.NoBudgetKeyKeepsDecision | src/traffic_master_ai/attack/a0_poc/orchestrator.py:153-154 | without a budget key the store is untouched and the transition's decision stands |
| AttackOrchestrator.PolicyResultMarks | src/traffic_master_ai/attack/a0_poc/orchestrator.py:183-188 | a built result carries the policy's failure code and exactly one more note |
| AttackOrchestrator.TerminalRecoveryRaises | src/traffic_master_ai/attack/a0_poc/orchestrator.py:157-161 | a terminal decision meeting a non-terminal recovery keeps its reason, so building the result raises |
| AttackOrchestrator.LookupPolicy | src/traffic_master_ai/attack/a0_poc/orchestrator.py:78-86 | without a matrix there is no policy; with one, the lookup raises iff the event type is a raw string |
| AttackOrchestrator.ProcessEvent | src/traffic_master_ai/attack/a0_poc/orchestrator.py:62-105 | one loop iteration keeps the path non-empty and the ROI counters well-formed and present iff they were |
| AttackOrchestrator.RunLoop | src/traffic_master_ai/attack/a0_poc/orchestrator.py:61-109 | the path stays non-empty and the ROI counters well-formed and present iff they were |
| AttackOrchestrator.AdvanceKeepsPath | src/traffic_master_ai/attack/a0_poc/orchestrator.py:92-105 | moving keeps the path starting at the initial state, ending at the current one, with no equal neighbours, and counts one more event |
| AttackOrchestrator.ProcessEventKeepsPath | src/traffic_master_ai/attack/a0_poc/orchestrator.py:62-105 | one iteration keeps the path's shape and counts at most one event |
| AttackOrchestrator.RunLoopKeepsPath | src/traffic_master_ai/attack/a0_poc/orchestrator.py:57-109 | along the loop the path keeps its shape and the count never exceeds the events given |
| AttackOrchestrator.RunLoopTakesAllUnlessTerminal | src/traffic_master_ai/attack/a0_poc/orchestrator.py:61-109 | without an error, a run that has not reached SX has taken every event |
| AttackOrchestrator.LaterEventsIgnored | src/traffic_master_ai/attack/a0_poc/orchestrator.py:107-109 | once SX is reached, later events are never looked at |
| AttackOrchestrator.LastNonSecurityRule | src/traffic_master_ai/attack/a0_poc/orchestrator.py:98-99 | the remembered state is set only on entering S3 from S1, S2, S4, S5 or S6, and then to that state |
| AttackOrchestrator.Finish | src/traffic_master_ai/attack/a0_poc/orchestrator.py:111-137 | a loop error is raised; a run short of SX raises; otherwise the result has the path, the state, the reason (the last result's or DONE) and the count (corrected reason check; see Findings) |
| AttackOrchestrator.FinishAsWritten | src/traffic_master_ai/attack/a0_poc/orchestrator.py:111-137 | as written, finishing succeeds only with no loop error, in SX, after a last result whose reason is a literal string from the reason set; a member reason raises |
| AttackOrchestrator.StartInTerminalRaisesAsWritten | src/traffic_master_ai/attack/a0_poc/orchestrator.py:122-127 | as written, a run that starts in SX raises, because the member DONE is refused |
| AttackOrchestrator.InitialRun | src/traffic_master_ai/attack/a0_poc/orchestrator.py:57-59 | the loop starts with a well-formed path from the initial state and no events counted |
| AttackOrchestrator.RunSpecShape | src/traffic_master_ai/attack/a0_poc/orchestrator.py:57-137 | a successful run's path starts at the initial state, has no equal neighbours and ends in SX, counting at most one event per event; an error-free run short of SX raises (corrected reason check; see Findings) |
| AttackOrchestrator.StartInTerminal | src/traffic_master_ai/attack/a0_poc/orchestrator.py:122-127 | a run starting in SX handles nothing and ends with DONE (corrected reason check; see Findings) |
| AttackOrchestrator.ApplyFailurePolicy | src/traffic_master_ai/attack/a0_poc/orchestrator.py:140-188 | the store, ROI counters and result are those of `ApplyPolicy` (corrected stop branch; see Findings) |
| AttackOrchestrator.HandleEvent | src/traffic_master_ai/attack/a0_poc/orchestrator.py:62-105 | the store, logger and outcome are those of `ProcessEvent` |
| AttackOrchestrator.FindPolicy | src/traffic_master_ai/attack/a0_poc/orchestrator.py:78-86 | the policy found is the one `LookupPolicy` gives: none without a matrix, an error for a raw-string event type |
| AttackOrchestrator.Commit | src/traffic_master_ai/attack/a0_poc/orchestrator.py:92-105 | the store moves to the decided state and remembers the state left for S3; the path, count and last result follow `Advance` |
| AttackOrchestrator.EventLoop | src/traffic_master_ai/attack/a0_poc/orchestrator.py:61-109 | the store, the logger, the path, the count, the last result and the error end as `RunLoop` says |
| AttackOrchestrator.RunEvents | src/traffic_master_ai/attack/a0_poc/orchestrator.py:25-137 | the store and logger end as `RunLoop` says and the result is `Finish`'s (corrected reason check; see Findings) |
| AttackScenarios.ValidateStage | src/traffic_master_ai/attack/a0_poc/scenario_models.py:35-42 | a stage is kept iff it is absent, "unknown" or a state's value |
| AttackScenarios.MakeScenario | src/traffic_master_ai/attack/a0_poc/scenario_models.py:85-94 | a scenario is built iff its id matches ^SCN-[0-9]{2}$, its name has at least 3 characters, its profile is non-empty, it has events that are each valid, and its acceptance has an assertion |
| AttackScenarios.IdExamples | src/traffic_master_ai/attack/a0_poc/scenario_models.py:89 | "SCN-01" is a valid id; "SCN-1", "SCN-001" and "scn-01" are not |
| AttackScenarios.IdPattern | src/traffic_master_ai/attack/a0_poc/scenario_models.py:89 | the id pattern accepts exactly the ids SCN-00 to SCN-99 |
| AttackScenarios.EventsCheckedOneByOne | src/traffic_master_ai/attack/a0_poc/scenario_models.py:94 | appending a valid event to a valid scenario keeps it buildable, and one invalid event anywhere makes building fail |
| AttackScenarios.StageValues | src/traffic_master_ai/attack/a0_poc/scenario_models.py:35-42 | every valid stage is None, "unknown", or exactly one state's value |
| AttackAssertions.Pass | src/traffic_master_ai/attack/a0_poc/assertion_engine.py:14-106 | a PASSED verdict that passes |
| AttackAssertions.Fail | src/traffic_master_ai/attack/a0_poc/assertion_engine.py:14-106 | a verdict with the given status that does not pass |
| AttackAssertions.Judge | src/traffic_master_ai/attack/a0_poc/assertion_engine.py:14-106 | a verdict passes iff its condition holds |
| AttackAssertions.PathValues | src/traffic_master_ai/attack/a0_poc/assertion_engine.py:26-37 | the path's state values, one per state, in order |
| AttackAssertions.LookupCount | src/traffic_master_ai/attack/a0_poc/assertion_engine.py:40-68 | a list or dict key raises; a string key reads the entry or 0 |
| AttackAssertions.ToInt | src/traffic_master_ai/attack/a0_poc/assertion_engine.py:40-74 | integers and booleans convert to their value; a string converts iff `int()` accepts it (blank padding, an optional sign, digits with single underscores), to that value; None, lists and dicts raise |
| PyValues.StripPadding | src/traffic_master_ai/attack/a0_poc/assertion_engine.py:72 | stripping ignores surrounding whitespace: padding on either side does not change the stripped text |
| PyValues.ParseIntOfPrinted | src/traffic_master_ai/attack/a0_poc/assertion_engine.py:72 | `int()` reads every printed integer back, with any whitespace padding around it |
| PyValues.ParseIntPlus | src/traffic_master_ai/attack/a0_poc/assertion_engine.py:72 | a leading plus sign is accepted: "+n" reads as n |
| PyValues.ParseIntBlank | src/traffic_master_ai/attack/a0_poc/assertion_engine.py:72 | an empty or all-whitespace string is refused |
| PyValues.ParseIntGroups | src/traffic_master_ai/attack/a0_poc/assertion_engine.py:72 | a single underscore between two digit groups is accepted and ignored |
| AttackAssertions.CheckPair | src/traffic_master_ai/attack/a0_poc/assertion_engine.py:40-68 | anything but a two-element list is an ERROR verdict |
| AttackAssertions.FirstS3 | src/traffic_master_ai/attack/a0_poc/assertion_engine.py:77-94 | the first index at or after the start holding S3 with a successor, if any |
| AttackAssertions.ValueOnPath | src/traffic_master_ai/attack/a0_poc/assertion_engine.py:90-91 | a state's value is among the path's values iff the state is on the path |
| AttackAssertions.ReturnedVerdictAt | src/traffic_master_ai/attack/a0_poc/assertion_engine.py:77-94 | at the first S3 with a successor, the check passes iff the successor is not SX and was visited before |
| AttackAssertions.ReturnedVerdictMeaning | src/traffic_master_ai/attack/a0_poc/assertion_engine.py:77-94 | passes when S3 occurs only last or not at all; otherwise, at the first S3, passes iff its successor is not SX and was visited earlier |
| AttackAssertions.CheckAssertion | src/traffic_master_ai/attack/a0_poc/assertion_engine.py:14-106 | log_lines_at_least and no_invalid_events always pass, and terminal_reason falls to the unknown-kind ERROR |
| AttackAssertions.PathAssertions | src/traffic_master_ai/attack/a0_poc/assertion_engine.py:26-37 | state_path_contains passes iff the value is among the path's values and fails for a non-string; state_path_equals passes iff the lists are equal |
| AttackAssertions.CountAssertions | src/traffic_master_ai/attack/a0_poc/assertion_engine.py:40-68 | counter and budget assertions need a two-element list, else ERROR; a missing entry counts as 0 |
| AttackAssertions.HandledCountAssertion | src/traffic_master_ai/attack/a0_poc/assertion_engine.py:71-74 | event_handled_count_at_least passes iff handled_events >= the value |
| AttackAssertions.HandledCountText | src/traffic_master_ai/attack/a0_poc/assertion_engine.py:71-74 | a blank-padded printed number as the value gives the same verdict as the number itself |
| AttackAssertions.TerminalReasonAssertionUnhandled | src/traffic_master_ai/attack/a0_poc/assertion_engine.py:97-106 | a terminal_reason assertion is reported as an unknown kind, even when the reason matches |
| AttackAssertions.CheckAssertionCorrected | src/traffic_master_ai/attack/a0_poc/scenario_models.py:45-57 | a terminal_reason assertion passes iff the run's reason has the given value; other kinds are unchanged |
| AttackAssertions.CorrectedReasonCheck | src/traffic_master_ai/attack/a0_poc/scenario_models.py:45-57 | with the correction, a run ending in ABORT passes "abort" and fails "done" |
| AttackPolicyLoader.PolicyProfile.GetBudget | src/traffic_master_ai/attack/a0_poc/policy_loader.py:69-71 | the stored budget or the default |
| AttackPolicyLoader.PolicyProfile.GetTimebox | src/traffic_master_ai/attack/a0_poc/policy_loader.py:73-75 | the stored time limit or the default |
| AttackPolicyLoader.PolicyProfile.GetPolicy | src/traffic_master_ai/attack/a0_poc/policy_loader.py:77-79 | the stored policy or the default |
| AttackPolicyLoader.ToRulesDict | src/traffic_master_ai/attack/a0_poc/policy_loader.py:81-87 | the union of budgets, time limits and policies, a later group winning on a shared key |
| AttackPolicyLoader.EmptyProfile | src/traffic_master_ai/attack/a0_poc/policy_loader.py:44-67 | a profile with the name and empty maps |
| AttackPolicyLoader.ParseEntry | src/traffic_master_ai/attack/a0_poc/policy_loader.py:229-257 | reading an entry fails iff its key is a budget or time-limit key and its value is not an integer |
| AttackPolicyLoader.LastValue | src/traffic_master_ai/attack/a0_poc/policy_loader.py:229-257 | a key has no last value iff it never occurs among the entries |
| AttackPolicyLoader.ParseErrorPersists | src/traffic_master_ai/attack/a0_poc/policy_loader.py:229-257 | once reading fails, reading more entries gives the same error |
| AttackPolicyLoader.ParseOkIff | src/traffic_master_ai/attack/a0_poc/policy_loader.py:235-247 | reading succeeds iff every budget and time-limit entry holds an integer, and the profile keeps its name |
| AttackPolicyLoader.ParsePartition | src/traffic_master_ai/attack/a0_poc/policy_loader.py:229-257 | budget keys go to budgets, time-limit keys to time limits, all other keys to policies as text, each with its last value; nothing else appears |
| AttackPolicyLoader.ParseProfileSpec | src/traffic_master_ai/attack/a0_poc/policy_loader.py:213-228 | anything but an object is refused naming the profile, and every error is a schema error naming the profile |
| AttackPolicyLoader.ParseErrorNamesProfile | src/traffic_master_ai/attack/a0_poc/policy_loader.py:213-257 | every reading error carries the profile's name |
| AttackPolicyLoader.ParseProfile | src/traffic_master_ai/attack/a0_poc/policy_loader.py:213-257 | a loop over the entries whose result is `ParseProfileSpec`'s |
| AttackPolicyLoader.LoadFromDictSpec | src/traffic_master_ai/attack/a0_poc/policy_loader.py:191-211 | on success the returned profiles are the stored ones and include "default" |
| AttackPolicyLoader.LoadErrorPersists | src/traffic_master_ai/attack/a0_poc/policy_loader.py:191-211 | a reading error stops the load, whatever follows |
| AttackPolicyLoader.LoadStoresDocument | src/traffic_master_ai/attack/a0_poc/policy_loader.py:202-211 | when every profile reads cleanly, the stored names are exactly the document's, each holding the profile read from its last occurrence |
| AttackPolicyLoader.MissingDefaultNotRolledBack | src/traffic_master_ai/attack/a0_poc/policy_loader.py:202-211 | a document without "default" is refused, yet its profiles stay stored |
| AttackPolicyLoader.LoadOkIff | src/traffic_master_ai/attack/a0_poc/policy_loader.py:191-211 | loading succeeds iff every profile reads cleanly and one is named "default" |
| AttackPolicyLoader.LoadFailsAt | src/traffic_master_ai/attack/a0_poc/policy_loader.py:191-211 | a document with a profile that does not read fails to load |
| AttackPolicyLoader.PolicyProfileLoader.constructor | src/traffic_master_ai/attack/a0_poc/policy_loader.py:135-138 | the loader starts with no profiles |
| AttackPolicyLoader.PolicyProfileLoader.IsLoaded | src/traffic_master_ai/attack/a0_poc/policy_loader.py:140-142 | loaded iff at least one profile is held |
| AttackPolicyLoader.PolicyProfileLoader.LoadFromDict | src/traffic_master_ai/attack/a0_poc/policy_loader.py:191-211 | the stored profiles and the outcome are those of `LoadFromDictSpec` |
| AttackPolicyLoader.PolicyProfileLoader.GetProfile | src/traffic_master_ai/attack/a0_poc/policy_loader.py:259-273 | the named profile, or ProfileNotFound carrying the name |
| AttackPolicyLoader.PolicyProfileLoader.GetDefaultProfile | src/traffic_master_ai/attack/a0_poc/policy_loader.py:275-277 | the profile named "default", or ProfileNotFound |
| AttackPolicyLoader.PolicyProfileLoader.HasProfile | src/traffic_master_ai/attack/a0_poc/policy_loader.py:283-285 | true iff the name is held |
| AttackRuntime.KeyMapShape | src/traffic_master_ai/attack/a0_poc/runtime.py:37-44 | both sides of the budget-name mapping are free of repeats, and every profile name is a known budget key |
| AttackRuntime.GetInitialBudgets | src/traffic_master_ai/attack/a0_poc/runtime.py:53-71 | exactly the six run-time names, each holding the profile's budget under its mapped key, or 0 |
| AttackRuntime.GetBudgetNames | src/traffic_master_ai/attack/a0_poc/runtime.py:73-75 | the mapping's run-time names, in order |
| AttackRuntime.BudgetNamesAreRuntimeNames | src/traffic_master_ai/attack/a0_poc/runtime.py:53-75 | the names listed are exactly the keys of the initial budgets, each once |
| AttackRuntime.StageKey | src/traffic_master_ai/attack/a0_poc/runtime.py:107-120 | S0..S6 read "S<k>_timeout_ms"; SX reads none |
| AttackRuntime.GetStageTimebox | src/traffic_master_ai/attack/a0_poc/runtime.py:107-120 | the profile's limit for the stage, 0 when unset and for SX |
| AttackRuntime.StageKeysDistinct | src/traffic_master_ai/attack/a0_poc/runtime.py:107-120 | distinct stages read distinct keys |
| AttackRuntime.GetGlobalTimebox | src/traffic_master_ai/attack/a0_poc/runtime.py:122-124 | global_timeout_ms, or 0 |
| AttackRuntime.GetAllTimeboxes | src/traffic_master_ai/attack/a0_poc/runtime.py:126-128 | a copy of every limit the profile holds |
| AttackRuntime.ParsedStageTimebox | src/traffic_master_ai/attack/a0_poc/runtime.py:107-120 | a profile read from a document has a stage's limit iff the document gives that stage's key an integer |
| AttackLogger.MakeLog | src/traffic_master_ai/attack/a0_poc/logger.py:55-91 | the record copies the snapshot's state, budgets and counters and the result's decision and notes |
| AttackLogger.Split | src/traffic_master_ai/attack/a0_poc/logger.py:105-113 | splitting at newlines gives at least one line |
| AttackLogger.SplitLine | src/traffic_master_ai/attack/a0_poc/logger.py:105-113 | a line free of newlines, followed by a newline and more text, splits as that line then the rest's split |
| AttackLogger.SplitJoin | src/traffic_master_ai/attack/a0_poc/logger.py:105-113 | lines free of newlines come back unchanged when their join is split |
| AttackLogger.RenderAll | src/traffic_master_ai/attack/a0_poc/logger.py:105-113 | succeeds iff every record can be rendered, and then gives one rendered line per record in order |
| AttackLogger.DecisionLogger.constructor | src/traffic_master_ai/attack/a0_poc/logger.py:29-44 | the logger starts with no records |
| AttackLogger.DecisionLogger.Record | src/traffic_master_ai/attack/a0_poc/logger.py:55-91 | appends exactly the built record and returns it, so the count grows by one |
| AttackLogger.DecisionLogger.GetLogs | src/traffic_master_ai/attack/a0_poc/logger.py:93-95 | the records in recording order |
| AttackLogger.DecisionLogger.Clear | src/traffic_master_ai/attack/a0_poc/logger.py:97-99 | no records remain |
| AttackLogger.DecisionLogger.Count | src/traffic_master_ai/attack/a0_poc/logger.py:101-103 | the number of records |
| AttackLogger.DecisionLogger.ToJsonl | src/traffic_master_ai/attack/a0_poc/logger.py:105-113 | one rendered record per line in recording order, "" when there are none; splitting the text gives the records back |
| DefenseCore.Rank | src/traffic_master_ai/defense/d0_poc/brain/risk_engine.py:21-26 | a tier's rank is between 0 and 3 |
| DefenseCore.RankInjective | src/traffic_master_ai/defense/d0_poc/brain/risk_engine.py:21-26 | tiers with the same rank are the same tier |
| DefenseCore.FreshContext | src/traffic_master_ai/defense/d0_poc/core/models.py:18-27 | a new context has no remembered state, zero counts and is not sandboxed |
| DefenseCore.ApplyMutations | src/traffic_master_ai/defense/d0_poc/scenarios/runner.py:255-266 | each reported field takes its new value; every other field is unchanged |
| DefenseCore.Context.constructor | src/traffic_master_ai/defense/d0_poc/core/models.py:18-27 | a context starts as the fresh context |
| DefenseCore.Context.Apply | src/traffic_master_ai/defense/d0_poc/scenarios/runner.py:255-266 | the context in place becomes `ApplyMutations` of its old value |
| DefenseEngine.ProgressMatchesFlowOrder | src/traffic_master_ai/defense/d0_poc/orchestrator/engine.py:113-129 | progression moves one place along S0..S6, SX on that place's event, and only the last move is terminal (DONE) |
| DefenseEngine.Transition | src/traffic_master_ai/defense/d0_poc/orchestrator/engine.py:35-145 | a reason comes only with SX or with S0 and RESET; a failure code only with SX and BLOCKED; a return target only for S6 to S5, returning to S6; the retry count is never changed |
| DefenseEngine.ApplyRules | src/traffic_master_ai/defense/d0_poc/orchestrator/engine.py:64-129 | a failure code comes only with SX and BLOCKED; a return state iff S6 meets TXN_ROLLBACK; actions only from the interrupt rules or the S5 streak rule; any other state change is the normal progression |
| DefenseEngine.TokenMismatchBlocks | src/traffic_master_ai/defense/d0_poc/orchestrator/engine.py:64-70 | a token mismatch in any state gives SX, BLOCKED, F_POLICY_VIOLATION and one DEF_BLOCKED action with reason token_mismatch, leaving the challenge count alone |
| DefenseEngine.ChallengeFailureThreshold | src/traffic_master_ai/defense/d0_poc/orchestrator/engine.py:71-84 | a failed challenge always counts; at the threshold it gives SX/BLOCKED/F_CHALLENGE_FAILED with DEF_BLOCKED, below it the state stays |
| DefenseEngine.S5StreakRule | src/traffic_master_ai/defense/d0_poc/orchestrator/engine.py:85-90 | in S5 a taken seat or failed hold adds one to its own counter, stays in S5 and throttles from the threshold on |
| DefenseEngine.InterruptRules | src/traffic_master_ai/defense/d0_poc/orchestrator/engine.py:91-112 | DEF_BLOCKED gives SX/BLOCKED/F_BLOCKED; FLOW_ABORT and PAYMENT_ABORTED give SX/ABORT; TXN_ROLLBACK in S6 gives S5 returning to S6 |
| DefenseEngine.ResetRule | src/traffic_master_ai/defense/d0_poc/orchestrator/engine.py:98-106 | a reset gives S0 with RESET and every field of a fresh context except the retry count |
| DefenseEngine.ResetOnlyNonTerminalStateReason | src/traffic_master_ai/defense/d0_poc/orchestrator/engine.py:98-106 | RESET is the only reason whose state is not SX, and only FLOW_RESET gives it |
| DefenseEngine.ProgressionOnly | src/traffic_master_ai/defense/d0_poc/orchestrator/engine.py:113-129 | outside the guardrail and interrupt rules there are no actions or failure codes; a flow step moves the state and every other pair leaves it unchanged |
| DefenseEngine.LeavingS5ClearsStreaks | src/traffic_master_ai/defense/d0_poc/orchestrator/engine.py:132-136 | leaving S5 leaves both S5 streak counters at 0 |
| DefenseEngine.DefenseEventOutcome | src/traffic_master_ai/defense/d0_poc/orchestrator/engine.py:91-129 | fed back, DEF_BLOCKED ends the flow and the other DEF_ events change nothing |
| DefenseEvidence.LastN | src/traffic_master_ai/defense/d0_poc/brain/evidence.py:22-24 | the last n items, or all when fewer, as a suffix |
| DefenseEvidence.RingAppend | src/traffic_master_ai/defense/d0_poc/brain/evidence.py:22-24 | appending to a full ring drops its oldest item; the ring holds the last n items |
| DefenseEvidence.Copy | src/traffic_master_ai/defense/d0_poc/brain/evidence.py:45-54 | a copy of evidence whose ring is within bounds equals it, and the copy's ring never exceeds ten items |
| DefenseEvidence.ProcessEvent | src/traffic_master_ai/defense/d0_poc/brain/evidence.py:73-115 | the timestamp becomes the event's; challenge and seat counters move as the event says; the token flag only turns on; SIGNAL_ types enter the ring |
| DefenseEvidence.SignalTypes | src/traffic_master_ai/defense/d0_poc/brain/evidence.py:112-113 | every type listed starts with SIGNAL_ |
| DefenseEvidence.HistoryIsLastSignals | src/traffic_master_ai/defense/d0_poc/brain/evidence.py:22-24 | after any events the history holds exactly the last (at most ten) SIGNAL_ types in arrival order |
| DefenseEvidence.TokenMismatchSticky | src/traffic_master_ai/defense/d0_poc/brain/evidence.py:108-109 | the token flag is set exactly when a token mismatch has been seen |
| DefenseRisk.CountPattern | src/traffic_master_ai/defense/d0_poc/brain/risk_engine.py:112-124 | the count is at most the history's length |
| DefenseRisk.CountPatternIsMultiplicity | src/traffic_master_ai/defense/d0_poc/brain/risk_engine.py:112-124 | the count is the pattern's multiplicity in the history |
| DefenseRisk.EscalationMonotone | src/traffic_master_ai/defense/d0_poc/brain/risk_engine.py:85-110 | more evidence never lowers the escalation target |
| DefenseRisk.EscalationRules | src/traffic_master_ai/defense/d0_poc/brain/risk_engine.py:85-110 | T3 on a token mismatch or >= 3 challenge failures; else T2 at >= 3 patterns, T1 at >= 1, else T0 |
| DefenseRisk.EscalationTarget | src/traffic_master_ai/defense/d0_poc/brain/risk_engine.py:85-110 | T3 iff a token mismatch or >= 3 challenge failures; T0 iff none of those and no repetitive pattern |
| DefenseRisk.DecideTier | src/traffic_master_ai/defense/d0_poc/brain/risk_engine.py:41-83 | an announcement is made iff the tier changed, with from/to and the trigger's time and session |
| DefenseRisk.NoDropWithoutDecay | src/traffic_master_ai/defense/d0_poc/brain/risk_engine.py:66-68 | without decay the new tier is the stricter of the current tier and the target, so it never drops |
| DefenseRisk.DecayToT1 | src/traffic_master_ai/defense/d0_poc/brain/risk_engine.py:71-72 | at T2 or above, in S3, on a passed challenge, the tier becomes T1, even from T3 |
| DefenseRisk.ShouldDecay | src/traffic_master_ai/defense/d0_poc/brain/risk_engine.py:71-72 | decay applies iff the tier is T2 or T3, the flow is in S3 and the event is a passed challenge |
| DefenseRisk.DecideTierIdempotent | src/traffic_master_ai/defense/d0_poc/brain/risk_engine.py:63-83 | deciding again from the decided tier with the same evidence and no decay changes nothing |
| DefensePlanner.CountType | src/traffic_master_ai/defense/d0_poc/brain/planner.py:106-144 | the count is at most the plan's length, and zero iff no action has the type |
| DefensePlanner.TierMatrixMeaning | src/traffic_master_ai/defense/d0_poc/brain/planner.py:79-104 | T0 plans nothing, T1 a light throttle, T2 a strong throttle and a medium challenge, T3 a block |
| DefensePlanner.TierMatrix | src/traffic_master_ai/defense/d0_poc/brain/planner.py:79-104 | the plan is empty iff the tier is T0, holds at most two actions, and uses only THROTTLE, CHALLENGE and BLOCK |
| DefensePlanner.FirstThrottle | src/traffic_master_ai/defense/d0_poc/brain/planner.py:120-126 | the first THROTTLE at or after the start, if any |
| DefensePlanner.CountTypeUpdate | src/traffic_master_ai/defense/d0_poc/brain/planner.py:127-136 | replacing an action by one of the same type keeps every type count |
| DefensePlanner.StreakRuleCount | src/traffic_master_ai/defense/d0_poc/brain/planner.py:106-144 | the streak rule adds a throttle only when there was none, and changes no action's type |
| DefensePlanner.ApplyStreakRule | src/traffic_master_ai/defense/d0_poc/brain/planner.py:106-144 | only the first throttle may change, and only into a strong one; a strong throttle is appended iff there was no throttle |
| DefensePlanner.StreakRuleFirstNotLight | src/traffic_master_ai/defense/d0_poc/brain/planner.py:106-144 | after the rule the first throttle exists and is not light |
| DefensePlanner.FirstThrottleUnique | src/traffic_master_ai/defense/d0_poc/brain/planner.py:120-126 | a THROTTLE index with none before it is the first |
| DefensePlanner.PlanActions | src/traffic_master_ai/defense/d0_poc/brain/planner.py:44-77 | in S6 the plan is [BLOCK] iff T3, else []; elsewhere, below the streak threshold, it is the tier matrix's plan |
| DefensePlanner.StreakPlan | src/traffic_master_ai/defense/d0_poc/brain/planner.py:74-75 | with a long streak outside S6 the matrix's other actions stay in order and exactly one throttle remains, a strong one |
| DefensePlanner.AtMostOneThrottle | src/traffic_master_ai/defense/d0_poc/brain/planner.py:44-144 | a plan never holds more than one throttle |
| DefenseActuator.ThrottleDuration | src/traffic_master_ai/defense/d0_poc/actions/actuator.py:23-26 | 2000 ms for strong, 200 ms for light or any other strength |
| DefenseActuator.EmittedType | src/traffic_master_ai/defense/d0_poc/actions/actuator.py:65-96 | THROTTLE, BLOCK and CHALLENGE always emit, SANDBOX only when not sandboxed, anything else never |
| DefenseActuator.ExecuteSingle | src/traffic_master_ai/defense/d0_poc/actions/actuator.py:65-201 | the emitted event has the plan's DEF_ type, the trigger's time and session, source DEFENSE, and payload defaults light / "tier_t3" / "medium" |
| DefenseActuator.EmittedTypes | src/traffic_master_ai/defense/d0_poc/actions/actuator.py:56-63 | every emitted type is one of the four DEF_ types |
| DefenseActuator.ExecutePlans | src/traffic_master_ai/defense/d0_poc/actions/actuator.py:36-63 | never more events than plans, each with the trigger's time and session and source DEFENSE |
| DefenseActuator.ExecutedTypes | src/traffic_master_ai/defense/d0_poc/actions/actuator.py:36-96 | the events' types are exactly the plans' emitted types, in plan order |
| DefenseActuator.AllSupportedEmitted | src/traffic_master_ai/defense/d0_poc/actions/actuator.py:36-96 | plans of supported non-sandbox types give one event each |
| DefenseActuator.NoRepeatedSandbox | src/traffic_master_ai/defense/d0_poc/actions/actuator.py:190-201 | once sandboxed, no DEF_SANDBOXED event is produced |
| DefenseActuator.SandboxedTypes | src/traffic_master_ai/defense/d0_poc/actions/actuator.py:190-201 | once sandboxed, DEF_SANDBOXED is not among the emitted types |
| DefenseHarness.Reason | src/traffic_master_ai/defense/d0_poc/orchestrator/harness.py:68-73 | the terminal reason's value if any, else the failure code's, else none |
| DefenseHarness.ActionTypes | src/traffic_master_ai/defense/d0_poc/orchestrator/harness.py:74-84 | one action type per action, in order |
| DefenseHarness.EngineCodesCarryReasons | src/traffic_master_ai/defense/d0_poc/orchestrator/engine.py:35-145 | every engine step that sets a failure code also sets a terminal reason |
| DefenseHarness.RunFromStep | src/traffic_master_ai/defense/d0_poc/orchestrator/harness.py:54-93 | one step: the entry for the event, then the end of the run or the rest of it |
| DefenseHarness.RunFromNumbering | src/traffic_master_ai/defense/d0_poc/orchestrator/harness.py:54-84 | at most one entry per remaining event, at least one when any remains, numbered consecutively from 1 |
| DefenseHarness.RunFromChain | src/traffic_master_ai/defense/d0_poc/orchestrator/harness.py:64-98 | each entry starts where the previous ended; the final state is the last entry's target, or the start when nothing ran |
| DefenseHarness.StopsIffReasonOrSX | src/traffic_master_ai/defense/d0_poc/orchestrator/harness.py:89-93 | a step stops the run iff its entry has a terminal reason or reaches SX |
| DefenseHarness.RunFromStops | src/traffic_master_ai/defense/d0_poc/orchestrator/harness.py:89-93 | no entry but the last stops the run; a trace shorter than the events ends with one that does |
| DefenseHarness.EngineHarness.constructor | src/traffic_master_ai/defense/d0_poc/orchestrator/harness.py:18-24 | the harness holds the given policy, or the default |
| DefenseHarness.EngineHarness.Run | src/traffic_master_ai/defense/d0_poc/orchestrator/harness.py:26-98 | the final state and trace are those of the run from S0 with a fresh context; at most one entry per event, numbered from 1; no events give S0 and an empty trace |
| DefenseRunner.ComputeMismatches | src/traffic_master_ai/defense/d0_poc/scenarios/runner.py:268-311 | empty iff every given expectation matches; actions must match as sets, missing and unexpected reported separately |
| DefenseRunner.SecondaryPrefix | src/traffic_master_ai/defense/d0_poc/scenarios/runner.py:217-226 | feeding back one more event continues from where the earlier ones left the flow |
| DefenseRunner.PlanTypes | src/traffic_master_ai/defense/d0_poc/scenarios/runner.py:208 | one action type per plan, in order |
| DefenseRunner.EventTypes | src/traffic_master_ai/defense/d0_poc/scenarios/runner.py:215 | one event type per event, in order |
| DefenseRunner.StepSpecHeader | src/traffic_master_ai/defense/d0_poc/scenarios/runner.py:236-243 | a step's result names its number, its input event type and the state and tier it started from |
| DefenseRunner.StepperHeaders | src/traffic_master_ai/defense/d0_poc/scenarios/runner.py:236-243 | every result of the runner's step names its number, its input event type and the state and tier it started from |
| DefenseRunner.RunStepsSnoc | src/traffic_master_ai/defense/d0_poc/scenarios/runner.py:74-96 | after one more step the runner holds the earlier results with that step's appended, and that step's state |
| DefenseRunner.RunStepsLast | src/traffic_master_ai/defense/d0_poc/scenarios/runner.py:74-96 | one more step appends its result and moves the runner to where that result ends |
| DefenseRunner.RunStepsNumbering | src/traffic_master_ai/defense/d0_poc/scenarios/runner.py:74-83 | one result per step, numbered from 0, each naming its step's input event |
| DefenseRunner.RunStepsChain | src/traffic_master_ai/defense/d0_poc/scenarios/runner.py:66-96 | the first result starts at S0/T0; each later one starts where the previous ended; the runner ends where the last ended |
| DefenseRunner.SecondaryStaysInSX | src/traffic_master_ai/defense/d0_poc/scenarios/runner.py:217-226 | DEF_ events fed back never leave SX |
| DefenseRunner.SecondaryBlockEnds | src/traffic_master_ai/defense/d0_poc/scenarios/runner.py:217-226 | once DEF_BLOCKED is fed back, the flow ends in SX whatever follows |
| DefenseRunner.ActuatedTypes | src/traffic_master_ai/defense/d0_poc/scenarios/runner.py:210-215 | every actuated event is one of the four DEF_ types |
| DefenseRunner.BlockedPlanEndsInSX | src/traffic_master_ai/defense/d0_poc/scenarios/runner.py:206-226 | feeding back the events of a plan that holds a BLOCK ends in SX |
| DefenseRunner.BlockedStepEndsInSX | src/traffic_master_ai/defense/d0_poc/scenarios/runner.py:187-241 | a step whose plan holds a BLOCK ends in SX |
| DefenseRunner.EmittedBlock | src/traffic_master_ai/defense/d0_poc/actions/actuator.py:36-63 | a BLOCK plan contributes DEF_BLOCKED to the emitted types |
| DefenseRunner.StepReportsPrimaryOutcome | src/traffic_master_ai/defense/d0_poc/scenarios/runner.py:246-247 | a step reports the primary transition's terminal reason and failure code |
| DefenseRunner.ScenarioRunner.constructor | src/traffic_master_ai/defense/d0_poc/scenarios/runner.py:34-55 | the runner uses the default policy thresholds |
| DefenseRunner.ScenarioRunner.ApplySecondary | src/traffic_master_ai/defense/d0_poc/scenarios/runner.py:217-226 | the final flow state and the context in place are those of feeding the events back in order |
| DefenseRunner.ScenarioRunner.ExecuteStep | src/traffic_master_ai/defense/d0_poc/scenarios/runner.py:161-253 | the step's result, new evidence and context in place are those of the step specification |
| DefenseRunner.ScenarioRunner.RunScenario | src/traffic_master_ai/defense/d0_poc/scenarios/runner.py:57-100 | one result per step, in order, equal to the runs from S0/T0 with a fresh context and evidence |
| DefenseVerifier.UpperOfUpper | src/traffic_master_ai/defense/d0_poc/scenarios/verifier.py:224-239 | upper-casing an upper-case text changes nothing |
| DefenseVerifier.UpperIsUpper | src/traffic_master_ai/defense/d0_poc/scenarios/verifier.py:224-239 | an upper-cased text has no lower-case ASCII letter |
| DefenseVerifier.Normalize | src/traffic_master_ai/defense/d0_poc/scenarios/verifier.py:224-234 | an action name maps through the DEF_ table after upper-casing; any other name is just upper-cased |
| DefenseVerifier.NormalizeIdempotent | src/traffic_master_ai/defense/d0_poc/scenarios/verifier.py:224-234 | normalizing twice is normalizing once |
| DefenseVerifier.EventsAreNotActions | src/traffic_master_ai/defense/d0_poc/scenarios/verifier.py:14-20 | no DEF_ event name is an action key |
| DefenseVerifier.ActionsAreUpper | src/traffic_master_ai/defense/d0_poc/scenarios/verifier.py:14-20 | every action key is upper-case |
| DefenseVerifier.NormalizeAgreesWithActuator | src/traffic_master_ai/defense/d0_poc/scenarios/verifier.py:14-20 | a supported plan type normalizes to the DEF_ event the actuator emits for it |
| DefenseVerifier.NormalizeAction | src/traffic_master_ai/defense/d0_poc/scenarios/verifier.py:224-234 | an action key normalizes to its table entry |
| DefenseVerifier.EmittedIsMapped | src/traffic_master_ai/defense/d0_poc/scenarios/verifier.py:14-20 | each DEF_ type the actuator emits is the table's entry for its action |
| DefenseVerifier.NormalizedSet | src/traffic_master_ai/defense/d0_poc/scenarios/verifier.py:230-234 | the set of normalized names |
| DefenseVerifier.ActualSet | src/traffic_master_ai/defense/d0_poc/scenarios/verifier.py:230-239 | the normalized planned names together with the upper-cased emitted ones |
| DefenseVerifier.VerifyActions | src/traffic_master_ai/defense/d0_poc/scenarios/verifier.py:202-246 | passes iff every normalized expected action is among the actual set; otherwise it reports the missing ones |
| DefenseVerifier.SetEqualityPassesSubsetCheck | src/traffic_master_ai/defense/d0_poc/scenarios/verifier.py:202-246 | when the runner's set check passes, so does the verifier's subset check |
| DefenseVerifier.DefEvents | src/traffic_master_ai/defense/d0_poc/scenarios/verifier.py:294-298 | exactly the emitted types starting with DEF_, never more than given |
| DefenseVerifier.DefEventsAppend | src/traffic_master_ai/defense/d0_poc/scenarios/verifier.py:294-296 | the DEF_ filter of a concatenation is the filters of the parts, in order |
| DefenseVerifier.DefEventsCons | src/traffic_master_ai/defense/d0_poc/scenarios/verifier.py:294-296 | the DEF_ events keep emission order and repeats: the first emitted type leads the list exactly when it starts with DEF_ |
| DefenseVerifier.Join | src/traffic_master_ai/defense/d0_poc/scenarios/verifier.py:297-298 | empty for no parts, a single part unchanged, and never shorter than any part |
| DefenseVerifier.ExtractReason | src/traffic_master_ai/defense/d0_poc/scenarios/verifier.py:278-300 | the failure code first, then the terminal reason, then `", ".join` of the DEF_ events in emission order (`DefEvents`), none iff all three are absent |
| DefenseVerifier.VerifyStep | src/traffic_master_ai/defense/d0_poc/scenarios/verifier.py:73-124 | passed iff no mismatches iff every given expectation is met; the diff message is present iff it failed |
| DefenseVerifier.CountPassed | src/traffic_master_ai/defense/d0_poc/scenarios/verifier.py:142-161 | the number of passing steps is at most the number of steps |
| DefenseVerifier.VerifyScenario | src/traffic_master_ai/defense/d0_poc/scenarios/verifier.py:126-161 | one assertion per result in order; passed + failed = total = number of results |
| DefenseVerifier.CountPassedAll | src/traffic_master_ai/defense/d0_poc/scenarios/verifier.py:142-161 | every step passes iff the passing count is the number of steps |
| DefenseVerifier.ReportPassedIffAllSteps | src/traffic_master_ai/defense/d0_poc/scenarios/verifier.py:60-63 | the report passes iff failed = 0 iff every step passes |
| DefenseVerifier.RunnerPassImpliesVerifierPass | src/traffic_master_ai/defense/d0_poc/scenarios/verifier.py:73-124 | a step with no runner mismatch also passes the verifier |
| DefenseSignals.ValidateEvent | src/traffic_master_ai/defense/d0_poc/signals/validator.py:18-34 | valid iff the type is registered for the state (or for all states), then action accept and no message; an unknown type or a disallowed state is ignored with its own message |
| DefenseSignals.AllStatesAlwaysAccepted | src/traffic_master_ai/defense/d0_poc/signals/validator.py:27 | a type mapped to all states is accepted in every state |
| DefenseSignals.ValidationDependsOnTypeOnly | src/traffic_master_ai/defense/d0_poc/signals/validator.py:18-34 | the verdict depends on the event's type alone |
| DefenseSignals.WideningAccepts | src/traffic_master_ai/defense/d0_poc/signals/validator.py:27-28 | allowing more states never rejects an event that was accepted |
| DefenseFactory.Zeros | src/traffic_master_ai/defense/d0_poc/scenarios/data_basic.py:66 | n zero characters |
| DefenseFactory.ZeroPad | src/traffic_master_ai/defense/d0_poc/scenarios/data_basic.py:66 | the padded text has length max(len, width) |
| DefenseFactory.EventId | src/traffic_master_ai/defense/d0_poc/scenarios/data_basic.py:66 | starts with "evt-" and has at least 8 characters |
| DefenseFactory.LeadingZeros | src/traffic_master_ai/defense/d0_poc/scenarios/data_basic.py:66 | zeros before digits do not change their value |
| DefenseFactory.AllZeros | src/traffic_master_ai/defense/d0_poc/scenarios/data_basic.py:66 | the padding is all zeros, so its value is 0 |
| DefenseFactory.EventIdDecodes | src/traffic_master_ai/defense/d0_poc/scenarios/data_basic.py:66 | the digits after "evt-" read back as the number, so ids are distinct |
| DefenseFactory.DistinctEvents | src/traffic_master_ai/defense/d0_poc/scenarios/data_basic.py:64-72 | events made at different counts have different ids, and a later one a larger timestamp |
| DefenseFactory.EventFactory.constructor | src/traffic_master_ai/defense/d0_poc/scenarios/data_basic.py:37-46 | the factory holds the session and base time and starts at 0 |
| DefenseFactory.EventFactory.Make | src/traffic_master_ai/defense/d0_poc/scenarios/data_basic.py:48-72 | the counter rises by one and the event is the one built for the new count |
| DefenseFactory.EventFactory.Reset | src/traffic_master_ai/defense/d0_poc/scenarios/data_basic.py:74-76 | the counter becomes 0 |
| DefenseFactory.FirstId | src/traffic_master_ai/defense/d0_poc/scenarios/data_basic.py:66-76 | after a reset the next id is "evt-0001" |
| LogAnalyzer.Wrap | src/traffic_master_ai/defense/d0_poc/tools/analyze_logs.py:60-64 | disabled gives the text unchanged; enabled gives the codes, the text and the reset code |
| LogAnalyzer.OfTrace | src/traffic_master_ai/defense/d0_poc/tools/analyze_logs.py:134-139 | only entries of that trace, never more than the input |
| LogAnalyzer.CollectKeys | src/traffic_master_ai/defense/d0_poc/tools/analyze_logs.py:134-139 | the groups are keyed by exactly the traces that occur, each listed once in the order |
| LogAnalyzer.Collect | src/traffic_master_ai/defense/d0_poc/tools/analyze_logs.py:134-139 | there are no more groups than entries, and the first entry's trace opens the first group |
| LogAnalyzer.CollectGroups | src/traffic_master_ai/defense/d0_poc/tools/analyze_logs.py:134-139 | each group holds exactly its trace's entries, in log order |
| LogAnalyzer.CollectPartitions | src/traffic_master_ai/defense/d0_poc/tools/analyze_logs.py:134-139 | the keys are exactly the traces that occur (missing as "UNKNOWN"), distinct, and each group is that trace's entries in input order |
| LogAnalyzer.OfTraceAbsent | src/traffic_master_ai/defense/d0_poc/tools/analyze_logs.py:134-139 | a trace that does not occur has no entries |
| LogAnalyzer.CollectFirstAppearance | src/traffic_master_ai/defense/d0_poc/tools/analyze_logs.py:134-139 | groups are in first-appearance order |
| LogAnalyzer.Insert | src/traffic_master_ai/defense/d0_poc/tools/analyze_logs.py:142-143 | inserting keeps the length plus one |
| LogAnalyzer.SortBySeq | src/traffic_master_ai/defense/d0_poc/tools/analyze_logs.py:142-143 | the sort keeps the length |
| LogAnalyzer.WithSeqAppend | src/traffic_master_ai/defense/d0_poc/tools/analyze_logs.py:142-143 | the entries with one seq in a concatenation are those of each part, in order |
| LogAnalyzer.WithSeqSnoc | src/traffic_master_ai/defense/d0_poc/tools/analyze_logs.py:142-143 | appending an entry appends it to the entries with its seq, and to no other |
| LogAnalyzer.InsertStable | src/traffic_master_ai/defense/d0_poc/tools/analyze_logs.py:142-143 | inserting an entry places it after every entry with the same seq |
| LogAnalyzer.InsertPerm | src/traffic_master_ai/defense/d0_poc/tools/analyze_logs.py:142-143 | inserting adds exactly that entry to the multiset |
| LogAnalyzer.InsertAtMost | src/traffic_master_ai/defense/d0_poc/tools/analyze_logs.py:142-143 | inserting keeps every seq at most a common bound |
| LogAnalyzer.AppendSorted | src/traffic_master_ai/defense/d0_poc/tools/analyze_logs.py:142-143 | a sorted list followed by an entry at least its maximum is sorted |
| LogAnalyzer.InsertSorted | src/traffic_master_ai/defense/d0_poc/tools/analyze_logs.py:142-143 | inserting into a sorted list keeps it sorted |
| LogAnalyzer.SortBySeqCorrect | src/traffic_master_ai/defense/d0_poc/tools/analyze_logs.py:142-143 | the sort is ordered by seq (missing = 0), a permutation, and stable: entries with equal seq keep input order |
| LogAnalyzer.CollectTraces | src/traffic_master_ai/defense/d0_poc/tools/analyze_logs.py:134-139 | the loop's grouping equals `Collect` of the entries |
| LogAnalyzer.SortGroups | src/traffic_master_ai/defense/d0_poc/tools/analyze_logs.py:141-143 | same keys, each group sorted by `SortBySeq` |
| LogAnalyzer.GroupByTrace | src/traffic_master_ai/defense/d0_poc/tools/analyze_logs.py:125-145 | keys in first-appearance order, each group the trace's entries sorted stably by seq; every entry is in its own trace's group, no group holds another trace's entry, and the listed groups hold as many entries as the log |
| LogAnalyzer.GroupsAreSortedTraces | src/traffic_master_ai/defense/d0_poc/tools/analyze_logs.py:125-145 | each returned group is sorted by seq, holds the same entries as its trace (as a multiset), and keeps entries of equal seq in log order |
| LogAnalyzer.GroupSizesUpdate | src/traffic_master_ai/defense/d0_poc/tools/analyze_logs.py:134-139 | replacing one listed group changes the total size by exactly that group's change in size |
| LogAnalyzer.GroupSizesFresh | src/traffic_master_ai/defense/d0_poc/tools/analyze_logs.py:134-139 | a group the order does not list adds nothing to the total size |
| LogAnalyzer.GroupSizesSameLengths | src/traffic_master_ai/defense/d0_poc/tools/analyze_logs.py:141-143 | groups of equal sizes give equal totals (sorting a group keeps the total) |
| LogAnalyzer.CollectSizes | src/traffic_master_ai/defense/d0_poc/tools/analyze_logs.py:134-139 | the groups listed in first-appearance order hold exactly as many entries as the log |
| LogAnalyzer.OfTraceHas | src/traffic_master_ai/defense/d0_poc/tools/analyze_logs.py:134-139 | every entry is among its own trace's entries |
| LogAnalyzer.CollectIsPartition | src/traffic_master_ai/defense/d0_poc/tools/analyze_logs.py:134-139 | the first pass partitions the log: every entry is in its own trace's group, a group holds only entries of its trace, and the total size equals the log's |
| LogAnalyzer.SortedPartition | src/traffic_master_ai/defense/d0_poc/tools/analyze_logs.py:141-145 | after sorting, every entry is still in exactly its trace's group and the total size still equals the log's |
| AuditLogCheck.MissingFields | platform/backend/scripts/audit_log_verification.py:33-36 | exactly the required fields (ts, sessionId, eventType) that the event lacks |
| AuditLogCheck.CountComplete | platform/backend/scripts/audit_log_verification.py:31-42 | the number of complete events is at most the number of events |
| AuditLogCheck.AllComplete | platform/backend/scripts/audit_log_verification.py:31-42 | every event is complete iff the count of complete events is the number of events |
| AuditLogCheck.VerifySchema | platform/backend/scripts/audit_log_verification.py:31-42 | ok counts the complete events and ok + fail = number of events |
| AuditLogCheck.LexLessIrreflexive | platform/backend/scripts/audit_log_verification.py:50-62 | no string is less than itself |
| AuditLogCheck.VerifyChronological | platform/backend/scripts/audit_log_verification.py:45-63 | the loop's outcome equals the chronology specification from the first event with previous 0 |
| AuditLogCheck.ChronoFrom | platform/backend/scripts/audit_log_verification.py:45-63 | an out-of-order or raising outcome names an event at or after the start, and a raise is always at a non-text timestamp |
| AuditLogCheck.ChronoNumeric | platform/backend/scripts/audit_log_verification.py:57-63 | with numeric timestamps it never raises; in order iff no decrease; otherwise it stops at the first strict decrease |
| AuditLogCheck.ChronologicalNumeric | platform/backend/scripts/audit_log_verification.py:57-63 | numeric logs are in order iff the timestamps never decrease |
| AuditLogCheck.MixedTimestamps | platform/backend/scripts/audit_log_verification.py:50-62 | a string timestamp switches the comparison to text, and a numeric timestamp after a string one raises |
| AuditLogCheck.GroupTypesMeaning | platform/backend/scripts/audit_log_verification.py:66-81 | grouping succeeds iff every event has eventType, else fails at the first without; keys are those that occur (with the default), each with its events' types in order |
| AuditLogCheck.TypesWithKeyAbsent | platform/backend/scripts/audit_log_verification.py:66-81 | a key that does not occur has no types |
| AuditLogCheck.GroupEventTypes | platform/backend/scripts/audit_log_verification.py:66-81 | the loop's outcome equals `GroupTypes` |
| AuditLogCheck.GroupTypes | platform/backend/scripts/audit_log_verification.py:66-81 | a failure names an event without eventType; a successful grouping is empty only for an empty log and always holds the last event's key |
| AuditLogCheck.GroupTypesFails | platform/backend/scripts/audit_log_verification.py:66-81 | grouping fails iff some event lacks eventType, and then at the first such event |
| AuditLogCheck.GroupTypesKeys | platform/backend/scripts/audit_log_verification.py:66-81 | when every event has eventType, the grouping's keys are exactly the field values (or the default) that occur |
| AuditLogCheck.GroupTypesChains | platform/backend/scripts/audit_log_verification.py:66-81 | when every event has eventType, each key maps to the event types of its events in log order |
| AuditLogCheck.GroupTypesErrSticky | platform/backend/scripts/audit_log_verification.py:66-81 | once grouping fails, more events do not change the failure |
| AuditLogCheck.VerifyCorrelationChains | platform/backend/scripts/audit_log_verification.py:66-72 | grouping by correlationId with default "none" |
| AuditLogCheck.VerifySessionFlows | platform/backend/scripts/audit_log_verification.py:75-81 | grouping by sessionId with default "unknown" |

## Left out

- Payments.PaymentService: the class invariant `Valid()` covers the payment service and the seat service it reads, but a call made directly on that `SeatService` object (`HoldSeats`, `CreateOrder`) is not proved to re-establish it, because the seat class does not know the payment class that shares it. Interleaving the two services is proved on values instead (`ShopRunValid`, `AtMostOneSuccessInterleaved`).
- Null references. A null hold id, order id or session id makes `ConcurrentHashMap.get` throw NullPointerException in SeatService, PaymentService and InMemorySessionStore. The model cannot express that: hold, order, payment and ticket ids are naturals drawn from a counter (standing for the UUID strings Java generates), and session ids are plain strings. The idempotency key is different: Java checks it against null before use, and the model keeps that as `Option<string>`.
- Sessions.InMemorySessionStore: Java stores and returns `SessionData` references, so a caller's later mutation of a returned session shows in the store. The model stores values; every visible caller saves after mutating, so no modelled behaviour depends on the aliasing.
- Concurrency. `ReentrantLock`, `ConcurrentHashMap` and the cache check and write outside the lock in SeatService and PaymentService are not modelled. Every service method is one atomic step, and the concurrent hold test becomes the sequential `Seats.HeldSeatBlocksOthers`. Two identical keys racing cannot be expressed sequentially.
- Clocks, random numbers and generated ids are parameters. This covers `Instant.now()`, `UUID.randomUUID()`, `ThreadLocalRandom` (queue start position, poll step, payment failure draw) and `uuid.uuid4()`. The defense runner uses fixed ids for the events it builds.
- `parseFailRate` and the failure-rate header are not modelled: the payment failure draw is a boolean argument.
- `QueueTicket.getProgress` is modelled in exact arithmetic, not in `double`.
- Audit-logging calls, SLF4J logging, `DecisionAuditLogger`, `LogFilter` and the exception handler are not modelled. Neither are HTTP controllers (including the blank Idempotency-Key check that happens before the services) or the web config.
- Mock catalog data are not modelled: SeatService `getRecommendations`/`generateMockBundles`, MapService, GameController.
- Lombok-generated getters and setters are not modelled; builder defaults are, as defaults of the constructing functions.
- Bean validation is modelled as the list of violation messages. The framework that collects them is not modelled.
- SeatEntities.TotalPrice: wraps to 32 bits like Java `int`, but the lemmas about orders assume the total fits, which holds for any realistic seat count.
- Seats.CreateOrderSuccess: requires at most 85899 seats, the count for which the 32-bit total still fits (see `SeatEntities.TotalPrice`); beyond it only the wrapped total is modelled, not its consequences for the order.
- Security.Trim: only the characters up to U+0020 count as blank, as in Java's `String.trim`. Unicode whitespace beyond that is not treated specially.
- Case mapping is ASCII only: `toUpperCase` in QueueService (`Queue.ToUpper`), `str.lower` in the ROI tracker (`PyValues.LowerAscii`) and verifier normalization. There is no locale or Unicode case folding.
- Hold status FAILED, order status CANCELLED and ticket status BLOCKED are declared but never assigned by the modelled services. The invariants show no modelled operation assigns BLOCKED.
- Text wording and rendering are not modelled:
  - message wording beyond its presence, and the text of diff messages;
  - `generate_report` and `_build_diff_message` in the defense verifier;
  - the `str()` rendering of containers;
  - JSON serialisation in `DecisionLog.to_dict` beyond the field mapping.
- File and console I/O are not modelled:
  - `ROILogger._write_to_jsonl`, `PolicyProfileLoader.load_from_json`, scenario_loader.py;
  - runner.py's `_log_step` and the `PolicyLoader` whose profile runner.py never uses;
  - observability logger and schema;
  - `load_log_entries`, argparse and the printing in analyze_logs.py;
  - `load_logs` and the main function of audit_log_verification.py;
  - dashboard.py, run_all.py, run_all_scenarios.py, run_scenarios.py, scenario_report.py.
- The attack engine's `transition` function is not part of this model: the orchestrator takes it as a parameter. The attack engine.py is empty, and scenario_runner.py is not valid Python. `AttackOrchestrator.RunEvents` carries the loop semantics. transition.py defines no `transition` function, so the orchestrator's `from .transition import transition` fails at import; the decision step given as a parameter stands in for it.
- The defense signal registry (signals/registry.py), scenarios/schema.py and policy/snapshot.py are not part of this model. The signal validator takes the registry as a parameter, and the runner's policy is a pair of thresholds with their defaults.
- Scenario tables in data_basic.py (`build_scn_*`) and data_advanced.py are data, not logic, and are not modelled. Several of them expect DEF_CHALLENGE_FORCED to move the flow to S3, which engine.py has no rule for: `DefenseEngine.DefenseEventOutcome` shows that event changes nothing.
- Plan parameters are strings. A non-string `strength`, `reason` or `difficulty` is not modelled.
- Python's `1 == True` key equality is not modelled. Map keys are compared by value as written.
- LogAnalyzer.GroupByTrace: requires every entry's seq in the whole log to be an integer or missing. Python's sort raises TypeError when one trace holds seqs that do not compare: integer and text seqs, or an explicit null seq next to an integer one. It also sorts a trace whose seqs are all text (lexicographically), and traces of different kinds may coexist. The requires excludes all of these logs, so neither the TypeError nor text ordering is modelled.
- AuditLogCheck.GroupTypesMeaning: Python dict insertion order is represented by the key set and per-key lists. Float timestamps in `verify_chronological` are modelled as integers.
- DefenseEvidence.Copy: the deque's own identity is not modelled. Evidence is a value, so the copy's independence holds by construction.
- Aliasing between the caller's dictionaries and the attack store is not modelled: the store holds values, so later changes to the caller's maps cannot reach it.

- AttackOrchestrator.PolicyOutcomeFor: states the corrected stop branch. As written, an exhausted budget whose stop condition names S4 or SX raises AttributeError (orchestrator.py:165-169 use `State.S4` and `State.SX`, which do not exist); `PolicyOutcomeAsWritten` models that raise.
- AttackOrchestrator.ApplyPolicy: built on the corrected `PolicyOutcomeFor`; as written the exhausted-budget stop branch raises instead (see `ExhaustedRuleRaisesAsWritten`).
- AttackOrchestrator.StopConditionRule: states the intended moves to S4, or to SX with ABORT; as written both raise AttributeError.
- AttackOrchestrator.ApplyFailurePolicy: the method form of the corrected `ApplyPolicy`; the as-written raise is modelled by `PolicyOutcomeAsWritten` only.
- AttackOrchestrator.Finish: uses the corrected reason check `MakeExecutionResultByValue`. As written every run that reaches SX raises; `FinishAsWritten` models that.
- AttackOrchestrator.RunSpecShape: its `Ok` clauses describe the corrected `Finish`; as written no run reaching SX is `Ok`.
- AttackOrchestrator.StartInTerminal: proves the corrected outcome (DONE). As written the member `TerminalReason.DONE` is refused and the run raises (`StartInTerminalRaisesAsWritten`).
- AttackOrchestrator.RunEvents: its result is the corrected `Finish`'s; as written it raises for every run reaching SX.
- AttackValidator.ValidateSchema: uses the corrected type check `TypeErrors`; as written a plain-string event type that is not empty is reported missing (`TypeErrorsAsWritten`).
- AttackValidator.Validate: inherits the corrected type check of `ValidateSchema`.
- AttackValidator.ValidateAccepts: states the corrected validator's acceptance; as written plain-string event types are refused.
- Event field names. The a0_poc `SemanticEvent` dataclass declares `event_type` and `context`, and the decision logger reads those names, but the validator (validator.py:126-142, 164-167) and the orchestrator (orchestrator.py:81, 175) read `event.type` and `event.payload`, which that class lacks. `AttackEvents.SemanticEvent` follows the consumers' duck-typed `type`/`payload` view, so AttackValidator.ValidateSchema, AttackValidator.ValidateStateValidity, AttackOrchestrator.LookupPolicy, AttackOrchestrator.FindPolicy and AttackOrchestrator.ApplyFailurePolicy describe events that have those attributes; the AttributeError they raise on the dataclass itself is not modelled.
- AttackAssertions.ToInt: reads strings with `PyValues.ParseInt`, which models `int()` on ASCII text only. Unicode whitespace and non-ASCII digits, and the 4300-digit conversion limit, are not modelled, and floats do not exist in `Value`.
- AttackValidator.SourceErrors: a list- or dict-valued source makes the set membership at validator.py:132 raise TypeError; the model reports it as an invalid source instead.
- PyValues.Value has no float, so a float cannot be represented. Floats do reach the core: the policy loader refuses a float budget or timebox (the model's `AttackPolicyLoader.ParseEntry` refuses every non-integer there alike), but it stores a float policy as `str(value)`, and an assertion value such as 2.5 reaches `int()`. Neither the `str` rendering of a float policy nor `int()` truncation of a float (`AttackAssertions.ToInt`) is modelled.
- AuditLogCheck.GroupTypes: a list- or dict-valued correlationId or sessionId is unhashable and raises TypeError in Python; the model uses it as an ordinary key.
- LogAnalyzer.Collect: a list- or dict-valued trace_id is unhashable and raises TypeError in Python; the model uses it as an ordinary key.
- AttackTransition.ToDict: a stage that is a non-empty text, not a `State`, raises AttributeError at transition.py:84; `ToDict` requires it away and `AttackLogger.RenderAll` reports that record as an error.
- Stages that are not `State` members are modelled as their text (`NotAState`); only their truthiness and the AttributeError above are modelled.

## Findings

| source | as written | input that shows it | evidently intended | confidence | as-written member | corrected member |
|---|---|---|---|---|---|---|
| src/traffic_master_ai/attack/a0_poc/validator.py:126 | `if not event.type.value if hasattr(event.type, 'value') else event.type` parses as `(not t.value) if hasattr(t, 'value') else t`, so a plain-string type that is not empty is reported as "event_type is required" | an event whose type is the string "FLOW_START" | a type is missing only when its text is empty, and a member and its value string are judged alike | not executed | AttackValidator.TypeErrorsAsWritten | AttackValidator.TypeErrors |
| src/traffic_master_ai/attack/a0_poc/assertion_engine.py:97-106 | `check_assertion` has no branch for the `terminal_reason` assertion kind declared in scenario_models.py:56, so it falls through to the unknown-kind failure | a `terminal_reason` assertion with value "done" on a run that ended with DONE | the assertion passes iff the run's terminal reason has the given value | not executed | AttackAssertions.TerminalReasonAssertionUnhandled | AttackAssertions.CheckAssertionCorrected |
| src/traffic_master_ai/attack/a0_poc/transition.py:126 | the reason is tested for membership in a set of string literals, but `TerminalReason` is a plain `Enum` and the orchestrator (orchestrator.py:123-127) passes members, so every reason is refused and `run_events` always raises | any run reaching SX, e.g. one ending with `TerminalReason.DONE` | the reason's value is checked, so DONE, ABORT, COOLDOWN and RESET are accepted | not executed | AttackTransition.MemberReasonRefused | AttackTransition.MakeExecutionResultByValue |
| src/traffic_master_ai/attack/a0_poc/orchestrator.py:165-169 | with the budget exhausted, a stop condition naming S4 or SX assigns `State.S4` or `State.SX`, names the enum does not define (it has `S4_SECTION` and `SX_TERMINAL`), so the policy step raises AttributeError | a SEAT_TAKEN event in S5 with the N_seat budget at 0 | the flow moves to S4, or to SX with ABORT, as tests/attack/test_integration_failure.py:83-131 expect | not executed | AttackOrchestrator.ExhaustedRuleRaisesAsWritten | AttackOrchestrator.PolicyOutcomeFor |

=== FILE: attack_assertions.dfy ===
/**
 * Checking one scenario assertion against a finished run. The verdict keeps
 * the pass flag and the message's leading word (PASSED, FAILED, ERROR); the
 * rest of the message text is not modelled. Comparisons Python cannot make
 * (an `int` against a string, an unhashable key) raise, which is `Err` here.
 */
module AttackAssertions {
  import opened Wrappers
  import opened PyValues
  import opened AttackStates
  import opened AttackTransition
  import opened AttackScenarios

  datatype Status = PASSED | FAILED | ERROR

  datatype Verdict = Verdict(passed: bool, status: Status)

  function Pass(): (v: Verdict)
    ensures v.passed && v.status == PASSED
  {
    Verdict(true, PASSED)
  }

  function Fail(status: Status): (v: Verdict)
    ensures !v.passed && v.status == status
  {
    Verdict(false, status)
  }

  function Judge(ok: bool): (v: Verdict)
    ensures v.passed == ok && v.status == (if ok then PASSED else FAILED)
  {
    if ok then Pass() else Fail(FAILED)
  }

  /** The path as the list of state values. */
  function PathValues(path: seq<State>): (vs: seq<string>)
    ensures |vs| == |path| && forall k :: 0 <= k < |path| ==> vs[k] == path[k].Value()
  {
    seq(|path|, k requires 0 <= k < |path| => path[k].Value())
  }

  /** `final.get(key, 0)`: a string key is looked up, a list or dict key is unhashable, any other key is never present. */
  function LookupCount(m: map<string, int>, key: Value): (r: Result<int, string>)
    ensures r.Err? <==> key.PyList? || key.PyDict?
    ensures key.PyStr? ==> r == Ok(Get(m, key.s, 0))
  {
    match key
    case PyStr(k) => Ok(Get(m, k, 0))
    case PyList(_) => Err("unhashable type: 'list'")
    case PyDict(_) => Err("unhashable type: 'dict'")
    case _ => Ok(0)
  }

  /**
   * `int(v)`: integers and booleans convert, a string is read as `int()`
   * reads it (`ParseInt`: whitespace, sign, digit groups), anything else
   * raises.
   */
  function ToInt(v: Value): (r: Result<int, string>)
    ensures IsPyInt(v) ==> r == Ok(AsInt(v))
    ensures v.PyNone? || v.PyList? || v.PyDict? ==> r.Err?
    ensures v.PyStr? ==> (r.Ok? <==> ParseInt(v.s).Some?) && (r.Ok? ==> r.value == ParseInt(v.s).value)
  {
    match v
    case PyInt(i) => Ok(i)
    case PyBool(b) => Ok(if b then 1 else 0)
    case PyStr(s) =>
      (match ParseInt(s)
       case Some(n) => Ok(n)
       case None => Err("invalid literal for int() with base 10"))
    case _ => Err("int() argument must be a string or a number")
  }

  /** A `[key, bound]` pair, compared against a final map with `cmp`; ordering an `int` against a non-number raises. */
  function CheckPair(v: Value, m: map<string, int>, atLeast: bool): (r: Result<Verdict, string>)
    ensures !(v.PyList? && |v.items| == 2) ==> r == Ok(Fail(ERROR))
  {
    if !(v.PyList? && |v.items| == 2) then Ok(Fail(ERROR))
    else
      match LookupCount(m, v.items[0])
      case Err(e) => Err(e)
      case Ok(actual) =>
        if !IsPyInt(v.items[1]) then Err("'>=' not supported between instances")
        else Ok(Judge(if atLeast then actual >= AsInt(v.items[1]) else actual <= AsInt(v.items[1])))
  }

  /** The first index with S3 that has a successor, searched from `from`. */
  function FirstS3(path: seq<State>, from: nat): (r: Option<nat>)
    ensures r.Some? ==> from <= r.value < |path| - 1 && path[r.value] == S3
    ensures r.Some? ==> forall j :: from <= j < r.value ==> path[j] != S3
    ensures r.None? ==> forall j :: from <= j < |path| - 1 ==> path[j] != S3
    decreases |path| - from
  {
    if from + 1 >= |path| then None
    else if path[from] == S3 then Some(from)
    else FirstS3(path, from + 1)
  }

  /**
   * `returned_to_last_non_security_state`: passes when S3 was never visited
   * or only at the end; otherwise only the first S3 with a successor is
   * judged, and it fails if that successor is SX or was not visited before.
   */
  function ReturnedVerdict(path: seq<State>): (v: Verdict)
  {
    if "S3" !in PathValues(path) then Pass()
    else match FirstS3(path, 0)
      case None => Pass()
      case Some(i) =>
        if path[i + 1].Value() == "SX" then Fail(FAILED)
        else Judge(path[i + 1].Value() in PathValues(path[..i]))
  }

  /** A state's value is among a path's values exactly when the state is on the path. */
  lemma ValueOnPath(path: seq<State>, s: State)
    ensures s.Value() in PathValues(path) <==> s in path
  {
    if s in path {
      var j :| 0 <= j < |path| && path[j] == s;
      assert PathValues(path)[j] == s.Value();
    }
    if s.Value() in PathValues(path) {
      var j :| 0 <= j < |path| && PathValues(path)[j] == s.Value();
      ParseStateValue(path[j]);
      ParseStateValue(s);
    }
  }

  /** The verdict at the first S3 with a successor: it passes iff the successor is not SX and was visited before. */
  lemma ReturnedVerdictAt(path: seq<State>, i: nat)
    requires i < |path| - 1 && path[i] == S3 && forall j :: 0 <= j < i ==> path[j] != S3
    ensures ReturnedVerdict(path).passed <==> path[i + 1] != SX && path[i + 1] in path[..i]
  {
    assert PathValues(path)[i] == "S3";
    assert FirstS3(path, 0) == Some(i);
    ValueOnPath(path[..i], path[i + 1]);
    ParseStateValue(path[i + 1]);
  }

  /** The search judges exactly the first S3 that has a successor. */
  lemma ReturnedVerdictMeaning(path: seq<State>)
    ensures (forall j :: 0 <= j < |path| - 1 ==> path[j] != S3) ==> ReturnedVerdict(path).passed
    ensures forall i :: 0 <= i < |path| - 1 && path[i] == S3 && (forall j :: 0 <= j < i ==> path[j] != S3)
              ==> (ReturnedVerdict(path).passed <==> path[i + 1] != SX && path[i + 1] in path[..i])
  {
    forall i | 0 <= i < |path| - 1 && path[i] == S3 && (forall j :: 0 <= j < i ==> path[j] != S3)
      ensures ReturnedVerdict(path).passed <==> path[i + 1] != SX && path[i + 1] in path[..i]
    {
      ReturnedVerdictAt(path, i);
    }
  }

  /** `check_assertion` as written: the `terminal_reason` kind has no branch and falls through to the unknown-kind error. */
  function CheckAssertion(a: ScenarioAssertion, result: ExecutionResult): (r: Result<Verdict, string>)
    ensures a.kind in {LOG_LINES_AT_LEAST, NO_INVALID_EVENTS} ==> r == Ok(Pass())
    ensures a.kind == TERMINAL_REASON_TYPE ==> r == Ok(Fail(ERROR))
  {
    var v := a.value;
    match a.kind
    case STATE_PATH_CONTAINS => Ok(Judge(v.PyStr? && v.s in PathValues(result.statePath)))
    case STATE_PATH_EQUALS =>
      var vs := PathValues(result.statePath);
      Ok(Judge(v == PyList(seq(|vs|, k requires 0 <= k < |vs| => PyStr(vs[k])))))
    case COUNTER_AT_LEAST => CheckPair(v, result.finalCounters, true)
    case COUNTER_EQUALS =>
      if !(v.PyList? && |v.items| == 2) then Ok(Fail(ERROR))
      else
        (match LookupCount(result.finalCounters, v.items[0])
         case Err(e) => Err(e)
         case Ok(actual) => Ok(Judge(IsPyInt(v.items[1]) && actual == AsInt(v.items[1]))))
    case BUDGET_REMAINING_AT_MOST => CheckPair(v, result.finalBudgets, false)
    case EVENT_HANDLED_COUNT_AT_LEAST =>
      (match ToInt(v)
       case Err(e) => Err(e)
       case Ok(n) => Ok(Judge(result.handledEvents >= n)))
    case RETURNED_TO_LAST_NON_SECURITY_STATE => Ok(ReturnedVerdict(result.statePath))
    case LOG_LINES_AT_LEAST => Ok(Pass())
    case NO_INVALID_EVENTS => Ok(Pass())
    case TERMINAL_REASON_TYPE => Ok(Fail(ERROR))
  }

  /** Path assertions: membership of a value, and equality with the whole list of values. */
  lemma PathAssertions(a: ScenarioAssertion, result: ExecutionResult, v: string)
    ensures a.kind == STATE_PATH_CONTAINS && a.value == PyStr(v)
            ==> (CheckAssertion(a, result) == Ok(Pass()) <==> exists k :: 0 <= k < |result.statePath| && result.statePath[k].Value() == v)
    ensures a.kind == STATE_PATH_CONTAINS && !a.value.PyStr? ==> CheckAssertion(a, result) == Ok(Fail(FAILED))
    ensures a.kind == STATE_PATH_EQUALS && a.value.PyList?
            ==> (CheckAssertion(a, result).value.passed
                 <==> |a.value.items| == |result.statePath|
                      && forall k :: 0 <= k < |result.statePath| ==> a.value.items[k] == PyStr(result.statePath[k].Value()))
  {
    if a.kind == STATE_PATH_CONTAINS && a.value == PyStr(v) {
      if v in PathValues(result.statePath) {
        var k :| 0 <= k < |result.statePath| && PathValues(result.statePath)[k] == v;
      }
    }
  }

  /** Counter and budget assertions need a two-element list; a missing entry counts as 0. */
  lemma CountAssertions(a: ScenarioAssertion, result: ExecutionResult, key: string, bound: int)
    ensures a.kind in {COUNTER_AT_LEAST, COUNTER_EQUALS, BUDGET_REMAINING_AT_MOST} && !(a.value.PyList? && |a.value.items| == 2)
            ==> CheckAssertion(a, result) == Ok(Fail(ERROR))
    ensures a.kind == COUNTER_AT_LEAST && a.value == PyList([PyStr(key), PyInt(bound)])
            ==> CheckAssertion(a, result) == Ok(Judge(Get(result.finalCounters, key, 0) >= bound))
    ensures a.kind == COUNTER_EQUALS && a.value == PyList([PyStr(key), PyInt(bound)])
            ==> CheckAssertion(a, result) == Ok(Judge(Get(result.finalCounters, key, 0) == bound))
    ensures a.kind == BUDGET_REMAINING_AT_MOST && a.value == PyList([PyStr(key), PyInt(bound)])
            ==> CheckAssertion(a, result) == Ok(Judge(Get(result.finalBudgets, key, 0) <= bound))
  {
  }

  /** The handled-events assertion compares against the value read as an integer. */
  lemma HandledCountAssertion(a: ScenarioAssertion, result: ExecutionResult, n: int)
    requires a.kind == EVENT_HANDLED_COUNT_AT_LEAST && a.value == PyInt(n)
    ensures CheckAssertion(a, result) == Ok(Judge(result.handledEvents >= n))
  {
  }

  /** A handled-count bound given as text, padded and signed or not, is judged like the number it prints. */
  lemma HandledCountText(a: ScenarioAssertion, result: ExecutionResult, n: int, pre: string, post: string)
    requires AllSpace(pre) && AllSpace(post)
    requires a.kind == EVENT_HANDLED_COUNT_AT_LEAST && a.value == PyStr(pre + IntToString(n) + post)
    ensures CheckAssertion(a, result) == Ok(Judge(result.handledEvents >= n))
  {
    ParseIntOfPrinted(n, pre, post);
  }

  /** A `terminal_reason` assertion is reported as an unknown kind, even when the reason matches. */
  lemma TerminalReasonAssertionUnhandled(result: ExecutionResult)
    ensures CheckAssertion(ScenarioAssertion(TERMINAL_REASON_TYPE, PyStr(result.terminalReason.Text()), None), result) == Ok(Fail(ERROR))
  {
  }

  /** The evidently intended check: a `terminal_reason` assertion passes when the run's reason has the given value. */
  function CheckAssertionCorrected(a: ScenarioAssertion, result: ExecutionResult): (r: Result<Verdict, string>)
    ensures a.kind == TERMINAL_REASON_TYPE ==> r == Ok(Judge(a.value == PyStr(result.terminalReason.Text())))
    ensures a.kind != TERMINAL_REASON_TYPE ==> r == CheckAssertion(a, result)
  {
    if a.kind == TERMINAL_REASON_TYPE then Ok(Judge(a.value == PyStr(result.terminalReason.Text())))
    else CheckAssertion(a, result)
  }

  /** With the correction, a run ending with ABORT passes an "abort" assertion and fails a "done" one. */
  lemma CorrectedReasonCheck(result: ExecutionResult)
    requires result.terminalReason == Literal("abort")
    ensures CheckAssertionCorrected(ScenarioAssertion(TERMINAL_REASON_TYPE, PyStr("abort"), None), result) == Ok(Pass())
    ensures CheckAssertionCorrected(ScenarioAssertion(TERMINAL_REASON_TYPE, PyStr("done"), None), result) == Ok(Fail(FAILED))
  {
  }
}

=== FILE: attack_events.dfy ===
/**
 * The semantic event the attack-side engine consumes. The validator and the
 * orchestrator read the event's type as either an enum member (with a value)
 * or a raw string, and its stage as either a `State` or some other value; the
 * two field types below keep those cases apart.
 */
module AttackEvents {
  import opened Wrappers
  import opened PyValues
  import opened AttackStates

  /** An event type as an enum member carrying `value`, or as a plain string. */
  datatype TypeField = EnumType(value: string) | RawType(text: string)
  {
    /** `type.value` for a member, the string itself otherwise. */
    function Text(): string
    {
      match this
      case EnumType(v) => v
      case RawType(s) => s
    }
  }

  /** An absent stage, a `State`, or a value of some other type (shown by its text). */
  datatype StageField = NoStage | InState(state: State) | NotAState(text: string)

  datatype SemanticEvent = SemanticEvent(
    eventType: TypeField,
    stage: StageField,
    failureCode: Option<string>,
    payload: map<string, Value>)

  /** The dataclass constructor: an empty event type is rejected. */
  function MakeEvent(eventType: TypeField, stage: StageField, failureCode: Option<string>, payload: map<string, Value>)
    : (r: Result<SemanticEvent, string>)
    ensures r.Ok? <==> eventType.Text() != ""
    ensures r.Ok? ==> r.value == SemanticEvent(eventType, stage, failureCode, payload)
  {
    if eventType.Text() == "" then Err("event_type must be non-empty")
    else Ok(SemanticEvent(eventType, stage, failureCode, payload))
  }
}

=== FILE: attack_failure.dfy ===
/**
 * The failure-handling matrix: for a (state, event type) pair, the failure
 * code, the recovery state, the budget a retry spends and the condition under
 * which retrying stops. The matrix object is filled once by its constructor;
 * `Rule` is the table it ends up holding.
 */
module AttackFailure {
  import opened Wrappers
  import opened AttackStates
  import opened AttackRegistry

  datatype FailureCode =
    | F_SEAT_TAKEN | F_HOLD_FAILED | F_HOLD_EXPIRED | F_SECTION_EMPTY
    | F_CHALLENGE_FAILED | F_THROTTLED_TIMEOUT | F_SANDBOX_STUCK
    | F_SESSION_EXPIRED | F_NETWORK_TIMEOUT | F_SERVER_ERROR | F_CLIENT_ERROR | F_UI_INCONSISTENT
    | F_PAYMENT_TIMEOUT | F_TXN_ROLLBACK
  {
    /** The enum value, which is the member's own name. */
    function Value(): string
    {
      match this
      case F_SEAT_TAKEN => "F_SEAT_TAKEN"
      case F_HOLD_FAILED => "F_HOLD_FAILED"
      case F_HOLD_EXPIRED => "F_HOLD_EXPIRED"
      case F_SECTION_EMPTY => "F_SECTION_EMPTY"
      case F_CHALLENGE_FAILED => "F_CHALLENGE_FAILED"
      case F_THROTTLED_TIMEOUT => "F_THROTTLED_TIMEOUT"
      case F_SANDBOX_STUCK => "F_SANDBOX_STUCK"
      case F_SESSION_EXPIRED => "F_SESSION_EXPIRED"
      case F_NETWORK_TIMEOUT => "F_NETWORK_TIMEOUT"
      case F_SERVER_ERROR => "F_SERVER_ERROR"
      case F_CLIENT_ERROR => "F_CLIENT_ERROR"
      case F_UI_INCONSISTENT => "F_UI_INCONSISTENT"
      case F_PAYMENT_TIMEOUT => "F_PAYMENT_TIMEOUT"
      case F_TXN_ROLLBACK => "F_TXN_ROLLBACK"
    }
  }

  /** A recovery path: a given state, or "Self" for the state the failure happened in. */
  datatype RecoverPath = ToState(state: State) | SelfPath

  datatype FailurePolicy = FailurePolicy(
    failureCode: FailureCode,
    primaryAction: string,
    recoverPath: RecoverPath,
    retryBudgetKey: Option<string>,
    backoffStrategy: string,
    stopCondition: Option<string>)

  function SeatTakenPolicy(): FailurePolicy
  {
    FailurePolicy(F_SEAT_TAKEN, "다른 좌석 후보 선택", ToState(S5), Some("N_seat"), "jitter + short wait", Some("N_seat 소진 시 S4"))
  }

  function HoldFailedPolicy(): FailurePolicy
  {
    FailurePolicy(F_HOLD_FAILED, "재시도 또는 후보 변경", ToState(S5), Some("N_hold"), "exp backoff(짧게)", Some("N_hold 소진 시 S4"))
  }

  function RollbackPolicy(): FailurePolicy
  {
    FailurePolicy(F_HOLD_EXPIRED, "롤백 후 재선택", ToState(S5), Some("N_txn_rb"), "none", Some("반복 시 SX"))
  }

  function SectionEmptyPolicy(): FailurePolicy
  {
    FailurePolicy(F_SECTION_EMPTY, "다른 구역 선택", ToState(S4), Some("N_section"), "none", Some("후보 소진 시 SX"))
  }

  function ChallengeFailedPolicy(): FailurePolicy
  {
    FailurePolicy(F_CHALLENGE_FAILED, "재시도(템포 완화)", ToState(S3), Some("N_challenge"), "cooldown 증가", Some("N_challenge 소진 시 SX"))
  }

  function NetworkTimeoutPolicy(): FailurePolicy
  {
    FailurePolicy(F_NETWORK_TIMEOUT, "재시도", SelfPath, Some("N_net"), "exp backoff", Some("timebox 초과 시 SX"))
  }

  function SessionExpiredPolicy(): FailurePolicy
  {
    FailurePolicy(F_SESSION_EXPIRED, "세션 리셋", ToState(S0), Some("N_session_reset"), "none", Some("reset 반복 시 SX"))
  }

  function PaymentTimeoutPolicy(): FailurePolicy
  {
    FailurePolicy(F_PAYMENT_TIMEOUT, "종료(실패 결과)", ToState(SX), None, "none", Some("즉시 SX"))
  }

  function QueueStuckPolicy(): FailurePolicy
  {
    FailurePolicy(F_SANDBOX_STUCK, "리셋/세션 재시작", ToState(S1), Some("N_reset"), "none", Some("reset 반복 시 SX"))
  }

  /** The table the matrix holds once built: nine rules, two of them for every non-terminal state. */
  function Rule(s: State, e: EventType): Option<FailurePolicy>
  {
    if e == SEAT_TAKEN && s == S5 then Some(SeatTakenPolicy())
    else if e == HOLD_FAILED && s == S5 then Some(HoldFailedPolicy())
    else if e == TXN_ROLLBACK_REQUIRED && s == S6 then Some(RollbackPolicy())
    else if e == SECTION_EMPTY && s == S4 then Some(SectionEmptyPolicy())
    else if e == CHALLENGE_FAILED && s == S3 then Some(ChallengeFailedPolicy())
    else if e == TIMEOUT && s != SX then Some(NetworkTimeoutPolicy())
    else if e == SESSION_EXPIRED && s != SX then Some(SessionExpiredPolicy())
    else if e == PAYMENT_TIMEOUT && s == S6 then Some(PaymentTimeoutPolicy())
    else if e == QUEUE_STUCK && s == S2 then Some(QueueStuckPolicy())
    else None
  }

  /** `get_policy`'s rewrite: a "Self" recovery path becomes the queried state. */
  function Resolve(p: Option<FailurePolicy>, s: State): (r: Option<FailurePolicy>)
    ensures r.Some? <==> p.Some?
    ensures r.Some? ==> r.value.recoverPath.ToState?
    ensures r.Some? && p.value.recoverPath.SelfPath? ==> r.value == p.value.(recoverPath := ToState(s))
    ensures r.Some? && p.value.recoverPath.ToState? ==> r.value == p.value
  {
    match p
    case None => None
    case Some(policy) => if policy.recoverPath.SelfPath? then Some(policy.(recoverPath := ToState(s))) else p
  }

  function Lookup(m: map<(State, EventType), FailurePolicy>, s: State, e: EventType): Option<FailurePolicy>
  {
    if (s, e) in m then Some(m[(s, e)]) else None
  }

  /** An update changes the lookup of its own pair only. */
  lemma LookupAfterUpdate(m: map<(State, EventType), FailurePolicy>, t: State, f: EventType, p: FailurePolicy, s: State, e: EventType)
    ensures Lookup(m[(t, f) := p], s, e) == (if s == t && e == f then Some(p) else Lookup(m, s, e))
  {
    if s != t || e != f {
      var k := (s, e);
      assert k.0 == s && k.1 == e;
      assert k != (t, f);
    }
  }

  /** The non-terminal states, in declaration order. */
  const NON_TERMINAL_ORDER: seq<State> := [S0, S1, S2, S3, S4, S5, S6]

  /** A state's position in declaration order. */
  function Ordinal(s: State): (k: nat)
    ensures s != SX ==> k < |NON_TERMINAL_ORDER| && NON_TERMINAL_ORDER[k] == s
  {
    match s
    case S0 => 0
    case S1 => 1
    case S2 => 2
    case S3 => 3
    case S4 => 4
    case S5 => 5
    case S6 => 6
    case SX => 7
  }

  lemma OrderPositions(i: nat)
    requires i < |NON_TERMINAL_ORDER|
    ensures NON_TERMINAL_ORDER[i] != SX && Ordinal(NON_TERMINAL_ORDER[i]) == i
  {
  }

  class FailureMatrix {
    var matrix: map<(State, EventType), FailurePolicy>

    /** Fills the matrix: the single-state rules, a TIMEOUT and a SESSION_EXPIRED rule per non-terminal state, then two more single-state rules. */
    constructor()
      ensures forall s: State, e: EventType :: Lookup(matrix, s, e) == Rule(s, e)
    {
      var m0: map<(State, EventType), FailurePolicy> := map[];
      var m1 := m0[(S5, SEAT_TAKEN) := SeatTakenPolicy()];
      var m2 := m1[(S5, HOLD_FAILED) := HoldFailedPolicy()];
      var m3 := m2[(S6, TXN_ROLLBACK_REQUIRED) := RollbackPolicy()];
      var m4 := m3[(S4, SECTION_EMPTY) := SectionEmptyPolicy()];
      var m5 := m4[(S3, CHALLENGE_FAILED) := ChallengeFailedPolicy()];
      var m6 := AddEverywhere(m5, TIMEOUT, NetworkTimeoutPolicy());
      var m7 := AddEverywhere(m6, SESSION_EXPIRED, SessionExpiredPolicy());
      var m8 := m7[(S6, PAYMENT_TIMEOUT) := PaymentTimeoutPolicy()];
      var m9 := m8[(S2, QUEUE_STUCK) := QueueStuckPolicy()];
      forall s: State, e: EventType
        ensures Lookup(m9, s, e) == Rule(s, e)
      {
        LookupAfterUpdate(m0, S5, SEAT_TAKEN, SeatTakenPolicy(), s, e);
        LookupAfterUpdate(m1, S5, HOLD_FAILED, HoldFailedPolicy(), s, e);
        LookupAfterUpdate(m2, S6, TXN_ROLLBACK_REQUIRED, RollbackPolicy(), s, e);
        LookupAfterUpdate(m3, S4, SECTION_EMPTY, SectionEmptyPolicy(), s, e);
        LookupAfterUpdate(m4, S3, CHALLENGE_FAILED, ChallengeFailedPolicy(), s, e);
        LookupAfterUpdate(m7, S6, PAYMENT_TIMEOUT, PaymentTimeoutPolicy(), s, e);
        LookupAfterUpdate(m8, S2, QUEUE_STUCK, QueueStuckPolicy(), s, e);
      }
      matrix := m9;
    }

    /** `for state in State: if state != SX: _add_rule(state, e, p)`: one rule for `e` per non-terminal state. */
    static method AddEverywhere(m: map<(State, EventType), FailurePolicy>, e: EventType, p: FailurePolicy)
      returns (r: map<(State, EventType), FailurePolicy>)
      ensures forall s: State, f: EventType :: Lookup(r, s, f) == (if f == e && s != SX then Some(p) else Lookup(m, s, f))
    {
      r := m;
      var i := 0;
      while i < |NON_TERMINAL_ORDER|
        invariant 0 <= i <= |NON_TERMINAL_ORDER|
        invariant forall s: State, f: EventType ::
          Lookup(r, s, f) == (if f == e && s != SX && Ordinal(s) < i then Some(p) else Lookup(m, s, f))
      {
        OrderPositions(i);
        var t := NON_TERMINAL_ORDER[i];
        var next := r[(t, e) := p];
        forall s: State, f: EventType
          ensures Lookup(next, s, f) == (if s == t && f == e then Some(p) else Lookup(r, s, f))
        {
          LookupAfterUpdate(r, t, e, p, s, f);
        }
        r := next;
        i := i + 1;
      }
    }

    /** `get_policy`: the rule for the pair, with a "Self" recovery path resolved to `s`. */
    function GetPolicy(s: State, e: EventType): (r: Option<FailurePolicy>)
      reads this
      ensures r == Resolve(Lookup(matrix, s, e), s)
    {
      Resolve(Lookup(matrix, s, e), s)
    }
  }

  /** The matrix as looked up through `get_policy`. */
  function PolicyFor(s: State, e: EventType): (r: Option<FailurePolicy>)
    ensures r.Some? ==> s != SX && r.value.recoverPath.ToState?
    ensures r.Some? && r.value.recoverPath.ToState? && r.value.recoverPath.state == SX ==> s == S6 && e == PAYMENT_TIMEOUT
  {
    Resolve(Rule(s, e), s)
  }

  /** TIMEOUT and SESSION_EXPIRED have a rule in every non-terminal state and none in SX. */
  lemma TimeoutAndSessionEverywhere(s: State)
    ensures PolicyFor(s, TIMEOUT).Some? <==> s != SX
    ensures PolicyFor(s, SESSION_EXPIRED).Some? <==> s != SX
    ensures s != SX ==> PolicyFor(s, TIMEOUT).value.recoverPath == ToState(s)
  {
  }

  /** SESSION_EXPIRED always recovers to S0 with its own failure code. */
  lemma SessionExpiredRecoversToS0(s: State)
    requires s != SX
    ensures PolicyFor(s, SESSION_EXPIRED).value.recoverPath == ToState(S0)
    ensures PolicyFor(s, SESSION_EXPIRED).value.failureCode == F_SESSION_EXPIRED
  {
  }

  /** Only the listed pairs have a rule, and SX has none at all. */
  lemma RulesAreSparse(s: State, e: EventType)
    ensures PolicyFor(s, e).Some? ==> e in {SEAT_TAKEN, HOLD_FAILED, TXN_ROLLBACK_REQUIRED, SECTION_EMPTY, CHALLENGE_FAILED,
                                           TIMEOUT, SESSION_EXPIRED, PAYMENT_TIMEOUT, QUEUE_STUCK}
    ensures PolicyFor(SX, e) == None
  {
  }

  /** A payment timeout in S6 goes straight to SX with no budget to spend. */
  lemma PaymentTimeoutEndsRun()
    ensures PolicyFor(S6, PAYMENT_TIMEOUT).value.recoverPath == ToState(SX)
    ensures PolicyFor(S6, PAYMENT_TIMEOUT).value.retryBudgetKey == None
    ensures PolicyFor(S5, PAYMENT_TIMEOUT) == None
  {
  }

  /** A taken seat in S5 retries in S5 on the N_seat budget and stops towards S4. */
  lemma SeatTakenRule()
    ensures PolicyFor(S5, SEAT_TAKEN).value.failureCode == F_SEAT_TAKEN
    ensures PolicyFor(S5, SEAT_TAKEN).value.recoverPath == ToState(S5)
    ensures PolicyFor(S5, SEAT_TAKEN).value.retryBudgetKey == Some("N_seat")
    ensures PolicyFor(S5, SEAT_TAKEN).value.stopCondition == Some("N_seat 소진 시 S4")
  {
  }
}

=== FILE: attack_logger.dfy ===
/**
 * The in-memory decision log: one `DecisionLog` per processed event, kept
 * in recording order, and its rendering as JSON Lines. Decision ids and
 * timestamps come from injected providers, so they are parameters here;
 * the JSON text of one record is a parameter as well.
 */
module AttackLogger {
  import opened Wrappers
  import opened PyValues
  import opened AttackStates
  import opened AttackEvents
  import opened AttackSnapshots
  import opened AttackTransition

  /** The record built for one decision: the snapshot's maps and the result's notes are copied in. */
  function MakeLog(decisionId: string, timestampMs: int, currentState: State, event: SemanticEvent,
                   result: TransitionResult, policy: PolicySnapshot, snapshot: StateSnapshot): (log: DecisionLog)
    ensures log.decisionId == decisionId && log.timestampMs == timestampMs
    ensures log.currentState == currentState && log.event == event && log.nextState == result.nextState
    ensures log.policyProfile == policy.profileName
    ensures log.budgets == snapshot.budgets && log.counters == snapshot.counters
    ensures log.elapsedMs == snapshot.elapsedMs && log.notes == result.notes
  {
    DecisionLog(decisionId, timestampMs, currentState, event, result.nextState, policy.profileName,
                snapshot.budgets, snapshot.counters, snapshot.elapsedMs, result.notes)
  }

  /** The lines joined with a newline between neighbours, none after the last. */
  function Join(lines: seq<string>): (s: string)
    decreases |lines|
  {
    if lines == [] then ""
    else if |lines| == 1 then lines[0]
    else lines[0] + "\n" + Join(lines[1..])
  }

  /** Splitting a text at every newline, as `str.split("\n")` does; the empty text is one empty line. */
  function Split(s: string): (r: seq<string>)
    ensures |r| >= 1
    decreases |s|
  {
    if s == [] then [""]
    else if s[0] == '\n' then [""] + Split(s[1..])
    else
      var rest := Split(s[1..]);
      [[s[0]] + rest[0]] + rest[1..]
  }

  predicate NoNewline(line: string)
  {
    forall k :: 0 <= k < |line| ==> line[k] != '\n'
  }

  lemma {:induction false} SplitLine(line: string, tail: Option<string>)
    requires NoNewline(line)
    ensures tail.None? ==> Split(line) == [line]
    ensures tail.Some? ==> Split(line + "\n" + tail.value) == [line] + Split(tail.value)
    decreases |line|
  {
    if line != [] {
      assert NoNewline(line[1..]);
      SplitLine(line[1..], tail);
      assert [line[0]] + line[1..] == line;
      if tail.Some? {
        var s := line + "\n" + tail.value;
        assert s[0] == line[0] && s[1..] == line[1..] + "\n" + tail.value;
      }
    } else if tail.Some? {
      assert line + "\n" + tail.value == ['\n'] + tail.value;
    }
  }

  /** Lines free of newlines come back unchanged when their join is split again. */
  lemma {:induction false} SplitJoin(lines: seq<string>)
    requires lines != [] && forall k :: 0 <= k < |lines| ==> NoNewline(lines[k])
    ensures Split(Join(lines)) == lines
    decreases |lines|
  {
    if |lines| == 1 {
      SplitLine(lines[0], None);
    } else {
      SplitJoin(lines[1..]);
      SplitLine(lines[0], Some(Join(lines[1..])));
    }
  }

  /** Every record rendered with `render`; a record whose event stage is a non-empty non-`State` value cannot be rendered. */
  function RenderAll(logs: seq<DecisionLog>, render: map<string, Value> -> string): (r: Result<seq<string>, string>)
    ensures r.Ok? <==> forall k :: 0 <= k < |logs| ==> Renderable(logs[k])
    ensures r.Ok? ==> |r.value| == |logs| && forall k :: 0 <= k < |logs| ==> r.value[k] == render(ToDict(logs[k]))
    decreases |logs|
  {
    if logs == [] then Ok([])
    else if !Renderable(logs[0]) then Err("'str' object has no attribute 'value'")
    else
      match RenderAll(logs[1..], render)
      case Err(e) => Err(e)
      case Ok(rest) => Ok([render(ToDict(logs[0]))] + rest)
  }

  class DecisionLogger {
    var logs: seq<DecisionLog>

    constructor()
      ensures logs == []
    {
      logs := [];
    }

    /** `record`: builds the decision's record, appends it, and returns it. */
    method Record(decisionId: string, timestampMs: int, currentState: State, event: SemanticEvent,
                  result: TransitionResult, policy: PolicySnapshot, snapshot: StateSnapshot) returns (log: DecisionLog)
      modifies this
      ensures log == MakeLog(decisionId, timestampMs, currentState, event, result, policy, snapshot)
      ensures logs == old(logs) + [log]
      ensures Count() == old(Count()) + 1
    {
      log := MakeLog(decisionId, timestampMs, currentState, event, result, policy, snapshot);
      logs := logs + [log];
    }

    /** `get_logs`: the records in recording order. */
    function GetLogs(): (r: seq<DecisionLog>)
      reads this
      ensures |r| == Count() && forall k :: 0 <= k < |r| ==> r[k] == logs[k]
    {
      logs
    }

    method Clear()
      modifies this
      ensures logs == [] && Count() == 0
    {
      logs := [];
    }

    function Count(): (n: nat)
      reads this
      ensures n == |logs|
    {
      |logs|
    }

    /**
     * `to_jsonl`: one rendered record per line, in recording order, joined
     * by newlines; a JSON text never holds a raw newline.
     */
    function ToJsonl(render: map<string, Value> -> string): (r: Result<string, string>)
      reads this
      requires forall d :: NoNewline(render(d))
      ensures r.Ok? <==> forall k :: 0 <= k < |logs| ==> Renderable(logs[k])
      ensures r.Ok? && logs == [] ==> r.value == ""
      ensures r.Ok? && logs != [] ==> |Split(r.value)| == |logs|
                                      && forall k :: 0 <= k < |logs| ==> Split(r.value)[k] == render(ToDict(logs[k]))
    {
      match RenderAll(logs, render)
      case Err(e) => Err(e)
      case Ok(lines) =>
        if lines == [] then Ok(Join(lines))
        else SplitJoin(lines); Ok(Join(lines))
    }
  }
}

=== FILE: attack_orchestrator.dfy ===
/**
 * The attack-side run loop: events are consumed in order, each handed to the
 * per-event `transition` decision (a parameter here, since its definition is
 * not part of this model), optionally corrected by the failure matrix, and
 * the store is advanced until the terminal state SX.
 *
 * `RunLoop` is the loop as a function of values; the `RunEvents` method does
 * the same work on a `StateStore` and an optional `ROILogger` and is proved
 * to end in the state `RunLoop` describes.
 */
module AttackOrchestrator {
  import opened Wrappers
  import opened PyValues
  import opened AttackStates
  import opened AttackEvents
  import opened AttackSnapshots
  import opened AttackStore
  import opened AttackTransition
  import opened AttackRegistry
  import opened AttackFailure
  import opened AttackRoi

  /** The per-event decision: current state, event, policy and a snapshot of the store. */
  type Transition = (State, SemanticEvent, PolicySnapshot, StateSnapshot) -> TransitionResult

  /** A budget key or stop condition counts only when it is a non-empty string. */
  predicate Present(o: Option<string>)
  {
    o.Some? && o.value != ""
  }

  datatype PolicyOutcome = PolicyOutcome(nextState: State, terminalReason: Option<ReasonField>, spendsBudget: bool)

  /**
   * `_apply_failure_policy`'s decision. With budget left, one unit is spent
   * and the run goes to the recovery state; with none left, a stop condition
   * naming S4 sends it to S4, one naming SX ends it with ABORT, and otherwise
   * the transition's own decision stands.
   */
  function PolicyOutcomeFor(budgets: map<string, int>, policy: FailurePolicy, original: TransitionResult): (o: PolicyOutcome)
    ensures o.spendsBudget <==> Present(policy.retryBudgetKey) && Get(budgets, policy.retryBudgetKey.value, 0) > 0
  {
    var keep := PolicyOutcome(original.nextState, original.terminalReason, false);
    if !Present(policy.retryBudgetKey) then keep
    else if Get(budgets, policy.retryBudgetKey.value, 0) > 0 then
      PolicyOutcome(if policy.recoverPath.ToState? then policy.recoverPath.state else original.nextState,
                    original.terminalReason, true)
    else if !Present(policy.stopCondition) then keep
    else if Contains(policy.stopCondition.value, "S4") then PolicyOutcome(S4, original.terminalReason, false)
    else if Contains(policy.stopCondition.value, "SX") then PolicyOutcome(SX, Some(EnumMember(ABORT)), false)
    else keep
  }

  /**
   * The same decision as the source spells it: the stop-condition branches
   * assign `State.S4` and `State.SX`, names the `State` enum does not define
   * (its members are `S4_SECTION` and `SX_TERMINAL`), so reaching either one
   * raises AttributeError. Everywhere else it agrees with `PolicyOutcomeFor`.
   */
  function PolicyOutcomeAsWritten(budgets: map<string, int>, policy: FailurePolicy, original: TransitionResult)
    : (r: Result<PolicyOutcome, string>)
    ensures r.Err? <==> Present(policy.retryBudgetKey) && Get(budgets, policy.retryBudgetKey.value, 0) <= 0
                        && Present(policy.stopCondition)
                        && (Contains(policy.stopCondition.value, "S4") || Contains(policy.stopCondition.value, "SX"))
    ensures r.Ok? ==> r.value == PolicyOutcomeFor(budgets, policy, original)
  {
    var keep := PolicyOutcome(original.nextState, original.terminalReason, false);
    if !Present(policy.retryBudgetKey) then Ok(keep)
    else if Get(budgets, policy.retryBudgetKey.value, 0) > 0 then
      Ok(PolicyOutcome(if policy.recoverPath.ToState? then policy.recoverPath.state else original.nextState,
                       original.terminalReason, true))
    else if !Present(policy.stopCondition) then Ok(keep)
    else if Contains(policy.stopCondition.value, "S4") then Err("type object 'State' has no attribute 'S4'")
    else if Contains(policy.stopCondition.value, "SX") then Err("type object 'State' has no attribute 'SX'")
    else Ok(keep)
  }

  /** A text ending in `sub` contains it. */
  lemma EndsWithContains(s: string, sub: string)
    requires |sub| <= |s| && s[|s| - |sub|..] == sub
    ensures Contains(s, sub)
  {
    assert OccursAt(s, sub, |s| - |sub|);
  }

  /** Every rule of the matrix that spends a budget has a stop condition ending in "S4" or "SX". */
  lemma BudgetedRulesStopAtS4OrSX(s: State, e: EventType)
    requires PolicyFor(s, e).Some? && Present(PolicyFor(s, e).value.retryBudgetKey)
    ensures var stop := PolicyFor(s, e).value.stopCondition;
            Present(stop) && |stop.value| >= 2 && stop.value[|stop.value| - 2..] in {"S4", "SX"}
  {
  }

  /**
   * As written, every rule of the matrix that spends a budget raises once
   * that budget is used up, because each of their stop conditions names S4
   * or SX; the corrected decision moves to S4, or ends the run with ABORT.
   */
  lemma ExhaustedRuleRaisesAsWritten(s: State, e: EventType, budgets: map<string, int>, original: TransitionResult)
    requires PolicyFor(s, e).Some? && Present(PolicyFor(s, e).value.retryBudgetKey)
    requires Get(budgets, PolicyFor(s, e).value.retryBudgetKey.value, 0) <= 0
    ensures PolicyOutcomeAsWritten(budgets, PolicyFor(s, e).value, original).Err?
    ensures var o := PolicyOutcomeFor(budgets, PolicyFor(s, e).value, original);
            o.nextState == S4 || (o.nextState == SX && o.terminalReason == Some(EnumMember(ABORT)))
  {
    BudgetedRulesStopAtS4OrSX(s, e);
    var stop := PolicyFor(s, e).value.stopCondition.value;
    EndsWithContains(stop, stop[|stop| - 2..]);
  }

  /** The note appended for an applied policy. */
  function PolicyNote(code: FailureCode): string
  {
    "Failure Policy 적용: " + code.Value()
  }

  predicate RoiOk(roi: Option<RoiState>)
  {
    roi.Some? ==> Consistent(roi.value)
  }

  /**
   * Applying a policy: the store after any budget spending, the ROI counters
   * after the failure is logged (when a logger is given), and the new result,
   * whose construction raises when reason and state disagree.
   */
  function ApplyPolicy(snap: StateSnapshot, roi: Option<RoiState>, policy: FailurePolicy, original: TransitionResult)
    : (r: (StateSnapshot, Option<RoiState>, Result<TransitionResult, string>))
    requires RoiOk(roi)
    ensures RoiOk(r.1) && r.1.Some? == roi.Some?
    ensures r.0 == snap.(budgets := r.0.budgets)
  {
    var o := PolicyOutcomeFor(snap.budgets, policy, original);
    var snap1 := if o.spendsBudget then snap.(budgets := Bump(snap.budgets, policy.retryBudgetKey.value, -1).0) else snap;
    var roi1 := if roi.Some? then Some(LogFailureStep(roi.value, policy.failureCode, snap.elapsedMs, o.nextState.Value())) else None;
    (snap1, roi1, MakeTransitionResult(o.nextState, o.terminalReason, Some(policy.failureCode.Value()),
                                       original.notes + [PolicyNote(policy.failureCode)]))
  }

  /** With budget left, exactly one unit of that budget is spent and the run moves to the recovery state. */
  lemma SpendsOneUnit(snap: StateSnapshot, roi: Option<RoiState>, policy: FailurePolicy, original: TransitionResult)
    requires RoiOk(roi) && Present(policy.retryBudgetKey)
    requires Get(snap.budgets, policy.retryBudgetKey.value, 0) > 0
    requires policy.recoverPath.ToState?
    ensures var key := policy.retryBudgetKey.value;
            ApplyPolicy(snap, roi, policy, original).0 == snap.(budgets := snap.budgets[key := snap.budgets[key] - 1])
    ensures ApplyPolicy(snap, roi, policy, original).2.Ok? ==> ApplyPolicy(snap, roi, policy, original).2.value.nextState == policy.recoverPath.state
  {
  }

  /** Without budget left, the stop condition decides; no budget changes. */
  lemma StopConditionRule(snap: StateSnapshot, roi: Option<RoiState>, policy: FailurePolicy, original: TransitionResult)
    requires RoiOk(roi) && Present(policy.retryBudgetKey)
    requires Get(snap.budgets, policy.retryBudgetKey.value, 0) <= 0
    ensures ApplyPolicy(snap, roi, policy, original).0 == snap
    ensures var o := PolicyOutcomeFor(snap.budgets, policy, original);
            if Present(policy.stopCondition) && Contains(policy.stopCondition.value, "S4") then o.nextState == S4
            else if Present(policy.stopCondition) && Contains(policy.stopCondition.value, "SX") then
              o.nextState == SX && o.terminalReason == Some(EnumMember(ABORT))
            else o.nextState == original.nextState && o.terminalReason == original.terminalReason
  {
  }

  /** Without a budget key the store is untouched and the transition's decision stands. */
  lemma NoBudgetKeyKeepsDecision(snap: StateSnapshot, roi: Option<RoiState>, policy: FailurePolicy, original: TransitionResult)
    requires RoiOk(roi) && !Present(policy.retryBudgetKey)
    ensures ApplyPolicy(snap, roi, policy, original).0 == snap
    ensures WellFormed(original) ==> ApplyPolicy(snap, roi, policy, original).2.Ok?
    ensures PolicyOutcomeFor(snap.budgets, policy, original).nextState == original.nextState
  {
  }

  /** A built result always carries the policy's failure code and exactly one more note. */
  lemma PolicyResultMarks(snap: StateSnapshot, roi: Option<RoiState>, policy: FailurePolicy, original: TransitionResult)
    requires RoiOk(roi)
    ensures var r := ApplyPolicy(snap, roi, policy, original).2;
            r.Ok? ==> r.value.failureCode == Some(policy.failureCode.Value())
                      && r.value.notes == original.notes + [PolicyNote(policy.failureCode)]
                      && r.value.commands == []
  {
  }

  /**
   * A terminal decision meeting a policy that recovers to a non-terminal
   * state keeps its terminal reason, so building the result raises.
   */
  lemma TerminalRecoveryRaises(snap: StateSnapshot, policy: FailurePolicy, original: TransitionResult)
    requires WellFormed(original) && original.nextState == SX
    requires Present(policy.retryBudgetKey) && Get(snap.budgets, policy.retryBudgetKey.value, 0) > 0
    requires policy.recoverPath.ToState? && policy.recoverPath.state != SX
    ensures ApplyPolicy(snap, None, policy, original).2.Err?
  {
  }

  /** The loop's own variables next to the store and the ROI counters. */
  datatype RunState = RunState(
    snap: StateSnapshot,
    path: seq<State>,
    handled: nat,
    last: Option<TransitionResult>,
    roi: Option<RoiState>)

  /** The policy for the event, if the matrix is given: a raw-string type has no `.value` and raises; an unknown value means no policy. */
  function LookupPolicy(matrix: Option<map<(State, EventType), FailurePolicy>>, e: SemanticEvent, current: State)
    : (r: Result<Option<FailurePolicy>, string>)
    ensures matrix.None? ==> r == Ok(None)
    ensures r.Err? <==> matrix.Some? && e.eventType.RawType?
  {
    match matrix
    case None => Ok(None)
    case Some(m) =>
      match e.eventType
      case RawType(_) => Err("'str' object has no attribute 'value'")
      case EnumType(v) =>
        match ParseEventType(v)
        case None => Ok(None)
        case Some(et) => Ok(Resolve(Lookup(m, current, et), current))
  }

  /** Moving to the decided state: the store's state, the remembered state before S3, the path and the count. */
  function Advance(st: RunState, current: State, res: TransitionResult): (r: RunState)
    requires |st.path| > 0
  {
    var next := res.nextState;
    var snap1 := st.snap.(currentState := next);
    var snap2 := if IsSecurity(next) && CanBeLastNonSecurity(current) then snap1.(lastNonSecurityState := Some(current)) else snap1;
    RunState(snap2, if st.path[|st.path| - 1] != next then st.path + [next] else st.path, st.handled + 1, Some(res), st.roi)
  }

  /** One iteration of the loop for a non-terminal current state: the new loop state, and the error raised, if any. */
  function ProcessEvent(st: RunState, e: SemanticEvent, policy: PolicySnapshot,
                        matrix: Option<map<(State, EventType), FailurePolicy>>, transition: Transition)
    : (r: (RunState, Option<string>))
    requires |st.path| > 0 && RoiOk(st.roi)
    ensures |r.0.path| > 0 && RoiOk(r.0.roi) && r.0.roi.Some? == st.roi.Some?
  {
    var current := st.snap.currentState;
    var result := transition(current, e, policy, st.snap);
    match LookupPolicy(matrix, e, current)
    case Err(msg) => (st, Some(msg))
    case Ok(fp) =>
      if fp.None? then (Advance(st, current, result), None)
      else
        var (snap1, roi1, built) := ApplyPolicy(st.snap, st.roi, fp.value, result);
        match built
        case Err(msg) => (st.(snap := snap1, roi := roi1), Some(msg))
        case Ok(res) => (Advance(st.(snap := snap1, roi := roi1), current, res), None)
  }

  /** The loop over the remaining events: stop at a terminal state, on an error, or when the events run out. */
  function RunLoop(events: seq<SemanticEvent>, st: RunState, policy: PolicySnapshot,
                   matrix: Option<map<(State, EventType), FailurePolicy>>, transition: Transition)
    : (r: (RunState, Option<string>))
    requires |st.path| > 0 && RoiOk(st.roi)
    ensures |r.0.path| > 0 && RoiOk(r.0.roi) && r.0.roi.Some? == st.roi.Some?
    decreases |events|
  {
    if events == [] || IsTerminal(st.snap.currentState) then (st, None)
    else
      var (st1, err) := ProcessEvent(st, events[0], policy, matrix, transition);
      if err.Some? || IsTerminal(st1.snap.currentState) then (st1, err)
      else RunLoop(events[1..], st1, policy, matrix, transition)
  }

  /** The path starts at `first`, ends at the store's state and never repeats a state twice in a row. */
  predicate PathOk(st: RunState, first: State)
  {
    |st.path| > 0 && st.path[0] == first && st.path[|st.path| - 1] == st.snap.currentState
    && forall k :: 0 <= k < |st.path| - 1 ==> st.path[k] != st.path[k + 1]
  }

  lemma AdvanceKeepsPath(st: RunState, res: TransitionResult, first: State)
    requires PathOk(st, first)
    ensures PathOk(Advance(st, st.snap.currentState, res), first)
    ensures Advance(st, st.snap.currentState, res).handled == st.handled + 1
  {
    var r := Advance(st, st.snap.currentState, res);
    if st.path[|st.path| - 1] != res.nextState {
      assert r.path == st.path + [res.nextState];
      assert forall k :: 0 <= k < |st.path| ==> r.path[k] == st.path[k];
    }
  }

  lemma ProcessEventKeepsPath(st: RunState, e: SemanticEvent, policy: PolicySnapshot,
                              matrix: Option<map<(State, EventType), FailurePolicy>>, transition: Transition, first: State)
    requires PathOk(st, first) && RoiOk(st.roi)
    ensures PathOk(ProcessEvent(st, e, policy, matrix, transition).0, first)
    ensures var r := ProcessEvent(st, e, policy, matrix, transition);
            r.1.None? ==> r.0.handled == st.handled + 1
    ensures var r := ProcessEvent(st, e, policy, matrix, transition);
            r.1.Some? ==> r.0.handled == st.handled && r.0.path == st.path && r.0.last == st.last
  {
    var current := st.snap.currentState;
    var result := transition(current, e, policy, st.snap);
    var lookup := LookupPolicy(matrix, e, current);
    if lookup.Ok? {
      if lookup.value.None? {
        AdvanceKeepsPath(st, result, first);
      } else {
        var (snap1, roi1, built) := ApplyPolicy(st.snap, st.roi, lookup.value.value, result);
        var st1 := st.(snap := snap1, roi := roi1);
        assert PathOk(st1, first);
        if built.Ok? {
          AdvanceKeepsPath(st1, built.value, first);
        }
      }
    }
  }

  /**
   * Along the whole loop the path keeps its shape, and every event taken
   * without error counts once: the count never exceeds the events given.
   */
  lemma {:induction false} RunLoopKeepsPath(events: seq<SemanticEvent>, st: RunState, policy: PolicySnapshot,
                                            matrix: Option<map<(State, EventType), FailurePolicy>>, transition: Transition,
                                            first: State)
    requires PathOk(st, first) && RoiOk(st.roi)
    ensures var r := RunLoop(events, st, policy, matrix, transition);
            PathOk(r.0, first) && st.handled <= r.0.handled <= st.handled + |events|
    decreases |events|
  {
    if events != [] && !IsTerminal(st.snap.currentState) {
      ProcessEventKeepsPath(st, events[0], policy, matrix, transition, first);
      var (st1, err) := ProcessEvent(st, events[0], policy, matrix, transition);
      if !(err.Some? || IsTerminal(st1.snap.currentState)) {
        RunLoopKeepsPath(events[1..], st1, policy, matrix, transition, first);
      }
    }
  }

  /** Without an error, a run that has not reached SX has taken every event. */
  lemma {:induction false} RunLoopTakesAllUnlessTerminal(events: seq<SemanticEvent>, st: RunState, policy: PolicySnapshot,
                                                         matrix: Option<map<(State, EventType), FailurePolicy>>,
                                                         transition: Transition)
    requires |st.path| > 0 && RoiOk(st.roi)
    ensures var r := RunLoop(events, st, policy, matrix, transition);
            r.1.None? && !IsTerminal(r.0.snap.currentState) ==> r.0.handled == st.handled + |events|
    decreases |events|
  {
    if events != [] && !IsTerminal(st.snap.currentState) {
      var (st1, err) := ProcessEvent(st, events[0], policy, matrix, transition);
      if !(err.Some? || IsTerminal(st1.snap.currentState)) {
        RunLoopTakesAllUnlessTerminal(events[1..], st1, policy, matrix, transition);
      }
    }
  }

  /** Once SX is reached, events after it are never looked at. */
  lemma {:induction false} LaterEventsIgnored(events: seq<SemanticEvent>, more: seq<SemanticEvent>, st: RunState, policy: PolicySnapshot,
                                              matrix: Option<map<(State, EventType), FailurePolicy>>, transition: Transition)
    requires |st.path| > 0 && RoiOk(st.roi)
    requires RunLoop(events, st, policy, matrix, transition).1.None?
    requires IsTerminal(RunLoop(events, st, policy, matrix, transition).0.snap.currentState)
    ensures RunLoop(events + more, st, policy, matrix, transition) == RunLoop(events, st, policy, matrix, transition)
    decreases |events|
  {
    if events != [] && !IsTerminal(st.snap.currentState) {
      assert (events + more)[0] == events[0];
      assert (events + more)[1..] == events[1..] + more;
      var (st1, err) := ProcessEvent(st, events[0], policy, matrix, transition);
      if !(err.Some? || IsTerminal(st1.snap.currentState)) {
        LaterEventsIgnored(events[1..], more, st1, policy, matrix, transition);
      }
    }
  }

  /** The state before S3 is remembered only on entering S3 from S1, S2, S4, S5 or S6, and is then that state. */
  lemma LastNonSecurityRule(st: RunState, current: State, res: TransitionResult)
    requires |st.path| > 0
    ensures var r := Advance(st, current, res);
            r.snap.lastNonSecurityState
              == if res.nextState == S3 && current in {S1, S2, S4, S5, S6} then Some(current) else st.snap.lastNonSecurityState
  {
  }

  /** The reason a finished run reports: the last result's, or DONE. */
  function FinalReason(last: Option<TransitionResult>): ReasonField
  {
    if last.Some? && last.value.terminalReason.Some? then last.value.terminalReason.value else EnumMember(DONE)
  }

  /** The end of `run_events`: an error raised in the loop, a run that ran out of events, or the execution result. */
  function Finish(fin: RunState, err: Option<string>): (r: Result<ExecutionResult, string>)
    ensures err.Some? ==> r == Err(err.value)
    ensures err.None? && !IsTerminal(fin.snap.currentState) ==> r.Err?
    ensures r.Ok? ==> IsTerminal(fin.snap.currentState) && r.value.terminalState == SX
    ensures r.Ok? ==> r.value.statePath == fin.path && r.value.handledEvents == fin.handled
    ensures r.Ok? ==> r.value.terminalReason == Literal(FinalReason(fin.last).Text())
    ensures err.None? && IsTerminal(fin.snap.currentState) && FinalReason(fin.last).Text() in TERMINAL_REASONS ==> r.Ok?
  {
    var final := fin.snap.currentState;
    if err.Some? then Err(err.value)
    else if !IsTerminal(final) then Err("이벤트 리스트 소진 후에도 터미널 미도달: current_state=" + final.Value())
    else MakeExecutionResultByValue(fin.path, final, FinalReason(fin.last), fin.handled,
                                    fin.snap.elapsedMs, fin.snap.budgets, fin.snap.counters)
  }

  /**
   * The end of `run_events` as the source spells it: the reason is handed to
   * `ExecutionResult` as it is, and a `TerminalReason` member is never in the
   * set of reason strings, so a run reaching SX raises unless its last
   * result carried the reason as a plain string. When it does not raise, it
   * agrees with `Finish`.
   */
  function FinishAsWritten(fin: RunState, err: Option<string>): (r: Result<ExecutionResult, string>)
    ensures r.Ok? <==> err.None? && IsTerminal(fin.snap.currentState)
                       && FinalReason(fin.last).Literal? && FinalReason(fin.last).text in TERMINAL_REASONS
    ensures err.Some? ==> r == Err(err.value)
    ensures r.Ok? ==> r == Finish(fin, err)
  {
    var final := fin.snap.currentState;
    if err.Some? then Err(err.value)
    else if !IsTerminal(final) then Err("이벤트 리스트 소진 후에도 터미널 미도달: current_state=" + final.Value())
    else MakeExecutionResult(fin.path, final, FinalReason(fin.last), fin.handled,
                             fin.snap.elapsedMs, fin.snap.budgets, fin.snap.counters)
  }

  function InitialRun(snap: StateSnapshot, roi: Option<RoiState>): (st: RunState)
    ensures PathOk(st, snap.currentState) && st.handled == 0
  {
    RunState(snap, [snap.currentState], 0, None, roi)
  }

  /** `run_events` as a function of values. */
  function RunSpec(events: seq<SemanticEvent>, snap: StateSnapshot, roi: Option<RoiState>, policy: PolicySnapshot,
                   matrix: Option<map<(State, EventType), FailurePolicy>>, transition: Transition): Result<ExecutionResult, string>
    requires RoiOk(roi)
  {
    var (fin, err) := RunLoop(events, InitialRun(snap, roi), policy, matrix, transition);
    Finish(fin, err)
  }

  /**
   * A successful run's path starts at the initial state, has no two equal
   * neighbours and ends in SX, and it counted at most one event per event
   * given; a run that ends without error short of SX raises.
   */
  lemma RunSpecShape(events: seq<SemanticEvent>, snap: StateSnapshot, roi: Option<RoiState>, policy: PolicySnapshot,
                     matrix: Option<map<(State, EventType), FailurePolicy>>, transition: Transition)
    requires RoiOk(roi)
    ensures var r := RunSpec(events, snap, roi, policy, matrix, transition);
            r.Ok? ==> |r.value.statePath| > 0 && r.value.statePath[0] == snap.currentState
                      && r.value.statePath[|r.value.statePath| - 1] == SX
                      && (forall k :: 0 <= k < |r.value.statePath| - 1 ==> r.value.statePath[k] != r.value.statePath[k + 1])
                      && 0 <= r.value.handledEvents <= |events|
    ensures var (fin, err) := RunLoop(events, InitialRun(snap, roi), policy, matrix, transition);
            var failed := err.None? && !IsTerminal(fin.snap.currentState);
            failed ==> RunSpec(events, snap, roi, policy, matrix, transition).Err? && fin.handled == |events|
  {
    RunLoopKeepsPath(events, InitialRun(snap, roi), policy, matrix, transition, snap.currentState);
    RunLoopTakesAllUnlessTerminal(events, InitialRun(snap, roi), policy, matrix, transition);
  }

  /** A run that starts in SX handles nothing and ends with DONE. */
  lemma StartInTerminal(events: seq<SemanticEvent>, snap: StateSnapshot, roi: Option<RoiState>, policy: PolicySnapshot,
                        matrix: Option<map<(State, EventType), FailurePolicy>>, transition: Transition)
    requires RoiOk(roi) && snap.currentState == SX
    ensures RunSpec(events, snap, roi, policy, matrix, transition).Ok?
    ensures RunSpec(events, snap, roi, policy, matrix, transition).value.handledEvents == 0
    ensures RunSpec(events, snap, roi, policy, matrix, transition).value.statePath == [SX]
    ensures RunSpec(events, snap, roi, policy, matrix, transition).value.IsSuccess()
  {
  }

  /**
   * As written, the same run raises: with no result to take a reason from,
   * the source falls back to the member `TerminalReason.DONE`, which the
   * execution result refuses.
   */
  lemma StartInTerminalRaisesAsWritten(events: seq<SemanticEvent>, snap: StateSnapshot, roi: Option<RoiState>,
                                       policy: PolicySnapshot, matrix: Option<map<(State, EventType), FailurePolicy>>,
                                       transition: Transition)
    requires RoiOk(roi) && snap.currentState == SX
    ensures var (fin, err) := RunLoop(events, InitialRun(snap, roi), policy, matrix, transition);
            FinishAsWritten(fin, err).Err? && fin.last.None?
  {
  }

  function RoiOf(roi: ROILogger?): Option<RoiState>
    reads roi
  {
    if roi == null then None else Some(roi.Snapshot())
  }

  function MatrixOf(matrix: FailureMatrix?): Option<map<(State, EventType), FailurePolicy>>
    reads matrix
  {
    if matrix == null then None else Some(matrix.matrix)
  }

  /** `_apply_failure_policy` on the store and the logger. */
  method ApplyFailurePolicy(store: StateStore, policy: FailurePolicy, original: TransitionResult,
                            event: SemanticEvent, roi: ROILogger?) returns (r: Result<TransitionResult, string>)
    requires roi != null ==> roi.Valid()
    modifies store, roi
    ensures roi != null ==> roi.Valid()
    ensures (store.snapshot, RoiOf(roi), r) == ApplyPolicy(old(store.snapshot), old(RoiOf(roi)), policy, original)
  {
    var snapshot := store.GetSnapshot();
    var next := original.nextState;
    var reason := original.terminalReason;
    var code := policy.failureCode;
    if Present(policy.retryBudgetKey) {
      var key := policy.retryBudgetKey.value;
      var current := store.GetBudget(key);
      if current > 0 {
        var _ := store.DecrementBudget(key);
        if policy.recoverPath.ToState? {
          next := policy.recoverPath.state;
        }
      } else if Present(policy.stopCondition) {
        if Contains(policy.stopCondition.value, "S4") {
          next := S4;
        } else if Contains(policy.stopCondition.value, "SX") {
          next := SX;
          reason := Some(EnumMember(ABORT));
        }
      }
    }
    if roi != null {
      roi.LogFailure(snapshot.currentState, event.eventType.Text(), code, store.snapshot.budgets, 0, snapshot.elapsedMs, next.Value());
    }
    r := MakeTransitionResult(next, reason, Some(code.Value()), original.notes + [PolicyNote(code)]);
  }

  /** One pass of the loop body for a non-terminal current state. */
  method HandleEvent(store: StateStore, e: SemanticEvent, policy: PolicySnapshot, matrix: FailureMatrix?, roi: ROILogger?,
                     transition: Transition, path: seq<State>, handled: nat, last: Option<TransitionResult>)
    returns (path': seq<State>, handled': nat, last': Option<TransitionResult>, err: Option<string>)
    requires |path| > 0
    requires roi != null ==> roi.Valid()
    modifies store, roi
    ensures roi != null ==> roi.Valid()
    ensures (RunState(store.snapshot, path', handled', last', RoiOf(roi)), err)
         == ProcessEvent(RunState(old(store.snapshot), path, handled, last, old(RoiOf(roi))), e, policy, MatrixOf(matrix), transition)
  {
    path', handled', last', err := path, handled, last, None;
    var snapshot := store.GetSnapshot();
    var current := snapshot.currentState;
    var result := transition(current, e, policy, snapshot);
    var found := FindPolicy(matrix, e, current);
    if found.Err? {
      err := Some(found.error);
      return;
    }
    if found.value.Some? {
      var built := ApplyFailurePolicy(store, found.value.value, result, e, roi);
      if built.Err? {
        err := Some(built.error);
        return;
      }
      result := built.value;
    }
    path', handled', last' := Commit(store, current, result, path, handled);
  }

  /** The failure policy for the event, looked up as `LookupPolicy` says; a raw-string event type raises. */
  method FindPolicy(matrix: FailureMatrix?, e: SemanticEvent, current: State) returns (r: Result<Option<FailurePolicy>, string>)
    ensures r == LookupPolicy(MatrixOf(matrix), e, current)
  {
    r := Ok(None);
    if matrix != null {
      match e.eventType {
        case RawType(_) =>
          r := Err("'str' object has no attribute 'value'");
        case EnumType(v) =>
          var et := ParseEventType(v);
          if et.Some? {
            r := Ok(matrix.GetPolicy(current, et.value));
          }
      }
    }
  }

  /** Moving the store to the decided state, as `Advance` says: the path, the count and the last result follow. */
  method Commit(store: StateStore, current: State, result: TransitionResult, path: seq<State>, handled: nat)
    returns (path': seq<State>, handled': nat, last': Option<TransitionResult>)
    requires |path| > 0
    modifies store
    ensures var a := Advance(RunState(old(store.snapshot), path, handled, None, None), current, result);
            store.snapshot == a.snap && path' == a.path && handled' == a.handled && last' == a.last
  {
    last' := Some(result);
    var next := result.nextState;
    store.SetState(next);
    if IsSecurity(next) && CanBeLastNonSecurity(current) {
      store.SetLastNonSecurityState(Some(current));
    }
    path' := path;
    if path[|path| - 1] != next {
      path' := path + [next];
    }
    handled' := handled + 1;
  }

  /** The event loop of `run_events`: the store, the logger and the loop's own state end as `RunLoop` says. */
  method EventLoop(events: seq<SemanticEvent>, store: StateStore, policy: PolicySnapshot, matrix: FailureMatrix?,
                   roi: ROILogger?, transition: Transition)
    returns (path: seq<State>, handled: nat, last: Option<TransitionResult>, err: Option<string>)
    requires roi != null ==> roi.Valid()
    modifies store, roi
    ensures roi != null ==> roi.Valid()
    ensures (RunState(store.snapshot, path, handled, last, RoiOf(roi)), err)
         == RunLoop(events, InitialRun(old(store.snapshot), old(RoiOf(roi))), policy, MatrixOf(matrix), transition)
  {
    ghost var target := RunLoop(events, InitialRun(store.snapshot, RoiOf(roi)), policy, MatrixOf(matrix), transition);
    path := [store.GetSnapshot().currentState];
    handled := 0;
    last := None;
    err := None;
    var stopped := false;
    var i := 0;
    while i < |events| && !stopped
      invariant 0 <= i <= |events| && |path| > 0
      invariant roi != null ==> roi.Valid()
      invariant MatrixOf(matrix) == old(MatrixOf(matrix))
      invariant !stopped ==> err.None? && RunLoop(events[i..], RunState(store.snapshot, path, handled, last, RoiOf(roi)), policy, MatrixOf(matrix), transition) == target
      invariant stopped ==> (RunState(store.snapshot, path, handled, last, RoiOf(roi)), err) == target
      decreases |events| - i, !stopped
    {
      if IsTerminal(store.snapshot.currentState) {
        stopped := true;
      } else {
        assert events[i..][0] == events[i] && events[i..][1..] == events[i + 1..];
        path, handled, last, err := HandleEvent(store, events[i], policy, matrix, roi, transition, path, handled, last);
        if err.Some? || IsTerminal(store.snapshot.currentState) {
          stopped := true;
        }
        i := i + 1;
      }
    }
    if !stopped {
      assert events[i..] == [];
    }
  }

  /** `run_events`: the store and the logger end as `RunLoop` says, and the result is `Finish`'s. */
  method RunEvents(events: seq<SemanticEvent>, store: StateStore, policy: PolicySnapshot, matrix: FailureMatrix?,
                   roi: ROILogger?, transition: Transition) returns (r: Result<ExecutionResult, string>)
    requires roi != null ==> roi.Valid()
    modifies store, roi
    ensures roi != null ==> roi.Valid()
    ensures var (fin, err) := RunLoop(events, InitialRun(old(store.snapshot), old(RoiOf(roi))), policy, MatrixOf(matrix), transition);
            store.snapshot == fin.snap && RoiOf(roi) == fin.roi && r == Finish(fin, err)
  {
    var path, handled, last, err := EventLoop(events, store, policy, matrix, roi, transition);
    r := Finish(RunState(store.snapshot, path, handled, last, RoiOf(roi)), err);
  }
}

=== FILE: attack_policy_loader.dfy ===
/**
 * Policy profiles: named sets of budgets, stage time limits and free-form
 * policy rules, read from a document of profile objects. A profile object
 * is given as its entries in document order; reading the document from a
 * file is not part of this model.
 */
module AttackPolicyLoader {
  import opened Wrappers
  import opened PyValues

  /** The loader's two exceptions; a schema error may name the profile it concerns. */
  datatype LoaderError =
    | ProfileNotFound(name: string)
    | InvalidProfileSchema(message: string, profileName: Option<string>)

  datatype PolicyProfile = PolicyProfile(
    profileName: string,
    budgets: map<string, int>,
    timeboxes: map<string, int>,
    policies: map<string, string>)
  {
    /** The stored budget, or the default when the key is absent. */
    function GetBudget(key: string, default: int): (r: int)
      ensures key in budgets ==> r == budgets[key]
      ensures key !in budgets ==> r == default
    {
      Get(budgets, key, default)
    }

    /** The stored time limit in milliseconds, or the default. */
    function GetTimebox(key: string, default: int): (r: int)
      ensures key in timeboxes ==> r == timeboxes[key]
      ensures key !in timeboxes ==> r == default
    {
      Get(timeboxes, key, default)
    }

    /** The stored policy rule, or the default. */
    function GetPolicy(key: string, default: string): (r: string)
      ensures key in policies ==> r == policies[key]
      ensures key !in policies ==> r == default
    {
      Get(policies, key, default)
    }

    /** One rules dictionary: budgets, then time limits, then policies, a later group winning on a shared key. */
    function ToRulesDict(): (d: map<string, Value>)
      ensures d.Keys == budgets.Keys + timeboxes.Keys + policies.Keys
      ensures forall k :: k in policies ==> d[k] == PyStr(policies[k])
      ensures forall k :: k in timeboxes && k !in policies ==> d[k] == PyInt(timeboxes[k])
      ensures forall k :: k in budgets && k !in timeboxes && k !in policies ==> d[k] == PyInt(budgets[k])
    {
      var b := map k | k in budgets :: PyInt(budgets[k]);
      var t := map k | k in timeboxes :: PyInt(timeboxes[k]);
      var p := map k | k in policies :: PyStr(policies[k]);
      b + t + p
    }
  }

  const DEFAULT_PROFILE_NAME: string := "default"

  const BUDGET_KEYS: set<string> :=
    {"N_challenge", "N_section", "N_seat", "N_hold", "N_txn_rb", "seat_taken_threshold", "max_retries"}

  const TIMEBOX_KEYS: set<string> :=
    {"S0_timeout_ms", "S1_timeout_ms", "S2_timeout_ms", "S3_timeout_ms", "S4_timeout_ms",
     "S5_timeout_ms", "S6_timeout_ms", "global_timeout_ms"}

  /** A profile document entry: an object with its entries in order, or any other JSON value. */
  datatype ProfileData = Object(items: seq<(string, Value)>) | NotAnObject

  function EmptyProfile(name: string): (p: PolicyProfile)
    ensures p.profileName == name && p.budgets == map[] && p.timeboxes == map[] && p.policies == map[]
  {
    PolicyProfile(name, map[], map[], map[])
  }

  /** The effect of one entry on a profile being built: a typed budget or time limit, or a policy kept as text. */
  function ParseEntry(name: string, p: PolicyProfile, key: string, value: Value): (r: Result<PolicyProfile, LoaderError>)
    ensures r.Err? <==> (key in BUDGET_KEYS || key in TIMEBOX_KEYS) && !IsPyInt(value)
  {
    if key in BUDGET_KEYS then
      if !IsPyInt(value) then Err(InvalidProfileSchema("Budget '" + key + "' must be an integer", Some(name)))
      else Ok(p.(budgets := p.budgets[key := AsInt(value)]))
    else if key in TIMEBOX_KEYS then
      if !IsPyInt(value) then Err(InvalidProfileSchema("Timebox '" + key + "' must be an integer", Some(name)))
      else Ok(p.(timeboxes := p.timeboxes[key := AsInt(value)]))
    else Ok(p.(policies := p.policies[key := Str(value)]))
  }

  /** The entries read in order; the first badly typed budget or time limit stops the reading. */
  function ParseItems(name: string, items: seq<(string, Value)>): (r: Result<PolicyProfile, LoaderError>)
    decreases |items|
  {
    if items == [] then Ok(EmptyProfile(name))
    else
      match ParseItems(name, items[..|items| - 1])
      case Err(e) => Err(e)
      case Ok(p) => ParseEntry(name, p, items[|items| - 1].0, items[|items| - 1].1)
  }

  /** The value a dictionary built from these entries holds under `key`: its last entry with that key. */
  function LastValue(items: seq<(string, Value)>, key: string): (r: Option<Value>)
    ensures r.None? <==> forall j :: 0 <= j < |items| ==> items[j].0 != key
    decreases |items|
  {
    if items == [] then None
    else if items[|items| - 1].0 == key then Some(items[|items| - 1].1)
    else LastValue(items[..|items| - 1], key)
  }

  /** An error, once raised, is the result of reading any longer list of entries. */
  lemma {:induction false} ParseErrorPersists(name: string, items: seq<(string, Value)>, i: nat)
    requires i <= |items| && ParseItems(name, items[..i]).Err?
    ensures ParseItems(name, items) == ParseItems(name, items[..i])
    decreases |items| - i
  {
    if i < |items| {
      assert items[..i + 1][..i] == items[..i];
      ParseErrorPersists(name, items, i + 1);
    } else {
      assert items[..i] == items;
    }
  }

  /** Reading succeeds exactly when every budget and time-limit entry holds an integer (a boolean counts as one). */
  lemma {:induction false} ParseOkIff(name: string, items: seq<(string, Value)>)
    ensures ParseItems(name, items).Ok?
        <==> forall j :: 0 <= j < |items| && (items[j].0 in BUDGET_KEYS || items[j].0 in TIMEBOX_KEYS) ==> IsPyInt(items[j].1)
    ensures ParseItems(name, items).Ok? ==> ParseItems(name, items).value.profileName == name
    decreases |items|
  {
    if items != [] {
      var pre := items[..|items| - 1];
      ParseOkIff(name, pre);
      assert forall j :: 0 <= j < |pre| ==> pre[j] == items[j];
    }
  }

  /**
   * Reading partitions the keys: a budget key lands in the budgets, a
   * time-limit key in the time limits, any other key in the policies as
   * text, each holding the key's last value; nothing else appears.
   */
  lemma {:induction false} ParsePartition(name: string, items: seq<(string, Value)>, key: string)
    requires ParseItems(name, items).Ok?
    ensures var p := ParseItems(name, items).value;
      && (key in p.budgets <==> key in BUDGET_KEYS && LastValue(items, key).Some?)
      && (key in p.timeboxes <==> key in TIMEBOX_KEYS && LastValue(items, key).Some?)
      && (key in p.policies <==> key !in BUDGET_KEYS && key !in TIMEBOX_KEYS && LastValue(items, key).Some?)
    ensures var p := ParseItems(name, items).value;
      && (key in p.budgets ==> IsPyInt(LastValue(items, key).value) && p.budgets[key] == AsInt(LastValue(items, key).value))
      && (key in p.timeboxes ==> IsPyInt(LastValue(items, key).value) && p.timeboxes[key] == AsInt(LastValue(items, key).value))
      && (key in p.policies ==> p.policies[key] == Str(LastValue(items, key).value))
    decreases |items|
  {
    if items != [] {
      var pre := items[..|items| - 1];
      assert ParseItems(name, pre).Ok?;
      ParsePartition(name, pre, key);
    }
  }

  /** `_parse_profile`: anything but an object is refused, naming the profile. */
  function ParseProfileSpec(name: string, data: ProfileData): (r: Result<PolicyProfile, LoaderError>)
    ensures data.NotAnObject? ==> r == Err(InvalidProfileSchema("Profile data must be an object", Some(name)))
    ensures r.Err? ==> r.error.InvalidProfileSchema? && r.error.profileName == Some(name)
  {
    match data
    case NotAnObject => Err(InvalidProfileSchema("Profile data must be an object", Some(name)))
    case Object(items) => ParseErrorNamesProfile(name, items); ParseItems(name, items)
  }

  lemma {:induction false} ParseErrorNamesProfile(name: string, items: seq<(string, Value)>)
    ensures ParseItems(name, items).Err? ==> (ParseItems(name, items).error.InvalidProfileSchema?
                                          && ParseItems(name, items).error.profileName == Some(name))
    decreases |items|
  {
    if items != [] {
      ParseErrorNamesProfile(name, items[..|items| - 1]);
    }
  }

  /** `_parse_profile`, entry by entry. */
  method ParseProfile(name: string, data: ProfileData) returns (r: Result<PolicyProfile, LoaderError>)
    ensures r == ParseProfileSpec(name, data)
  {
    if data.NotAnObject? {
      return Err(InvalidProfileSchema("Profile data must be an object", Some(name)));
    }
    var items := data.items;
    var budgets: map<string, int> := map[];
    var timeboxes: map<string, int> := map[];
    var policies: map<string, string> := map[];
    var i := 0;
    while i < |items|
      invariant 0 <= i <= |items|
      invariant ParseItems(name, items[..i]) == Ok(PolicyProfile(name, budgets, timeboxes, policies))
    {
      var (key, value) := items[i];
      assert items[..i + 1][..i] == items[..i];
      if key in BUDGET_KEYS {
        if !IsPyInt(value) {
          r := Err(InvalidProfileSchema("Budget '" + key + "' must be an integer", Some(name)));
          ParseErrorPersists(name, items, i + 1);
          return;
        }
        budgets := budgets[key := AsInt(value)];
      } else if key in TIMEBOX_KEYS {
        if !IsPyInt(value) {
          r := Err(InvalidProfileSchema("Timebox '" + key + "' must be an integer", Some(name)));
          ParseErrorPersists(name, items, i + 1);
          return;
        }
        timeboxes := timeboxes[key := AsInt(value)];
      } else {
        policies := policies[key := Str(value)];
      }
      i := i + 1;
    }
    assert items[..i] == items;
    r := Ok(PolicyProfile(name, budgets, timeboxes, policies));
  }

  /** The profiles read so far, and the error that stopped the reading, if any. */
  function LoadPrefix(data: seq<(string, ProfileData)>): (r: (map<string, PolicyProfile>, Option<LoaderError>))
    decreases |data|
  {
    if data == [] then (map[], None)
    else
      var (m, err) := LoadPrefix(data[..|data| - 1]);
      var (name, d) := data[|data| - 1];
      if err.Some? then (m, err)
      else match ParseProfileSpec(name, d)
        case Err(e) => (m, Some(e))
        case Ok(p) => (m[name := p], None)
  }

  /**
   * `load_from_dict`: the new profiles and the outcome. The stored profiles
   * are replaced before any profile is read, so a failure leaves the
   * profiles read up to that point, and a missing default leaves them all.
   */
  function LoadFromDictSpec(data: seq<(string, ProfileData)>): (r: (map<string, PolicyProfile>, Result<map<string, PolicyProfile>, LoaderError>))
    ensures r.1.Ok? ==> r.1.value == r.0 && DEFAULT_PROFILE_NAME in r.0
  {
    var (m, err) := LoadPrefix(data);
    if err.Some? then (m, Err(err.value))
    else if DEFAULT_PROFILE_NAME !in m then (m, Err(InvalidProfileSchema("'default' profile is required", None)))
    else (m, Ok(m))
  }

  lemma {:induction false} LoadErrorPersists(data: seq<(string, ProfileData)>, i: nat)
    requires i <= |data| && LoadPrefix(data[..i]).1.Some?
    ensures LoadPrefix(data) == LoadPrefix(data[..i])
    decreases |data| - i
  {
    if i < |data| {
      assert data[..i + 1][..i] == data[..i];
      LoadErrorPersists(data, i + 1);
    } else {
      assert data[..i] == data;
    }
  }

  /** Every name in the document whose profile reads cleanly. */
  predicate AllParse(data: seq<(string, ProfileData)>)
  {
    forall j :: 0 <= j < |data| ==> ParseProfileSpec(data[j].0, data[j].1).Ok?
  }

  /**
   * When every profile reads cleanly, the stored profiles are exactly the
   * document's names, each holding its last profile read; nothing from
   * before survives.
   */
  lemma {:induction false} LoadStoresDocument(data: seq<(string, ProfileData)>, name: string)
    requires AllParse(data)
    ensures LoadPrefix(data).1.None?
    ensures name in LoadPrefix(data).0 <==> exists j :: 0 <= j < |data| && data[j].0 == name
    ensures forall j :: 0 <= j < |data| && data[j].0 == name && (forall k :: j < k < |data| ==> data[k].0 != name)
              ==> LoadPrefix(data).0[name] == ParseProfileSpec(name, data[j].1).value
    decreases |data|
  {
    if data != [] {
      var pre := data[..|data| - 1];
      assert forall j :: 0 <= j < |pre| ==> pre[j] == data[j];
      LoadStoresDocument(pre, name);
    }
  }

  /** A document without a default profile is refused, yet the profiles it holds stay stored. */
  lemma MissingDefaultNotRolledBack(data: seq<(string, ProfileData)>)
    requires AllParse(data) && forall j :: 0 <= j < |data| ==> data[j].0 != DEFAULT_PROFILE_NAME
    ensures LoadFromDictSpec(data).1 == Err(InvalidProfileSchema("'default' profile is required", None))
    ensures forall j :: 0 <= j < |data| ==> data[j].0 in LoadFromDictSpec(data).0
  {
    LoadStoresDocument(data, DEFAULT_PROFILE_NAME);
    forall j | 0 <= j < |data|
      ensures data[j].0 in LoadFromDictSpec(data).0
    {
      LoadStoresDocument(data, data[j].0);
    }
  }

  /** Loading succeeds exactly when every profile reads cleanly and one is named "default". */
  lemma LoadOkIff(data: seq<(string, ProfileData)>)
    ensures LoadFromDictSpec(data).1.Ok?
        <==> AllParse(data) && exists j :: 0 <= j < |data| && data[j].0 == DEFAULT_PROFILE_NAME
  {
    if AllParse(data) {
      LoadStoresDocument(data, DEFAULT_PROFILE_NAME);
    } else {
      var j :| 0 <= j < |data| && ParseProfileSpec(data[j].0, data[j].1).Err?;
      LoadFailsAt(data, j);
    }
  }

  lemma {:induction false} LoadFailsAt(data: seq<(string, ProfileData)>, j: nat)
    requires j < |data| && ParseProfileSpec(data[j].0, data[j].1).Err?
    ensures LoadPrefix(data).1.Some?
    decreases |data|
  {
    if j < |data| - 1 {
      var pre := data[..|data| - 1];
      assert pre[j] == data[j];
      LoadFailsAt(pre, j);
    }
  }

  class PolicyProfileLoader {
    var profiles: map<string, PolicyProfile>

    constructor()
      ensures profiles == map[]
    {
      profiles := map[];
    }

    /** Loaded means at least one profile is held. */
    function IsLoaded(): (b: bool)
      reads this
      ensures b <==> exists name :: name in profiles
    {
      profiles != map[]
    }

    /** `load_from_dict`: the stored profiles and the outcome are those of `LoadFromDictSpec`. */
    method LoadFromDict(data: seq<(string, ProfileData)>) returns (r: Result<map<string, PolicyProfile>, LoaderError>)
      modifies this
      ensures (profiles, r) == LoadFromDictSpec(data)
    {
      profiles := map[];
      var i := 0;
      while i < |data|
        invariant 0 <= i <= |data|
        invariant LoadPrefix(data[..i]) == (profiles, None)
      {
        var (name, d) := data[i];
        assert data[..i + 1][..i] == data[..i];
        var parsed := ParseProfile(name, d);
        if parsed.Err? {
          LoadErrorPersists(data, i + 1);
          return Err(parsed.error);
        }
        profiles := profiles[name := parsed.value];
        i := i + 1;
      }
      assert data[..i] == data;
      if DEFAULT_PROFILE_NAME !in profiles {
        return Err(InvalidProfileSchema("'default' profile is required", None));
      }
      r := Ok(profiles);
    }

    /** `get_profile`: the named profile, or `ProfileNotFound` carrying the name. */
    function GetProfile(name: string): (r: Result<PolicyProfile, LoaderError>)
      reads this
      ensures r.Ok? <==> name in profiles
      ensures r.Ok? ==> r.value == profiles[name]
      ensures r.Err? ==> r.error == ProfileNotFound(name)
    {
      if name !in profiles then Err(ProfileNotFound(name)) else Ok(profiles[name])
    }

    function GetDefaultProfile(): (r: Result<PolicyProfile, LoaderError>)
      reads this
      ensures r.Ok? <==> DEFAULT_PROFILE_NAME in profiles
      ensures r.Err? ==> r.error == ProfileNotFound(DEFAULT_PROFILE_NAME)
    {
      GetProfile(DEFAULT_PROFILE_NAME)
    }

    function HasProfile(name: string): (b: bool)
      reads this
      ensures b <==> GetProfile(name).Ok?
    {
      name in profiles
    }
  }
}

=== FILE: attack_registry.dfy ===
/**
 * The attack-side event vocabulary, the event sources, and the registry of the
 * states in which each event type may occur.
 */
module AttackRegistry {
  import opened Wrappers
  import opened AttackStates

  datatype EventType =
    | FLOW_START | FLOW_ABORT | TIMEOUT | SESSION_EXPIRED | RETRY_BUDGET_EXCEEDED
    | ENTRY_ENABLED | ENTRY_NOT_READY | ENTRY_BLOCKED | QUEUE_SHOWN | QUEUE_PASSED | QUEUE_STUCK | POPUP_OPENED
    | CHALLENGE_APPEARED | CHALLENGE_PASSED | CHALLENGE_FAILED | CHALLENGE_NOT_PRESENT
    | SECTION_LIST_READY | SECTION_SELECTED | SECTION_EMPTY
    | SEATMAP_READY | SEAT_SELECTED | SEAT_TAKEN | HOLD_ACQUIRED | HOLD_FAILED
    | PAYMENT_PAGE_ENTERED | PAYMENT_COMPLETED | PAYMENT_ABORTED | PAYMENT_TIMEOUT | TXN_ROLLBACK_REQUIRED
    | DEF_CHALLENGE_FORCED | DEF_THROTTLED | DEF_SANDBOXED | DEF_HONEY_SHAPED
  {
    /** The enum value, which is the member's own name. */
    function Value(): (v: string)
      ensures |v| >= 7
    {
      match this
      case FLOW_START => "FLOW_START"
      case FLOW_ABORT => "FLOW_ABORT"
      case TIMEOUT => "TIMEOUT"
      case SESSION_EXPIRED => "SESSION_EXPIRED"
      case RETRY_BUDGET_EXCEEDED => "RETRY_BUDGET_EXCEEDED"
      case ENTRY_ENABLED => "ENTRY_ENABLED"
      case ENTRY_NOT_READY => "ENTRY_NOT_READY"
      case ENTRY_BLOCKED => "ENTRY_BLOCKED"
      case QUEUE_SHOWN => "QUEUE_SHOWN"
      case QUEUE_PASSED => "QUEUE_PASSED"
      case QUEUE_STUCK => "QUEUE_STUCK"
      case POPUP_OPENED => "POPUP_OPENED"
      case CHALLENGE_APPEARED => "CHALLENGE_APPEARED"
      case CHALLENGE_PASSED => "CHALLENGE_PASSED"
      case CHALLENGE_FAILED => "CHALLENGE_FAILED"
      case CHALLENGE_NOT_PRESENT => "CHALLENGE_NOT_PRESENT"
      case SECTION_LIST_READY => "SECTION_LIST_READY"
      case SECTION_SELECTED => "SECTION_SELECTED"
      case SECTION_EMPTY => "SECTION_EMPTY"
      case SEATMAP_READY => "SEATMAP_READY"
      case SEAT_SELECTED => "SEAT_SELECTED"
      case SEAT_TAKEN => "SEAT_TAKEN"
      case HOLD_ACQUIRED => "HOLD_ACQUIRED"
      case HOLD_FAILED => "HOLD_FAILED"
      case PAYMENT_PAGE_ENTERED => "PAYMENT_PAGE_ENTERED"
      case PAYMENT_COMPLETED => "PAYMENT_COMPLETED"
      case PAYMENT_ABORTED => "PAYMENT_ABORTED"
      case PAYMENT_TIMEOUT => "PAYMENT_TIMEOUT"
      case TXN_ROLLBACK_REQUIRED => "TXN_ROLLBACK_REQUIRED"
      case DEF_CHALLENGE_FORCED => "DEF_CHALLENGE_FORCED"
      case DEF_THROTTLED => "DEF_THROTTLED"
      case DEF_SANDBOXED => "DEF_SANDBOXED"
      case DEF_HONEY_SHAPED => "DEF_HONEY_SHAPED"
    }
  }

  /** Every member, in declaration order. */
  const ALL_EVENT_TYPES: seq<EventType> := [
    FLOW_START, FLOW_ABORT, TIMEOUT, SESSION_EXPIRED,
    RETRY_BUDGET_EXCEEDED, ENTRY_ENABLED, ENTRY_NOT_READY, ENTRY_BLOCKED,
    QUEUE_SHOWN, QUEUE_PASSED, QUEUE_STUCK, POPUP_OPENED,
    CHALLENGE_APPEARED, CHALLENGE_PASSED, CHALLENGE_FAILED, CHALLENGE_NOT_PRESENT,
    SECTION_LIST_READY, SECTION_SELECTED, SECTION_EMPTY, SEATMAP_READY,
    SEAT_SELECTED, SEAT_TAKEN, HOLD_ACQUIRED, HOLD_FAILED,
    PAYMENT_PAGE_ENTERED, PAYMENT_COMPLETED, PAYMENT_ABORTED, PAYMENT_TIMEOUT,
    TXN_ROLLBACK_REQUIRED, DEF_CHALLENGE_FORCED, DEF_THROTTLED, DEF_SANDBOXED,
    DEF_HONEY_SHAPED]

  /** `EventType(v)`: the member with value `v`, or `None` where Python raises. */
  function ParseEventType(v: string): (r: Option<EventType>)
    ensures r.Some? ==> r.value.Value() == v
  {
    FindByValue(v, ALL_EVENT_TYPES)
  }

  function FindByValue(v: string, candidates: seq<EventType>): (r: Option<EventType>)
    ensures r.Some? ==> r.value.Value() == v && r.value in candidates
    ensures r.None? ==> forall k :: 0 <= k < |candidates| ==> candidates[k].Value() != v
  {
    if candidates == [] then None
    else if candidates[0].Value() == v then Some(candidates[0])
    else FindByValue(v, candidates[1..])
  }

  /** Each member's value parses back to the member. */
  lemma ParseEventTypeValue(e: EventType)
    ensures ParseEventType(e.Value()) == Some(e)
  {
    assert e in ALL_EVENT_TYPES;
    var r := ParseEventType(e.Value());
    ValuesDistinct(e, r.value);
  }

  /** Two members with the same value are the same member; checked a block of members at a time. */
  lemma ValuesDistinct(e: EventType, f: EventType)
    requires e.Value() == f.Value()
    ensures e == f
  {
    if e.FLOW_START? || e.FLOW_ABORT? || e.TIMEOUT? || e.SESSION_EXPIRED?
       || e.RETRY_BUDGET_EXCEEDED? || e.ENTRY_ENABLED? || e.ENTRY_NOT_READY?
       || e.ENTRY_BLOCKED? {
      ValuesDistinctBlock1(e, f);
    } else if e.QUEUE_SHOWN? || e.QUEUE_PASSED? || e.QUEUE_STUCK? || e.POPUP_OPENED?
              || e.CHALLENGE_APPEARED? || e.CHALLENGE_PASSED? || e.CHALLENGE_FAILED?
              || e.CHALLENGE_NOT_PRESENT? {
      ValuesDistinctBlock2(e, f);
    } else if e.SECTION_LIST_READY? || e.SECTION_SELECTED? || e.SECTION_EMPTY? || e.SEATMAP_READY?
              || e.SEAT_SELECTED? || e.SEAT_TAKEN? || e.HOLD_ACQUIRED? || e.HOLD_FAILED? {
      ValuesDistinctBlock3(e, f);
    } else {
      ValuesDistinctBlock4(e, f);
    }
  }

  lemma ValuesDistinctBlock1(e: EventType, f: EventType)
    requires e.FLOW_START? || e.FLOW_ABORT? || e.TIMEOUT? || e.SESSION_EXPIRED?
             || e.RETRY_BUDGET_EXCEEDED? || e.ENTRY_ENABLED? || e.ENTRY_NOT_READY?
             || e.ENTRY_BLOCKED?
    requires e.Value() == f.Value()
    ensures e == f
  {
  }

  lemma ValuesDistinctBlock2(e: EventType, f: EventType)
    requires e.QUEUE_SHOWN? || e.QUEUE_PASSED? || e.QUEUE_STUCK? || e.POPUP_OPENED?
             || e.CHALLENGE_APPEARED? || e.CHALLENGE_PASSED? || e.CHALLENGE_FAILED?
             || e.CHALLENGE_NOT_PRESENT?
    requires e.Value() == f.Value()
    ensures e == f
  {
  }

  lemma ValuesDistinctBlock3(e: EventType, f: EventType)
    requires e.SECTION_LIST_READY? || e.SECTION_SELECTED? || e.SECTION_EMPTY? || e.SEATMAP_READY?
             || e.SEAT_SELECTED? || e.SEAT_TAKEN? || e.HOLD_ACQUIRED? || e.HOLD_FAILED?
    requires e.Value() == f.Value()
    ensures e == f
  {
  }

  lemma ValuesDistinctBlock4(e: EventType, f: EventType)
    requires e.PAYMENT_PAGE_ENTERED? || e.PAYMENT_COMPLETED? || e.PAYMENT_ABORTED?
             || e.PAYMENT_TIMEOUT? || e.TXN_ROLLBACK_REQUIRED? || e.DEF_CHALLENGE_FORCED?
             || e.DEF_THROTTLED? || e.DEF_SANDBOXED? || e.DEF_HONEY_SHAPED?
    requires e.Value() == f.Value()
    ensures e == f
  {
  }

  /** The valid values of an event source. */
  const VALID_SOURCES: set<string> := {"ui", "api", "timer", "defense", "mock"}

  const ALL_STATES: set<State> := {S0, S1, S2, S3, S4, S5, S6, SX}
  const NON_TERMINAL: set<State> := {S0, S1, S2, S3, S4, S5, S6}
  /** The states the security check may interrupt. */
  const SECURITY_INTERRUPTIBLE: set<State> := {S1, S2, S4, S5, S6}

  /** The registry: for each event type, the states in which it may occur. */
  const EVENT_VALID_STATES: map<EventType, set<State>> := map[
    FLOW_START := {S0},
    FLOW_ABORT := NON_TERMINAL,
    TIMEOUT := NON_TERMINAL,
    SESSION_EXPIRED := NON_TERMINAL,
    RETRY_BUDGET_EXCEEDED := NON_TERMINAL,
    ENTRY_ENABLED := {S1},
    ENTRY_NOT_READY := {S1},
    ENTRY_BLOCKED := {S1},
    QUEUE_SHOWN := {S2},
    QUEUE_PASSED := {S2},
    QUEUE_STUCK := {S2},
    POPUP_OPENED := {S1, S2},
    CHALLENGE_APPEARED := {S3},
    CHALLENGE_PASSED := {S3},
    CHALLENGE_FAILED := {S3},
    CHALLENGE_NOT_PRESENT := {S3},
    SECTION_LIST_READY := {S4},
    SECTION_SELECTED := {S4},
    SECTION_EMPTY := {S4},
    SEATMAP_READY := {S5},
    SEAT_SELECTED := {S5},
    SEAT_TAKEN := {S5},
    HOLD_ACQUIRED := {S5, S6},
    HOLD_FAILED := {S5, S6},
    PAYMENT_PAGE_ENTERED := {S6},
    PAYMENT_COMPLETED := {S6},
    PAYMENT_ABORTED := {S6},
    PAYMENT_TIMEOUT := {S6},
    TXN_ROLLBACK_REQUIRED := {S6},
    DEF_CHALLENGE_FORCED := SECURITY_INTERRUPTIBLE,
    DEF_THROTTLED := SECURITY_INTERRUPTIBLE,
    DEF_SANDBOXED := SECURITY_INTERRUPTIBLE,
    DEF_HONEY_SHAPED := SECURITY_INTERRUPTIBLE]

  /** `get_valid_states`: the registered set, or the empty set for an unregistered type. */
  function GetValidStates(e: EventType): (r: set<State>)
    ensures e in EVENT_VALID_STATES ==> r == EVENT_VALID_STATES[e]
    ensures e !in EVENT_VALID_STATES ==> r == {}
  {
    if e in EVENT_VALID_STATES then EVENT_VALID_STATES[e] else {}
  }

  /** `is_valid_in_state`: the registry is total, so the empty default never applies. */
  predicate IsValidInState(e: EventType, s: State)
    ensures e in EVENT_VALID_STATES && (IsValidInState(e, s) <==> s in EVENT_VALID_STATES[e])
  {
    RegistryIsTotal(e);
    s in GetValidStates(e)
  }

  /** Every event type has a registry entry. */
  lemma RegistryIsTotal(e: EventType)
    ensures e in EVENT_VALID_STATES
    ensures GetValidStates(e) != {}
  {
  }

  /** FLOW_START may occur in S0 only. */
  lemma FlowStartOnlyInS0(s: State)
    ensures IsValidInState(FLOW_START, s) <==> s == S0
  {
  }

  /** No event type is valid once the run is terminal. */
  lemma NothingValidInTerminal(e: EventType)
    ensures !IsValidInState(e, SX)
  {
    RegistryIsTotal(e);
  }

  /** The challenge events belong to S3 and the section events to S4, and nowhere else. */
  lemma ChallengeAndSectionEvents(e: EventType, s: State)
    ensures e in {CHALLENGE_APPEARED, CHALLENGE_PASSED, CHALLENGE_FAILED, CHALLENGE_NOT_PRESENT} ==> (IsValidInState(e, s) <==> s == S3)
    ensures e in {SECTION_LIST_READY, SECTION_SELECTED, SECTION_EMPTY} ==> (IsValidInState(e, s) <==> s == S4)
  {
  }

  /** The defense events may occur exactly in the states the security check may interrupt. */
  lemma DefenseEventsInterruptible(e: EventType, s: State)
    requires e in {DEF_CHALLENGE_FORCED, DEF_THROTTLED, DEF_SANDBOXED, DEF_HONEY_SHAPED}
    ensures IsValidInState(e, s) <==> s in {S1, S2, S4, S5, S6}
    ensures IsValidInState(e, s) <==> CanBeLastNonSecurity(s)
  {
  }
}

=== FILE: attack_roi.dfy ===
/**
 * The attack-cost (ROI) counters kept while failure policies are applied:
 * attempts, the last reported total time, challenge and rollback counts, and
 * one named counter per kind of failure. Writing the evidence records to a
 * file is not part of this model.
 */
module AttackRoi {
  import opened Wrappers
  import opened PyValues
  import opened AttackStates
  import opened AttackFailure

  /** The six detailed counters, all present from construction on. */
  const COUNTER_KEYS: set<string> := {"seatTakenCount", "holdFailCount", "sectionEmptyCount",
                                      "challengeFailCount", "timeoutCount", "rollbackCount"}

  datatype RoiState = RoiState(
    totalAttempts: int,
    totalTimeMs: int,
    challengeCount: int,
    rollbackCount: int,
    apiCallCount: int,
    counters: map<string, int>)

  /** The counters hold exactly the six named keys. */
  predicate Consistent(st: RoiState)
  {
    st.counters.Keys == COUNTER_KEYS
  }

  function InitialRoi(): (st: RoiState)
    ensures Consistent(st)
    ensures st.totalAttempts == 0 && st.totalTimeMs == 0 && st.challengeCount == 0 && st.rollbackCount == 0
    ensures forall k :: k in st.counters ==> st.counters[k] == 0
  {
    RoiState(0, 0, 0, 0, 0, map k | k in COUNTER_KEYS :: 0)
  }

  /** The detailed counter a failure code bumps, if any. */
  function CounterKey(code: FailureCode): (k: Option<string>)
    ensures k.Some? ==> k.value in COUNTER_KEYS && k.value != "rollbackCount"
  {
    match code
    case F_SEAT_TAKEN => Some("seatTakenCount")
    case F_HOLD_FAILED => Some("holdFailCount")
    case F_SECTION_EMPTY => Some("sectionEmptyCount")
    case F_CHALLENGE_FAILED => Some("challengeFailCount")
    case F_NETWORK_TIMEOUT => Some("timeoutCount")
    case F_THROTTLED_TIMEOUT => Some("timeoutCount")
    case _ => None
  }

  /** A recovery counts as a rollback when its text names one (any case), or names S4 after a seat or hold failure. */
  predicate IsRollback(code: FailureCode, recoverPath: string)
  {
    Contains(LowerAscii(recoverPath), "rollback")
      || (Contains(recoverPath, "S4") && code in {F_SEAT_TAKEN, F_HOLD_FAILED})
  }

  /** The first half of `_update_counters`: the code's own counter, and the challenge count for a challenge failure. */
  function CountCode(st: RoiState, code: FailureCode): (r: RoiState)
    requires Consistent(st)
    ensures Consistent(r)
  {
    var c1 := match CounterKey(code)
      case Some(k) => st.counters[k := st.counters[k] + 1]
      case None => st.counters;
    st.(counters := c1,
        challengeCount := if code == F_CHALLENGE_FAILED then st.challengeCount + 1 else st.challengeCount)
  }

  /** `_update_counters`: the code's own counter, and the rollback counters when the recovery is a rollback. */
  function CountFailure(st: RoiState, code: FailureCode, recoverPath: string): (r: RoiState)
    requires Consistent(st)
    ensures Consistent(r)
  {
    var st1 := CountCode(st, code);
    if IsRollback(code, recoverPath) then
      st1.(counters := st1.counters["rollbackCount" := st1.counters["rollbackCount"] + 1], rollbackCount := st1.rollbackCount + 1)
    else st1
  }

  /** `log_failure`'s effect on the counters: one more attempt, the given total time, and `_update_counters`. */
  function LogFailureStep(st: RoiState, code: FailureCode, totalElapsedMs: int, recoverPath: string): (r: RoiState)
    requires Consistent(st)
    ensures Consistent(r)
  {
    CountFailure(st.(totalAttempts := st.totalAttempts + 1, totalTimeMs := totalElapsedMs), code, recoverPath)
  }

  /** Each logged failure adds one attempt and replaces (does not add to) the total time. */
  lemma LogFailureTotals(st: RoiState, code: FailureCode, totalElapsedMs: int, recoverPath: string)
    requires Consistent(st)
    ensures LogFailureStep(st, code, totalElapsedMs, recoverPath).totalAttempts == st.totalAttempts + 1
    ensures LogFailureStep(st, code, totalElapsedMs, recoverPath).totalTimeMs == totalElapsedMs
    ensures LogFailureStep(st, code, totalElapsedMs, recoverPath).apiCallCount == st.apiCallCount
  {
  }

  /**
   * A failure bumps its own counter by one and no other detailed counter
   * except the rollback counter; only a challenge failure moves the
   * challenge count.
   */
  lemma OnlyOwnCounterMoves(st: RoiState, code: FailureCode, recoverPath: string, k: string)
    requires Consistent(st) && k in COUNTER_KEYS && k != "rollbackCount"
    ensures CountFailure(st, code, recoverPath).counters[k]
         == st.counters[k] + (if CounterKey(code) == Some(k) then 1 else 0)
    ensures CountFailure(st, code, recoverPath).challengeCount
         == st.challengeCount + (if code == F_CHALLENGE_FAILED then 1 else 0)
  {
  }

  /** Network and throttling time-outs share one counter. */
  lemma TimeoutsShareCounter()
    ensures CounterKey(F_NETWORK_TIMEOUT) == CounterKey(F_THROTTLED_TIMEOUT) == Some("timeoutCount")
  {
  }

  /** The rollback counters move together, by one exactly when the recovery is a rollback. */
  lemma RollbackCounted(st: RoiState, code: FailureCode, recoverPath: string)
    requires Consistent(st)
    ensures CountFailure(st, code, recoverPath).rollbackCount == st.rollbackCount + (if IsRollback(code, recoverPath) then 1 else 0)
    ensures CountFailure(st, code, recoverPath).counters["rollbackCount"]
         == st.counters["rollbackCount"] + (if IsRollback(code, recoverPath) then 1 else 0)
  {
  }

  /**
   * The orchestrator reports a state's value as the recovery; such a value
   * never names a rollback, so a rollback is counted exactly for S4 after a
   * seat or hold failure.
   */
  lemma StateRecoveryRollback(code: FailureCode, s: State)
    ensures IsRollback(code, s.Value()) <==> s == S4 && code in {F_SEAT_TAKEN, F_HOLD_FAILED}
  {
    ContainsBySize(LowerAscii(s.Value()), "rollback");
    ContainsBySize(s.Value(), "S4");
  }

  class ROILogger {
    var totalAttempts: int
    var totalTimeMs: int
    var challengeCount: int
    var rollbackCount: int
    var apiCallCount: int
    var counters: map<string, int>

    function Snapshot(): RoiState
      reads this
    {
      RoiState(totalAttempts, totalTimeMs, challengeCount, rollbackCount, apiCallCount, counters)
    }

    predicate Valid()
      reads this
    {
      Consistent(Snapshot())
    }

    /** Every count starts at zero; the evidence file path only matters to the writer, which is left out. */
    constructor()
      ensures Valid() && Snapshot() == InitialRoi()
    {
      totalAttempts, totalTimeMs, challengeCount, rollbackCount, apiCallCount := 0, 0, 0, 0, 0;
      counters := InitialRoi().counters;
    }

    /** `log_failure`: the counters move as `LogFailureStep` says; the remaining arguments only feed the evidence record. */
    method LogFailure(state: State, event: string, code: FailureCode, remainingBudgets: map<string, int>,
                      stageElapsedMs: int, totalElapsedMs: int, recoverPath: string)
      requires Valid()
      modifies this
      ensures Valid()
      ensures Snapshot() == LogFailureStep(old(Snapshot()), code, totalElapsedMs, recoverPath)
    {
      totalAttempts := totalAttempts + 1;
      totalTimeMs := totalElapsedMs;
      UpdateCounters(code, recoverPath);
    }

    /** `_update_counters`, in place. */
    method UpdateCounters(code: FailureCode, recoverPath: string)
      requires Valid()
      modifies this
      ensures Valid()
      ensures Snapshot() == CountFailure(old(Snapshot()), code, recoverPath)
    {
      var rollback := IsRollback(code, recoverPath);
      var key := CounterKey(code);
      var c, challenges, rollbacks := counters, challengeCount, rollbackCount;
      if key.Some? {
        c := c[key.value := c[key.value] + 1];
      }
      if code == F_CHALLENGE_FAILED {
        challenges := challenges + 1;
      }
      assert Snapshot().(counters := c, challengeCount := challenges) == CountCode(Snapshot(), code);
      if rollback {
        c := c["rollbackCount" := c["rollbackCount"] + 1];
        rollbacks := rollbacks + 1;
      }
      counters, challengeCount, rollbackCount := c, challenges, rollbacks;
    }

    /** `get_roi_summary`: the four totals and a copy of the detailed counters. */
    function GetRoiSummary(): (d: map<string, Value>)
      reads this
      ensures d.Keys == {"total_attempts", "total_time_ms", "challenge_count", "rollback_count", "detailed_counters"}
      ensures d["total_attempts"] == PyInt(totalAttempts) && d["total_time_ms"] == PyInt(totalTimeMs)
      ensures d["challenge_count"] == PyInt(challengeCount) && d["rollback_count"] == PyInt(rollbackCount)
      ensures d["detailed_counters"].PyDict? && d["detailed_counters"].entries.Keys == counters.Keys
      ensures forall k :: k in counters ==> d["detailed_counters"].entries[k] == PyInt(counters[k])
    {
      map["total_attempts" := PyInt(totalAttempts),
          "total_time_ms" := PyInt(totalTimeMs),
          "challenge_count" := PyInt(challengeCount),
          "rollback_count" := PyInt(rollbackCount),
          "detailed_counters" := PyDict(map k | k in counters :: PyInt(counters[k]))]
    }
  }
}

=== FILE: attack_runtime.dfy ===
/**
 * Turning a policy profile into the engine's starting budgets and stage
 * time limits. Profile budget names are renamed to the names the engine
 * uses at run time; every stage except the terminal one has its own limit.
 */
module AttackRuntime {
  import opened Wrappers
  import opened PyValues
  import opened AttackStates
  import opened AttackPolicyLoader

  /** The profile budget name and the run-time name it becomes, in mapping order. */
  const KEY_MAP: seq<(string, string)> := [
    ("N_challenge", "security"),
    ("N_section", "section"),
    ("N_seat", "seat"),
    ("N_hold", "hold"),
    ("max_retries", "retry"),
    ("seat_taken_threshold", "seat_taken_threshold")
  ]

  const RUNTIME_BUDGET_NAMES: set<string> := {"security", "section", "seat", "hold", "retry", "seat_taken_threshold"}

  /** Both sides of the mapping are free of repeats, and every profile name is a known budget key. */
  lemma KeyMapShape()
    ensures forall i, j :: 0 <= i < j < |KEY_MAP| ==> KEY_MAP[i].0 != KEY_MAP[j].0 && KEY_MAP[i].1 != KEY_MAP[j].1
    ensures forall i :: 0 <= i < |KEY_MAP| ==> KEY_MAP[i].0 in BUDGET_KEYS
  {
  }

  /** `get_initial_budgets`: each run-time name gets the profile's budget under its mapped name, or 0. */
  method GetInitialBudgets(profile: PolicyProfile) returns (budgets: map<string, int>)
    ensures budgets.Keys == RUNTIME_BUDGET_NAMES
    ensures forall i :: 0 <= i < |KEY_MAP| ==> budgets[KEY_MAP[i].1] == profile.GetBudget(KEY_MAP[i].0, 0)
  {
    budgets := map[];
    var i := 0;
    while i < |KEY_MAP|
      invariant 0 <= i <= |KEY_MAP|
      invariant budgets.Keys == set j | 0 <= j < i :: KEY_MAP[j].1
      invariant forall j :: 0 <= j < i ==> budgets[KEY_MAP[j].1] == profile.GetBudget(KEY_MAP[j].0, 0)
    {
      var (specKey, runtimeKey) := KEY_MAP[i];
      budgets := budgets[runtimeKey := profile.GetBudget(specKey, 0)];
      i := i + 1;
    }
    assert (set j | 0 <= j < |KEY_MAP| :: KEY_MAP[j].1) == RUNTIME_BUDGET_NAMES by {
      assert KEY_MAP[0].1 == "security" && KEY_MAP[1].1 == "section" && KEY_MAP[2].1 == "seat";
      assert KEY_MAP[3].1 == "hold" && KEY_MAP[4].1 == "retry" && KEY_MAP[5].1 == "seat_taken_threshold";
    }
  }

  /** `get_budget_names`: the run-time names in mapping order. */
  function GetBudgetNames(): (names: seq<string>)
    ensures |names| == |KEY_MAP| && forall i :: 0 <= i < |names| ==> names[i] == KEY_MAP[i].1
  {
    seq(|KEY_MAP|, i requires 0 <= i < |KEY_MAP| => KEY_MAP[i].1)
  }

  /** The names listed are exactly the run-time budget names, each once. */
  lemma BudgetNamesAreRuntimeNames()
    ensures (set i | 0 <= i < |GetBudgetNames()| :: GetBudgetNames()[i]) == RUNTIME_BUDGET_NAMES
    ensures forall i, j :: 0 <= i < j < |GetBudgetNames()| ==> GetBudgetNames()[i] != GetBudgetNames()[j]
  {
    var names := GetBudgetNames();
    assert names == ["security", "section", "seat", "hold", "retry", "seat_taken_threshold"];
    assert names[0] == "security" && names[1] == "section" && names[2] == "seat";
    assert names[3] == "hold" && names[4] == "retry" && names[5] == "seat_taken_threshold";
  }

  /** The profile key holding a stage's time limit; the terminal state has none. */
  function StageKey(s: State): (k: Option<string>)
    ensures k.None? <==> s == SX
    ensures k.Some? ==> k.value in TIMEBOX_KEYS && k.value == s.Value() + "_timeout_ms"
  {
    match s
    case S0 => Some("S0_timeout_ms")
    case S1 => Some("S1_timeout_ms")
    case S2 => Some("S2_timeout_ms")
    case S3 => Some("S3_timeout_ms")
    case S4 => Some("S4_timeout_ms")
    case S5 => Some("S5_timeout_ms")
    case S6 => Some("S6_timeout_ms")
    case SX => None
  }

  /** `get_stage_timebox`: the profile's limit for the stage, 0 when unset or for the terminal state. */
  function GetStageTimebox(profile: PolicyProfile, stage: State): (ms: int)
    ensures stage == SX ==> ms == 0
    ensures stage != SX ==> ms == Get(profile.timeboxes, stage.Value() + "_timeout_ms", 0)
  {
    match StageKey(stage)
    case None => 0
    case Some(k) => profile.GetTimebox(k, 0)
  }

  /** Distinct stages read distinct profile keys. */
  lemma StageKeysDistinct(s: State, t: State)
    requires s != t && s != SX && t != SX
    ensures StageKey(s) != StageKey(t)
  {
  }

  /** `get_global_timebox`: the profile's overall limit, or 0. */
  function GetGlobalTimebox(profile: PolicyProfile): (ms: int)
    ensures "global_timeout_ms" in profile.timeboxes ==> ms == profile.timeboxes["global_timeout_ms"]
    ensures "global_timeout_ms" !in profile.timeboxes ==> ms == 0
  {
    profile.GetTimebox("global_timeout_ms", 0)
  }

  /** `get_all_timeboxes`: a copy of every limit the profile holds. */
  function GetAllTimeboxes(profile: PolicyProfile): (d: map<string, int>)
    ensures d.Keys == profile.timeboxes.Keys
    ensures forall k :: k in d ==> d[k] == profile.GetTimebox(k, 0)
  {
    profile.timeboxes
  }

  /** A profile read from a document carries a stage's limit exactly when the document names that stage's key with an integer. */
  lemma ParsedStageTimebox(name: string, items: seq<(string, Value)>, stage: State)
    requires ParseItems(name, items).Ok? && stage != SX
    ensures var p := ParseItems(name, items).value;
      var v := LastValue(items, stage.Value() + "_timeout_ms");
      && (v.Some? ==> IsPyInt(v.value) && GetStageTimebox(p, stage) == AsInt(v.value))
      && (v.None? ==> GetStageTimebox(p, stage) == 0)
  {
    ParsePartition(name, items, stage.Value() + "_timeout_ms");
  }
}

=== FILE: attack_scenarios.dfy ===
/**
 * The acceptance-scenario documents: a scenario has an id of the form
 * SCN-dd, a name, a policy profile, at least one event and an acceptance
 * block with at least one assertion. The field constraints the schema
 * library enforces on construction are written here as predicates, and
 * construction as a `Result`.
 */
module AttackScenarios {
  import opened Wrappers
  import opened PyValues
  import opened AttackStates

  datatype EventSource = MOCK | TIMER | DEFENSE | UI | API

  datatype ScenarioEvent = ScenarioEvent(
    eventType: string,
    source: EventSource,
    stage: Option<string>,
    delayMs: int,
    payload: map<string, Value>)

  /** The stage check: absent, "unknown" or the value of a `State`. */
  function ValidateStage(v: Option<string>): (r: Result<Option<string>, string>)
    ensures r.Ok? <==> v.None? || v.value == "unknown" || ParseState(v.value).Some?
    ensures r.Ok? ==> r.value == v
  {
    if v.None? || v.value == "unknown" then Ok(v)
    else if ParseState(v.value).None? then Err("Invalid stage in scenario: " + v.value)
    else Ok(v)
  }

  /** A scenario event needs a type of at least three characters, a non-negative delay and a valid stage. */
  predicate EventValid(e: ScenarioEvent)
  {
    |e.eventType| >= 3 && e.delayMs >= 0 && ValidateStage(e.stage).Ok?
  }

  /** The assertion kinds the schema accepts. */
  datatype AssertionType =
    | STATE_PATH_CONTAINS | STATE_PATH_EQUALS | COUNTER_AT_LEAST | COUNTER_EQUALS
    | BUDGET_REMAINING_AT_MOST | EVENT_HANDLED_COUNT_AT_LEAST | RETURNED_TO_LAST_NON_SECURITY_STATE
    | LOG_LINES_AT_LEAST | NO_INVALID_EVENTS | TERMINAL_REASON_TYPE
  {
    function Value(): string
    {
      match this
      case STATE_PATH_CONTAINS => "state_path_contains"
      case STATE_PATH_EQUALS => "state_path_equals"
      case COUNTER_AT_LEAST => "counter_at_least"
      case COUNTER_EQUALS => "counter_equals"
      case BUDGET_REMAINING_AT_MOST => "budget_remaining_at_most"
      case EVENT_HANDLED_COUNT_AT_LEAST => "event_handled_count_at_least"
      case RETURNED_TO_LAST_NON_SECURITY_STATE => "returned_to_last_non_security_state"
      case LOG_LINES_AT_LEAST => "log_lines_at_least"
      case NO_INVALID_EVENTS => "no_invalid_events"
      case TERMINAL_REASON_TYPE => "terminal_reason"
    }
  }

  datatype ScenarioAssertion = ScenarioAssertion(kind: AssertionType, value: Value, description: Option<string>)

  datatype ScenarioAcceptance = ScenarioAcceptance(
    finalState: State,
    terminalReason: Option<TerminalReason>,
    asserts: seq<ScenarioAssertion>)

  predicate AcceptanceValid(a: ScenarioAcceptance)
  {
    |a.asserts| >= 1
  }

  datatype Scenario = Scenario(
    id: string,
    name: string,
    description: Option<string>,
    initialState: State,
    policyProfile: string,
    events: seq<ScenarioEvent>,
    accept: ScenarioAcceptance,
    tags: seq<string>,
    version: Option<string>)

  /** The id pattern `^SCN-[0-9]{2}$`, anchored at both ends. */
  predicate IdValid(id: string)
  {
    |id| == 6 && id[..4] == "SCN-" && IsDigit(id[4]) && IsDigit(id[5])
  }

  /** All of a scenario's field constraints. */
  predicate ScenarioValid(s: Scenario)
  {
    IdValid(s.id) && |s.name| >= 3 && |s.policyProfile| >= 1 && |s.events| >= 1
    && (forall k :: 0 <= k < |s.events| ==> EventValid(s.events[k]))
    && AcceptanceValid(s.accept)
  }

  /** Building a scenario: it exists only when every constraint holds. */
  function MakeScenario(s: Scenario): (r: Result<Scenario, string>)
    ensures r.Ok? <==> ScenarioValid(s)
    ensures r.Ok? ==> r.value == s
  {
    if ScenarioValid(s) then Ok(s) else Err("validation error for Scenario")
  }

  /** Two digits after the prefix are required: no more and no fewer. */
  lemma IdExamples()
    ensures IdValid("SCN-01") && IdValid("SCN-99")
    ensures !IdValid("SCN-1") && !IdValid("SCN-001") && !IdValid("scn-01") && !IdValid("SCN-0a")
  {
    assert "SCN-01"[..4] == "SCN-";
    assert "SCN-99"[..4] == "SCN-";
    assert "scn-01"[0] != "SCN-"[0];
    assert "SCN-0a"[5] == 'a';
  }

  /** Every valid stage is `None`, "unknown", or the value of exactly one state. */
  lemma StageValues(v: string)
    ensures ValidateStage(Some(v)).Ok? <==> v == "unknown" || exists s: State :: s.Value() == v
  {
    if ParseState(v).Some? {
      assert ParseState(v).value.Value() == v;
    }
    if exists s: State :: s.Value() == v {
      var s: State :| s.Value() == v;
      ParseStateValue(s);
    }
  }

  /** The id of scenario number `n`, written with two digits. */
  function ScenarioId(n: nat): (id: string)
    requires n < 100
  {
    "SCN-" + ['0' + (n / 10) as char, '0' + (n % 10) as char]
  }

  /** The ids the pattern accepts are exactly `SCN-00` to `SCN-99`. */
  lemma IdPattern(id: string)
    ensures IdValid(id) <==> exists n :: 0 <= n < 100 && id == ScenarioId(n)
  {
    if IdValid(id) {
      var n := (id[4] - '0') as nat * 10 + (id[5] - '0') as nat;
      assert n / 10 == (id[4] - '0') as nat && n % 10 == (id[5] - '0') as nat;
      assert id == id[..4] + [id[4], id[5]];
      assert id == ScenarioId(n);
    }
    if exists n :: 0 <= n < 100 && id == ScenarioId(n) {
      var n :| 0 <= n < 100 && id == ScenarioId(n);
      assert id[..4] == "SCN-";
    }
  }

  /**
   * Events are checked one by one: a valid scenario stays valid when a
   * valid event is appended, and a scenario holding an invalid event, at
   * any position, is refused.
   */
  lemma EventsCheckedOneByOne(s: Scenario, e: ScenarioEvent, i: nat)
    ensures ScenarioValid(s) && EventValid(e) ==> MakeScenario(s.(events := s.events + [e])).Ok?
    ensures i < |s.events| && !EventValid(s.events[i]) ==> MakeScenario(s).Err?
  {
    var s' := s.(events := s.events + [e]);
    if ScenarioValid(s) && EventValid(e) {
      assert forall k :: 0 <= k < |s'.events| ==> s'.events[k] == if k < |s.events| then s.events[k] else e;
    }
  }
}

=== FILE: attack_snapshots.dfy ===
/**
 * The state snapshot a transition decision sees and the immutable policy
 * snapshot. Both are values here, so a copy is simply the same value and
 * later changes to one copy cannot reach another.
 */
module AttackSnapshots {
  import opened Wrappers
  import opened PyValues
  import opened AttackStates

  datatype StateSnapshot = StateSnapshot(
    currentState: State,
    lastNonSecurityState: Option<State>,
    budgets: map<string, int>,
    counters: map<string, int>,
    elapsedMs: int)

  /** A snapshot built from a state alone takes the field defaults. */
  function InitialSnapshot(currentState: State): (s: StateSnapshot)
    ensures s.currentState == currentState && s.lastNonSecurityState == None
    ensures s.budgets == map[] && s.counters == map[] && s.elapsedMs == 0
  {
    StateSnapshot(currentState, None, map[], map[], 0)
  }

  /** `copy()`: every field carries over; the dictionaries are fresh in Python and values here. */
  function CopySnapshot(s: StateSnapshot): (c: StateSnapshot)
    ensures c.currentState == s.currentState && c.lastNonSecurityState == s.lastNonSecurityState
    ensures c.budgets == s.budgets && c.counters == s.counters && c.elapsedMs == s.elapsedMs
  {
    StateSnapshot(s.currentState, s.lastNonSecurityState, s.budgets, s.counters, s.elapsedMs)
  }

  datatype PolicySnapshot = PolicySnapshot(profileName: string, rules: map<string, Value>)

  /** `get_rule(key, default)`; Python's default for `default` is `None`. */
  function GetRule(p: PolicySnapshot, key: string, default: Value := PyNone): (r: Value)
    ensures key in p.rules ==> r == p.rules[key]
    ensures key !in p.rules ==> r == default
  {
    Get(p.rules, key, default)
  }
}

=== FILE: attack_states.dfy ===
/**
 * The attack-side flow states S0 .. SX and the reasons a run can end with.
 * One `State` datatype stands for the enum whose members are spelled both
 * `S0` and `S0_INIT` in the Python code; its `Value` is the enum value string.
 */
module AttackStates {
  import opened Wrappers

  datatype State = S0 | S1 | S2 | S3 | S4 | S5 | S6 | SX
  {
    /** The enum value, as it appears in logs and scenario files. */
    function Value(): string
    {
      match this
      case S0 => "S0"
      case S1 => "S1"
      case S2 => "S2"
      case S3 => "S3"
      case S4 => "S4"
      case S5 => "S5"
      case S6 => "S6"
      case SX => "SX"
    }
  }

  /** Enum lookup by value: `State(v)`, which raises for an unknown value. */
  function ParseState(v: string): (r: Option<State>)
    ensures r.Some? ==> r.value.Value() == v
  {
    match v
    case "S0" => Some(S0)
    case "S1" => Some(S1)
    case "S2" => Some(S2)
    case "S3" => Some(S3)
    case "S4" => Some(S4)
    case "S5" => Some(S5)
    case "S6" => Some(S6)
    case "SX" => Some(SX)
    case _ => None
  }

  /** Every state's value parses back to that state, so values are distinct. */
  lemma ParseStateValue(s: State)
    ensures ParseState(s.Value()) == Some(s)
  {
  }

  predicate IsTerminal(s: State)
    ensures IsTerminal(s) <==> s.Value() == "SX"
  {
    s == SX
  }

  predicate IsSecurity(s: State)
    ensures IsSecurity(s) <==> s.Value() == "S3"
  {
    s == S3
  }

  /** The states that may be remembered as the place to return to after S3. */
  predicate CanBeLastNonSecurity(s: State)
    ensures CanBeLastNonSecurity(s) <==> s.Value() in {"S1", "S2", "S4", "S5", "S6"}
  {
    s in {S1, S2, S4, S5, S6}
  }

  /** SX is the one terminal state, S3 the one security state, and the three roles never overlap. */
  lemma StateRoles(s: State)
    ensures IsTerminal(s) <==> s == SX
    ensures IsSecurity(s) <==> s == S3
    ensures CanBeLastNonSecurity(s) <==> s != S0 && s != S3 && s != SX
    ensures !(IsTerminal(s) && IsSecurity(s))
    ensures IsTerminal(s) || IsSecurity(s) ==> !CanBeLastNonSecurity(s)
  {
  }

  datatype TerminalReason = DONE | ABORT | COOLDOWN | RESET
  {
    function Value(): string
    {
      match this
      case DONE => "done"
      case ABORT => "abort"
      case COOLDOWN => "cooldown"
      case RESET => "reset"
    }
  }

  /** The reason literals an execution result accepts. */
  const TERMINAL_REASONS: set<string> := {"done", "abort", "cooldown", "reset"}

  /** The literal set is exactly the set of `TerminalReason` values. */
  lemma TerminalReasonsAreValues()
    ensures TERMINAL_REASONS == set r: TerminalReason | true :: r.Value()
  {
    var vals := set r: TerminalReason | true :: r.Value();
    assert DONE.Value() in vals && ABORT.Value() in vals;
    assert COOLDOWN.Value() in vals && RESET.Value() in vals;
  }

  function ParseReason(v: string): (r: Option<TerminalReason>)
    ensures r.Some? <==> v in TERMINAL_REASONS
    ensures r.Some? ==> r.value.Value() == v
  {
    match v
    case "done" => Some(DONE)
    case "abort" => Some(ABORT)
    case "cooldown" => Some(COOLDOWN)
    case "reset" => Some(RESET)
    case _ => None
  }
}

=== FILE: attack_store.dfy ===
/**
 * The mutable store that wraps one state snapshot: the current state, the
 * state to return to after the security check, named budgets and counters,
 * and the elapsed time. Budgets and counters share one update rule, `Bump`.
 */
module AttackStore {
  import opened Wrappers
  import opened PyValues
  import opened AttackStates
  import opened AttackSnapshots

  /** `current = d.get(key, 0); d[key] = current + amount`: the new map and the new value. */
  function Bump(m: map<string, int>, key: string, amount: int): (r: (map<string, int>, int))
    ensures r.1 == Get(m, key, 0) + amount
    ensures r.0 == m[key := r.1]
  {
    var v := Get(m, key, 0) + amount;
    (m[key := v], v)
  }

  /** A bump touches its key only. */
  lemma BumpOtherKeys(m: map<string, int>, key: string, amount: int, other: string)
    requires other != key
    ensures Get(Bump(m, key, amount).0, other, 0) == Get(m, other, 0)
    ensures other in Bump(m, key, amount).0 <==> other in m
  {
  }

  /** Raising by `a` and then lowering by `a` restores the value (a missing key comes back as 0). */
  lemma BumpCancels(m: map<string, int>, key: string, amount: int)
    ensures Bump(Bump(m, key, amount).0, key, -amount).0 == m[key := Get(m, key, 0)]
    ensures Bump(Bump(m, key, amount).0, key, -amount).1 == Get(m, key, 0)
  {
  }

  /** Decrements do not clamp: a key at 0 goes to -amount. */
  lemma DecrementDoesNotClamp(m: map<string, int>, key: string, amount: int)
    requires Get(m, key, 0) == 0 && amount > 0
    ensures Bump(m, key, -amount).1 < 0
  {
  }

  /** `add_elapsed_ms`: a negative delta is refused, any other is added. */
  function AddElapsed(elapsed: int, delta: int): (r: Result<int, string>)
    ensures r.Err? <==> delta < 0
    ensures r.Ok? ==> r.value >= elapsed && r.value - elapsed == delta
  {
    if delta < 0 then Err("delta_ms must not be negative") else Ok(elapsed + delta)
  }

  /** Elapsed time only grows along any sequence of additions. */
  function AddAll(elapsed: int, deltas: seq<int>): Result<int, string>
    decreases |deltas|
  {
    if deltas == [] then Ok(elapsed)
    else match AddElapsed(elapsed, deltas[0])
      case Err(e) => Err(e)
      case Ok(e1) => AddAll(e1, deltas[1..])
  }

  lemma {:induction false} AddAllMonotone(elapsed: int, deltas: seq<int>)
    ensures AddAll(elapsed, deltas).Ok? ==> AddAll(elapsed, deltas).value >= elapsed
    ensures AddAll(elapsed, deltas).Ok? <==> forall k :: 0 <= k < |deltas| ==> deltas[k] >= 0
    decreases |deltas|
  {
    if deltas != [] {
      if deltas[0] >= 0 {
        AddAllMonotone(elapsed + deltas[0], deltas[1..]);
        assert forall k :: 1 <= k < |deltas| ==> deltas[k] == deltas[1..][k - 1];
      }
    }
  }

  class StateStore {
    var snapshot: StateSnapshot

    /** The store starts from `initialState` with copies of the given budgets and counters. */
    constructor(initialState: State, budgets: map<string, int>, counters: map<string, int>)
      ensures snapshot == StateSnapshot(initialState, None, budgets, counters, 0)
    {
      snapshot := StateSnapshot(initialState, None, budgets, counters, 0);
    }

    function CurrentState(): State
      reads this
    {
      snapshot.currentState
    }

    /** Does not touch the remembered non-security state; the caller does. */
    method SetState(state: State)
      modifies this
      ensures snapshot == old(snapshot).(currentState := state)
    {
      snapshot := snapshot.(currentState := state);
    }

    method SetLastNonSecurityState(state: Option<State>)
      modifies this
      ensures snapshot == old(snapshot).(lastNonSecurityState := state)
    {
      snapshot := snapshot.(lastNonSecurityState := state);
    }

    function GetBudget(key: string, default: int := 0): (v: int)
      reads this
      ensures key !in snapshot.budgets ==> v == default
      ensures key in snapshot.budgets ==> v == snapshot.budgets[key]
    {
      Get(snapshot.budgets, key, default)
    }

    method SetBudget(key: string, value: int)
      modifies this
      ensures snapshot == old(snapshot).(budgets := old(snapshot.budgets)[key := value])
    {
      snapshot := snapshot.(budgets := snapshot.budgets[key := value]);
    }

    method IncrementBudget(key: string, amount: int := 1) returns (v: int)
      modifies this
      ensures v == Get(old(snapshot.budgets), key, 0) + amount
      ensures snapshot == old(snapshot).(budgets := old(snapshot.budgets)[key := v])
    {
      var (m, nv) := Bump(snapshot.budgets, key, amount);
      snapshot := snapshot.(budgets := m);
      v := nv;
    }

    method DecrementBudget(key: string, amount: int := 1) returns (v: int)
      modifies this
      ensures v == Get(old(snapshot.budgets), key, 0) - amount
      ensures snapshot == old(snapshot).(budgets := old(snapshot.budgets)[key := v])
    {
      var (m, nv) := Bump(snapshot.budgets, key, -amount);
      snapshot := snapshot.(budgets := m);
      v := nv;
    }

    method ResetBudget(key: string, value: int := 0)
      modifies this
      ensures snapshot == old(snapshot).(budgets := old(snapshot.budgets)[key := value])
    {
      snapshot := snapshot.(budgets := snapshot.budgets[key := value]);
    }

    /** Clears every budget and installs exactly the given values. */
    method ResetAllBudgets(initialValues: map<string, int> := map[])
      modifies this
      ensures snapshot == old(snapshot).(budgets := initialValues)
    {
      snapshot := snapshot.(budgets := map[]);
      if initialValues != map[] {
        snapshot := snapshot.(budgets := snapshot.budgets + initialValues);
      }
    }

    function GetCounter(key: string, default: int := 0): (v: int)
      reads this
      ensures key !in snapshot.counters ==> v == default
      ensures key in snapshot.counters ==> v == snapshot.counters[key]
    {
      Get(snapshot.counters, key, default)
    }

    method SetCounter(key: string, value: int)
      modifies this
      ensures snapshot == old(snapshot).(counters := old(snapshot.counters)[key := value])
    {
      snapshot := snapshot.(counters := snapshot.counters[key := value]);
    }

    method IncrementCounter(key: string, amount: int := 1) returns (v: int)
      modifies this
      ensures v == Get(old(snapshot.counters), key, 0) + amount
      ensures snapshot == old(snapshot).(counters := old(snapshot.counters)[key := v])
    {
      var (m, nv) := Bump(snapshot.counters, key, amount);
      snapshot := snapshot.(counters := m);
      v := nv;
    }

    method DecrementCounter(key: string, amount: int := 1) returns (v: int)
      modifies this
      ensures v == Get(old(snapshot.counters), key, 0) - amount
      ensures snapshot == old(snapshot).(counters := old(snapshot.counters)[key := v])
    {
      var (m, nv) := Bump(snapshot.counters, key, -amount);
      snapshot := snapshot.(counters := m);
      v := nv;
    }

    method ResetCounter(key: string, value: int := 0)
      modifies this
      ensures snapshot == old(snapshot).(counters := old(snapshot.counters)[key := value])
    {
      snapshot := snapshot.(counters := snapshot.counters[key := value]);
    }

    method ResetAllCounters()
      modifies this
      ensures snapshot == old(snapshot).(counters := map[])
    {
      snapshot := snapshot.(counters := map[]);
    }

    /** A negative delta raises and leaves the store as it was; otherwise the new total is returned. */
    method AddElapsedMs(deltaMs: int) returns (r: Result<int, string>)
      modifies this
      ensures r == AddElapsed(old(snapshot.elapsedMs), deltaMs)
      ensures r.Err? ==> snapshot == old(snapshot)
      ensures r.Ok? ==> snapshot == old(snapshot).(elapsedMs := r.value)
    {
      if deltaMs < 0 {
        return Err("delta_ms must not be negative");
      }
      snapshot := snapshot.(elapsedMs := snapshot.elapsedMs + deltaMs);
      r := Ok(snapshot.elapsedMs);
    }

    method ResetElapsedMs()
      modifies this
      ensures snapshot == old(snapshot).(elapsedMs := 0)
    {
      snapshot := snapshot.(elapsedMs := 0);
    }

    /** A copy of the current snapshot; being a value, it cannot be changed through the store. */
    function GetSnapshot(): (s: StateSnapshot)
      reads this
      ensures s == CopySnapshot(snapshot)
    {
      CopySnapshot(snapshot)
    }

    /** A new store holding a copy of this one's snapshot. */
    method Copy() returns (c: StateStore)
      ensures fresh(c) && c.snapshot == snapshot
    {
      c := FromSnapshot(snapshot);
    }

    /** A new store holding a copy of the given snapshot. */
    static method FromSnapshot(s: StateSnapshot) returns (store: StateStore)
      ensures fresh(store) && store.snapshot == s
    {
      store := new StateStore(s.currentState, s.budgets, s.counters);
      store.snapshot := CopySnapshot(s);
    }
  }
}

=== FILE: attack_transition.dfy ===
/**
 * Results of one transition and of a whole run, and the decision-log record.
 * A terminal reason reaches these records either as a string literal or as a
 * `TerminalReason` enum member; `ReasonField` keeps the two apart because the
 * run-result check treats them differently.
 */
module AttackTransition {
  import opened Wrappers
  import opened PyValues
  import opened AttackStates
  import opened AttackEvents

  datatype ReasonField = Literal(text: string) | EnumMember(reason: TerminalReason)
  {
    /** The reason's text: the literal itself, or the member's value. */
    function Text(): string
    {
      match this
      case Literal(s) => s
      case EnumMember(r) => r.Value()
    }
  }

  datatype TransitionResult = TransitionResult(
    nextState: State,
    terminalReason: Option<ReasonField>,
    failureCode: Option<string>,
    notes: seq<string>,
    commands: seq<Value>)
  {
    predicate IsTerminalResult()
    {
      IsTerminal(nextState)
    }
  }

  /** The frozen dataclass's check: a reason is present exactly when the next state is SX. */
  predicate WellFormed(r: TransitionResult)
  {
    r.terminalReason.Some? <==> IsTerminal(r.nextState)
  }

  /** Building a `TransitionResult`, which raises unless it is well formed. */
  function MakeTransitionResult(nextState: State, terminalReason: Option<ReasonField>, failureCode: Option<string>,
                                notes: seq<string>, commands: seq<Value> := []): (r: Result<TransitionResult, string>)
    ensures r.Ok? <==> (terminalReason.Some? <==> nextState == SX)
    ensures r.Ok? ==> WellFormed(r.value) && r.value.nextState == nextState && r.value.terminalReason == terminalReason
    ensures r.Ok? ==> r.value.failureCode == failureCode && r.value.notes == notes && r.value.commands == commands
  {
    if IsTerminal(nextState) && terminalReason.None? then
      Err("terminal_reason required when next_state is SX_TERMINAL")
    else if !IsTerminal(nextState) && terminalReason.Some? then
      Err("terminal_reason must be None for non-terminal states")
    else
      Ok(TransitionResult(nextState, terminalReason, failureCode, notes, commands))
  }

  datatype ExecutionResult = ExecutionResult(
    statePath: seq<State>,
    terminalState: State,
    terminalReason: ReasonField,
    handledEvents: int,
    totalElapsedMs: int,
    finalBudgets: map<string, int>,
    finalCounters: map<string, int>)
  {
    /** A run succeeded when it ended for the reason "done". */
    predicate IsSuccess()
    {
      terminalReason == Literal("done")
    }
  }

  /**
   * Building an `ExecutionResult` as written: the reason is looked up in a set
   * of string literals, so an enum member is never found there.
   */
  function MakeExecutionResult(statePath: seq<State>, terminalState: State, terminalReason: ReasonField,
                               handledEvents: int, totalElapsedMs: int,
                               finalBudgets: map<string, int>, finalCounters: map<string, int>): (r: Result<ExecutionResult, string>)
    ensures r.Ok? <==> terminalState == SX && terminalReason.Literal? && terminalReason.text in TERMINAL_REASONS
    ensures r.Ok? ==> r.value == ExecutionResult(statePath, terminalState, terminalReason, handledEvents, totalElapsedMs, finalBudgets, finalCounters)
  {
    if !IsTerminal(terminalState) then Err("terminal_state must be SX_TERMINAL")
    else if !(terminalReason.Literal? && terminalReason.text in TERMINAL_REASONS) then Err("Invalid terminal_reason: " + terminalReason.Text())
    else Ok(ExecutionResult(statePath, terminalState, terminalReason, handledEvents, totalElapsedMs, finalBudgets, finalCounters))
  }

  /** Every enum member is refused, although its value is one of the accepted literals. */
  lemma MemberReasonRefused(statePath: seq<State>, reason: TerminalReason, handledEvents: int, totalElapsedMs: int,
                            finalBudgets: map<string, int>, finalCounters: map<string, int>)
    ensures reason.Value() in TERMINAL_REASONS
    ensures MakeExecutionResult(statePath, SX, EnumMember(reason), handledEvents, totalElapsedMs, finalBudgets, finalCounters).Err?
  {
  }

  /**
   * The evidently intended hand-over: the reason's value string is passed on,
   * so an enum member is checked, stored and judged like its literal.
   */
  function MakeExecutionResultByValue(statePath: seq<State>, terminalState: State, terminalReason: ReasonField,
                                      handledEvents: int, totalElapsedMs: int,
                                      finalBudgets: map<string, int>, finalCounters: map<string, int>): (r: Result<ExecutionResult, string>)
    ensures r.Ok? <==> terminalState == SX && terminalReason.Text() in TERMINAL_REASONS
    ensures r.Ok? ==> r.value.terminalState == SX && r.value.terminalReason == Literal(terminalReason.Text())
    ensures r.Ok? ==> r.value.statePath == statePath && r.value.handledEvents == handledEvents
    ensures r.Ok? ==> (r.value.IsSuccess() <==> terminalReason.Text() == "done")
  {
    MakeExecutionResult(statePath, terminalState, Literal(terminalReason.Text()), handledEvents, totalElapsedMs, finalBudgets, finalCounters)
  }

  /** Passing values, every terminal reason is accepted for SX, and DONE counts as a success. */
  lemma ByValueAcceptsEveryReason(statePath: seq<State>, reason: TerminalReason, handledEvents: int, totalElapsedMs: int,
                                  finalBudgets: map<string, int>, finalCounters: map<string, int>)
    ensures MakeExecutionResultByValue(statePath, SX, EnumMember(reason), handledEvents, totalElapsedMs, finalBudgets, finalCounters).Ok?
    ensures MakeExecutionResultByValue(statePath, SX, EnumMember(DONE), handledEvents, totalElapsedMs, finalBudgets, finalCounters).value.IsSuccess()
  {
  }

  /** `is_success` holds for the literal "done" and for nothing else. */
  lemma SuccessOnlyWhenDone(e: ExecutionResult)
    ensures e.IsSuccess() <==> e.terminalReason.Literal? && e.terminalReason.text == "done"
    ensures e.terminalReason.Literal? && e.terminalReason.text in TERMINAL_REASONS - {"done"} ==> !e.IsSuccess()
  {
  }

  datatype DecisionLog = DecisionLog(
    decisionId: string,
    timestampMs: int,
    currentState: State,
    event: SemanticEvent,
    nextState: State,
    policyProfile: string,
    budgets: map<string, int>,
    counters: map<string, int>,
    elapsedMs: int,
    notes: seq<string>)

  function IntMap(m: map<string, int>): (d: map<string, Value>)
    ensures d.Keys == m.Keys
    ensures forall k :: k in m ==> d[k] == PyInt(m[k])
  {
    map k | k in m :: PyInt(m[k])
  }

  function OptStr(o: Option<string>): Value
  {
    match o
    case None => PyNone
    case Some(s) => PyStr(s)
  }

  /**
   * The event's stage can be rendered: `.value` is read only from a truthy
   * stage, and a non-`State` stage has none, so only an empty one passes.
   */
  predicate Renderable(log: DecisionLog)
  {
    !(log.event.stage.NotAState? && log.event.stage.text != "")
  }

  /** `to_dict`: states and stage become their value strings, an absent or falsy stage becomes `None`. */
  function ToDict(log: DecisionLog): (d: map<string, Value>)
    requires Renderable(log)
    ensures d.Keys == {"decision_id", "timestamp_ms", "current_state", "event", "next_state", "policy_profile",
                       "budgets", "counters", "elapsed_ms", "notes"}
    ensures d["current_state"] == PyStr(log.currentState.Value()) && d["next_state"] == PyStr(log.nextState.Value())
    ensures d["event"].PyDict? && d["event"].entries.Keys == {"event_type", "stage", "failure_code", "context"}
    ensures d["event"].entries["stage"] == (if log.event.stage.InState? then PyStr(log.event.stage.state.Value()) else PyNone)
    ensures d["event"].entries["event_type"] == PyStr(log.event.eventType.Text())
    ensures d["budgets"] == PyDict(IntMap(log.budgets)) && d["counters"] == PyDict(IntMap(log.counters))
  {
    var stage := match log.event.stage
      case InState(s) => PyStr(s.Value())
      case _ => PyNone;
    var event := map[
      "event_type" := PyStr(log.event.eventType.Text()),
      "stage" := stage,
      "failure_code" := OptStr(log.event.failureCode),
      "context" := PyDict(log.event.payload)];
    map[
      "decision_id" := PyStr(log.decisionId),
      "timestamp_ms" := PyInt(log.timestampMs),
      "current_state" := PyStr(log.currentState.Value()),
      "event" := PyDict(event),
      "next_state" := PyStr(log.nextState.Value()),
      "policy_profile" := PyStr(log.policyProfile),
      "budgets" := PyDict(IntMap(log.budgets)),
      "counters" := PyDict(IntMap(log.counters)),
      "elapsed_ms" := PyInt(log.elapsedMs),
      "notes" := PyList(seq(|log.notes|, i requires 0 <= i < |log.notes| => PyStr(log.notes[i])))]
  }
}

=== FILE: attack_validator.dfy ===
/**
 * The two-stage event validator: a schema check (type, source, stage) and,
 * only for events that pass it, a check that the event may occur in the
 * current state. Failures are returned, or raised in strict mode.
 */
module AttackValidator {
  import opened Wrappers
  import opened PyValues
  import opened AttackStates
  import opened AttackEvents
  import opened AttackRegistry

  datatype ValidationResult = ValidationResult(isValid: bool, errors: seq<string>, eventType: Option<string>)

  function Success(eventType: string): (r: ValidationResult)
    ensures r.isValid && r.errors == []
  {
    ValidationResult(true, [], Some(eventType))
  }

  function Failure(errors: seq<string>, eventType: string): (r: ValidationResult)
    ensures !r.isValid && r.errors == errors
  {
    ValidationResult(false, errors, Some(eventType))
  }

  /** A result is coherent when it is valid exactly if it carries no error. */
  predicate Coherent(r: ValidationResult)
  {
    r.isValid <==> r.errors == []
  }

  /**
   * The event-type check as written. Its condition parses as
   * `(not t.value) if hasattr(t, 'value') else t`, so a plain string that is
   * not empty is reported as missing, and an empty one as unknown.
   */
  function TypeErrorsAsWritten(t: TypeField): (errs: seq<string>)
    ensures t.RawType? && t.text != "" ==> errs == ["event_type is required"]
    ensures t.RawType? && t.text == "" ==> errs == ["unknown event_type: "]
    ensures t.EnumType? ==> errs == TypeErrors(t)
  {
    var missing := match t
      case EnumType(v) => v == ""
      case RawType(s) => s != "";
    if missing then ["event_type is required"]
    else if ParseEventType(t.Text()).None? then
      assert t.Text() == "" ==> "unknown event_type: " + t.Text() == "unknown event_type: ";
      ["unknown event_type: " + t.Text()]
    else
      assert t.Text() != "" by { NoEmptyValue(); }
      []
  }

  /** A registered type given as a plain string is refused by the check as written. */
  lemma RawTypeRefusedAsWritten()
    ensures TypeErrorsAsWritten(RawType("FLOW_START")) == ["event_type is required"]
    ensures TypeErrors(RawType("FLOW_START")) == []
  {
    ParseEventTypeValue(FLOW_START);
  }

  /**
   * The event-type check as intended: the type's text is missing when empty,
   * and unknown when it is no `EventType` value; a member and a plain string
   * with the same text are judged alike.
   */
  function TypeErrors(t: TypeField): (errs: seq<string>)
    ensures t.Text() == "" <==> errs == ["event_type is required"]
    ensures errs == [] <==> ParseEventType(t.Text()).Some?
    ensures |errs| <= 1
  {
    NoEmptyValue();
    if t.Text() == "" then ["event_type is required"]
    else if ParseEventType(t.Text()).None? then
      var msg := "unknown event_type: " + t.Text();
      assert msg[0] != "event_type is required"[0];
      [msg]
    else []
  }

  /** No event type has the empty value. */
  lemma NoEmptyValue()
    ensures ParseEventType("") == None
  {
  }

  /** A source is refused when present, not `None`, and not one of the five source values. */
  function SourceErrors(payload: map<string, Value>): (errs: seq<string>)
    ensures errs == [] <==> ("source" !in payload || payload["source"] == PyNone
                            || (payload["source"].PyStr? && payload["source"].s in VALID_SOURCES))
  {
    if "source" in payload && payload["source"] != PyNone
       && !(payload["source"].PyStr? && payload["source"].s in VALID_SOURCES)
    then ["invalid source: " + Str(payload["source"])]
    else []
  }

  function StageErrors(stage: StageField): (errs: seq<string>)
    ensures errs == [] <==> !stage.NotAState?
  {
    match stage
    case NotAState(text) => ["invalid stage: " + text]
    case _ => []
  }

  /** `validate_schema`: the three checks' errors, in that order. */
  function ValidateSchema(e: SemanticEvent): (r: ValidationResult)
    ensures Coherent(r) && r.eventType == Some(e.eventType.Text())
    ensures r.errors == TypeErrors(e.eventType) + SourceErrors(e.payload) + StageErrors(e.stage)
    ensures r.isValid <==> ParseEventType(e.eventType.Text()).Some? && SourceErrors(e.payload) == [] && !e.stage.NotAState?
  {
    var errors := TypeErrors(e.eventType) + SourceErrors(e.payload) + StageErrors(e.stage);
    if errors != [] then Failure(errors, e.eventType.Text()) else Success(e.eventType.Text())
  }

  /** Renders state values as a Python list literal, in the order given. */
  function StateList(ss: seq<State>): string
  {
    "[" + JoinQuoted(ss) + "]"
  }

  function JoinQuoted(ss: seq<State>): string
  {
    if ss == [] then ""
    else if |ss| == 1 then "'" + ss[0].Value() + "'"
    else "'" + ss[0].Value() + "', " + JoinQuoted(ss[1..])
  }

  /** `validate_state_validity`: the type must be known and registered for the current state. */
  function ValidateStateValidity(e: SemanticEvent, current: State): (r: ValidationResult)
    ensures Coherent(r) && r.eventType == Some(e.eventType.Text())
    ensures r.isValid <==> (match ParseEventType(e.eventType.Text())
                             case None => false
                             case Some(et) => IsValidInState(et, current))
    ensures |r.errors| <= 1
  {
    var t := e.eventType.Text();
    match ParseEventType(t)
    case None => Failure(["unknown event_type for state-validity: " + t], t)
    case Some(et) =>
      if !IsValidInState(et, current) then
        var listed := seq(|ALL_STATE_ORDER|, k requires 0 <= k < |ALL_STATE_ORDER| => ALL_STATE_ORDER[k]);
        var valid := Filter(listed, GetValidStates(et));
        Failure(["event '" + t + "' is not valid in state " + current.Value() + ". Valid states: " + StateList(valid)], t)
      else Success(t)
  }

  const ALL_STATE_ORDER: seq<State> := [S0, S1, S2, S3, S4, S5, S6, SX]

  function Filter(ss: seq<State>, keep: set<State>): (r: seq<State>)
    ensures forall x :: x in r <==> x in ss && x in keep
  {
    if ss == [] then []
    else (if ss[0] in keep then [ss[0]] else []) + Filter(ss[1..], keep)
  }

  /**
   * `validate`: the state check runs only after a passing schema check, so a
   * malformed event reports schema errors alone. In strict mode a failure is
   * raised carrying the same errors (`Err`); otherwise it is returned.
   */
  function Validate(e: SemanticEvent, current: State, strict: bool := false): (r: Result<ValidationResult, seq<string>>)
    ensures r.Ok? ==> Coherent(r.value) && r.value.eventType == Some(e.eventType.Text())
    ensures !ValidateSchema(e).isValid ==> AllErrors(r) == ValidateSchema(e).errors
    ensures ValidateSchema(e).isValid ==> AllErrors(r) == ValidateStateValidity(e, current).errors
    ensures r.Err? <==> strict && AllErrors(r) != []
    ensures !strict ==> r.Ok?
  {
    var schema := ValidateSchema(e);
    var allErrors := if !schema.isValid then schema.errors else ValidateStateValidity(e, current).errors;
    if allErrors != [] then
      if strict then Err(allErrors) else Ok(Failure(allErrors, e.eventType.Text()))
    else Ok(Success(e.eventType.Text()))
  }

  /** The errors a validation reports, whether returned or raised. */
  function AllErrors(r: Result<ValidationResult, seq<string>>): seq<string>
  {
    match r
    case Ok(v) => v.errors
    case Err(errs) => errs
  }

  /** An event passes `validate` exactly when its type is registered for the state and its source and stage are acceptable. */
  lemma ValidateAccepts(e: SemanticEvent, current: State, strict: bool)
    ensures Validate(e, current, strict) == Ok(Success(e.eventType.Text()))
        <==> (match ParseEventType(e.eventType.Text())
              case None => false
              case Some(et) => IsValidInState(et, current))
             && SourceErrors(e.payload) == [] && !e.stage.NotAState?
  {
  }

  /** Strict and lenient validation report the same errors. */
  lemma StrictRaisesSameErrors(e: SemanticEvent, current: State)
    ensures AllErrors(Validate(e, current, true)) == AllErrors(Validate(e, current, false))
    ensures Validate(e, current, false).value.isValid <==> Validate(e, current, true).Ok?
  {
  }
}

=== FILE: audit_log.dfy ===
/**
 * The audit-log verification script's checks over parsed decision-log
 * events: the required fields, chronological order of timestamps, and the
 * grouping of event types by correlation id and by session. A Python
 * exception the script would raise is an explicit outcome here.
 */
module AuditLogCheck {
  import opened Wrappers
  import opened PyValues

  /** One parsed log line. */
  type AuditEvent = map<string, Value>

  const REQUIRED_FIELDS: seq<string> := ["ts", "sessionId", "eventType"]

  /** The required fields the event lacks, in the order they are listed. */
  function MissingFields(ev: AuditEvent): (missing: seq<string>)
    ensures forall f :: f in missing <==> f in REQUIRED_FIELDS && f !in ev
  {
    (if "ts" in ev then [] else ["ts"])
    + (if "sessionId" in ev then [] else ["sessionId"])
    + (if "eventType" in ev then [] else ["eventType"])
  }

  predicate Complete(ev: AuditEvent)
  {
    "ts" in ev && "sessionId" in ev && "eventType" in ev
  }

  /** How many events carry every required field. */
  function CountComplete(events: seq<AuditEvent>): (n: nat)
    ensures n <= |events|
  {
    if events == [] then 0
    else CountComplete(events[..|events| - 1]) + (if MissingFields(events[|events| - 1]) == [] then 1 else 0)
  }

  /** All events pass the schema check exactly when every one of them carries the required fields. */
  lemma {:induction false} AllComplete(events: seq<AuditEvent>)
    ensures CountComplete(events) == |events| <==> forall k :: 0 <= k < |events| ==> Complete(events[k])
  {
    if events != [] {
      var n := |events| - 1;
      AllComplete(events[..n]);
      assert forall k :: 0 <= k < n ==> events[..n][k] == events[k];
      assert MissingFields(events[n]) == [] <==> Complete(events[n]) by {
        if !Complete(events[n]) {
          var f :| f in REQUIRED_FIELDS && f !in events[n];
          assert f in MissingFields(events[n]);
        }
      }
    }
  }

  /** `verify_schema`: how many events pass and how many fail. */
  method VerifySchema(events: seq<AuditEvent>) returns (ok: nat, fail: nat)
    ensures ok == CountComplete(events)
    ensures ok + fail == |events|
  {
    ok, fail := 0, 0;
    var i := 0;
    while i < |events|
      invariant 0 <= i <= |events|
      invariant ok == CountComplete(events[..i]) && ok + fail == i
    {
      assert events[..i + 1][..i] == events[..i];
      var missing := MissingFields(events[i]);
      if missing != [] {
        fail := fail + 1;
      } else {
        ok := ok + 1;
      }
      i := i + 1;
    }
    assert events[..i] == events;
  }

  /** Python's `<` on strings: lexicographic by code point. */
  predicate LexLess(a: string, b: string)
  {
    if b == [] then false
    else if a == [] then true
    else if a[0] != b[0] then a[0] < b[0]
    else LexLess(a[1..], b[1..])
  }

  lemma {:induction false} LexLessIrreflexive(a: string)
    ensures !LexLess(a, a)
  {
    if a != [] {
      LexLessIrreflexive(a[1..]);
    }
  }

  /** The previous timestamp: a number, or an ISO text. */
  datatype PrevTs = PrevNum(x: int) | PrevText(s: string)

  /** How the order check ends: in order, out of order at an event, or with an exception at an event. */
  datatype ChronoOutcome = InOrder | OutOfOrder(index: nat) | Raises(index: nat)

  /** `ev.get('ts', 0)`. */
  function TsOf(ev: AuditEvent): Value
  {
    Get(ev, "ts", PyInt(0))
  }

  /** The check from event `i` on, given the previous timestamp. */
  function ChronoFrom(events: seq<AuditEvent>, i: nat, prev: PrevTs): (r: ChronoOutcome)
    requires i <= |events|
    ensures r.OutOfOrder? ==> i <= r.index < |events|
    ensures r.Raises? ==> i <= r.index < |events| && !TsOf(events[r.index]).PyStr?
    decreases |events| - i
  {
    if i == |events| then InOrder
    else
      var ts := TsOf(events[i]);
      if ts.PyStr? then
        var prevText := if prev.PrevText? then prev.s else "";
        if LexLess(ts.s, prevText) then OutOfOrder(i) else ChronoFrom(events, i + 1, PrevText(ts.s))
      else if !IsPyInt(ts) then Raises(i)
      else if prev.PrevText? then Raises(i)
      else if AsInt(ts) < prev.x then OutOfOrder(i)
      else ChronoFrom(events, i + 1, PrevNum(AsInt(ts)))
  }

  /** `verify_chronological`, starting from the previous timestamp 0. */
  method VerifyChronological(events: seq<AuditEvent>) returns (outcome: ChronoOutcome)
    ensures outcome == ChronoFrom(events, 0, PrevNum(0))
  {
    var prev := PrevNum(0);
    var i := 0;
    while i < |events|
      invariant 0 <= i <= |events|
      invariant ChronoFrom(events, 0, PrevNum(0)) == ChronoFrom(events, i, prev)
    {
      var ts := TsOf(events[i]);
      if ts.PyStr? {
        var prevText := if prev.PrevText? then prev.s else "";
        if LexLess(ts.s, prevText) {
          return OutOfOrder(i);
        }
        prev := PrevText(ts.s);
      } else {
        if !IsPyInt(ts) || prev.PrevText? {
          return Raises(i);
        }
        if AsInt(ts) < prev.x {
          return OutOfOrder(i);
        }
        prev := PrevNum(AsInt(ts));
      }
      i := i + 1;
    }
    return InOrder;
  }

  /** Every timestamp is absent or an int (or bool). */
  predicate AllNumeric(events: seq<AuditEvent>)
  {
    forall k :: 0 <= k < |events| ==> IsPyInt(TsOf(events[k]))
  }

  /** The numeric timestamp of event `k`, and the one before it (0 before the first). */
  function NumTs(events: seq<AuditEvent>, k: nat): int
    requires k < |events| && IsPyInt(TsOf(events[k]))
  {
    AsInt(TsOf(events[k]))
  }

  function PrevNumTs(events: seq<AuditEvent>, k: nat): int
    requires k <= |events| && AllNumeric(events)
  {
    if k == 0 then 0 else NumTs(events, k - 1)
  }

  /**
   * For numeric timestamps the check never raises, reports the first event
   * whose timestamp is below the previous one (below 0 for the first), and
   * passes exactly when there is none.
   */
  lemma {:induction false} ChronoNumeric(events: seq<AuditEvent>, i: nat)
    requires AllNumeric(events) && i <= |events|
    ensures var r := ChronoFrom(events, i, PrevNum(PrevNumTs(events, i)));
      && !r.Raises?
      && (r == InOrder <==> forall k :: i <= k < |events| ==> PrevNumTs(events, k) <= NumTs(events, k))
      && (r.OutOfOrder? ==> i <= r.index < |events| && NumTs(events, r.index) < PrevNumTs(events, r.index)
                            && forall k :: i <= k < r.index ==> PrevNumTs(events, k) <= NumTs(events, k))
    decreases |events| - i
  {
    if i < |events| {
      ChronoNumeric(events, i + 1);
    }
  }

  /** The order check of a whole numeric log: in order exactly when the timestamps never decrease and start at 0 or later. */
  lemma ChronologicalNumeric(events: seq<AuditEvent>)
    requires AllNumeric(events)
    ensures ChronoFrom(events, 0, PrevNum(0)) == InOrder
            <==> forall k :: 0 <= k < |events| ==> PrevNumTs(events, k) <= NumTs(events, k)
  {
    ChronoNumeric(events, 0);
  }

  /** A text timestamp is never out of order after a numeric one, and a numeric one after a text one raises. */
  lemma MixedTimestamps(events: seq<AuditEvent>, i: nat, x: int, s: string)
    requires i < |events|
    ensures TsOf(events[i]).PyStr? ==> ChronoFrom(events, i, PrevNum(x)) == ChronoFrom(events, i + 1, PrevText(TsOf(events[i]).s))
    ensures IsPyInt(TsOf(events[i])) ==> ChronoFrom(events, i, PrevText(s)) == Raises(i)
  {
  }

  /** The grouping of event types by a field, or the index of the first event without an event type. */
  function GroupTypes(events: seq<AuditEvent>, field: string, default: Value): (r: Result<map<Value, seq<Value>>, nat>)
    ensures r.Err? ==> r.error < |events| && "eventType" !in events[r.error]
    ensures r.Ok? ==> (r.value == map[] <==> events == [])
    ensures r.Ok? && events != [] ==> Get(events[|events| - 1], field, default) in r.value
  {
    if events == [] then Ok(map[])
    else
      var n := |events| - 1;
      var prev := GroupTypes(events[..n], field, default);
      if prev.Err? then prev
      else if "eventType" !in events[n] then Err(n)
      else
        var key := Get(events[n], field, default);
        var chain := if key in prev.value then prev.value[key] else [];
        Ok(prev.value[key := chain + [events[n]["eventType"]]])
  }

  /** The event types of the events whose field (or default) is `key`, in log order. */
  function TypesWithKey(events: seq<AuditEvent>, field: string, default: Value, key: Value): seq<Value>
    requires forall k :: 0 <= k < |events| ==> "eventType" in events[k]
  {
    if events == [] then []
    else
      var n := |events| - 1;
      TypesWithKey(events[..n], field, default, key)
      + (if Get(events[n], field, default) == key then [events[n]["eventType"]] else [])
  }

  /**
   * Grouping fails exactly when some event has no event type, at the first
   * such event; otherwise each key that occurs maps to its events' types in
   * log order, and no other key appears.
   */
  lemma GroupTypesMeaning(events: seq<AuditEvent>, field: string, default: Value)
    ensures var r := GroupTypes(events, field, default);
      && (r.Ok? <==> forall k :: 0 <= k < |events| ==> "eventType" in events[k])
      && (r.Err? ==> r.error < |events| && "eventType" !in events[r.error]
                     && forall k :: 0 <= k < r.error ==> "eventType" in events[k])
      && (r.Ok? ==> forall key :: key in r.value <==> exists k :: 0 <= k < |events| && Get(events[k], field, default) == key)
      && (r.Ok? ==> forall key :: key in r.value ==> r.value[key] == TypesWithKey(events, field, default, key))
  {
    GroupTypesFails(events, field, default);
    if GroupTypes(events, field, default).Ok? {
      GroupTypesKeys(events, field, default);
      GroupTypesChains(events, field, default);
    }
  }

  /** Grouping fails exactly when some event has no event type, and then at the first such event. */
  lemma {:induction false} GroupTypesFails(events: seq<AuditEvent>, field: string, default: Value)
    ensures var r := GroupTypes(events, field, default);
      && (r.Ok? <==> forall k :: 0 <= k < |events| ==> "eventType" in events[k])
      && (r.Err? ==> r.error < |events| && "eventType" !in events[r.error]
                     && forall k :: 0 <= k < r.error ==> "eventType" in events[k])
  {
    if events != [] {
      var n := |events| - 1;
      var pre := events[..n];
      GroupTypesFails(pre, field, default);
      assert forall k :: 0 <= k < n ==> pre[k] == events[k];
    }
  }

  /** When every event has an event type, the keys of the grouping are the keys that occur. */
  lemma {:induction false} GroupTypesKeys(events: seq<AuditEvent>, field: string, default: Value)
    requires forall k :: 0 <= k < |events| ==> "eventType" in events[k]
    ensures GroupTypes(events, field, default).Ok?
    ensures forall key :: key in GroupTypes(events, field, default).value
                          <==> exists k :: 0 <= k < |events| && Get(events[k], field, default) == key
  {
    if events != [] {
      var n := |events| - 1;
      var pre := events[..n];
      assert forall k :: 0 <= k < n ==> pre[k] == events[k];
      GroupTypesKeys(pre, field, default);
      var r := GroupTypes(events, field, default);
      var key := Get(events[n], field, default);
      forall u
        ensures u in r.value <==> exists k :: 0 <= k < |events| && Get(events[k], field, default) == u
      {
        if u != key && exists k :: 0 <= k < |events| && Get(events[k], field, default) == u {
          var k :| 0 <= k < |events| && Get(events[k], field, default) == u;
          assert k < n && Get(pre[k], field, default) == u;
        }
      }
    }
  }

  /** When every event has an event type, each key's chain is its events' types in log order. */
  lemma {:induction false} GroupTypesChains(events: seq<AuditEvent>, field: string, default: Value)
    requires forall k :: 0 <= k < |events| ==> "eventType" in events[k]
    ensures GroupTypes(events, field, default).Ok?
    ensures forall key :: key in GroupTypes(events, field, default).value
                          ==> GroupTypes(events, field, default).value[key] == TypesWithKey(events, field, default, key)
  {
    if events != [] {
      var n := |events| - 1;
      var pre := events[..n];
      assert forall k :: 0 <= k < n ==> pre[k] == events[k];
      GroupTypesChains(pre, field, default);
      GroupTypesKeys(pre, field, default);
      forall u | u !in GroupTypes(pre, field, default).value
        ensures TypesWithKey(pre, field, default, u) == []
      {
        TypesWithKeyAbsent(pre, field, default, u);
      }
    }
  }

  lemma {:induction false} TypesWithKeyAbsent(events: seq<AuditEvent>, field: string, default: Value, key: Value)
    requires forall k :: 0 <= k < |events| ==> "eventType" in events[k]
    requires forall k :: 0 <= k < |events| ==> Get(events[k], field, default) != key
    ensures TypesWithKey(events, field, default, key) == []
  {
    if events != [] {
      TypesWithKeyAbsent(events[..|events| - 1], field, default, key);
    }
  }

  /** The loop shared by the two grouping checks; `Err(i)` stands for the KeyError at event `i`. */
  method GroupEventTypes(events: seq<AuditEvent>, field: string, default: Value) returns (r: Result<map<Value, seq<Value>>, nat>)
    ensures r == GroupTypes(events, field, default)
  {
    var chains: map<Value, seq<Value>> := map[];
    var i := 0;
    while i < |events|
      invariant 0 <= i <= |events|
      invariant GroupTypes(events[..i], field, default) == Ok(chains)
    {
      assert events[..i + 1][..i] == events[..i];
      var key := Get(events[i], field, default);
      if "eventType" !in events[i] {
        assert GroupTypes(events[..i + 1], field, default) == Err(i);
        GroupTypesErrSticky(events, field, default, i + 1);
        assert events[..|events|] == events;
        return Err(i);
      }
      var chain := if key in chains then chains[key] else [];
      chains := chains[key := chain + [events[i]["eventType"]]];
      i := i + 1;
    }
    assert events[..i] == events;
    return Ok(chains);
  }

  /** Once grouping has failed on a prefix, it fails the same way on every longer prefix. */
  lemma {:induction false} GroupTypesErrSticky(events: seq<AuditEvent>, field: string, default: Value, i: nat)
    requires i <= |events| && GroupTypes(events[..i], field, default).Err?
    ensures GroupTypes(events, field, default) == GroupTypes(events[..i], field, default)
    decreases |events| - i
  {
    if i < |events| {
      assert events[..i + 1][..i] == events[..i];
      GroupTypesErrSticky(events, field, default, i + 1);
    } else {
      assert events[..i] == events;
    }
  }

  /** `verify_correlation_chains`: event types by correlation id, 'none' when there is none. */
  method VerifyCorrelationChains(events: seq<AuditEvent>) returns (r: Result<map<Value, seq<Value>>, nat>)
    ensures r == GroupTypes(events, "correlationId", PyStr("none"))
  {
    r := GroupEventTypes(events, "correlationId", PyStr("none"));
  }

  /** `verify_session_flows`: event types by session id, 'unknown' when there is none. */
  method VerifySessionFlows(events: seq<AuditEvent>) returns (r: Result<map<Value, seq<Value>>, nat>)
    ensures r == GroupTypes(events, "sessionId", PyStr("unknown"))
  {
    r := GroupEventTypes(events, "sessionId", PyStr("unknown"));
  }
}

=== FILE: defense_actuator.dfy ===
/**
 * Actuation: each planned action becomes at most one DEF_ event carrying
 * the trigger's timestamp and session, with source DEFENSE. Unsupported
 * action types are skipped, and a sandbox is not requested twice. The
 * random event ids are a parameter: `newId(k)` is the id for the `k`-th plan.
 */
module DefenseActuator {
  import opened Wrappers
  import opened PyValues
  import opened DefenseCore
  import opened DefensePlanner

  /** Throttle duration by strength; an unknown strength gets the light duration. */
  function ThrottleDuration(strength: string): (ms: int)
    ensures ms == (if strength == "strong" then 2000 else 200)
  {
    if strength == "light" then 200 else if strength == "strong" then 2000 else 200
  }

  /** The event type a plan produces, if any. */
  function EmittedType(plan: PlannedAction, sandboxed: bool): (t: Option<string>)
    ensures t.Some? ==> t.value in {DEF_THROTTLED, DEF_BLOCKED, DEF_CHALLENGE_FORCED, DEF_SANDBOXED}
    ensures t.Some? <==> plan.actionType in {"THROTTLE", "BLOCK", "CHALLENGE"} || (plan.actionType == "SANDBOX" && !sandboxed)
  {
    if plan.actionType == "THROTTLE" then Some(DEF_THROTTLED)
    else if plan.actionType == "BLOCK" then Some(DEF_BLOCKED)
    else if plan.actionType == "CHALLENGE" then Some(DEF_CHALLENGE_FORCED)
    else if plan.actionType == "SANDBOX" && !sandboxed then Some(DEF_SANDBOXED)
    else None
  }

  function DefenseEvent(id: string, trigger: Event, eventType: string, payload: map<string, Value>): Event
  {
    Event(id, trigger.tsMs, eventType, DEFENSE, trigger.sessionId, payload)
  }

  /** `_execute_single_plan` with the per-action builders. */
  function ExecuteSingle(plan: PlannedAction, sandboxed: bool, trigger: Event, id: string): (e: Option<Event>)
    ensures e.Some? <==> EmittedType(plan, sandboxed).Some?
    ensures e.Some? ==> e.value.eventType == EmittedType(plan, sandboxed).value && e.value.eventId == id
                        && e.value.tsMs == trigger.tsMs && e.value.sessionId == trigger.sessionId
                        && e.value.source == DEFENSE
    ensures plan.actionType == "THROTTLE"
            ==> var strength := Get(plan.params, "strength", "light");
                e.value.payload == map["duration_ms" := PyInt(ThrottleDuration(strength)), "strength" := PyStr(strength)]
    ensures plan.actionType == "BLOCK" ==> e.value.payload == map["reason" := PyStr(Get(plan.params, "reason", "tier_t3"))]
    ensures plan.actionType == "CHALLENGE"
            ==> e.value.payload == map["difficulty" := PyStr(Get(plan.params, "difficulty", "medium"))]
    ensures plan.actionType == "SANDBOX" && !sandboxed ==> e.value.payload == map[]
  {
    if plan.actionType == "THROTTLE" then
      var strength := Get(plan.params, "strength", "light");
      Some(DefenseEvent(id, trigger, DEF_THROTTLED,
                        map["duration_ms" := PyInt(ThrottleDuration(strength)), "strength" := PyStr(strength)]))
    else if plan.actionType == "BLOCK" then
      Some(DefenseEvent(id, trigger, DEF_BLOCKED, map["reason" := PyStr(Get(plan.params, "reason", "tier_t3"))]))
    else if plan.actionType == "CHALLENGE" then
      Some(DefenseEvent(id, trigger, DEF_CHALLENGE_FORCED, map["difficulty" := PyStr(Get(plan.params, "difficulty", "medium"))]))
    else if plan.actionType == "SANDBOX" then
      if sandboxed then None else Some(DefenseEvent(id, trigger, DEF_SANDBOXED, map[]))
    else None
  }

  /** The event types the plans produce, in plan order, skipping the plans that produce none. */
  function EmittedTypes(plans: seq<PlannedAction>, sandboxed: bool): (ts: seq<string>)
    ensures forall k :: 0 <= k < |ts| ==> ts[k] in {DEF_THROTTLED, DEF_BLOCKED, DEF_CHALLENGE_FORCED, DEF_SANDBOXED}
  {
    if plans == [] then []
    else
      var last := EmittedType(plans[|plans| - 1], sandboxed);
      EmittedTypes(plans[..|plans| - 1], sandboxed) + (if last.Some? then [last.value] else [])
  }

  /** `execute_plans`: the events of the plans that produce one, in plan order. */
  function ExecutePlans(plans: seq<PlannedAction>, sandboxed: bool, trigger: Event, newId: nat -> string): (events: seq<Event>)
    ensures |events| <= |plans|
    ensures forall k :: 0 <= k < |events| ==> events[k].tsMs == trigger.tsMs && events[k].sessionId == trigger.sessionId
                                              && events[k].source == DEFENSE
  {
    if plans == [] then []
    else
      var n := |plans| - 1;
      var last := ExecuteSingle(plans[n], sandboxed, trigger, newId(n));
      ExecutePlans(plans[..n], sandboxed, trigger, newId) + (if last.Some? then [last.value] else [])
  }

  /** The events' types are exactly the types the plans produce, in plan order. */
  lemma {:induction false} ExecutedTypes(plans: seq<PlannedAction>, sandboxed: bool, trigger: Event, newId: nat -> string)
    ensures var events := ExecutePlans(plans, sandboxed, trigger, newId);
      |events| == |EmittedTypes(plans, sandboxed)|
      && forall k :: 0 <= k < |events| ==> events[k].eventType == EmittedTypes(plans, sandboxed)[k]
  {
    if plans != [] {
      ExecutedTypes(plans[..|plans| - 1], sandboxed, trigger, newId);
    }
  }

  /** A plan made only of supported, non-sandbox actions yields one event per plan. */
  lemma {:induction false} AllSupportedEmitted(plans: seq<PlannedAction>, sandboxed: bool, trigger: Event, newId: nat -> string)
    requires forall k :: 0 <= k < |plans| ==> plans[k].actionType in {"THROTTLE", "BLOCK", "CHALLENGE"}
    ensures |ExecutePlans(plans, sandboxed, trigger, newId)| == |plans|
  {
    if plans != [] {
      AllSupportedEmitted(plans[..|plans| - 1], sandboxed, trigger, newId);
    }
  }

  /** Once sandboxed, no DEF_SANDBOXED event is produced. */
  lemma {:induction false} NoRepeatedSandbox(plans: seq<PlannedAction>, trigger: Event, newId: nat -> string)
    ensures forall k :: 0 <= k < |ExecutePlans(plans, true, trigger, newId)|
                        ==> ExecutePlans(plans, true, trigger, newId)[k].eventType != DEF_SANDBOXED
  {
    ExecutedTypes(plans, true, trigger, newId);
    SandboxedTypes(plans);
  }

  lemma {:induction false} SandboxedTypes(plans: seq<PlannedAction>)
    ensures DEF_SANDBOXED !in EmittedTypes(plans, true)
  {
    if plans != [] {
      SandboxedTypes(plans[..|plans| - 1]);
    }
  }
}

=== FILE: defense_core.dfy ===
/**
 * The defense pipeline's vocabulary: flow states, risk tiers, events, the
 * per-session context the transition engine consults, the mutation record
 * it returns instead of changing the context, and the policy thresholds.
 * Event types are plain strings; each named constant below holds its own
 * name as its value.
 */
module DefenseCore {
  import opened Wrappers
  import opened PyValues

  datatype FlowState = S0 | S1 | S2 | S3 | S4 | S5 | S6 | SX
  {
    function Value(): string
    {
      match this
      case S0 => "S0"
      case S1 => "S1"
      case S2 => "S2"
      case S3 => "S3"
      case S4 => "S4"
      case S5 => "S5"
      case S6 => "S6"
      case SX => "SX"
    }
  }

  datatype DefenseTier = T0 | T1 | T2 | T3
  {
    /** Severity order: a higher rank is a stricter tier. */
    function Rank(): (r: nat)
      ensures r <= 3
    {
      match this
      case T0 => 0
      case T1 => 1
      case T2 => 2
      case T3 => 3
    }

    function Value(): string
    {
      match this
      case T0 => "T0"
      case T1 => "T1"
      case T2 => "T2"
      case T3 => "T3"
    }
  }

  /** Tiers are told apart by their rank alone. */
  lemma RankInjective(a: DefenseTier, b: DefenseTier)
    ensures a.Rank() == b.Rank() <==> a == b
  {
  }

  datatype EventSource = PAGE | BACKEND | TIMER | DEFENSE

  datatype TerminalReason = DONE | ABORT | COOLDOWN | RESET | SESSION_EXPIRED | BLOCKED
  {
    function Value(): string
    {
      match this
      case DONE => "DONE"
      case ABORT => "ABORT"
      case COOLDOWN => "COOLDOWN"
      case RESET => "RESET"
      case SESSION_EXPIRED => "SESSION_EXPIRED"
      case BLOCKED => "BLOCKED"
    }
  }

  datatype FailureCode =
    | F_NONE | F_CHALLENGE_FAILED | F_TIMEOUT | F_SEAT_TAKEN | F_HOLD_FAILED | F_BLOCKED | F_POLICY_VIOLATION
  {
    function Value(): string
    {
      match this
      case F_NONE => "F_NONE"
      case F_CHALLENGE_FAILED => "F_CHALLENGE_FAILED"
      case F_TIMEOUT => "F_TIMEOUT"
      case F_SEAT_TAKEN => "F_SEAT_TAKEN"
      case F_HOLD_FAILED => "F_HOLD_FAILED"
      case F_BLOCKED => "F_BLOCKED"
      case F_POLICY_VIOLATION => "F_POLICY_VIOLATION"
    }
  }

  // Event types the engine and the brain react to.
  const FLOW_START: string := "FLOW_START"
  const FLOW_ABORT: string := "FLOW_ABORT"
  const FLOW_RESET: string := "FLOW_RESET"
  const STAGE_1_ENTRY_CLICKED: string := "STAGE_1_ENTRY_CLICKED"
  const STAGE_2_QUEUE_PASSED: string := "STAGE_2_QUEUE_PASSED"
  const STAGE_3_CHALLENGE_PASSED: string := "STAGE_3_CHALLENGE_PASSED"
  const STAGE_3_CHALLENGE_FAILED: string := "STAGE_3_CHALLENGE_FAILED"
  const STAGE_4_SECTION_SELECTED: string := "STAGE_4_SECTION_SELECTED"
  const STAGE_5_SEAT_SELECTED: string := "STAGE_5_SEAT_SELECTED"
  const STAGE_5_CONFIRM_CLICKED: string := "STAGE_5_CONFIRM_CLICKED"
  const STAGE_5_SEAT_TAKEN: string := "STAGE_5_SEAT_TAKEN"
  const STAGE_5_HOLD_FAILED: string := "STAGE_5_HOLD_FAILED"
  const STAGE_6_PAYMENT_COMPLETED: string := "STAGE_6_PAYMENT_COMPLETED"
  const STAGE_6_PAYMENT_ABORTED: string := "STAGE_6_PAYMENT_ABORTED"
  const TXN_ROLLBACK: string := "TXN_ROLLBACK"
  const SIGNAL_TOKEN_MISMATCH: string := "SIGNAL_TOKEN_MISMATCH"
  const SIGNAL_REPETITIVE_PATTERN: string := "SIGNAL_REPETITIVE_PATTERN"
  const RISK_TIER_UPDATED: string := "RISK_TIER_UPDATED"
  const DEF_BLOCKED: string := "DEF_BLOCKED"
  const DEF_THROTTLED: string := "DEF_THROTTLED"
  const DEF_CHALLENGE_FORCED: string := "DEF_CHALLENGE_FORCED"
  const DEF_SANDBOXED: string := "DEF_SANDBOXED"

  datatype Event = Event(
    eventId: string,
    tsMs: int,
    eventType: string,
    source: EventSource,
    sessionId: string,
    payload: map<string, Value>)

  datatype DefenseAction = DefenseAction(actionType: string, payload: map<string, Value>)

  /** The context's fields as a value. */
  datatype ContextState = ContextState(
    lastNonSecurityState: Option<FlowState>,
    challengeFailCount: int,
    seatTakenCount: int,
    holdFailCount: int,
    sessionAge: int,
    isSandboxed: bool,
    retryCount: int)

  function FreshContext(): (c: ContextState)
    ensures c.lastNonSecurityState.None? && !c.isSandboxed
    ensures c.challengeFailCount == 0 && c.seatTakenCount == 0 && c.holdFailCount == 0
    ensures c.sessionAge == 0 && c.retryCount == 0
  {
    ContextState(None, 0, 0, 0, 0, false, 0)
  }

  /**
   * The changed fields a transition reports: `Some(v)` for a field set to
   * `v`, `None` for a field left alone. Only context fields can be named.
   */
  datatype Mutations = Mutations(
    lastNonSecurityState: Option<Option<FlowState>>,
    challengeFailCount: Option<int>,
    seatTakenCount: Option<int>,
    holdFailCount: Option<int>,
    sessionAge: Option<int>,
    isSandboxed: Option<bool>,
    retryCount: Option<int>)

  const NO_MUTATIONS: Mutations := Mutations(None, None, None, None, None, None, None)

  function Pick<T>(o: Option<T>, keep: T): T
  {
    if o.Some? then o.value else keep
  }

  /** Setting each named field to its new value and leaving the others alone. */
  function ApplyMutations(c: ContextState, m: Mutations): (r: ContextState)
    ensures m == NO_MUTATIONS ==> r == c
    ensures r.challengeFailCount == Pick(m.challengeFailCount, c.challengeFailCount)
    ensures r.seatTakenCount == Pick(m.seatTakenCount, c.seatTakenCount)
    ensures r.holdFailCount == Pick(m.holdFailCount, c.holdFailCount)
    ensures r.lastNonSecurityState == Pick(m.lastNonSecurityState, c.lastNonSecurityState)
    ensures r.sessionAge == Pick(m.sessionAge, c.sessionAge)
    ensures r.isSandboxed == Pick(m.isSandboxed, c.isSandboxed)
    ensures r.retryCount == Pick(m.retryCount, c.retryCount)
  {
    ContextState(
      Pick(m.lastNonSecurityState, c.lastNonSecurityState),
      Pick(m.challengeFailCount, c.challengeFailCount),
      Pick(m.seatTakenCount, c.seatTakenCount),
      Pick(m.holdFailCount, c.holdFailCount),
      Pick(m.sessionAge, c.sessionAge),
      Pick(m.isSandboxed, c.isSandboxed),
      Pick(m.retryCount, c.retryCount))
  }

  /** The mutable per-session context that the harness and the scenario runner update in place. */
  class Context {
    var lastNonSecurityState: Option<FlowState>
    var challengeFailCount: int
    var seatTakenCount: int
    var holdFailCount: int
    var sessionAge: int
    var isSandboxed: bool
    var retryCount: int

    function Snapshot(): ContextState
      reads this
    {
      ContextState(lastNonSecurityState, challengeFailCount, seatTakenCount, holdFailCount,
                   sessionAge, isSandboxed, retryCount)
    }

    constructor()
      ensures Snapshot() == FreshContext()
    {
      lastNonSecurityState := None;
      challengeFailCount, seatTakenCount, holdFailCount, sessionAge, retryCount := 0, 0, 0, 0, 0;
      isSandboxed := false;
    }

    /** Assigning each reported field in place. */
    method Apply(m: Mutations)
      modifies this
      ensures Snapshot() == ApplyMutations(old(Snapshot()), m)
    {
      if m.lastNonSecurityState.Some? { lastNonSecurityState := m.lastNonSecurityState.value; }
      if m.challengeFailCount.Some? { challengeFailCount := m.challengeFailCount.value; }
      if m.seatTakenCount.Some? { seatTakenCount := m.seatTakenCount.value; }
      if m.holdFailCount.Some? { holdFailCount := m.holdFailCount.value; }
      if m.sessionAge.Some? { sessionAge := m.sessionAge.value; }
      if m.isSandboxed.Some? { isSandboxed := m.isSandboxed.value; }
      if m.retryCount.Some? { retryCount := m.retryCount.value; }
    }
  }

  datatype PolicySnapshot = PolicySnapshot(
    maxRetryPerState: int,
    challengeFailThreshold: int,
    seatTakenStreakThreshold: int)

  const DEFAULT_POLICY: PolicySnapshot := PolicySnapshot(3, 3, 7)

  datatype TransitionResult = TransitionResult(
    nextState: FlowState,
    mutations: Mutations,
    actions: seq<DefenseAction>,
    failureCode: Option<FailureCode>,
    terminalReason: Option<TerminalReason>,
    returnTo: Option<FlowState>)
}

=== FILE: defense_engine.dfy ===
/**
 * The defense flow's transition engine: one (state, event, context) step.
 * It never changes the context; the fields it would change come back in
 * the result's mutation record. Guardrail and interrupt rules are tried
 * first, in a fixed order; only when none applies does the flow progress
 * along S0 .. S6 to SX. Leaving S5 clears both S5 streak counters.
 */
module DefenseEngine {
  import opened Wrappers
  import opened PyValues
  import opened DefenseCore

  /** The flow in order, and the event that moves each state to the next one. */
  const FLOW_ORDER: seq<FlowState> := [S0, S1, S2, S3, S4, S5, S6, SX]
  const PROGRESS_EVENTS: seq<string> := [
    FLOW_START, STAGE_1_ENTRY_CLICKED, STAGE_2_QUEUE_PASSED, STAGE_3_CHALLENGE_PASSED,
    STAGE_4_SECTION_SELECTED, STAGE_5_CONFIRM_CLICKED, STAGE_6_PAYMENT_COMPLETED
  ]

  /** Event types the guardrail and interrupt rules react to in every state. */
  const INTERRUPT_TYPES: set<string> := {
    SIGNAL_TOKEN_MISMATCH, STAGE_3_CHALLENGE_FAILED, DEF_BLOCKED, FLOW_ABORT, FLOW_RESET, STAGE_6_PAYMENT_ABORTED
  }

  /** Normal progression: the next state and, for the last step, the DONE reason. */
  function Progress(state: FlowState, eventType: string): Option<(FlowState, Option<TerminalReason>)>
  {
    if state == S0 && eventType == FLOW_START then Some((S1, None))
    else if state == S1 && eventType == STAGE_1_ENTRY_CLICKED then Some((S2, None))
    else if state == S2 && eventType == STAGE_2_QUEUE_PASSED then Some((S3, None))
    else if state == S3 && eventType == STAGE_3_CHALLENGE_PASSED then Some((S4, None))
    else if state == S4 && eventType == STAGE_4_SECTION_SELECTED then Some((S5, None))
    else if state == S5 && eventType == STAGE_5_CONFIRM_CLICKED then Some((S6, None))
    else if state == S6 && eventType == STAGE_6_PAYMENT_COMPLETED then Some((SX, Some(DONE)))
    else None
  }

  /** Progression moves exactly one place along the flow order, on that place's event, and only the last move is terminal. */
  lemma ProgressMatchesFlowOrder(state: FlowState, eventType: string)
    ensures Progress(state, eventType).Some?
            <==> exists i :: 0 <= i < |PROGRESS_EVENTS| && state == FLOW_ORDER[i] && eventType == PROGRESS_EVENTS[i]
    ensures forall i :: 0 <= i < |PROGRESS_EVENTS| && state == FLOW_ORDER[i] && eventType == PROGRESS_EVENTS[i]
              ==> Progress(state, eventType) == Some((FLOW_ORDER[i + 1], if i == 6 then Some(DONE) else None))
  {
    var p := Progress(state, eventType);
    if p.Some? {
      var i := match state case S0 => 0 case S1 => 1 case S2 => 2 case S3 => 3 case S4 => 4 case S5 => 5 case S6 => 6 case SX => 7;
      assert 0 <= i < |PROGRESS_EVENTS| && state == FLOW_ORDER[i] && eventType == PROGRESS_EVENTS[i];
    }
  }

  function BlockAction(reason: string): DefenseAction
  {
    DefenseAction(DEF_BLOCKED, map["reason" := PyStr(reason)])
  }

  const S5_THROTTLE_ACTION: DefenseAction := DefenseAction(DEF_THROTTLED, map["state" := PyStr("S5")])

  function Unchanged(state: FlowState): TransitionResult
  {
    TransitionResult(state, NO_MUTATIONS, [], None, None, None)
  }

  /** The rule chosen for the event, before the S5 counters are cleared on leaving S5. */
  function ApplyRules(state: FlowState, event: Event, ctx: ContextState, policy: PolicySnapshot): (r: TransitionResult)
    ensures r.failureCode.Some? ==> r.nextState == SX && r.terminalReason == Some(BLOCKED)
    ensures r.returnTo.Some? <==> state == S6 && event.eventType == TXN_ROLLBACK
    ensures r.actions != [] ==> event.eventType in INTERRUPT_TYPES || (state == S5 && r.nextState == S5)
    ensures event.eventType !in INTERRUPT_TYPES && r.returnTo.None? && r.nextState != state
            ==> Progress(state, event.eventType).Some? && r.nextState == Progress(state, event.eventType).value.0
  {
    var t := event.eventType;
    if t == SIGNAL_TOKEN_MISMATCH then
      TransitionResult(SX, NO_MUTATIONS, [BlockAction("token_mismatch")], Some(F_POLICY_VIOLATION), Some(BLOCKED), None)
    else if t == STAGE_3_CHALLENGE_FAILED then
      var count := ctx.challengeFailCount + 1;
      var m := NO_MUTATIONS.(challengeFailCount := Some(count));
      if count >= policy.challengeFailThreshold then
        TransitionResult(SX, m, [BlockAction("challenge_fail_threshold")], Some(F_CHALLENGE_FAILED), Some(BLOCKED), None)
      else
        TransitionResult(state, m, [], None, None, None)
    else if (t == STAGE_5_SEAT_TAKEN || t == STAGE_5_HOLD_FAILED) && state == S5 then
      var streak := if t == STAGE_5_SEAT_TAKEN then ctx.seatTakenCount + 1 else ctx.holdFailCount + 1;
      var m := if t == STAGE_5_SEAT_TAKEN then NO_MUTATIONS.(seatTakenCount := Some(streak))
               else NO_MUTATIONS.(holdFailCount := Some(streak));
      TransitionResult(S5, m, if streak >= policy.seatTakenStreakThreshold then [S5_THROTTLE_ACTION] else [], None, None, None)
    else if t == DEF_BLOCKED then
      TransitionResult(SX, NO_MUTATIONS, [], Some(F_BLOCKED), Some(BLOCKED), None)
    else if t == FLOW_ABORT then
      TransitionResult(SX, NO_MUTATIONS, [], None, Some(ABORT), None)
    else if t == FLOW_RESET then
      TransitionResult(S0, Mutations(Some(None), Some(0), Some(0), Some(0), Some(0), Some(false), None), [], None, Some(RESET), None)
    else if t == STAGE_6_PAYMENT_ABORTED then
      TransitionResult(SX, NO_MUTATIONS, [], None, Some(ABORT), None)
    else if t == TXN_ROLLBACK && state == S6 then
      TransitionResult(S5, NO_MUTATIONS, [], None, None, Some(S6))
    else
      match Progress(state, t)
      case Some((next, reason)) => TransitionResult(next, NO_MUTATIONS, [], None, reason, None)
      case None => Unchanged(state)
  }

  /**
   * `transition`: the chosen rule, with both S5 streak counters set to 0
   * when the flow leaves S5 and the rule did not set them itself.
   */
  function Transition(state: FlowState, event: Event, ctx: ContextState, policy: PolicySnapshot): (r: TransitionResult)
    ensures r.terminalReason.Some? ==> r.nextState == SX || (r.nextState == S0 && r.terminalReason == Some(RESET))
    ensures r.failureCode.Some? ==> r.nextState == SX && r.terminalReason == Some(BLOCKED)
    ensures r.returnTo.Some? ==> state == S6 && r.nextState == S5 && r.returnTo == Some(S6)
    ensures r.mutations.retryCount.None?
  {
    var b := ApplyRules(state, event, ctx, policy);
    if state == S5 && b.nextState != S5 then
      b.(mutations := b.mutations.(seatTakenCount := Some(Pick(b.mutations.seatTakenCount, 0)),
                                   holdFailCount := Some(Pick(b.mutations.holdFailCount, 0))))
    else b
  }

  /** A token mismatch blocks the session from any state with one DEF_BLOCKED action. */
  lemma TokenMismatchBlocks(state: FlowState, event: Event, ctx: ContextState, policy: PolicySnapshot)
    requires event.eventType == SIGNAL_TOKEN_MISMATCH
    ensures var r := Transition(state, event, ctx, policy);
      && r.nextState == SX && r.terminalReason == Some(BLOCKED) && r.failureCode == Some(F_POLICY_VIOLATION)
      && r.actions == [DefenseAction(DEF_BLOCKED, map["reason" := PyStr("token_mismatch")])]
      && ApplyMutations(ctx, r.mutations).challengeFailCount == ctx.challengeFailCount
  {
  }

  /** A failed challenge always counts; reaching the threshold blocks, below it the state stays. */
  lemma ChallengeFailureThreshold(state: FlowState, event: Event, ctx: ContextState, policy: PolicySnapshot)
    requires event.eventType == STAGE_3_CHALLENGE_FAILED
    ensures var r := Transition(state, event, ctx, policy);
      var n := ctx.challengeFailCount + 1;
      && ApplyMutations(ctx, r.mutations).challengeFailCount == n
      && (n >= policy.challengeFailThreshold
          ==> r.nextState == SX && r.terminalReason == Some(BLOCKED) && r.failureCode == Some(F_CHALLENGE_FAILED)
              && r.actions == [DefenseAction(DEF_BLOCKED, map["reason" := PyStr("challenge_fail_threshold")])])
      && (n < policy.challengeFailThreshold
          ==> r.nextState == state && r.terminalReason.None? && r.failureCode.None? && r.actions == [])
  {
  }

  /** In S5 a taken seat or failed hold counts against its own streak only, stays in S5, and throttles from the threshold on. */
  lemma S5StreakRule(event: Event, ctx: ContextState, policy: PolicySnapshot)
    requires event.eventType == STAGE_5_SEAT_TAKEN || event.eventType == STAGE_5_HOLD_FAILED
    ensures var r := Transition(S5, event, ctx, policy);
      var c := ApplyMutations(ctx, r.mutations);
      var streak := if event.eventType == STAGE_5_SEAT_TAKEN then c.seatTakenCount else c.holdFailCount;
      && r.nextState == S5 && r.terminalReason.None? && r.failureCode.None?
      && (event.eventType == STAGE_5_SEAT_TAKEN
          ==> c.seatTakenCount == ctx.seatTakenCount + 1 && c.holdFailCount == ctx.holdFailCount)
      && (event.eventType == STAGE_5_HOLD_FAILED
          ==> c.holdFailCount == ctx.holdFailCount + 1 && c.seatTakenCount == ctx.seatTakenCount)
      && r.actions == (if streak >= policy.seatTakenStreakThreshold
                       then [DefenseAction(DEF_THROTTLED, map["state" := PyStr("S5")])] else [])
  {
  }

  /** Interrupts: a defense block, an abort, a payment abort, and a rollback from S6. */
  lemma InterruptRules(state: FlowState, event: Event, ctx: ContextState, policy: PolicySnapshot)
    ensures var r := Transition(state, event, ctx, policy);
      && (event.eventType == DEF_BLOCKED
          ==> r.nextState == SX && r.terminalReason == Some(BLOCKED) && r.failureCode == Some(F_BLOCKED) && r.actions == [])
      && (event.eventType in {FLOW_ABORT, STAGE_6_PAYMENT_ABORTED}
          ==> r.nextState == SX && r.terminalReason == Some(ABORT) && r.failureCode.None? && r.actions == [])
      && (event.eventType == TXN_ROLLBACK && state == S6
          ==> r.nextState == S5 && r.returnTo == Some(S6) && r.terminalReason.None? && r.mutations == NO_MUTATIONS)
  {
  }

  /** A reset returns to S0 with every field of a fresh context except the retry count, which is kept. */
  lemma ResetRule(state: FlowState, event: Event, ctx: ContextState, policy: PolicySnapshot)
    requires event.eventType == FLOW_RESET
    ensures var r := Transition(state, event, ctx, policy);
      && r.nextState == S0 && r.terminalReason == Some(RESET) && r.failureCode.None? && r.actions == []
      && ApplyMutations(ctx, r.mutations) == FreshContext().(retryCount := ctx.retryCount)
  {
  }

  /** RESET is the only terminal reason that does not end in SX, and only FLOW_RESET gives it. */
  lemma ResetOnlyNonTerminalStateReason(state: FlowState, event: Event, ctx: ContextState, policy: PolicySnapshot)
    ensures var r := Transition(state, event, ctx, policy);
      r.terminalReason == Some(RESET) <==> event.eventType == FLOW_RESET
  {
  }

  /**
   * Outside the guardrail and interrupt rules, only the seven flow-order
   * steps move; every other pair leaves the state with no actions, no
   * mutations and no reason.
   */
  lemma ProgressionOnly(state: FlowState, event: Event, ctx: ContextState, policy: PolicySnapshot)
    requires event.eventType !in INTERRUPT_TYPES
    requires !((event.eventType == STAGE_5_SEAT_TAKEN || event.eventType == STAGE_5_HOLD_FAILED) && state == S5)
    requires !(event.eventType == TXN_ROLLBACK && state == S6)
    ensures var r := Transition(state, event, ctx, policy);
      && r.actions == [] && r.failureCode.None? && r.returnTo.None?
      && ((exists i :: 0 <= i < |PROGRESS_EVENTS| && state == FLOW_ORDER[i] && event.eventType == PROGRESS_EVENTS[i])
          ==> r.nextState != state)
      && (!(exists i :: 0 <= i < |PROGRESS_EVENTS| && state == FLOW_ORDER[i] && event.eventType == PROGRESS_EVENTS[i])
          ==> r == Unchanged(state))
  {
    ProgressMatchesFlowOrder(state, event.eventType);
  }

  /** Whatever the rule, leaving S5 leaves both S5 streak counters at 0. */
  lemma LeavingS5ClearsStreaks(event: Event, ctx: ContextState, policy: PolicySnapshot)
    ensures var r := Transition(S5, event, ctx, policy);
      var c := ApplyMutations(ctx, r.mutations);
      r.nextState != S5 ==> c.seatTakenCount == 0 && c.holdFailCount == 0
  {
  }

  /**
   * Fed back into the engine, DEF_BLOCKED ends the flow and the other
   * defense events change nothing: there is no rule for a throttle, a
   * forced challenge or a sandbox.
   */
  lemma DefenseEventOutcome(state: FlowState, event: Event, ctx: ContextState, policy: PolicySnapshot)
    requires event.eventType in {DEF_THROTTLED, DEF_BLOCKED, DEF_CHALLENGE_FORCED, DEF_SANDBOXED}
    ensures var r := Transition(state, event, ctx, policy);
      && (event.eventType == DEF_BLOCKED ==> r.nextState == SX && r.terminalReason == Some(BLOCKED))
      && (event.eventType != DEF_BLOCKED ==> r == Unchanged(state))
  {
  }
}

=== FILE: defense_evidence.dfy ===
/**
 * Evidence aggregation: a running summary of the events seen in a session
 * (last timestamp, challenge failures, the S5 failure streak, whether a
 * token mismatch was ever seen, and the last ten SIGNAL_ event types).
 * Processing an event builds a new summary and leaves the old one alone.
 */
module DefenseEvidence {
  import opened PyValues
  import opened DefenseCore

  /** Capacity of the signal history ring. */
  const HISTORY_SIZE: nat := 10
  const SIGNAL_PREFIX: string := "SIGNAL_"

  datatype EvidenceState = EvidenceState(
    lastSignalTs: int,
    challengeFailCount: int,
    seatTakenStreak: int,
    signalHistory: seq<string>,
    tokenMismatchDetected: bool)

  const INITIAL_EVIDENCE: EvidenceState := EvidenceState(0, 0, 0, [], false)

  /** The last `n` items, or all of them when there are fewer. */
  function LastN<T>(s: seq<T>, n: nat): (r: seq<T>)
    ensures |r| == if |s| <= n then |s| else n
    ensures forall k :: 0 <= k < |r| ==> r[k] == s[|s| - |r| + k]
  {
    if |s| <= n then s else s[|s| - n..]
  }

  /** Appending to a ring of at most `n` items: the oldest item drops out when it is full. */
  lemma RingAppend<T>(s: seq<T>, x: T, n: nat)
    requires n > 0
    ensures LastN(LastN(s, n) + [x], n) == LastN(s + [x], n)
  {
    var a := LastN(LastN(s, n) + [x], n);
    var b := LastN(s + [x], n);
    assert |a| == |b|;
    forall k | 0 <= k < |a|
      ensures a[k] == b[k]
    {
      if k < |a| - 1 {
        assert a[k] == (LastN(s, n) + [x])[|LastN(s, n) + [x]| - |a| + k];
      }
    }
  }

  /** `copy`: the same evidence with its own history, still holding at most the ring's capacity. */
  function Copy(e: EvidenceState): (c: EvidenceState)
    ensures |e.signalHistory| <= HISTORY_SIZE ==> c == e
    ensures |c.signalHistory| <= HISTORY_SIZE
  {
    e.(signalHistory := LastN(e.signalHistory, HISTORY_SIZE))
  }

  /** `process_event`: the evidence after one more event. */
  function ProcessEvent(state: EvidenceState, event: Event): (r: EvidenceState)
    ensures r.lastSignalTs == event.tsMs
    ensures r.challengeFailCount == (if event.eventType == STAGE_3_CHALLENGE_FAILED then state.challengeFailCount + 1
                                     else if event.eventType == STAGE_3_CHALLENGE_PASSED then 0
                                     else state.challengeFailCount)
    ensures r.seatTakenStreak == (if event.eventType in {STAGE_5_SEAT_TAKEN, STAGE_5_HOLD_FAILED} then state.seatTakenStreak + 1
                                  else if event.eventType == STAGE_5_SEAT_SELECTED then 0
                                  else state.seatTakenStreak)
    ensures r.tokenMismatchDetected <==> state.tokenMismatchDetected || event.eventType == SIGNAL_TOKEN_MISMATCH
    ensures StartsWith(event.eventType, SIGNAL_PREFIX)
            ==> r.signalHistory == LastN(LastN(state.signalHistory, HISTORY_SIZE) + [event.eventType], HISTORY_SIZE)
    ensures !StartsWith(event.eventType, SIGNAL_PREFIX) ==> r.signalHistory == LastN(state.signalHistory, HISTORY_SIZE)
    ensures |r.signalHistory| <= HISTORY_SIZE
  {
    var c := Copy(state).(lastSignalTs := event.tsMs);
    var t := event.eventType;
    var c := if t == STAGE_3_CHALLENGE_FAILED then c.(challengeFailCount := c.challengeFailCount + 1)
             else if t == STAGE_3_CHALLENGE_PASSED then c.(challengeFailCount := 0)
             else if t == STAGE_5_SEAT_TAKEN || t == STAGE_5_HOLD_FAILED then c.(seatTakenStreak := c.seatTakenStreak + 1)
             else if t == STAGE_5_SEAT_SELECTED then c.(seatTakenStreak := 0)
             else c;
    var c := if t == SIGNAL_TOKEN_MISMATCH then c.(tokenMismatchDetected := true) else c;
    if StartsWith(t, SIGNAL_PREFIX) then c.(signalHistory := LastN(c.signalHistory + [t], HISTORY_SIZE)) else c
  }

  /** The evidence after a whole list of events, in order. */
  function ProcessAll(state: EvidenceState, events: seq<Event>): EvidenceState
  {
    if events == [] then state else ProcessEvent(ProcessAll(state, events[..|events| - 1]), events[|events| - 1])
  }

  /** The SIGNAL_ event types among the events, in arrival order. */
  function SignalTypes(events: seq<Event>): (ts: seq<string>)
    ensures forall k :: 0 <= k < |ts| ==> StartsWith(ts[k], SIGNAL_PREFIX)
  {
    if events == [] then []
    else
      var t := events[|events| - 1].eventType;
      SignalTypes(events[..|events| - 1]) + (if StartsWith(t, SIGNAL_PREFIX) then [t] else [])
  }

  /** The history holds exactly the last (at most ten) SIGNAL_ event types, in arrival order. */
  lemma {:induction false} HistoryIsLastSignals(events: seq<Event>)
    ensures ProcessAll(INITIAL_EVIDENCE, events).signalHistory == LastN(SignalTypes(events), HISTORY_SIZE)
  {
    if events != [] {
      var pre := events[..|events| - 1];
      var t := events[|events| - 1].eventType;
      HistoryIsLastSignals(pre);
      if StartsWith(t, SIGNAL_PREFIX) {
        RingAppend(SignalTypes(pre), t, HISTORY_SIZE);
      } else {
        assert SignalTypes(events) == SignalTypes(pre) + [];
        assert SignalTypes(events) == SignalTypes(pre);
      }
    }
  }

  /** A token mismatch is never forgotten: the flag is set exactly when one has been seen. */
  lemma {:induction false} TokenMismatchSticky(state: EvidenceState, events: seq<Event>)
    ensures ProcessAll(state, events).tokenMismatchDetected
            <==> state.tokenMismatchDetected || exists k :: 0 <= k < |events| && events[k].eventType == SIGNAL_TOKEN_MISMATCH
  {
    if events != [] {
      var pre := events[..|events| - 1];
      TokenMismatchSticky(state, pre);
      if exists k :: 0 <= k < |pre| && pre[k].eventType == SIGNAL_TOKEN_MISMATCH {
        var k :| 0 <= k < |pre| && pre[k].eventType == SIGNAL_TOKEN_MISMATCH;
        assert events[k].eventType == SIGNAL_TOKEN_MISMATCH;
      }
      if exists k :: 0 <= k < |events| && events[k].eventType == SIGNAL_TOKEN_MISMATCH {
        var k :| 0 <= k < |events| && events[k].eventType == SIGNAL_TOKEN_MISMATCH;
        if k < |pre| {
          assert pre[k].eventType == SIGNAL_TOKEN_MISMATCH;
        }
      }
    }
  }
}

=== FILE: defense_factory.dfy ===
/**
 * The test-event factory: every event it makes gets the next sequence
 * number, an id "evt-" followed by that number zero-padded to four digits,
 * and a timestamp one second after the previous one.
 */
module DefenseFactory {
  import opened Wrappers
  import opened PyValues
  import opened DefenseCore

  const DEFAULT_SESSION_ID: string := "test-session"
  const DEFAULT_BASE_TS: int := 1000000
  const ID_PREFIX: string := "evt-"
  const TS_STEP_MS: int := 1000

  function Zeros(n: nat): (z: string)
    ensures |z| == n && forall k :: 0 <= k < n ==> z[k] == '0'
  {
    if n == 0 then [] else Zeros(n - 1) + ['0']
  }

  /** `f"{s:0>w}"` for a digit string: left-padded with zeros up to width `w`. */
  function ZeroPad(s: string, w: nat): (r: string)
    ensures |r| == if |s| >= w then |s| else w
  {
    if |s| >= w then s else Zeros(w - |s|) + s
  }

  /** `f"evt-{n:04d}"`. */
  function EventId(n: nat): (id: string)
    ensures |id| >= 8 && id[..4] == ID_PREFIX
  {
    ID_PREFIX + ZeroPad(DigitsOf(n), 4)
  }

  /** The event the factory makes as its `n`-th; a missing payload becomes the empty one. */
  function EventFor(n: nat, sessionId: string, baseTs: int, eventType: string, source: EventSource,
                    payload: Option<map<string, Value>>): Event
  {
    Event(EventId(n), baseTs + n * TS_STEP_MS, eventType, source, sessionId,
          if payload.Some? then payload.value else map[])
  }

  /** Leading zeros do not change a digit string's value. */
  lemma {:induction false} LeadingZeros(z: nat, s: string)
    requires forall k :: 0 <= k < |s| ==> '0' <= s[k] <= '9'
    ensures DigitValue(Zeros(z) + s) == DigitValue(s)
  {
    if s == [] {
      assert Zeros(z) + s == Zeros(z);
      AllZeros(z);
    } else {
      var n := |s| - 1;
      LeadingZeros(z, s[..n]);
      assert (Zeros(z) + s)[..|Zeros(z) + s| - 1] == Zeros(z) + s[..n];
    }
  }

  lemma {:induction false} AllZeros(z: nat)
    ensures DigitValue(Zeros(z)) == 0
  {
    if z > 0 {
      AllZeros(z - 1);
      assert Zeros(z)[..z - 1] == Zeros(z - 1);
    }
  }

  /** The number can be read back from its id. */
  lemma EventIdDecodes(n: nat)
    ensures var digits := EventId(n)[4..];
      (forall k :: 0 <= k < |digits| ==> '0' <= digits[k] <= '9') && DigitValue(digits) == n
  {
    var d := DigitsOf(n);
    assert EventId(n)[4..] == ZeroPad(d, 4);
    DigitsRoundTrip(n);
    if |d| < 4 {
      LeadingZeros(4 - |d|, d);
    }
  }

  /** Distinct sequence numbers give distinct ids, and later numbers later timestamps. */
  lemma DistinctEvents(m: nat, n: nat, sessionId: string, baseTs: int, t1: string, t2: string,
                       s1: EventSource, s2: EventSource, p1: Option<map<string, Value>>, p2: Option<map<string, Value>>)
    requires m < n
    ensures EventFor(m, sessionId, baseTs, t1, s1, p1).eventId != EventFor(n, sessionId, baseTs, t2, s2, p2).eventId
    ensures EventFor(m, sessionId, baseTs, t1, s1, p1).tsMs < EventFor(n, sessionId, baseTs, t2, s2, p2).tsMs
  {
    EventIdDecodes(m);
    EventIdDecodes(n);
  }

  class EventFactory {
    const sessionId: string
    const baseTs: int
    var seqNo: nat

    /** A factory with the given session and base timestamp, numbering from zero. */
    constructor(sessionId: string, baseTs: int)
      ensures this.sessionId == sessionId && this.baseTs == baseTs && seqNo == 0
    {
      this.sessionId := sessionId;
      this.baseTs := baseTs;
      seqNo := 0;
    }

    /** `make`: the next sequence number, then the event carrying it. */
    method Make(eventType: string, source: EventSource, payload: Option<map<string, Value>>) returns (e: Event)
      modifies this
      ensures seqNo == old(seqNo) + 1
      ensures e == EventFor(seqNo, sessionId, baseTs, eventType, source, payload)
    {
      seqNo := seqNo + 1;
      e := EventFor(seqNo, sessionId, baseTs, eventType, source, payload);
    }

    /** `reset`: numbering starts again, so the next event is number one. */
    method Reset()
      modifies this
      ensures seqNo == 0
    {
      seqNo := 0;
    }
  }

  /** After a reset the next id is "evt-0001". */
  lemma FirstId()
    ensures EventId(1) == "evt-0001"
  {
    assert DigitsOf(1) == "1";
    assert Zeros(3) == "000";
  }
}

=== FILE: defense_harness.dfy ===
/**
 * The engine harness: runs a list of events through the transition engine
 * from S0 with a fresh context, applies each result's mutations to the
 * context, records one trace entry per processed event and stops at the
 * first result that carries a terminal reason or reaches SX.
 */
module DefenseHarness {
  import opened Wrappers
  import opened DefenseCore
  import opened DefenseEngine

  datatype TraceEntry = TraceEntry(
    seqNo: nat,
    event: string,
    from: string,
    to: string,
    actions: seq<string>,
    reason: Option<string>)

  /** The trace reason: the terminal reason's value, else the failure code's, else none. */
  function Reason(r: TransitionResult): (reason: Option<string>)
    ensures r.terminalReason.Some? ==> reason == Some(r.terminalReason.value.Value())
    ensures r.terminalReason.None? && r.failureCode.Some? ==> reason == Some(r.failureCode.value.Value())
    ensures reason.None? <==> r.terminalReason.None? && r.failureCode.None?
  {
    if r.terminalReason.Some? then Some(r.terminalReason.value.Value())
    else if r.failureCode.Some? then Some(r.failureCode.value.Value())
    else None
  }

  function ActionTypes(actions: seq<DefenseAction>): (ts: seq<string>)
    ensures |ts| == |actions| && forall k :: 0 <= k < |actions| ==> ts[k] == actions[k].actionType
  {
    seq(|actions|, k requires 0 <= k < |actions| => actions[k].actionType)
  }

  function Entry(seqNo: nat, event: Event, from: FlowState, r: TransitionResult): TraceEntry
  {
    TraceEntry(seqNo, event.eventType, from.Value(), r.nextState.Value(), ActionTypes(r.actions), Reason(r))
  }

  predicate Stops(r: TransitionResult)
  {
    r.terminalReason.Some? || r.nextState == SX
  }

  /** One engine step: the transition result for an event in a state and context. */
  type Step = (FlowState, Event, ContextState) -> TransitionResult

  /** The engine's own step under a policy. */
  function EngineStep(policy: PolicySnapshot): Step
  {
    (s: FlowState, e: Event, c: ContextState) => Transition(s, e, c, policy)
  }

  /** Every failure code comes with a terminal reason, as the engine guarantees. */
  ghost predicate CodesCarryReasons(step: Step)
  {
    forall s: FlowState, e: Event, c: ContextState {:trigger step(s, e, c)} ::
      step(s, e, c).failureCode.Some? ==> step(s, e, c).terminalReason.Some?
  }

  lemma EngineCodesCarryReasons(policy: PolicySnapshot)
    ensures CodesCarryReasons(EngineStep(policy))
  {
    forall s: FlowState, e: Event, c: ContextState
      ensures EngineStep(policy)(s, e, c).failureCode.Some? ==> EngineStep(policy)(s, e, c).terminalReason.Some?
    {
      var r := Transition(s, e, c, policy);
    }
  }

  /**
   * The run from the `i`-th event on, in `state` with context `ctx`: the
   * final state and the trace entries, numbered from `i + 1`.
   */
  function RunFrom(events: seq<Event>, i: nat, state: FlowState, ctx: ContextState, step: Step): (FlowState, seq<TraceEntry>)
    decreases |events| - i
  {
    if i >= |events| then (state, [])
    else
      var r := step(state, events[i], ctx);
      var e := Entry(i + 1, events[i], state, r);
      if Stops(r) then (r.nextState, [e])
      else
        var (f, rest) := RunFrom(events, i + 1, r.nextState, ApplyMutations(ctx, r.mutations), step);
        (f, [e] + rest)
  }

  /** One step of a run: the entry for the `i`-th event, then either the end of the run or the rest of it. */
  lemma RunFromStep(events: seq<Event>, i: nat, state: FlowState, ctx: ContextState, step: Step, trace: seq<TraceEntry>)
    requires i < |events|
    ensures var r := step(state, events[i], ctx);
      var e := Entry(i + 1, events[i], state, r);
      var rest := RunFrom(events, i + 1, r.nextState, ApplyMutations(ctx, r.mutations), step);
      && (Stops(r) ==> RunFrom(events, i, state, ctx, step) == (r.nextState, [e]))
      && (!Stops(r) ==> RunFrom(events, i, state, ctx, step).0 == rest.0
                        && trace + RunFrom(events, i, state, ctx, step).1 == (trace + [e]) + rest.1)
  {
    var r := step(state, events[i], ctx);
    var e := Entry(i + 1, events[i], state, r);
    var rest := RunFrom(events, i + 1, r.nextState, ApplyMutations(ctx, r.mutations), step);
    assert trace + ([e] + rest.1) == (trace + [e]) + rest.1;
  }

  /** A whole run: from S0 with a fresh context, stepping with the engine's transition. */
  function RunSpec(events: seq<Event>, policy: PolicySnapshot): (FlowState, seq<TraceEntry>)
  {
    RunFrom(events, 0, S0, FreshContext(), EngineStep(policy))
  }

  /** At most one entry per remaining event, at least one when any remains, numbered consecutively from `i + 1`. */
  lemma {:induction false} RunFromNumbering(events: seq<Event>, i: nat, state: FlowState, ctx: ContextState, step: Step)
    requires i <= |events|
    ensures var t := RunFrom(events, i, state, ctx, step).1;
      && |t| <= |events| - i
      && (i < |events| <==> |t| >= 1)
      && forall k :: 0 <= k < |t| ==> t[k].seqNo == i + 1 + k && t[k].event == events[i + k].eventType
    decreases |events| - i
  {
    if i < |events| {
      var r := step(state, events[i], ctx);
      if !Stops(r) {
        RunFromNumbering(events, i + 1, r.nextState, ApplyMutations(ctx, r.mutations), step);
      }
    }
  }

  /**
   * Each entry starts where the previous one ended, and the final state is
   * the last entry's target, or the starting state when nothing ran.
   */
  lemma {:induction false} RunFromChain(events: seq<Event>, i: nat, state: FlowState, ctx: ContextState, step: Step)
    requires i <= |events|
    ensures var (f, t) := RunFrom(events, i, state, ctx, step);
      && (t != [] ==> t[0].from == state.Value() && f.Value() == t[|t| - 1].to)
      && (t == [] ==> f == state)
      && forall k :: 0 <= k < |t| - 1 ==> t[k + 1].from == t[k].to
    decreases |events| - i
  {
    if i < |events| {
      var r := step(state, events[i], ctx);
      if !Stops(r) {
        RunFromChain(events, i + 1, r.nextState, ApplyMutations(ctx, r.mutations), step);
      }
    }
  }

  /** A step stops the run exactly when its trace entry has a reason or reaches SX. */
  lemma StopsIffReasonOrSX(r: TransitionResult)
    requires r.failureCode.Some? ==> r.terminalReason.Some?
    ensures Stops(r) <==> Reason(r).Some? || r.nextState.Value() == "SX"
  {
  }

  /**
   * Every entry but the last has no reason and does not reach SX; a trace
   * shorter than the remaining events ends with an entry that has a reason
   * or reaches SX.
   */
  lemma {:induction false} RunFromStops(events: seq<Event>, i: nat, state: FlowState, ctx: ContextState, step: Step)
    requires i <= |events| && CodesCarryReasons(step)
    ensures var t := RunFrom(events, i, state, ctx, step).1;
      && (forall k :: 0 <= k < |t| - 1 ==> t[k].reason.None? && t[k].to != "SX")
      && (1 <= |t| < |events| - i ==> t[|t| - 1].reason.Some? || t[|t| - 1].to == "SX")
    decreases |events| - i
  {
    if i < |events| {
      var r := step(state, events[i], ctx);
      StopsIffReasonOrSX(r);
      if !Stops(r) {
        RunFromStops(events, i + 1, r.nextState, ApplyMutations(ctx, r.mutations), step);
      }
    }
  }

  class EngineHarness {
    const policy: PolicySnapshot

    /** A harness with the given policy, or the default thresholds when none is given. */
    constructor(p: Option<PolicySnapshot>)
      ensures policy == (if p.Some? then p.value else DEFAULT_POLICY)
    {
      policy := if p.Some? then p.value else DEFAULT_POLICY;
    }

    /** `run`: the final state and the trace of the events processed before the run stopped. */
    method Run(events: seq<Event>) returns (finalState: FlowState, trace: seq<TraceEntry>)
      ensures (finalState, trace) == RunSpec(events, policy)
      ensures |trace| <= |events| && forall k :: 0 <= k < |trace| ==> trace[k].seqNo == k + 1
      ensures events == [] ==> finalState == S0 && trace == []
    {
      RunFromNumbering(events, 0, S0, FreshContext(), EngineStep(policy));
      var state := S0;
      var context := new Context();
      trace := [];
      assert trace + RunSpec(events, policy).1 == RunSpec(events, policy).1;
      var i := 0;
      while i < |events|
        invariant 0 <= i <= |events|
        invariant RunSpec(events, policy).0 == RunFrom(events, i, state, context.Snapshot(), EngineStep(policy)).0
        invariant RunSpec(events, policy).1 == trace + RunFrom(events, i, state, context.Snapshot(), EngineStep(policy)).1
      {
        var r := Transition(state, events[i], context.Snapshot(), policy);
        RunFromStep(events, i, state, context.Snapshot(), EngineStep(policy), trace);
        context.Apply(r.mutations);
        var entry := Entry(i + 1, events[i], state, r);
        trace := trace + [entry];
        state := r.nextState;
        if r.terminalReason.Some? || r.nextState == SX {
          finalState := state;
          assert trace == RunSpec(events, policy).1;
          return;
        }
        i := i + 1;
      }
      finalState := state;
      assert trace + [] == trace;
    }
  }
}

=== FILE: defense_planner.dfy ===
/**
 * Action planning: the tier picks a baseline plan, a long S5 failure streak
 * adds or strengthens a throttle, and S6 (payment) is protected from any
 * new intervention except a T3 block. Plans are fresh lists; nothing the
 * caller holds is changed.
 */
module DefensePlanner {
  import opened Wrappers
  import opened PyValues
  import opened DefenseCore
  import opened DefenseEvidence

  datatype PlannedAction = PlannedAction(actionType: string, params: map<string, string>)

  const SEAT_TAKEN_STREAK_THRESHOLD: int := 7

  const THROTTLE_LIGHT: PlannedAction := PlannedAction("THROTTLE", map["strength" := "light"])
  const THROTTLE_STRONG: PlannedAction := PlannedAction("THROTTLE", map["strength" := "strong"])
  const CHALLENGE_MEDIUM: PlannedAction := PlannedAction("CHALLENGE", map["difficulty" := "medium"])
  const BLOCK_T3: PlannedAction := PlannedAction("BLOCK", map["reason" := "tier_t3"])

  /** How many actions of the given type the plan holds. */
  function CountType(actions: seq<PlannedAction>, t: string): (n: nat)
    ensures n <= |actions|
    ensures n == 0 <==> forall k :: 0 <= k < |actions| ==> actions[k].actionType != t
  {
    if actions == [] then 0
    else CountType(actions[..|actions| - 1], t) + (if actions[|actions| - 1].actionType == t then 1 else 0)
  }

  /** The tier-action matrix. */
  function TierMatrix(tier: DefenseTier): (plan: seq<PlannedAction>)
    ensures plan == [] <==> tier == T0
    ensures |plan| <= 2
    ensures forall k :: 0 <= k < |plan| ==> plan[k].actionType in {"THROTTLE", "CHALLENGE", "BLOCK"}
  {
    match tier
    case T0 => []
    case T1 => [THROTTLE_LIGHT]
    case T2 => [THROTTLE_STRONG, CHALLENGE_MEDIUM]
    case T3 => [BLOCK_T3]
  }

  /** What the matrix means: no action at T0, a throttle at T1 and T2, a challenge only at T2, a block only at T3. */
  lemma TierMatrixMeaning(tier: DefenseTier)
    ensures CountType(TierMatrix(tier), "THROTTLE") == (if tier == T1 || tier == T2 then 1 else 0)
    ensures CountType(TierMatrix(tier), "CHALLENGE") == (if tier == T2 then 1 else 0)
    ensures CountType(TierMatrix(tier), "BLOCK") == (if tier == T3 then 1 else 0)
  {
    var p := TierMatrix(tier);
    if |p| == 2 {
      assert p[..1] == [THROTTLE_STRONG];
    }
  }

  /** The index of the first THROTTLE at or after `from`. */
  function FirstThrottle(actions: seq<PlannedAction>, from: nat): (r: Option<nat>)
    ensures r.Some? ==> from <= r.value < |actions| && actions[r.value].actionType == "THROTTLE"
    ensures r.Some? ==> forall j :: from <= j < r.value ==> actions[j].actionType != "THROTTLE"
    ensures r.None? ==> forall j :: from <= j < |actions| ==> actions[j].actionType != "THROTTLE"
    decreases |actions| - from
  {
    if from >= |actions| then None
    else if actions[from].actionType == "THROTTLE" then Some(from)
    else FirstThrottle(actions, from + 1)
  }

  /** The S5 streak rule: a light first throttle becomes strong, any other is kept, and a strong one is appended when there is none. */
  function ApplyStreakRule(actions: seq<PlannedAction>): (r: seq<PlannedAction>)
    ensures |r| == |actions| + (if FirstThrottle(actions, 0).None? then 1 else 0)
    ensures forall k :: 0 <= k < |actions| && r[k] != actions[k]
              ==> FirstThrottle(actions, 0) == Some(k) && r[k] == THROTTLE_STRONG
    ensures |r| > |actions| ==> r[|actions|] == THROTTLE_STRONG
  {
    match FirstThrottle(actions, 0)
    case Some(i) =>
      if Get(actions[i].params, "strength", "light") == "light" then actions[i := THROTTLE_STRONG] else actions
    case None => actions + [THROTTLE_STRONG]
  }

  /** Replacing an action by one of the same type keeps every type count. */
  lemma {:induction false} CountTypeUpdate(actions: seq<PlannedAction>, i: nat, x: PlannedAction, t: string)
    requires i < |actions| && actions[i].actionType == x.actionType
    ensures CountType(actions[i := x], t) == CountType(actions, t)
  {
    var n := |actions|;
    var u := actions[i := x];
    if i == n - 1 {
      assert u[..n - 1] == actions[..n - 1];
    } else {
      assert u[..n - 1] == actions[..n - 1][i := x];
      CountTypeUpdate(actions[..n - 1], i, x, t);
    }
  }

  /** The streak rule adds a throttle only when there was none, and changes no action's type. */
  lemma StreakRuleCount(actions: seq<PlannedAction>)
    ensures var r := ApplyStreakRule(actions);
      && CountType(r, "THROTTLE") == (if CountType(actions, "THROTTLE") == 0 then 1 else CountType(actions, "THROTTLE"))
      && |r| >= |actions|
      && forall k :: 0 <= k < |actions| ==> r[k].actionType == actions[k].actionType
  {
    var r := ApplyStreakRule(actions);
    var f := FirstThrottle(actions, 0);
    if f.Some? {
      if Get(actions[f.value].params, "strength", "light") == "light" {
        CountTypeUpdate(actions, f.value, THROTTLE_STRONG, "THROTTLE");
      }
    } else {
      assert r[..|actions|] == actions;
    }
  }

  /** After the streak rule the first throttle is not a light one. */
  lemma StreakRuleFirstNotLight(actions: seq<PlannedAction>)
    ensures var r := ApplyStreakRule(actions);
      && FirstThrottle(r, 0).Some?
      && Get(r[FirstThrottle(r, 0).value].params, "strength", "light") != "light"
  {
    var r := ApplyStreakRule(actions);
    var f := FirstThrottle(actions, 0);
    if f.Some? {
      FirstThrottleUnique(r, f.value);
    } else {
      FirstThrottleUnique(r, |actions|);
    }
  }

  /** An index holding a THROTTLE with none before it is the first one. */
  lemma FirstThrottleUnique(actions: seq<PlannedAction>, i: nat)
    requires i < |actions| && actions[i].actionType == "THROTTLE"
    requires forall j :: 0 <= j < i ==> actions[j].actionType != "THROTTLE"
    ensures FirstThrottle(actions, 0) == Some(i)
  {
  }

  /** `plan_actions`. */
  function PlanActions(tier: DefenseTier, flow: FlowState, evidence: EvidenceState): (plan: seq<PlannedAction>)
    ensures flow == S6 ==> plan == (if tier == T3 then [BLOCK_T3] else [])
    ensures flow != S6 && evidence.seatTakenStreak < SEAT_TAKEN_STREAK_THRESHOLD ==> plan == TierMatrix(tier)
  {
    if flow == S6 then (if tier == T3 then [BLOCK_T3] else [])
    else
      var actions := TierMatrix(tier);
      if evidence.seatTakenStreak >= SEAT_TAKEN_STREAK_THRESHOLD then ApplyStreakRule(actions) else actions
  }

  /**
   * With a long streak outside S6, the plan keeps the matrix's other actions
   * in order and holds exactly one throttle, a strong one.
   */
  lemma StreakPlan(tier: DefenseTier, flow: FlowState, evidence: EvidenceState)
    requires flow != S6 && evidence.seatTakenStreak >= SEAT_TAKEN_STREAK_THRESHOLD
    ensures var plan := PlanActions(tier, flow, evidence);
      && CountType(plan, "THROTTLE") == 1
      && (forall k :: 0 <= k < |plan| && plan[k].actionType == "THROTTLE" ==> plan[k] == THROTTLE_STRONG)
      && plan == match tier
                 case T0 => [THROTTLE_STRONG]
                 case T1 => [THROTTLE_STRONG]
                 case T2 => [THROTTLE_STRONG, CHALLENGE_MEDIUM]
                 case T3 => [BLOCK_T3, THROTTLE_STRONG]
  {
    var plan := PlanActions(tier, flow, evidence);
    if tier == T2 {
      assert plan[..1] == [THROTTLE_STRONG];
    } else if tier == T3 {
      assert plan[..1] == [BLOCK_T3];
    }
  }

  /** Whatever the inputs, a plan never holds more than one throttle. */
  lemma AtMostOneThrottle(tier: DefenseTier, flow: FlowState, evidence: EvidenceState)
    ensures CountType(PlanActions(tier, flow, evidence), "THROTTLE") <= 1
  {
    TierMatrixMeaning(tier);
    if flow != S6 && evidence.seatTakenStreak >= SEAT_TAKEN_STREAK_THRESHOLD {
      StreakPlan(tier, flow, evidence);
    }
  }
}

=== FILE: defense_risk.dfy ===
/**
 * The risk tier decision. Escalation rules read the evidence; the tier
 * never drops below the current one, except that passing the challenge in
 * S3 at T2 or above brings it back to T1. A change of tier is announced by
 * a RISK_TIER_UPDATED event; its random id is a parameter here.
 */
module DefenseRisk {
  import opened Wrappers
  import opened PyValues
  import opened DefenseCore
  import opened DefenseEvidence

  const CHALLENGE_FAIL_THRESHOLD: int := 3
  const REPETITIVE_PATTERN_T1_THRESHOLD: int := 1
  const REPETITIVE_PATTERN_T2_THRESHOLD: int := 3

  /** How many times SIGNAL_REPETITIVE_PATTERN occurs in the history. */
  function CountPattern(history: seq<string>): (n: nat)
    ensures n <= |history|
  {
    if history == [] then 0
    else CountPattern(history[..|history| - 1]) + (if history[|history| - 1] == SIGNAL_REPETITIVE_PATTERN then 1 else 0)
  }

  /** The count is the pattern's multiplicity in the history. */
  lemma {:induction false} CountPatternIsMultiplicity(history: seq<string>)
    ensures CountPattern(history) == multiset(history)[SIGNAL_REPETITIVE_PATTERN]
  {
    if history != [] {
      var pre := history[..|history| - 1];
      CountPatternIsMultiplicity(pre);
      assert history == pre + [history[|history| - 1]];
      assert multiset(history) == multiset(pre) + multiset{history[|history| - 1]};
    }
  }

  /** The escalation rules, strongest first: token mismatch, repeated challenge failures, then the pattern count. */
  function EscalationTarget(e: EvidenceState): (t: DefenseTier)
    ensures t == T3 <==> e.tokenMismatchDetected || e.challengeFailCount >= CHALLENGE_FAIL_THRESHOLD
    ensures t != T0 <==> e.tokenMismatchDetected || e.challengeFailCount >= CHALLENGE_FAIL_THRESHOLD
                         || CountPattern(e.signalHistory) >= REPETITIVE_PATTERN_T1_THRESHOLD
  {
    if e.tokenMismatchDetected then T3
    else if e.challengeFailCount >= CHALLENGE_FAIL_THRESHOLD then T3
    else
      var n := CountPattern(e.signalHistory);
      if n >= REPETITIVE_PATTERN_T2_THRESHOLD then T2
      else if n >= REPETITIVE_PATTERN_T1_THRESHOLD then T1
      else T0
  }

  /** More evidence never lowers the escalation target. */
  lemma EscalationMonotone(a: EvidenceState, b: EvidenceState)
    requires a.tokenMismatchDetected ==> b.tokenMismatchDetected
    requires a.challengeFailCount <= b.challengeFailCount
    requires CountPattern(a.signalHistory) <= CountPattern(b.signalHistory)
    ensures EscalationTarget(a).Rank() <= EscalationTarget(b).Rank()
  {
  }

  /** The escalation target in terms of the evidence, rule by rule. */
  lemma EscalationRules(e: EvidenceState)
    ensures EscalationTarget(e) == T3 <==> e.tokenMismatchDetected || e.challengeFailCount >= 3
    ensures EscalationTarget(e) == T2
            <==> !e.tokenMismatchDetected && e.challengeFailCount < 3 && multiset(e.signalHistory)[SIGNAL_REPETITIVE_PATTERN] >= 3
    ensures EscalationTarget(e) == T0
            <==> !e.tokenMismatchDetected && e.challengeFailCount < 3 && SIGNAL_REPETITIVE_PATTERN !in e.signalHistory
  {
    CountPatternIsMultiplicity(e.signalHistory);
  }

  /** The decay rule: at T2 or above, in S3, on a passed challenge. */
  predicate ShouldDecay(current: DefenseTier, flow: FlowState, event: Event)
    ensures ShouldDecay(current, flow, event)
            <==> (current == T2 || current == T3) && flow == S3 && event.eventType == STAGE_3_CHALLENGE_PASSED
  {
    current.Rank() >= T2.Rank() && flow == S3 && event.eventType == STAGE_3_CHALLENGE_PASSED
  }

  function TierUpdatedEvent(current: DefenseTier, target: DefenseTier, source: Event, eventId: string): Event
  {
    Event(eventId, source.tsMs, RISK_TIER_UPDATED, DEFENSE, source.sessionId,
          map["from" := PyStr(current.Value()), "to" := PyStr(target.Value())])
  }

  /** `decide_tier`: the new tier, and the announcement when it differs from the current one. */
  function DecideTier(evidence: EvidenceState, current: DefenseTier, flow: FlowState, event: Event, eventId: string)
    : (r: (DefenseTier, Option<Event>))
    ensures r.1.Some? <==> r.0 != current
    ensures r.1.Some? ==> r.1.value.eventType == RISK_TIER_UPDATED && r.1.value.source == DEFENSE
                          && r.1.value.tsMs == event.tsMs && r.1.value.sessionId == event.sessionId
                          && r.1.value.payload == map["from" := PyStr(current.Value()), "to" := PyStr(r.0.Value())]
  {
    var target := EscalationTarget(evidence);
    var target := if target.Rank() < current.Rank() then current else target;
    var target := if ShouldDecay(current, flow, event) then T1 else target;
    if target != current then (target, Some(TierUpdatedEvent(current, target, event, eventId)))
    else (current, None)
  }

  /** Without decay the tier is the stricter of the current tier and the escalation target, so it never drops. */
  lemma NoDropWithoutDecay(evidence: EvidenceState, current: DefenseTier, flow: FlowState, event: Event, eventId: string)
    requires !ShouldDecay(current, flow, event)
    ensures var t := DecideTier(evidence, current, flow, event, eventId).0;
      && t.Rank() == (if EscalationTarget(evidence).Rank() > current.Rank() then EscalationTarget(evidence).Rank() else current.Rank())
      && t.Rank() >= current.Rank()
  {
  }

  /** Decay always lands on T1, even from T3 with the strongest evidence. */
  lemma DecayToT1(evidence: EvidenceState, current: DefenseTier, flow: FlowState, event: Event, eventId: string)
    requires current.Rank() >= 2 && flow == S3 && event.eventType == STAGE_3_CHALLENGE_PASSED
    ensures DecideTier(evidence, current, flow, event, eventId) == (T1, Some(TierUpdatedEvent(current, T1, event, eventId)))
  {
  }

  /** Deciding again from the decided tier, with the same evidence and no decay, changes nothing. */
  lemma DecideTierIdempotent(evidence: EvidenceState, current: DefenseTier, flow: FlowState, event: Event, id1: string, id2: string)
    requires !ShouldDecay(current, flow, event)
    requires !ShouldDecay(DecideTier(evidence, current, flow, event, id1).0, flow, event)
    ensures var t := DecideTier(evidence, current, flow, event, id1).0;
      DecideTier(evidence, t, flow, event, id2) == (t, None)
  {
    var t := DecideTier(evidence, current, flow, event, id1).0;
    NoDropWithoutDecay(evidence, current, flow, event, id1);
    NoDropWithoutDecay(evidence, t, flow, event, id2);
    RankInjective(DecideTier(evidence, t, flow, event, id2).0, t);
  }
}

=== FILE: defense_runner.dfy ===
/**
 * The scenario runner. Each step feeds its input event to the transition
 * engine, then to the evidence aggregator, the tier decision (seeing the
 * post-transition flow state), the planner and the actuator; every DEF_
 * event the actuator emits is then fed back into the engine in order. The
 * context is updated in place; flow state, tier and evidence are threaded
 * from step to step. The record types of scenarios/schema.py are
 * reconstructed from their uses, since that file is not part of this model.
 */
module DefenseRunner {
  import opened Wrappers
  import opened DefenseCore
  import opened DefenseEngine
  import opened DefenseEvidence
  import opened DefenseRisk
  import opened DefensePlanner
  import opened DefenseActuator

  datatype ScenarioStep = ScenarioStep(
    description: string,
    inputEvent: Event,
    expectedState: Option<FlowState>,
    expectedTier: Option<DefenseTier>,
    expectedActions: Option<seq<string>>)

  datatype Scenario = Scenario(id: string, steps: seq<ScenarioStep>)

  /** One reported difference between a step's expectations and what happened; the message text is not modelled. */
  datatype Mismatch =
    | StateMismatch(expectedState: FlowState, gotState: FlowState)
    | TierMismatch(expectedTier: DefenseTier, gotTier: DefenseTier)
    | ActionsMissing(missing: set<string>)
    | ActionsUnexpected(unexpected: set<string>)

  datatype StepResult = StepResult(
    seqNo: nat,
    description: string,
    inputEventType: string,
    fromState: FlowState,
    toState: FlowState,
    fromTier: DefenseTier,
    toTier: DefenseTier,
    plannedActions: seq<string>,
    emittedEventTypes: seq<string>,
    terminalReason: Option<TerminalReason>,
    failureCode: Option<FailureCode>,
    expectedState: Option<FlowState>,
    expectedTier: Option<DefenseTier>,
    expectedActions: Option<seq<string>>,
    mismatches: seq<Mismatch>)

  /** The ids of generated events never reach a step result, so fixed ones stand in for the random ones. */
  const TIER_EVENT_ID: string := "risk-"
  function ActionEventId(k: nat): string { "def-" }

  function AsSet(s: seq<string>): (r: set<string>)
    ensures forall x :: x in r <==> x in s
  {
    set x | x in s
  }

  /** `_compute_mismatches`: the checks for the expectations that are given; actions must match as sets. */
  function ComputeMismatches(step: ScenarioStep, state: FlowState, tier: DefenseTier, actions: seq<string>): (ms: seq<Mismatch>)
    ensures ms == [] <==> (step.expectedState.None? || step.expectedState.value == state)
                          && (step.expectedTier.None? || step.expectedTier.value == tier)
                          && (step.expectedActions.None? || AsSet(step.expectedActions.value) == AsSet(actions))
    ensures forall k :: 0 <= k < |ms| && ms[k].ActionsMissing?
              ==> step.expectedActions.Some? && ms[k].missing != {} && ms[k].missing == AsSet(step.expectedActions.value) - AsSet(actions)
    ensures forall k :: 0 <= k < |ms| && ms[k].ActionsUnexpected?
              ==> step.expectedActions.Some? && ms[k].unexpected != {} && ms[k].unexpected == AsSet(actions) - AsSet(step.expectedActions.value)
    ensures forall k :: 0 <= k < |ms| && ms[k].StateMismatch?
              ==> step.expectedState.Some? && ms[k] == StateMismatch(step.expectedState.value, state)
    ensures forall k :: 0 <= k < |ms| && ms[k].TierMismatch?
              ==> step.expectedTier.Some? && ms[k] == TierMismatch(step.expectedTier.value, tier)
  {
    var a := if step.expectedState.Some? && state != step.expectedState.value then [StateMismatch(step.expectedState.value, state)] else [];
    var b := if step.expectedTier.Some? && tier != step.expectedTier.value then [TierMismatch(step.expectedTier.value, tier)] else [];
    var c :=
      if step.expectedActions.None? then []
      else
        var e := AsSet(step.expectedActions.value);
        var g := AsSet(actions);
        if e == g then []
        else (if e - g != {} then [ActionsMissing(e - g)] else []) + (if g - e != {} then [ActionsUnexpected(g - e)] else []);
    assert step.expectedActions.Some? && AsSet(step.expectedActions.value) != AsSet(actions) ==> c != [] by {
      if step.expectedActions.Some? {
        var e := AsSet(step.expectedActions.value);
        var g := AsSet(actions);
        if e != g && e - g == {} {
          assert g - e != {};
        }
      }
    }
    a + b + c
  }

  /** The engine fed each DEF_ event in turn: the final flow state and context. */
  function Secondary(flow: FlowState, ctx: ContextState, events: seq<Event>, policy: PolicySnapshot): (FlowState, ContextState)
  {
    if events == [] then (flow, ctx)
    else
      var prev := Secondary(flow, ctx, events[..|events| - 1], policy);
      var r := Transition(prev.0, events[|events| - 1], prev.1, policy);
      (r.nextState, ApplyMutations(prev.1, r.mutations))
  }

  /** Feeding back one more event continues from where the earlier ones left the flow. */
  lemma SecondaryPrefix(flow: FlowState, ctx: ContextState, events: seq<Event>, policy: PolicySnapshot, i: nat)
    requires i < |events|
    ensures var prev := Secondary(flow, ctx, events[..i], policy);
      var r := Transition(prev.0, events[i], prev.1, policy);
      Secondary(flow, ctx, events[..i + 1], policy) == (r.nextState, ApplyMutations(prev.1, r.mutations))
  {
    assert events[..i + 1][..i] == events[..i];
  }

  function PlanTypes(plans: seq<PlannedAction>): (ts: seq<string>)
    ensures |ts| == |plans| && forall k :: 0 <= k < |plans| ==> ts[k] == plans[k].actionType
  {
    seq(|plans|, k requires 0 <= k < |plans| => plans[k].actionType)
  }

  function EventTypes(events: seq<Event>): (ts: seq<string>)
    ensures |ts| == |events| && forall k :: 0 <= k < |events| ==> ts[k] == events[k].eventType
  {
    seq(|events|, k requires 0 <= k < |events| => events[k].eventType)
  }

  /** What the primary stages of a step decide: post-transition state and context, evidence, tier and plans. */
  datatype Primary = Primary(
    result: TransitionResult,
    ctx: ContextState,
    evidence: EvidenceState,
    tier: DefenseTier,
    plans: seq<PlannedAction>,
    defEvents: seq<Event>)

  function PrimarySpec(step: ScenarioStep, flow: FlowState, tier: DefenseTier, ctx: ContextState,
                       evidence: EvidenceState, policy: PolicySnapshot): Primary
  {
    var ev := step.inputEvent;
    var r := Transition(flow, ev, ctx, policy);
    var ctx1 := ApplyMutations(ctx, r.mutations);
    var evidence1 := ProcessEvent(evidence, ev);
    var tier1 := DecideTier(evidence1, tier, r.nextState, ev, TIER_EVENT_ID).0;
    var plans := PlanActions(tier1, r.nextState, evidence1);
    Primary(r, ctx1, evidence1, tier1, plans, ExecutePlans(plans, ctx1.isSandboxed, ev, ActionEventId))
  }

  /** A whole step: the step's result, the context after it, and the new evidence. */
  function StepSpec(seqNo: nat, step: ScenarioStep, flow: FlowState, tier: DefenseTier, ctx: ContextState,
                    evidence: EvidenceState, policy: PolicySnapshot): (StepResult, ContextState, EvidenceState)
  {
    var p := PrimarySpec(step, flow, tier, ctx, evidence, policy);
    var (flow2, ctx2) := Secondary(p.result.nextState, p.ctx, p.defEvents, policy);
    var planned := PlanTypes(p.plans);
    (StepResult(seqNo, step.description, step.inputEvent.eventType, flow, flow2, tier, p.tier, planned,
                EventTypes(p.defEvents), p.result.terminalReason, p.result.failureCode,
                step.expectedState, step.expectedTier, step.expectedActions,
                ComputeMismatches(step, flow2, p.tier, planned)),
     ctx2, p.evidence)
  }

  /** What the runner threads from step to step, with the results so far. */
  datatype RunState = RunState(
    results: seq<StepResult>,
    flow: FlowState,
    tier: DefenseTier,
    ctx: ContextState,
    evidence: EvidenceState)

  /** One step of the runner: the step's result, the context after it, and the new evidence. */
  type Stepper = (nat, ScenarioStep, FlowState, DefenseTier, ContextState, EvidenceState) -> (StepResult, ContextState, EvidenceState)

  /** The runner's own step under a policy. */
  function StepperOf(policy: PolicySnapshot): Stepper
  {
    (seqNo: nat, step: ScenarioStep, flow: FlowState, tier: DefenseTier, ctx: ContextState, evidence: EvidenceState) =>
      StepSpec(seqNo, step, flow, tier, ctx, evidence, policy)
  }

  /** Every result a step gives names its number, its input and the state and tier it started from. */
  ghost predicate HeadersKept(stepFn: Stepper)
  {
    forall seqNo: nat, step: ScenarioStep, flow: FlowState, tier: DefenseTier, ctx: ContextState, evidence: EvidenceState
      {:trigger stepFn(seqNo, step, flow, tier, ctx, evidence)} ::
      var r := stepFn(seqNo, step, flow, tier, ctx, evidence).0;
      r.seqNo == seqNo && r.inputEventType == step.inputEvent.eventType && r.fromState == flow && r.fromTier == tier
  }

  /** The state after the given steps, taken one at a time with `stepFn`. */
  function RunWith(steps: seq<ScenarioStep>, stepFn: Stepper): RunState
  {
    if steps == [] then RunState([], S0, T0, FreshContext(), INITIAL_EVIDENCE)
    else
      var prev := RunWith(steps[..|steps| - 1], stepFn);
      var step := stepFn(|steps| - 1, steps[|steps| - 1], prev.flow, prev.tier, prev.ctx, prev.evidence);
      RunState(prev.results + [step.0], step.0.toState, step.0.toTier, step.1, step.2)
  }

  /** The runner's state after the given steps. */
  function RunSteps(steps: seq<ScenarioStep>, policy: PolicySnapshot): RunState
  {
    RunWith(steps, StepperOf(policy))
  }

  /** A step's result names its number, its input and the state and tier it started from. */
  lemma StepSpecHeader(seqNo: nat, step: ScenarioStep, flow: FlowState, tier: DefenseTier, ctx: ContextState,
                       evidence: EvidenceState, policy: PolicySnapshot)
    ensures var r := StepSpec(seqNo, step, flow, tier, ctx, evidence, policy).0;
      r.seqNo == seqNo && r.inputEventType == step.inputEvent.eventType && r.fromState == flow && r.fromTier == tier
  {
  }

  /** The runner's own step keeps the headers. */
  lemma StepperHeaders(policy: PolicySnapshot)
    ensures HeadersKept(StepperOf(policy))
  {
    forall seqNo: nat, step: ScenarioStep, flow: FlowState, tier: DefenseTier, ctx: ContextState, evidence: EvidenceState
      ensures var r := StepperOf(policy)(seqNo, step, flow, tier, ctx, evidence).0;
        r.seqNo == seqNo && r.inputEventType == step.inputEvent.eventType && r.fromState == flow && r.fromTier == tier
    {
      StepSpecHeader(seqNo, step, flow, tier, ctx, evidence, policy);
    }
  }

  /** One more step appends its result and moves the runner to where that result ends. */
  lemma RunStepsLast(steps: seq<ScenarioStep>, stepFn: Stepper)
    requires steps != [] && HeadersKept(stepFn)
    ensures var n := |steps| - 1;
      var prev := RunWith(steps[..n], stepFn);
      var st := RunWith(steps, stepFn);
      && |st.results| == |prev.results| + 1
      && st.results[..|prev.results|] == prev.results
      && var r := st.results[|prev.results|];
      && r.seqNo == n && r.inputEventType == steps[n].inputEvent.eventType
      && r.fromState == prev.flow && r.fromTier == prev.tier
      && st.flow == r.toState && st.tier == r.toTier
  {
    var n := |steps| - 1;
    var prev := RunWith(steps[..n], stepFn);
    var step := stepFn(n, steps[n], prev.flow, prev.tier, prev.ctx, prev.evidence);
    assert (prev.results + [step.0])[..|prev.results|] == prev.results;
  }

  /** The runner after one more step: the earlier results with the step's own appended, and the step's state. */
  lemma RunStepsSnoc(steps: seq<ScenarioStep>, i: nat, policy: PolicySnapshot)
    requires i < |steps|
    ensures var prev := RunSteps(steps[..i], policy);
      var st := StepSpec(i, steps[i], prev.flow, prev.tier, prev.ctx, prev.evidence, policy);
      RunSteps(steps[..i + 1], policy) == RunState(prev.results + [st.0], st.0.toState, st.0.toTier, st.1, st.2)
  {
    assert steps[..i + 1][..i] == steps[..i];
  }

  /** One result per step, numbered from 0, each naming its step's input event. */
  lemma {:induction false} RunStepsNumbering(steps: seq<ScenarioStep>, stepFn: Stepper)
    requires HeadersKept(stepFn)
    ensures var st := RunWith(steps, stepFn);
      && |st.results| == |steps|
      && forall k :: 0 <= k < |st.results| ==> st.results[k].seqNo == k && st.results[k].inputEventType == steps[k].inputEvent.eventType
  {
    if steps != [] {
      var n := |steps| - 1;
      RunStepsNumbering(steps[..n], stepFn);
      RunStepsLast(steps, stepFn);
    }
  }

  /**
   * The first result starts at S0 and T0, each later one starts where the
   * previous one ended, and the runner's state is where the last one ended.
   */
  lemma {:induction false} RunStepsChain(steps: seq<ScenarioStep>, stepFn: Stepper)
    requires HeadersKept(stepFn)
    ensures var st := RunWith(steps, stepFn);
      && (st.results != [] ==> st.results[0].fromState == S0 && st.results[0].fromTier == T0)
      && (st.results != [] ==> st.flow == st.results[|st.results| - 1].toState && st.tier == st.results[|st.results| - 1].toTier)
      && (st.results == [] ==> st.flow == S0 && st.tier == T0)
      && forall k :: 0 <= k < |st.results| - 1 ==> st.results[k + 1].fromState == st.results[k].toState
                                                     && st.results[k + 1].fromTier == st.results[k].toTier
  {
    if steps != [] {
      var n := |steps| - 1;
      RunStepsChain(steps[..n], stepFn);
      RunStepsLast(steps, stepFn);
      var prev := RunWith(steps[..n], stepFn);
      var st := RunWith(steps, stepFn);
      var m := |prev.results|;
      forall k | 0 <= k < m
        ensures st.results[k] == prev.results[k]
      {
        assert st.results[..m][k] == st.results[k];
      }
      forall k | 0 <= k < |st.results| - 1
        ensures st.results[k + 1].fromState == st.results[k].toState && st.results[k + 1].fromTier == st.results[k].toTier
      {
        if k + 1 == m {
          assert st.results[k] == prev.results[m - 1];
        }
      }
    }
  }

  /** DEF_ events never leave SX: none of them is a reset. */
  lemma {:induction false} SecondaryStaysInSX(ctx: ContextState, events: seq<Event>, policy: PolicySnapshot)
    requires forall k :: 0 <= k < |events| ==> events[k].eventType in {DEF_THROTTLED, DEF_BLOCKED, DEF_CHALLENGE_FORCED, DEF_SANDBOXED}
    ensures Secondary(SX, ctx, events, policy).0 == SX
  {
    if events != [] {
      var n := |events| - 1;
      SecondaryStaysInSX(ctx, events[..n], policy);
      var prev := Secondary(SX, ctx, events[..n], policy);
      DefenseEventOutcome(prev.0, events[n], prev.1, policy);
    }
  }

  /** Once a DEF_BLOCKED event is fed back, the flow ends in SX, whatever follows it. */
  lemma {:induction false} SecondaryBlockEnds(flow: FlowState, ctx: ContextState, events: seq<Event>, policy: PolicySnapshot, i: nat)
    requires i < |events| && events[i].eventType == DEF_BLOCKED
    requires forall k :: 0 <= k < |events| ==> events[k].eventType in {DEF_THROTTLED, DEF_BLOCKED, DEF_CHALLENGE_FORCED, DEF_SANDBOXED}
    ensures Secondary(flow, ctx, events, policy).0 == SX
  {
    var n := |events| - 1;
    var prev := Secondary(flow, ctx, events[..n], policy);
    DefenseEventOutcome(prev.0, events[n], prev.1, policy);
    if i < n {
      SecondaryBlockEnds(flow, ctx, events[..n], policy, i);
    }
  }

  /** Every actuated event is one of the four DEF_ types. */
  lemma ActuatedTypes(plans: seq<PlannedAction>, sandboxed: bool, trigger: Event)
    ensures var es := ExecutePlans(plans, sandboxed, trigger, ActionEventId);
      forall k :: 0 <= k < |es| ==> es[k].eventType in {DEF_THROTTLED, DEF_BLOCKED, DEF_CHALLENGE_FORCED, DEF_SANDBOXED}
  {
    ExecutedTypes(plans, sandboxed, trigger, ActionEventId);
  }

  /** Feeding back the events of a plan that holds a BLOCK ends in SX, through DEF_BLOCKED. */
  lemma BlockedPlanEndsInSX(flow: FlowState, ctx: ContextState, plans: seq<PlannedAction>, trigger: Event, policy: PolicySnapshot)
    requires "BLOCK" in PlanTypes(plans)
    ensures Secondary(flow, ctx, ExecutePlans(plans, ctx.isSandboxed, trigger, ActionEventId), policy).0 == SX
  {
    var planned := PlanTypes(plans);
    var j :| 0 <= j < |planned| && planned[j] == "BLOCK";
    var sandboxed := ctx.isSandboxed;
    var events := ExecutePlans(plans, sandboxed, trigger, ActionEventId);
    ExecutedTypes(plans, sandboxed, trigger, ActionEventId);
    ActuatedTypes(plans, sandboxed, trigger);
    EmittedBlock(plans, sandboxed, j);
    var types := EmittedTypes(plans, sandboxed);
    var i :| 0 <= i < |types| && types[i] == DEF_BLOCKED;
    SecondaryBlockEnds(flow, ctx, events, policy, i);
  }

  /** A step whose plan holds a BLOCK ends in SX, through the DEF_BLOCKED event it feeds back. */
  lemma BlockedStepEndsInSX(seqNo: nat, step: ScenarioStep, flow: FlowState, tier: DefenseTier, ctx: ContextState,
                            evidence: EvidenceState, policy: PolicySnapshot)
    requires "BLOCK" in StepSpec(seqNo, step, flow, tier, ctx, evidence, policy).0.plannedActions
    ensures StepSpec(seqNo, step, flow, tier, ctx, evidence, policy).0.toState == SX
  {
    var p := PrimarySpec(step, flow, tier, ctx, evidence, policy);
    BlockedPlanEndsInSX(p.result.nextState, p.ctx, p.plans, step.inputEvent, policy);
  }

  /** A BLOCK plan contributes DEF_BLOCKED to the emitted types. */
  lemma {:induction false} EmittedBlock(plans: seq<PlannedAction>, sandboxed: bool, j: nat)
    requires j < |plans| && plans[j].actionType == "BLOCK"
    ensures DEF_BLOCKED in EmittedTypes(plans, sandboxed)
  {
    var n := |plans| - 1;
    if j < n {
      EmittedBlock(plans[..n], sandboxed, j);
    }
  }

  /** The terminal reason and failure code a step reports are the primary transition's, whatever the fed-back events do. */
  lemma StepReportsPrimaryOutcome(seqNo: nat, step: ScenarioStep, flow: FlowState, tier: DefenseTier, ctx: ContextState,
                                  evidence: EvidenceState, policy: PolicySnapshot)
    ensures var r := StepSpec(seqNo, step, flow, tier, ctx, evidence, policy).0;
      var primary := Transition(flow, step.inputEvent, ctx, policy);
      && r.terminalReason == primary.terminalReason && r.failureCode == primary.failureCode
      && r.toTier == DecideTier(ProcessEvent(evidence, step.inputEvent), tier, primary.nextState, step.inputEvent, TIER_EVENT_ID).0
  {
  }

  class ScenarioRunner {
    const policy: PolicySnapshot

    constructor()
      ensures policy == DEFAULT_POLICY
    {
      policy := DEFAULT_POLICY;
    }

    /** The DEF_ events fed back into the engine in order, updating the context in place. */
    method ApplySecondary(flow: FlowState, ctx: Context, events: seq<Event>) returns (flow2: FlowState)
      modifies ctx
      ensures (flow2, ctx.Snapshot()) == Secondary(flow, old(ctx.Snapshot()), events, policy)
    {
      flow2 := flow;
      var i := 0;
      while i < |events|
        invariant 0 <= i <= |events|
        invariant (flow2, ctx.Snapshot()) == Secondary(flow, old(ctx.Snapshot()), events[..i], policy)
      {
        SecondaryPrefix(flow, old(ctx.Snapshot()), events, policy, i);
        var r := Transition(flow2, events[i], ctx.Snapshot(), policy);
        flow2 := r.nextState;
        ctx.Apply(r.mutations);
        i := i + 1;
      }
      assert events[..i] == events;
    }

    /** `_execute_step`: the step's result and the new evidence; the context is updated in place. */
    method ExecuteStep(seqNo: nat, step: ScenarioStep, flow: FlowState, tier: DefenseTier, ctx: Context, evidence: EvidenceState)
      returns (result: StepResult, evidence2: EvidenceState)
      modifies ctx
      ensures (result, ctx.Snapshot(), evidence2) == StepSpec(seqNo, step, flow, tier, old(ctx.Snapshot()), evidence, policy)
    {
      var ev := step.inputEvent;
      var r := Transition(flow, ev, ctx.Snapshot(), policy);
      var flow1 := r.nextState;
      ctx.Apply(r.mutations);
      evidence2 := ProcessEvent(evidence, ev);
      var (tier1, _) := DecideTier(evidence2, tier, flow1, ev, TIER_EVENT_ID);
      var plans := PlanActions(tier1, flow1, evidence2);
      var planned := PlanTypes(plans);
      var defEvents := ExecutePlans(plans, ctx.isSandboxed, ev, ActionEventId);
      var flow2 := ApplySecondary(flow1, ctx, defEvents);
      result := StepResult(seqNo, step.description, ev.eventType, flow, flow2, tier, tier1, planned,
                           EventTypes(defEvents), r.terminalReason, r.failureCode,
                           step.expectedState, step.expectedTier, step.expectedActions,
                           ComputeMismatches(step, flow2, tier1, planned));
    }

    /** `run_scenario`: one result per step, in order, from S0 and T0 with a fresh context and evidence. */
    method RunScenario(scenario: Scenario) returns (results: seq<StepResult>)
      ensures results == RunSteps(scenario.steps, policy).results
      ensures |results| == |scenario.steps|
    {
      var steps := scenario.steps;
      var flow := S0;
      var tier := T0;
      var ctx := new Context();
      var evidence := INITIAL_EVIDENCE;
      results := [];
      var i := 0;
      while i < |steps|
        invariant 0 <= i <= |steps|
        invariant RunState(results, flow, tier, ctx.Snapshot(), evidence) == RunSteps(steps[..i], policy)
      {
        RunStepsSnoc(steps, i, policy);
        var r;
        r, evidence := ExecuteStep(i, steps[i], flow, tier, ctx, evidence);
        results := results + [r];
        flow := r.toState;
        tier := r.toTier;
        i := i + 1;
      }
      assert steps[..i] == steps;
      StepperHeaders(policy);
      RunStepsNumbering(steps, StepperOf(policy));
    }
  }
}

=== FILE: defense_signals.dfy ===
/**
 * Event validation against the registry of the flow states in which each
 * event type may arrive. The registry itself (signals/registry.py) is not
 * part of this model; it is a parameter, each entry either a set of states
 * or the sentinel that admits every state.
 */
module DefenseSignals {
  import opened Wrappers
  import opened DefenseCore

  /** The states an event type is allowed in. */
  datatype AllowedStates = AllStates | States(states: set<FlowState>)

  type Registry = map<string, AllowedStates>

  const ACCEPT: string := "accept"
  const IGNORE: string := "ignore"

  /** Why an event was not accepted; the message wording is not modelled. */
  datatype RejectReason =
    | UnknownEventType(eventType: string)
    | NotAllowedInState(eventType: string, state: FlowState)

  datatype ValidationResult = ValidationResult(valid: bool, action: string, message: Option<RejectReason>)

  /** Whether the registry admits the event type in the state. */
  predicate Admits(registry: Registry, eventType: string, state: FlowState)
  {
    eventType in registry
    && match registry[eventType]
       case AllStates => true
       case States(s) => state in s
  }

  /** `validate_event`: unknown types and types not allowed in the current state are ignored, the rest accepted. */
  function ValidateEvent(registry: Registry, currentState: FlowState, event: Event): (r: ValidationResult)
    ensures r.valid <==> Admits(registry, event.eventType, currentState)
    ensures r.action == (if r.valid then ACCEPT else IGNORE)
    ensures r.message.None? <==> r.valid
    ensures event.eventType !in registry ==> r.message == Some(UnknownEventType(event.eventType))
    ensures event.eventType in registry && !r.valid ==> r.message == Some(NotAllowedInState(event.eventType, currentState))
  {
    if event.eventType !in registry then
      ValidationResult(false, IGNORE, Some(UnknownEventType(event.eventType)))
    else
      var allowed := registry[event.eventType];
      if (allowed.States? && currentState in allowed.states) || allowed.AllStates? then
        ValidationResult(true, ACCEPT, None)
      else
        ValidationResult(false, IGNORE, Some(NotAllowedInState(event.eventType, currentState)))
  }

  /** An event type registered for every state is accepted whatever the state, and an unknown one never is. */
  lemma AllStatesAlwaysAccepted(registry: Registry, s1: FlowState, s2: FlowState, event: Event)
    ensures event.eventType in registry && registry[event.eventType] == AllStates
            ==> ValidateEvent(registry, s1, event).valid && ValidateEvent(registry, s2, event).valid
    ensures event.eventType !in registry ==> ValidateEvent(registry, s1, event).action == IGNORE
  {
  }

  /** Validation reads only the registry entry of the event's type and the state, not the rest of the event. */
  lemma ValidationDependsOnTypeOnly(registry: Registry, state: FlowState, e1: Event, e2: Event)
    requires e1.eventType == e2.eventType
    ensures ValidateEvent(registry, state, e1) == ValidateEvent(registry, state, e2)
  {
  }

  /** Registering a state for an event type can only turn an ignore into an accept for that state. */
  lemma WideningAccepts(registry: Registry, eventType: string, s: set<FlowState>, t: set<FlowState>,
                        state: FlowState, event: Event)
    requires s <= t && event.eventType == eventType
    ensures ValidateEvent(registry[eventType := States(s)], state, event).valid
            ==> ValidateEvent(registry[eventType := States(t)], state, event).valid
  {
  }
}

=== FILE: defense_verifier.dfy ===
/**
 * The scenario verifier: it checks a step result's expectations again, this
 * time with the actions compared as a subset after normalisation (an action
 * name is upper-cased and mapped to the DEF_ event it produces), and
 * summarises a scenario as pass/fail counts. Diff messages are kept as
 * their parts (step number, mismatches, reason); their text layout is not
 * modelled.
 */
module DefenseVerifier {
  import opened Wrappers
  import opened PyValues
  import opened DefenseCore
  import opened DefenseEvidence
  import opened DefensePlanner
  import opened DefenseActuator
  import opened DefenseRunner

  /** Action names and the DEF_ events they stand for; HONEY is reserved for a future action. */
  const ACTION_TO_DEF_EVENT: map<string, string> := map[
    "THROTTLE" := DEF_THROTTLED,
    "BLOCK" := DEF_BLOCKED,
    "CHALLENGE" := DEF_CHALLENGE_FORCED,
    "SANDBOX" := DEF_SANDBOXED,
    "HONEY" := "DEF_HONEY"]

  const DEFAULT_SCENARIO_ID: string := "UNKNOWN"
  const DEFAULT_SCENARIO_TITLE: string := "Untitled"
  const DEF_PREFIX: string := "DEF_"

  /** One failed expectation of a step. */
  datatype Check =
    | StateCheck(expectedState: FlowState, gotState: FlowState)
    | TierCheck(expectedTier: DefenseTier, gotTier: DefenseTier)
    | ActionsCheck(missing: set<string>)

  datatype DiffMessage = DiffMessage(stepSeq: nat, mismatches: seq<Check>, reason: Option<string>)

  datatype AssertionResult = AssertionResult(passed: bool, stepSeq: nat, mismatches: seq<Check>, diffMessage: Option<DiffMessage>)

  datatype ScenarioReport = ScenarioReport(
    scenarioId: string,
    scenarioTitle: string,
    totalSteps: nat,
    passedSteps: nat,
    failedSteps: nat,
    results: seq<AssertionResult>)
  {
    /** The report passes when no step failed. */
    predicate Passed()
    {
      failedSteps == 0
    }
  }

  /** No lower-case ASCII letter. */
  predicate IsUpper(s: string)
  {
    forall k :: 0 <= k < |s| ==> !('a' <= s[k] <= 'z')
  }

  lemma UpperOfUpper(s: string)
    requires IsUpper(s)
    ensures UpperAscii(s) == s
  {
  }

  lemma UpperIsUpper(s: string)
    ensures IsUpper(UpperAscii(s))
  {
  }

  /** An action name upper-cased and mapped to its DEF_ event; an unknown name stays upper-cased. */
  function Normalize(action: string): (n: string)
    ensures IsUpper(n)
    ensures UpperAscii(action) in ACTION_TO_DEF_EVENT ==> n == ACTION_TO_DEF_EVENT[UpperAscii(action)]
    ensures UpperAscii(action) !in ACTION_TO_DEF_EVENT ==> n == UpperAscii(action)
  {
    var u := UpperAscii(action);
    UpperIsUpper(action);
    if u in ACTION_TO_DEF_EVENT then ACTION_TO_DEF_EVENT[u] else u
  }

  /** Normalising twice is normalising once: a DEF_ event name is not an action name. */
  lemma NormalizeIdempotent(action: string)
    ensures Normalize(Normalize(action)) == Normalize(action)
  {
    var n := Normalize(action);
    UpperOfUpper(n);
    var u := UpperAscii(action);
    if u in ACTION_TO_DEF_EVENT {
      EventsAreNotActions(u);
    }
  }

  /** No DEF_ event name is itself an action name. */
  lemma EventsAreNotActions(action: string)
    requires action in ACTION_TO_DEF_EVENT
    ensures ACTION_TO_DEF_EVENT[action] !in ACTION_TO_DEF_EVENT
  {
    var e := ACTION_TO_DEF_EVENT[action];
    assert e[..4] == DEF_PREFIX;
  }

  /** The action names are already upper-case. */
  lemma ActionsAreUpper(action: string)
    requires action in ACTION_TO_DEF_EVENT
    ensures IsUpper(action)
  {
  }

  /** A planned action normalises to exactly the event type the actuator emits for it. */
  lemma NormalizeAgreesWithActuator(plan: PlannedAction, sandboxed: bool)
    requires EmittedType(plan, sandboxed).Some?
    ensures Normalize(plan.actionType) == EmittedType(plan, sandboxed).value
  {
    EmittedIsMapped(plan, sandboxed);
    NormalizeAction(plan.actionType);
  }

  lemma NormalizeAction(action: string)
    requires action in ACTION_TO_DEF_EVENT
    ensures Normalize(action) == ACTION_TO_DEF_EVENT[action]
  {
    ActionsAreUpper(action);
    UpperOfUpper(action);
  }

  lemma EmittedIsMapped(plan: PlannedAction, sandboxed: bool)
    requires EmittedType(plan, sandboxed).Some?
    ensures plan.actionType in ACTION_TO_DEF_EVENT && ACTION_TO_DEF_EVENT[plan.actionType] == EmittedType(plan, sandboxed).value
  {
  }

  /** The normalised set of some action names. */
  function NormalizedSet(actions: seq<string>): (r: set<string>)
    ensures forall x :: x in r <==> exists j :: 0 <= j < |actions| && Normalize(actions[j]) == x
  {
    set j | 0 <= j < |actions| :: Normalize(actions[j])
  }

  /** The actual actions: the planned ones normalised and the emitted ones upper-cased. */
  function ActualSet(planned: seq<string>, emitted: seq<string>): (r: set<string>)
    ensures forall x :: x in r <==> (exists j :: 0 <= j < |planned| && Normalize(planned[j]) == x)
                                    || (exists j :: 0 <= j < |emitted| && UpperAscii(emitted[j]) == x)
  {
    NormalizedSet(planned) + set j | 0 <= j < |emitted| :: UpperAscii(emitted[j])
  }

  /** `_verify_actions`: the expected actions missing from the actual ones, if any. */
  function VerifyActions(expected: seq<string>, planned: seq<string>, emitted: seq<string>): (missing: Option<set<string>>)
    ensures missing.None? <==> forall i :: 0 <= i < |expected| ==>
              (exists j :: 0 <= j < |planned| && Normalize(planned[j]) == Normalize(expected[i]))
              || (exists j :: 0 <= j < |emitted| && UpperAscii(emitted[j]) == Normalize(expected[i]))
    ensures missing.Some? ==> missing.value != {}
                              && forall x :: x in missing.value <==> x in NormalizedSet(expected) && x !in ActualSet(planned, emitted)
  {
    var m := NormalizedSet(expected) - ActualSet(planned, emitted);
    if m != {} then
      Some(m)
    else
      assert forall i :: 0 <= i < |expected| ==> Normalize(expected[i]) in ActualSet(planned, emitted) by {
        forall i | 0 <= i < |expected|
          ensures Normalize(expected[i]) in ActualSet(planned, emitted)
        {
          assert Normalize(expected[i]) in NormalizedSet(expected);
          assert Normalize(expected[i]) !in m;
        }
      }
      None
  }

  /** The runner's set equality of expected and planned actions is stricter than the verifier's subset check. */
  lemma SetEqualityPassesSubsetCheck(expected: seq<string>, planned: seq<string>, emitted: seq<string>)
    requires AsSet(expected) == AsSet(planned)
    ensures VerifyActions(expected, planned, emitted).None?
  {
    forall i | 0 <= i < |expected|
      ensures exists j :: 0 <= j < |planned| && Normalize(planned[j]) == Normalize(expected[i])
    {
      assert expected[i] in AsSet(planned);
      var j :| 0 <= j < |planned| && planned[j] == expected[i];
    }
  }

  /** The emitted event types that start with DEF_, in order. */
  function DefEvents(types: seq<string>): (r: seq<string>)
    ensures |r| <= |types|
    ensures forall x :: x in r <==> x in types && StartsWith(x, DEF_PREFIX)
  {
    if types == [] then []
    else
      var last := types[|types| - 1];
      DefEvents(types[..|types| - 1]) + (if StartsWith(last, DEF_PREFIX) then [last] else [])
  }

  /** Filtering a concatenation filters each part, in order. */
  lemma {:induction false} DefEventsAppend(a: seq<string>, b: seq<string>)
    ensures DefEvents(a + b) == DefEvents(a) + DefEvents(b)
    decreases |b|
  {
    if b == [] {
      assert a + b == a;
    } else {
      var n := |b| - 1;
      assert (a + b)[..|a + b| - 1] == a + b[..n];
      assert (a + b)[|a + b| - 1] == b[n];
      DefEventsAppend(a, b[..n]);
    }
  }

  /**
   * DEF_ events are kept in emission order, repeats included: the first
   * emitted type leads the list exactly when it starts with DEF_.
   */
  lemma DefEventsCons(t: string, rest: seq<string>)
    ensures DefEvents([t] + rest) == (if StartsWith(t, DEF_PREFIX) then [t] else []) + DefEvents(rest)
  {
    DefEventsAppend([t], rest);
    assert [t][..0] == [];
  }

  /** `sep.join(xs)`. */
  function Join(xs: seq<string>, sep: string): (r: string)
    ensures xs == [] ==> r == []
    ensures |xs| == 1 ==> r == xs[0]
    ensures forall k :: 0 <= k < |xs| ==> |r| >= |xs[k]|
  {
    if xs == [] then []
    else if |xs| == 1 then xs[0]
    else xs[0] + sep + Join(xs[1..], sep)
  }

  /** `_extract_reason`: the failure code, else the terminal reason, else the DEF_ events joined by ", ". */
  function ExtractReason(actual: StepResult): (reason: Option<string>)
    ensures actual.failureCode.Some? ==> reason == Some(actual.failureCode.value.Value())
    ensures actual.failureCode.None? && actual.terminalReason.Some? ==> reason == Some(actual.terminalReason.value.Value())
    ensures reason.None? <==> actual.failureCode.None? && actual.terminalReason.None?
                              && forall k :: 0 <= k < |actual.emittedEventTypes| ==> !StartsWith(actual.emittedEventTypes[k], DEF_PREFIX)
    ensures actual.failureCode.None? && actual.terminalReason.None? && reason.Some?
            ==> reason.value == Join(DefEvents(actual.emittedEventTypes), ", ")
  {
    if actual.failureCode.Some? then Some(actual.failureCode.value.Value())
    else if actual.terminalReason.Some? then Some(actual.terminalReason.value.Value())
    else
      var defs := DefEvents(actual.emittedEventTypes);
      if defs != [] then
        assert defs[0] in actual.emittedEventTypes;
        Some(Join(defs, ", "))
      else
        assert forall k :: 0 <= k < |actual.emittedEventTypes| ==> actual.emittedEventTypes[k] !in defs;
        None
  }

  /** What a step must meet to pass: every expectation that is given. */
  predicate MeetsExpectations(actual: StepResult)
  {
    && (actual.expectedState.None? || actual.expectedState.value == actual.toState)
    && (actual.expectedTier.None? || actual.expectedTier.value == actual.toTier)
    && (actual.expectedActions.None?
        || NormalizedSet(actual.expectedActions.value) <= ActualSet(actual.plannedActions, actual.emittedEventTypes))
  }

  /** `verify_step`. */
  function VerifyStep(actual: StepResult): (a: AssertionResult)
    ensures a.stepSeq == actual.seqNo
    ensures a.passed <==> a.mismatches == []
    ensures a.passed <==> MeetsExpectations(actual)
    ensures a.diffMessage.None? <==> a.passed
    ensures a.diffMessage.Some? ==> a.diffMessage.value == DiffMessage(actual.seqNo, a.mismatches, ExtractReason(actual))
    ensures forall k :: 0 <= k < |a.mismatches| && a.mismatches[k].StateCheck?
              ==> actual.expectedState.Some? && a.mismatches[k] == StateCheck(actual.expectedState.value, actual.toState)
    ensures forall k :: 0 <= k < |a.mismatches| && a.mismatches[k].TierCheck?
              ==> actual.expectedTier.Some? && a.mismatches[k] == TierCheck(actual.expectedTier.value, actual.toTier)
  {
    var s := if actual.expectedState.Some? && actual.toState != actual.expectedState.value
             then [StateCheck(actual.expectedState.value, actual.toState)] else [];
    var t := if actual.expectedTier.Some? && actual.toTier != actual.expectedTier.value
             then [TierCheck(actual.expectedTier.value, actual.toTier)] else [];
    var m := if actual.expectedActions.None? then None
             else VerifyActions(actual.expectedActions.value, actual.plannedActions, actual.emittedEventTypes);
    var c := if m.Some? then [ActionsCheck(m.value)] else [];
    var mismatches := s + t + c;
    var passed := |mismatches| == 0;
    AssertionResult(passed, actual.seqNo, mismatches,
                    if passed then None else Some(DiffMessage(actual.seqNo, mismatches, ExtractReason(actual))))
  }

  /** How many of the results pass. */
  function CountPassed(results: seq<StepResult>): (n: nat)
    ensures n <= |results|
  {
    if results == [] then 0
    else CountPassed(results[..|results| - 1]) + (if VerifyStep(results[|results| - 1]).passed then 1 else 0)
  }

  /** `verify_scenario`: one assertion per result, and the pass and fail counts. */
  function VerifyScenario(results: seq<StepResult>, scenarioId: string, scenarioTitle: string): (report: ScenarioReport)
    ensures report.totalSteps == |results| == |report.results|
    ensures report.passedSteps + report.failedSteps == report.totalSteps
    ensures forall k :: 0 <= k < |results| ==> report.results[k] == VerifyStep(results[k])
    ensures report.scenarioId == scenarioId && report.scenarioTitle == scenarioTitle
  {
    var passed := CountPassed(results);
    ScenarioReport(scenarioId, scenarioTitle, |results|, passed, |results| - passed,
                   seq(|results|, k requires 0 <= k < |results| => VerifyStep(results[k])))
  }

  /** The passed count is the number of passing steps, so no step fails exactly when all pass. */
  lemma {:induction false} CountPassedAll(results: seq<StepResult>)
    ensures CountPassed(results) == |results| <==> forall k :: 0 <= k < |results| ==> VerifyStep(results[k]).passed
  {
    if results != [] {
      var n := |results| - 1;
      var pre := results[..n];
      CountPassedAll(pre);
      var last := VerifyStep(results[n]).passed;
      assert CountPassed(results) == CountPassed(pre) + (if last then 1 else 0);
      if CountPassed(results) == |results| {
        forall k | 0 <= k < |results|
          ensures VerifyStep(results[k]).passed
        {
          if k < n {
            assert pre[k] == results[k];
          }
        }
      } else if forall k :: 0 <= k < |results| ==> VerifyStep(results[k]).passed {
        forall k | 0 <= k < n
          ensures VerifyStep(pre[k]).passed
        {
          assert pre[k] == results[k];
        }
        assert false;
      }
    }
  }

  /** A scenario report passes exactly when every step's assertion passes. */
  lemma ReportPassedIffAllSteps(results: seq<StepResult>, scenarioId: string, scenarioTitle: string)
    ensures VerifyScenario(results, scenarioId, scenarioTitle).Passed()
            <==> forall k :: 0 <= k < |results| ==> VerifyStep(results[k]).passed
  {
    CountPassedAll(results);
  }

  /** A step the runner found without mismatches also passes the verifier. */
  lemma RunnerPassImpliesVerifierPass(seqNo: nat, step: ScenarioStep, flow: FlowState, tier: DefenseTier, ctx: ContextState,
                                      evidence: EvidenceState, policy: PolicySnapshot)
    ensures var r := StepSpec(seqNo, step, flow, tier, ctx, evidence, policy).0;
      r.mismatches == [] ==> VerifyStep(r).passed
  {
    var r := StepSpec(seqNo, step, flow, tier, ctx, evidence, policy).0;
    if r.mismatches == [] && r.expectedActions.Some? {
      SetEqualityPassesSubsetCheck(r.expectedActions.value, r.plannedActions, r.emittedEventTypes);
    }
  }
}

=== FILE: dto.dfy ===
/**
 * Request DTOs whose bean-validation constraints the backend enforces: the
 * seat-price filter range and the per-session booking preferences. A
 * constraint violation is reported as its message, in field order.
 */
module Dto {
  const MIN_PRICE: int := 20000
  const MAX_PRICE: int := 100000
  const MIN_PARTY_SIZE: int := 1
  const MAX_PARTY_SIZE: int := 10
  const DEFAULT_PARTY_SIZE: int := 2

  datatype PriceRange = PriceRange(min: int, max: int)

  /** `isValidRange`, the class-level check: only the order of the bounds. */
  predicate IsValidRange(r: PriceRange)
  {
    r.min <= r.max
  }

  /** The messages bean validation reports for a price range: @Min on min, @Max on max, then @AssertTrue. */
  function RangeViolations(r: PriceRange): (errs: seq<string>)
    ensures |errs| <= 3
    ensures errs == [] <==> MIN_PRICE <= r.min && r.max <= MAX_PRICE && r.min <= r.max
  {
    (if r.min < MIN_PRICE then ["min price must be at least 20000"] else [])
    + (if r.max > MAX_PRICE then ["max price must be at most 100000"] else [])
    + (if !IsValidRange(r) then ["min must be less than or equal to max"] else [])
  }

  /** Both the builder defaults and `defaultRange()`. */
  function DefaultRange(): (r: PriceRange)
    ensures r.min == 20000 && r.max == 100000
    ensures RangeViolations(r) == []
  {
    PriceRange(MIN_PRICE, MAX_PRICE)
  }

  lemma RangeBoundaries()
    ensures RangeViolations(PriceRange(50000, 50000)) == []
    ensures RangeViolations(PriceRange(19999, 50000)) == ["min price must be at least 20000"]
    ensures RangeViolations(PriceRange(20000, 100001)) == ["max price must be at most 100000"]
    ensures RangeViolations(PriceRange(60000, 50000)) == ["min must be less than or equal to max"]
  {
  }

  datatype Preferences = Preferences(
    recommendEnabled: bool,
    partySize: int,
    priceFilterEnabled: bool,
    priceRange: PriceRange)

  /** Builder and no-argument-constructor defaults. */
  function DefaultPreferences(): (p: Preferences)
    ensures !p.recommendEnabled && !p.priceFilterEnabled && p.partySize == 2
    ensures p.priceRange == DefaultRange()
  {
    Preferences(false, DEFAULT_PARTY_SIZE, false, DefaultRange())
  }

  /** @Min/@Max on partySize, then the nested range through @Valid. */
  function PreferenceViolations(p: Preferences): (errs: seq<string>)
    ensures errs == RangeViolations(p.priceRange) ==> MIN_PARTY_SIZE <= p.partySize <= MAX_PARTY_SIZE
  {
    (if p.partySize < MIN_PARTY_SIZE then ["partySize must be at least 1"] else [])
    + (if p.partySize > MAX_PARTY_SIZE then ["partySize must be at most 10"] else [])
    + RangeViolations(p.priceRange)
  }

  /** Preferences are accepted iff the party size is 1..10 and the nested range is accepted. */
  lemma PreferencesAccepted(p: Preferences)
    ensures PreferenceViolations(p) == [] <==>
              MIN_PARTY_SIZE <= p.partySize <= MAX_PARTY_SIZE && RangeViolations(p.priceRange) == []
  {
  }

  lemma PreferenceBoundaries(p: Preferences)
    requires RangeViolations(p.priceRange) == []
    ensures PreferenceViolations(p.(partySize := 0)) == ["partySize must be at least 1"]
    ensures PreferenceViolations(p.(partySize := 11)) == ["partySize must be at most 10"]
    ensures PreferenceViolations(p.(partySize := 1)) == [] && PreferenceViolations(p.(partySize := 10)) == []
    ensures PreferenceViolations(DefaultPreferences()) == []
  {
  }
}

=== FILE: log_tools.dfy ===
/**
 * The decision-log analyser's grouping and colouring. Log entries are
 * grouped by their trace id in the order the traces first appear; each
 * group is then sorted by the entries' sequence numbers, stably, so entries
 * with equal numbers keep their log order. Colouring wraps a text in ANSI
 * codes unless it is switched off.
 */
module LogAnalyzer {
  import opened PyValues

  /** One parsed log line. */
  type Entry = map<string, Value>

  const RESET: string := "\U{1B}[0m"
  const UNKNOWN_TRACE: string := "UNKNOWN"

  function Concat(codes: seq<string>): (r: string)
    ensures |r| == 0 <==> forall k :: 0 <= k < |codes| ==> codes[k] == []
  {
    if codes == [] then [] else Concat(codes[..|codes| - 1]) + codes[|codes| - 1]
  }

  /** `ColorPrinter._wrap`: the text alone when colouring is off, otherwise between the codes and the reset code. */
  function Wrap(enabled: bool, text: string, codes: seq<string>): (r: string)
    ensures !enabled ==> r == text
    ensures enabled ==> |r| == |Concat(codes)| + |text| + |RESET|
                        && r[..|Concat(codes)|] == Concat(codes)
                        && r[|Concat(codes)|..|Concat(codes)| + |text|] == text
                        && r[|r| - |RESET|..] == RESET
  {
    if !enabled then text else Concat(codes) + text + RESET
  }

  /** `entry.get("trace_id", "UNKNOWN")`. */
  function TraceOf(e: Entry): Value
  {
    Get(e, "trace_id", PyStr(UNKNOWN_TRACE))
  }

  /** `entry.get("seq", 0)` for an entry whose number is an int or a bool. */
  function SeqKey(e: Entry): int
  {
    if "seq" in e && IsPyInt(e["seq"]) then AsInt(e["seq"]) else 0
  }

  /** Every sequence number present is an int or a bool, so sorting compares numbers only. */
  predicate WellKeyed(entries: seq<Entry>)
  {
    forall k :: 0 <= k < |entries| ==> "seq" !in entries[k] || IsPyInt(entries[k]["seq"])
  }

  /** The entries of the given trace, in log order. */
  function OfTrace(entries: seq<Entry>, t: Value): (r: seq<Entry>)
    ensures |r| <= |entries|
    ensures forall k :: 0 <= k < |r| ==> TraceOf(r[k]) == t
  {
    if entries == [] then []
    else OfTrace(entries[..|entries| - 1], t) + (if TraceOf(entries[|entries| - 1]) == t then [entries[|entries| - 1]] else [])
  }

  /** The traces in first-appearance order, and each trace's entries. */
  datatype Grouping = Grouping(order: seq<Value>, groups: map<Value, seq<Entry>>)

  /** The first pass of `group_by_trace`: a new trace opens a group, every entry joins its trace's group. */
  function Collect(entries: seq<Entry>): (g: Grouping)
    ensures |g.order| <= |entries|
    ensures entries != [] ==> |g.order| > 0 && g.order[0] == TraceOf(entries[0])
  {
    if entries == [] then Grouping([], map[])
    else
      var g := Collect(entries[..|entries| - 1]);
      var e := entries[|entries| - 1];
      var t := TraceOf(e);
      if t in g.groups then Grouping(g.order, g.groups[t := g.groups[t] + [e]])
      else Grouping(g.order + [t], g.groups[t := [e]])
  }

  /** Some entry carries the trace. */
  predicate Occurs(entries: seq<Entry>, t: Value)
  {
    exists k :: 0 <= k < |entries| && TraceOf(entries[k]) == t
  }

  /**
   * The groups are keyed by exactly the traces that occur, and the order
   * lists each of them once.
   */
  lemma {:induction false} CollectKeys(entries: seq<Entry>)
    ensures var g := Collect(entries);
      && (forall t :: t in g.groups <==> Occurs(entries, t))
      && (forall t :: t in g.groups <==> t in g.order)
      && (forall i, j :: 0 <= i < j < |g.order| ==> g.order[i] != g.order[j])
  {
    if entries != [] {
      var n := |entries| - 1;
      var pre := entries[..n];
      CollectKeys(pre);
      var t := TraceOf(entries[n]);
      forall u
        ensures Occurs(entries, u) <==> Occurs(pre, u) || u == t
      {
        if Occurs(pre, u) {
          var k :| 0 <= k < |pre| && TraceOf(pre[k]) == u;
          assert TraceOf(entries[k]) == u;
        }
        if Occurs(entries, u) && u != t {
          var k :| 0 <= k < |entries| && TraceOf(entries[k]) == u;
          assert TraceOf(pre[k]) == u;
        }
      }
    }
  }

  /** Each group holds exactly its trace's entries, in log order. */
  lemma {:induction false} CollectGroups(entries: seq<Entry>)
    ensures var g := Collect(entries);
      forall t :: t in g.groups ==> g.groups[t] == OfTrace(entries, t)
  {
    if entries != [] {
      var n := |entries| - 1;
      var pre := entries[..n];
      CollectGroups(pre);
      CollectKeys(pre);
      var g0 := Collect(pre);
      var g := Collect(entries);
      var t := TraceOf(entries[n]);
      forall u | u in g.groups
        ensures g.groups[u] == OfTrace(entries, u)
      {
        assert OfTrace(entries, u) == OfTrace(pre, u) + (if t == u then [entries[n]] else []);
        if u !in g0.groups {
          assert !Occurs(pre, u);
          OfTraceAbsent(pre, u);
        }
      }
    }
  }

  /**
   * The groups are keyed by exactly the traces that occur, the order lists
   * each of them once, and each group holds exactly its trace's entries in
   * log order, so every entry is in one group and one only.
   */
  lemma CollectPartitions(entries: seq<Entry>)
    ensures var g := Collect(entries);
      && (forall t :: t in g.groups <==> Occurs(entries, t))
      && (forall t :: t in g.groups <==> t in g.order)
      && (forall i, j :: 0 <= i < j < |g.order| ==> g.order[i] != g.order[j])
      && forall t :: t in g.groups ==> g.groups[t] == OfTrace(entries, t)
  {
    CollectKeys(entries);
    CollectGroups(entries);
  }

  lemma {:induction false} OfTraceAbsent(entries: seq<Entry>, t: Value)
    requires !Occurs(entries, t)
    ensures OfTrace(entries, t) == []
  {
    if entries != [] {
      var n := |entries| - 1;
      OfTraceAbsent(entries[..n], t);
    }
  }

  /**
   * The traces are ordered by first appearance: wherever a later trace
   * occurs, every earlier trace has already occurred.
   */
  lemma {:induction false} CollectFirstAppearance(entries: seq<Entry>)
    ensures var g := Collect(entries);
      forall i, j, k :: 0 <= i < j < |g.order| && 0 <= k < |entries| && TraceOf(entries[k]) == g.order[j]
        ==> exists k' :: 0 <= k' < k && TraceOf(entries[k']) == g.order[i]
  {
    if entries != [] {
      var n := |entries| - 1;
      var pre := entries[..n];
      CollectFirstAppearance(pre);
      CollectKeys(pre);
      var g0 := Collect(pre);
      var g := Collect(entries);
      var t := TraceOf(entries[n]);
      assert forall u :: u in Collect(pre).groups <==> u in Collect(pre).order;
      assert forall i, j, k ::
               0 <= i < j < |Collect(pre).order| && 0 <= k < |pre| && TraceOf(pre[k]) == Collect(pre).order[j]
               ==> exists k' :: 0 <= k' < k && TraceOf(pre[k']) == Collect(pre).order[i];
      forall i, j, k | 0 <= i < j < |g.order| && 0 <= k < |entries| && TraceOf(entries[k]) == g.order[j]
        ensures exists k' :: 0 <= k' < k && TraceOf(entries[k']) == g.order[i]
      {
        assert i < |g0.order| && g.order[i] == g0.order[i];
        if k == n {
          assert g0.order[i] in g0.order;
          assert g0.order[i] in g0.groups;
          assert Occurs(pre, g0.order[i]);
          var k' :| 0 <= k' < n && TraceOf(pre[k']) == g0.order[i];
          assert TraceOf(entries[k']) == g.order[i];
        } else {
          assert TraceOf(pre[k]) == g.order[j];
          if j == |g0.order| {
            assert false;
          }
          assert g.order[j] == g0.order[j];
          assert 0 <= i < j < |g0.order| && 0 <= k < |pre| && TraceOf(pre[k]) == g0.order[j];
          var k' :| 0 <= k' < k && TraceOf(pre[k']) == g0.order[i];
          assert TraceOf(entries[k']) == g.order[i];
        }
      }
    }
  }

  /** Entries ordered by sequence number. */
  predicate SortedBySeq(s: seq<Entry>)
  {
    forall i, j :: 0 <= i < j < |s| ==> SeqKey(s[i]) <= SeqKey(s[j])
  }

  /** The entries carrying the given sequence number, in order. */
  function WithSeq(s: seq<Entry>, v: int): seq<Entry>
  {
    if s == [] then [] else WithSeq(s[..|s| - 1], v) + (if SeqKey(s[|s| - 1]) == v then [s[|s| - 1]] else [])
  }

  /** Insertion after every entry whose number is not greater. */
  function Insert(s: seq<Entry>, x: Entry): (r: seq<Entry>)
    ensures |r| == |s| + 1
  {
    if s == [] then [x]
    else if SeqKey(s[|s| - 1]) <= SeqKey(x) then s + [x]
    else Insert(s[..|s| - 1], x) + [s[|s| - 1]]
  }

  /** `list.sort(key=lambda e: e.get("seq", 0))`, a stable sort. */
  function SortBySeq(s: seq<Entry>): (r: seq<Entry>)
    ensures |r| == |s|
  {
    if s == [] then [] else Insert(SortBySeq(s[..|s| - 1]), s[|s| - 1])
  }

  lemma {:induction false} WithSeqAppend(a: seq<Entry>, b: seq<Entry>, v: int)
    ensures WithSeq(a + b, v) == WithSeq(a, v) + WithSeq(b, v)
  {
    if b != [] {
      var n := |b| - 1;
      WithSeqAppend(a, b[..n], v);
      assert (a + b)[..|a + b| - 1] == a + b[..n];
    } else {
      assert a + b == a;
    }
  }

  lemma WithSeqSnoc(a: seq<Entry>, y: Entry, v: int)
    ensures WithSeq(a + [y], v) == WithSeq(a, v) + (if SeqKey(y) == v then [y] else [])
  {
    assert (a + [y])[..|a|] == a;
  }

  /** Inserting keeps the entries of each number in order, the new one last among its equals. */
  lemma {:induction false} InsertStable(s: seq<Entry>, x: Entry, v: int)
    ensures WithSeq(Insert(s, x), v) == WithSeq(s, v) + (if SeqKey(x) == v then [x] else [])
  {
    if s == [] {
      WithSeqSnoc([], x, v);
      assert [] + [x] == [x];
    } else {
      var n := |s| - 1;
      var last := s[n];
      if SeqKey(last) <= SeqKey(x) {
        WithSeqSnoc(s, x, v);
      } else {
        var r := Insert(s[..n], x);
        assert Insert(s, x) == r + [last];
        InsertStable(s[..n], x, v);
        WithSeqSnoc(r, last, v);
        assert s[..n] + [last] == s;
        WithSeqSnoc(s[..n], last, v);
        // `last` sorts after `x`, so at most one of them has the number `v`.
        var before, mine, theirs := WithSeq(s[..n], v), (if SeqKey(x) == v then [x] else []), (if SeqKey(last) == v then [last] else []);
        assert WithSeq(Insert(s, x), v) == (before + mine) + theirs;
        assert WithSeq(s, v) == before + theirs;
        if SeqKey(x) == v {
          assert theirs == [];
          assert (before + mine) + theirs == before + mine;
          assert before + theirs == before;
        } else {
          assert mine == [];
          assert (before + mine) + theirs == before + theirs;
        }
      }
    }
  }

  /** Inserting adds exactly the new entry. */
  lemma {:induction false} InsertPerm(s: seq<Entry>, x: Entry)
    ensures multiset(Insert(s, x)) == multiset(s) + multiset{x}
  {
    if s != [] {
      var n := |s| - 1;
      if SeqKey(s[n]) > SeqKey(x) {
        InsertPerm(s[..n], x);
        assert s[..n] + [s[n]] == s;
        assert multiset(s) == multiset(s[..n]) + multiset{s[n]};
      }
    }
  }

  /** Every number in the list is at most `b`. */
  predicate AllAtMost(s: seq<Entry>, b: int)
  {
    forall k :: 0 <= k < |s| ==> SeqKey(s[k]) <= b
  }

  lemma {:induction false} InsertAtMost(s: seq<Entry>, x: Entry, b: int)
    requires AllAtMost(s, b) && SeqKey(x) <= b
    ensures AllAtMost(Insert(s, x), b)
  {
    if s != [] {
      var n := |s| - 1;
      if SeqKey(s[n]) > SeqKey(x) {
        InsertAtMost(s[..n], x, b);
      }
    }
  }

  lemma AppendSorted(s: seq<Entry>, y: Entry)
    requires SortedBySeq(s) && AllAtMost(s, SeqKey(y))
    ensures SortedBySeq(s + [y])
  {
  }

  /** Inserting into a sorted list keeps it sorted. */
  lemma {:induction false} InsertSorted(s: seq<Entry>, x: Entry)
    requires SortedBySeq(s)
    ensures SortedBySeq(Insert(s, x))
  {
    if s != [] {
      var n := |s| - 1;
      var last := s[n];
      var pre := s[..n];
      assert SortedBySeq(pre) && AllAtMost(pre, SeqKey(last));
      if SeqKey(last) > SeqKey(x) {
        InsertSorted(pre, x);
        InsertAtMost(pre, x, SeqKey(last));
        AppendSorted(Insert(pre, x), last);
      } else {
        assert AllAtMost(s, SeqKey(x));
        AppendSorted(s, x);
      }
    }
  }

  /** The sort is a sorted, stable permutation. */
  lemma {:induction false} SortBySeqCorrect(s: seq<Entry>)
    ensures SortedBySeq(SortBySeq(s))
    ensures multiset(SortBySeq(s)) == multiset(s)
    ensures forall v :: WithSeq(SortBySeq(s), v) == WithSeq(s, v)
  {
    if s != [] {
      var n := |s| - 1;
      SortBySeqCorrect(s[..n]);
      InsertSorted(SortBySeq(s[..n]), s[n]);
      InsertPerm(SortBySeq(s[..n]), s[n]);
      assert s[..n] + [s[n]] == s;
      forall v
        ensures WithSeq(SortBySeq(s), v) == WithSeq(s, v)
      {
        InsertStable(SortBySeq(s[..n]), s[n], v);
      }
    }
  }

  /** The total size of the listed groups. */
  function GroupSizes(order: seq<Value>, groups: map<Value, seq<Entry>>): nat
  {
    if order == [] then 0
    else GroupSizes(order[..|order| - 1], groups)
         + (if order[|order| - 1] in groups then |groups[order[|order| - 1]]| else 0)
  }

  /** Replacing one group changes the total by the change in that group's size, when the order lists it once. */
  lemma {:induction false} GroupSizesUpdate(order: seq<Value>, groups: map<Value, seq<Entry>>, t: Value, s: seq<Entry>)
    requires t in groups
    requires forall i, j :: 0 <= i < j < |order| ==> order[i] != order[j]
    ensures GroupSizes(order, groups[t := s]) + (if t in order then |groups[t]| else 0)
            == GroupSizes(order, groups) + (if t in order then |s| else 0)
  {
    if order != [] {
      var n := |order| - 1;
      GroupSizesUpdate(order[..n], groups, t, s);
      assert order == order[..n] + [order[n]];
      assert order[n] == t ==> t !in order[..n];
    }
  }

  /** Groups of the same sizes have the same total. */
  lemma {:induction false} GroupSizesSameLengths(order: seq<Value>, groups: map<Value, seq<Entry>>, groups2: map<Value, seq<Entry>>)
    requires groups2.Keys == groups.Keys
    requires forall t :: t in groups ==> |groups2[t]| == |groups[t]|
    ensures GroupSizes(order, groups2) == GroupSizes(order, groups)
  {
    if order != [] {
      GroupSizesSameLengths(order[..|order| - 1], groups, groups2);
    }
  }

  /** The groups listed in the order hold as many entries as the log: no entry is lost or repeated. */
  lemma {:induction false} CollectSizes(entries: seq<Entry>)
    ensures GroupSizes(Collect(entries).order, Collect(entries).groups) == |entries|
  {
    if entries != [] {
      var n := |entries| - 1;
      var pre := entries[..n];
      CollectSizes(pre);
      CollectKeys(pre);
      var g0 := Collect(pre);
      var t := TraceOf(entries[n]);
      if t in g0.groups {
        GroupSizesUpdate(g0.order, g0.groups, t, g0.groups[t] + [entries[n]]);
      } else {
        assert (g0.order + [t])[..|g0.order|] == g0.order;
        GroupSizesFresh(g0.order, g0.groups, t, [entries[n]]);
      }
    }
  }

  /** A group the order does not list does not count. */
  lemma {:induction false} GroupSizesFresh(order: seq<Value>, groups: map<Value, seq<Entry>>, t: Value, s: seq<Entry>)
    requires t !in order
    ensures GroupSizes(order, groups[t := s]) == GroupSizes(order, groups)
  {
    if order != [] {
      GroupSizesFresh(order[..|order| - 1], groups, t, s);
    }
  }

  /** An entry is among its trace's entries. */
  lemma {:induction false} OfTraceHas(entries: seq<Entry>, k: nat)
    requires k < |entries|
    ensures entries[k] in OfTrace(entries, TraceOf(entries[k]))
  {
    var n := |entries| - 1;
    if k < n {
      OfTraceHas(entries[..n], k);
      assert entries[..n][k] == entries[k];
    }
  }

  /**
   * The first pass partitions the log: every entry is in its own trace's
   * group, every group holds only entries of its trace, and the listed
   * groups hold as many entries as the log.
   */
  lemma CollectIsPartition(entries: seq<Entry>)
    ensures var g := Collect(entries);
      && (forall k :: 0 <= k < |entries| ==> TraceOf(entries[k]) in g.groups && entries[k] in g.groups[TraceOf(entries[k])])
      && (forall t, e :: t in g.groups && e in g.groups[t] ==> TraceOf(e) == t)
      && GroupSizes(g.order, g.groups) == |entries|
  {
    CollectPartitions(entries);
    CollectSizes(entries);
    var g := Collect(entries);
    forall k | 0 <= k < |entries|
      ensures TraceOf(entries[k]) in g.groups && entries[k] in g.groups[TraceOf(entries[k])]
    {
      assert Occurs(entries, TraceOf(entries[k]));
      OfTraceHas(entries, k);
    }
  }

  /** The first loop of `group_by_trace`. */
  method CollectTraces(entries: seq<Entry>) returns (order: seq<Value>, groups: map<Value, seq<Entry>>)
    ensures Grouping(order, groups) == Collect(entries)
  {
    order := [];
    groups := map[];
    var i := 0;
    while i < |entries|
      invariant 0 <= i <= |entries|
      invariant Grouping(order, groups) == Collect(entries[..i])
    {
      assert entries[..i + 1][..i] == entries[..i];
      var t := TraceOf(entries[i]);
      if t in groups {
        groups := groups[t := groups[t] + [entries[i]]];
      } else {
        order := order + [t];
        groups := groups[t := [entries[i]]];
      }
      i := i + 1;
    }
    assert entries[..i] == entries;
  }

  /** The second loop of `group_by_trace`: each listed group is replaced by its sorted form. */
  method SortGroups(order: seq<Value>, groups: map<Value, seq<Entry>>) returns (sorted: map<Value, seq<Entry>>)
    requires forall t :: t in groups <==> t in order
    ensures sorted.Keys == groups.Keys
    ensures forall t :: t in sorted ==> sorted[t] == SortBySeq(groups[t])
  {
    sorted := groups;
    var j := 0;
    while j < |order|
      invariant 0 <= j <= |order|
      invariant sorted.Keys == groups.Keys
      invariant forall t :: t in sorted && t in order[..j] ==> sorted[t] == SortBySeq(groups[t])
      invariant forall t :: t in sorted && t !in order[..j] ==> sorted[t] == groups[t]
    {
      var t := order[j];
      assert order[..j + 1] == order[..j] + [t];
      if t !in order[..j] {
        sorted := sorted[t := SortBySeq(sorted[t])];
      }
      j := j + 1;
    }
    assert order[..j] == order;
  }

  /** `group_by_trace`: the groups in first-appearance order, each sorted by sequence number. */
  method GroupByTrace(entries: seq<Entry>) returns (order: seq<Value>, groups: map<Value, seq<Entry>>)
    requires WellKeyed(entries)
    ensures order == Collect(entries).order
    ensures groups.Keys == Collect(entries).groups.Keys
    ensures forall t :: t in groups ==> groups[t] == SortBySeq(Collect(entries).groups[t])
    ensures forall k :: 0 <= k < |entries| ==> TraceOf(entries[k]) in groups && entries[k] in groups[TraceOf(entries[k])]
    ensures forall t, e :: t in groups && e in groups[t] ==> TraceOf(e) == t
    ensures GroupSizes(order, groups) == |entries|
  {
    var collected;
    order, collected := CollectTraces(entries);
    CollectPartitions(entries);
    groups := SortGroups(order, collected);
    SortedPartition(entries, groups);
  }

  /** Sorting each group keeps the partition: the sorted groups hold the same entries, and as many. */
  lemma SortedPartition(entries: seq<Entry>, groups: map<Value, seq<Entry>>)
    requires groups.Keys == Collect(entries).groups.Keys
    requires forall t :: t in groups ==> groups[t] == SortBySeq(Collect(entries).groups[t])
    ensures forall k :: 0 <= k < |entries| ==> TraceOf(entries[k]) in groups && entries[k] in groups[TraceOf(entries[k])]
    ensures forall t, e :: t in groups && e in groups[t] ==> TraceOf(e) == t
    ensures GroupSizes(Collect(entries).order, groups) == |entries|
  {
    var g := Collect(entries);
    CollectIsPartition(entries);
    GroupSizesSameLengths(g.order, g.groups, groups);
    forall t | t in groups
      ensures multiset(groups[t]) == multiset(g.groups[t])
    {
      SortBySeqCorrect(g.groups[t]);
    }
    forall t, e | t in groups && e in groups[t]
      ensures TraceOf(e) == t
    {
      assert e in multiset(g.groups[t]);
    }
    forall k | 0 <= k < |entries|
      ensures TraceOf(entries[k]) in groups && entries[k] in groups[TraceOf(entries[k])]
    {
      assert entries[k] in multiset(g.groups[TraceOf(entries[k])]);
    }
  }

  /** Each group is its trace's entries sorted by number: sorted, the same entries, and equal numbers in log order. */
  lemma GroupsAreSortedTraces(entries: seq<Entry>, t: Value)
    requires t in Collect(entries).groups
    ensures var g := SortBySeq(Collect(entries).groups[t]);
      && SortedBySeq(g)
      && multiset(g) == multiset(OfTrace(entries, t))
      && forall v :: WithSeq(g, v) == WithSeq(OfTrace(entries, t), v)
  {
    CollectPartitions(entries);
    SortBySeqCorrect(OfTrace(entries, t));
  }
}

=== FILE: payments.dfy ===
/**
 * PaymentService: pays an order once, with idempotent replay, a payment
 * window, and a failure switch standing for the random test hook.
 *
 * The service reads and updates the orders held by the SeatService it was
 * built with. The call into the security service that clears the session's
 * verification flag is recorded in the ghost log `resetLog`.
 */
module Payments {
  import opened Wrappers
  import opened SeatEntities
  import Seats

  /** A snapshot of what one payment call can read or change. */
  datatype PayState = PayState(
    orders: map<Id, Order>,
    payments: map<Id, Payment>,
    cache: map<string, PaymentResponse>,
    nextId: nat,
    resetLog: seq<string>)

  /** `buildAndCache`: the response, stored under the key when there is one. */
  function Respond(ps: PayState, key: Option<string>, r: PaymentResponse): (PayState, PaymentResponse)
  {
    (if key.Some? then ps.(cache := ps.cache[key.value := r]) else ps, r)
  }

  /**
   * The new state and the response of `processPayment(req, key)` at instant
   * `now`; `injectFailure` is the outcome of the random failure draw.
   */
  function PayStep(ps: PayState, req: PaymentRequest, key: Option<string>, injectFailure: bool, now: int): (r: (PayState, PaymentResponse))
    ensures r.0.nextId >= ps.nextId
    ensures r.0.cache == if key.Some? then ps.cache[key.value := r.1] else ps.cache
    ensures ps.resetLog <= r.0.resetLog && |r.0.resetLog| <= |ps.resetLog| + 1
  {
    if key.Some? && key.value in ps.cache then (ps, ps.cache[key.value])
    else if req.orderId !in ps.orders then
      Respond(ps, key, PaymentResponse(None, req.orderId, "FAILED", Some("ORDER_NOT_FOUND")))
    else
      var order := ps.orders[req.orderId];
      if IsPaymentExpired(order, now) then
        Respond(ps.(orders := ps.orders[req.orderId := order.(status := OrderStatus.EXPIRED)]), key,
                PaymentResponse(None, req.orderId, "EXPIRED", Some("PAYMENT_WINDOW_EXPIRED")))
      else if order.status == OrderStatus.PAID then
        Respond(ps, key, PaymentResponse(None, req.orderId, "FAILED", Some("ALREADY_PAID")))
      else ChargeStep(ps, req, order, key, injectFailure, now)
  }

  /** The tail of `processPayment` once every check has passed: one payment is filed. */
  function ChargeStep(ps: PayState, req: PaymentRequest, order: Order, key: Option<string>, injectFailure: bool, now: int): (PayState, PaymentResponse)
  {
    if injectFailure then
      var id := ps.nextId;
      var p := Payment(id, req.orderId, order.sessionId, order.totalPrice, req.payMethod,
                       PaymentStatus.FAILED, Some("PAYMENT_FAILED"), now);
      Respond(ps.(payments := ps.payments[id := p], nextId := id + 1), key,
              PaymentResponse(Some(id), req.orderId, "FAILED", Some("PAYMENT_FAILED")))
    else
      var id := ps.nextId;
      var p := Payment(id, req.orderId, order.sessionId, order.totalPrice, req.payMethod,
                       PaymentStatus.SUCCEEDED, None, now);
      Respond(ps.(payments := ps.payments[id := p], nextId := id + 1,
                  orders := ps.orders[req.orderId := order.(status := OrderStatus.PAID)],
                  resetLog := ps.resetLog + [order.sessionId]), key,
              PaymentResponse(Some(id), req.orderId, "SUCCEEDED", None))
  }

  predicate Succeeded(p: Payment)
  {
    p.status == PaymentStatus.SUCCEEDED
  }

  /**
   * The invariant of the payment store at wall-clock time `clock`: every
   * payment is filed under its id and names a known order; the order of a
   * successful payment is PAID or past its window; and no order has two
   * successful payments.
   */
  ghost predicate Settled(ps: PayState, clock: int)
  {
    && (forall id :: id in ps.payments ==>
          id < ps.nextId && ps.payments[id].paymentId == id && ps.payments[id].orderId in ps.orders)
    && (forall id :: id in ps.payments && Succeeded(ps.payments[id]) ==>
          ps.orders[ps.payments[id].orderId].status == OrderStatus.PAID
          || IsPaymentExpired(ps.orders[ps.payments[id].orderId], clock))
    && (forall id1, id2 :: id1 in ps.payments && id2 in ps.payments
          && Succeeded(ps.payments[id1]) && Succeeded(ps.payments[id2])
          && ps.payments[id1].orderId == ps.payments[id2].orderId
          ==> id1 == id2)
  }

  /** The invariant survives every call made no earlier than the clock. */
  lemma PayStepSettled(ps: PayState, clock: int, req: PaymentRequest, key: Option<string>, injectFailure: bool, now: int)
    requires Settled(ps, clock) && clock <= now
    ensures Settled(PayStep(ps, req, key, injectFailure, now).0, now)
  {
    SettledLater(ps, clock, now);
    if !(key.Some? && key.value in ps.cache) && req.orderId in ps.orders {
      var order := ps.orders[req.orderId];
      if !IsPaymentExpired(order, now) && order.status != OrderStatus.PAID {
        ChargeSettled(ps, req, key, injectFailure, now);
      }
    }
  }

  /** A payment window once past stays past, so the invariant only gets easier as the clock advances. */
  lemma SettledLater(ps: PayState, clock: int, now: int)
    requires Settled(ps, clock) && clock <= now
    ensures Settled(ps, now)
  {
    forall id | id in ps.payments && Succeeded(ps.payments[id])
      ensures ps.orders[ps.payments[id].orderId].status == OrderStatus.PAID
              || IsPaymentExpired(ps.orders[ps.payments[id].orderId], now)
    {
    }
  }

  /** Charging an open, unpaid order files one payment and keeps the invariant, whatever the draw. */
  lemma ChargeSettled(ps: PayState, req: PaymentRequest, key: Option<string>, injectFailure: bool, now: int)
    requires Settled(ps, now) && req.orderId in ps.orders
    requires !IsPaymentExpired(ps.orders[req.orderId], now) && ps.orders[req.orderId].status != OrderStatus.PAID
    ensures Settled(ChargeStep(ps, req, ps.orders[req.orderId], key, injectFailure, now).0, now)
  {
    if !injectFailure {
      forall id | id in ps.payments && Succeeded(ps.payments[id])
        ensures ps.payments[id].orderId != req.orderId
      {
      }
    }
    assert ps.nextId !in ps.payments;
  }

  /** One `processPayment` call: the request, its key, the failure draw and the instant it is made. */
  datatype PayCall = PayCall(req: PaymentRequest, key: Option<string>, injectFailure: bool, now: int)

  /** No call is made before `clock`, and the calls' instants never go back. */
  predicate ClockMonotone(calls: seq<PayCall>, clock: int)
  {
    (|calls| > 0 ==> clock <= calls[0].now)
    && forall k :: 0 < k < |calls| ==> calls[k - 1].now <= calls[k].now
  }

  /** The state after the calls, made one after the other. */
  function PayRun(ps: PayState, calls: seq<PayCall>): PayState
    decreases |calls|
  {
    if calls == [] then ps
    else PayRun(PayStep(ps, calls[0].req, calls[0].key, calls[0].injectFailure, calls[0].now).0, calls[1..])
  }

  /** The instant of the last call, or `clock` when there is none. */
  function LastClock(clock: int, calls: seq<PayCall>): int
  {
    if calls == [] then clock else calls[|calls| - 1].now
  }

  /** The invariant holds after any run of calls whose clock never goes back. */
  lemma {:induction false} PayRunSettled(ps: PayState, clock: int, calls: seq<PayCall>)
    requires Settled(ps, clock) && ClockMonotone(calls, clock)
    ensures Settled(PayRun(ps, calls), LastClock(clock, calls))
    decreases |calls|
  {
    if calls != [] {
      var c := calls[0];
      PayStepSettled(ps, clock, c.req, c.key, c.injectFailure, c.now);
      assert ClockMonotone(calls[1..], c.now);
      PayRunSettled(PayStep(ps, c.req, c.key, c.injectFailure, c.now).0, c.now, calls[1..]);
    }
  }

  /**
   * Starting from a service with no payments, across any run of calls with a
   * clock that never goes back, an order has at most one SUCCEEDED payment.
   */
  lemma AtMostOneSuccess(orders: map<Id, Order>, clock: int, calls: seq<PayCall>, id1: Id, id2: Id)
    requires ClockMonotone(calls, clock)
    ensures var ps := PayRun(PayState(orders, map[], map[], 0, []), calls);
            id1 in ps.payments && id2 in ps.payments
            && Succeeded(ps.payments[id1]) && Succeeded(ps.payments[id2])
            && ps.payments[id1].orderId == ps.payments[id2].orderId
            ==> id1 == id2
  {
    PayRunSettled(PayState(orders, map[], map[], 0, []), clock, calls);
  }

  /** Once an order has been paid, no later call on it succeeds. */
  lemma {:induction false} NoSecondSuccess(ps: PayState, req: PaymentRequest, key1: Option<string>, key2: Option<string>, f2: bool, now1: int, now2: int)
    requires now1 <= now2
    requires !(key1.Some? && key1.value in ps.cache)
    requires PayStep(ps, req, key1, false, now1).1.status == "SUCCEEDED"
    requires var ps1 := PayStep(ps, req, key1, false, now1).0;
      !(key2.Some? && key2.value in ps1.cache && ps1.cache[key2.value].status == "SUCCEEDED")
    ensures var ps1 := PayStep(ps, req, key1, false, now1).0;
      PayStep(ps1, req, key2, f2, now2).1.status != "SUCCEEDED"
  {
    var ps1 := PayStep(ps, req, key1, false, now1).0;
    assert req.orderId in ps1.orders && ps1.orders[req.orderId].status == OrderStatus.PAID;
  }

  /** A cached key replays its response: no payment is created and no order changes. */
  lemma PayReplay(ps: PayState, req: PaymentRequest, key: string, injectFailure: bool, now: int)
    requires key in ps.cache
    ensures PayStep(ps, req, Some(key), injectFailure, now) == (ps, ps.cache[key])
  {
  }

  /** An unknown order is reported FAILED/ORDER_NOT_FOUND without a payment id, and the answer is cached. */
  lemma PayOrderNotFound(ps: PayState, req: PaymentRequest, key: Option<string>, injectFailure: bool, now: int)
    requires !(key.Some? && key.value in ps.cache) && req.orderId !in ps.orders
    ensures var (ps2, r) := PayStep(ps, req, key, injectFailure, now);
      && r == PaymentResponse(None, req.orderId, "FAILED", Some("ORDER_NOT_FOUND"))
      && ps2.payments == ps.payments && ps2.orders == ps.orders
      && (key.Some? ==> ps2.cache == ps.cache[key.value := r])
  {
  }

  /** The window check comes first: even a PAID order past its window becomes EXPIRED. */
  lemma PayWindowFirst(ps: PayState, req: PaymentRequest, key: Option<string>, injectFailure: bool, now: int)
    requires !(key.Some? && key.value in ps.cache) && req.orderId in ps.orders
    requires IsPaymentExpired(ps.orders[req.orderId], now)
    ensures var (ps2, r) := PayStep(ps, req, key, injectFailure, now);
      && r.status == "EXPIRED" && r.reasonCode == Some("PAYMENT_WINDOW_EXPIRED") && r.paymentId == None
      && ps2.orders[req.orderId].status == OrderStatus.EXPIRED
      && ps2.payments == ps.payments
  {
  }

  /** A PAID order inside its window is refused with ALREADY_PAID and nothing is recorded. */
  lemma PayAlreadyPaid(ps: PayState, req: PaymentRequest, key: Option<string>, injectFailure: bool, now: int)
    requires !(key.Some? && key.value in ps.cache) && req.orderId in ps.orders
    requires !IsPaymentExpired(ps.orders[req.orderId], now) && ps.orders[req.orderId].status == OrderStatus.PAID
    ensures var (ps2, r) := PayStep(ps, req, key, injectFailure, now);
      && r == PaymentResponse(None, req.orderId, "FAILED", Some("ALREADY_PAID"))
      && ps2.payments == ps.payments && ps2.orders == ps.orders
  {
  }

  /**
   * Past the checks, the outcome is decided by the failure draw alone: any
   * status other than PAID (ACTIVE, CANCELLED or EXPIRED inside the window)
   * proceeds. A failure files one FAILED payment and leaves the order; a
   * success files one SUCCEEDED payment for the order's total, marks the
   * order PAID and resets the session's verification once.
   */
  lemma PayOutcome(ps: PayState, req: PaymentRequest, key: Option<string>, injectFailure: bool, now: int)
    requires Settled(ps, now)
    requires !(key.Some? && key.value in ps.cache) && req.orderId in ps.orders
    requires !IsPaymentExpired(ps.orders[req.orderId], now) && ps.orders[req.orderId].status != OrderStatus.PAID
    ensures var (ps2, r) := PayStep(ps, req, key, injectFailure, now);
      var order := ps.orders[req.orderId];
      && ps.nextId !in ps.payments
      && ps2.payments.Keys == ps.payments.Keys + {ps.nextId}
      && r.paymentId == Some(ps.nextId)
      && ps2.payments[ps.nextId].amount == order.totalPrice
      && ps2.payments[ps.nextId].orderId == req.orderId
      && (injectFailure ==>
            && ps2.payments[ps.nextId].status == PaymentStatus.FAILED
            && ps2.payments[ps.nextId].reasonCode == Some("PAYMENT_FAILED")
            && r.status == "FAILED" && r.reasonCode == Some("PAYMENT_FAILED")
            && ps2.orders == ps.orders && ps2.resetLog == ps.resetLog)
      && (!injectFailure ==>
            && ps2.payments[ps.nextId].status == PaymentStatus.SUCCEEDED
            && r.status == "SUCCEEDED" && r.reasonCode == None
            && ps2.orders == ps.orders[req.orderId := order.(status := OrderStatus.PAID)]
            && ps2.resetLog == ps.resetLog + [order.sessionId])
  {
  }

  /** A payment call only ever changes an order's status, so the seat service's invariant survives it. */
  lemma {:induction false} StatusChangeKeepsSeats(st: Seats.SeatState, orderId: Id, s: OrderStatus)
    requires Seats.Consistent(st) && orderId in st.orders
    ensures Seats.Consistent(st.(orders := st.orders[orderId := st.orders[orderId].(status := s)]))
  {
    var st2 := st.(orders := st.orders[orderId := st.orders[orderId].(status := s)]);
    assert forall o :: o in st2.orders ==> st2.orders[o].holdId == st.orders[o].holdId;
  }

  /** Every order already present is still present and unchanged; new orders may have been added. */
  predicate OrdersExtend(orders: map<Id, Order>, orders2: map<Id, Order>)
  {
    forall id :: id in orders ==> id in orders2 && orders2[id] == orders[id]
  }

  /** Adding orders that no payment names keeps the payment invariant. */
  lemma SettledExtendOrders(ps: PayState, clock: int, orders2: map<Id, Order>)
    requires Settled(ps, clock) && OrdersExtend(ps.orders, orders2)
    ensures Settled(ps.(orders := orders2), clock)
  {
    var ps2 := ps.(orders := orders2);
    forall id | id in ps2.payments
      ensures ps2.payments[id].orderId in ps2.orders
      ensures ps2.orders[ps2.payments[id].orderId] == ps.orders[ps.payments[id].orderId]
    {
    }
  }

  /** A `holdSeats` call on the shared seat service leaves the orders, and so the payment invariant, as they were. */
  lemma HoldKeepsSettled(st: Seats.SeatState, ps: PayState, clock: int, req: HoldRequest, key: Option<string>, now: int)
    requires ps.orders == st.orders && Settled(ps, clock)
    ensures Settled(ps.(orders := Seats.HoldStep(st, req, key, now).0.orders), clock)
  {
    assert ps.(orders := Seats.HoldStep(st, req, key, now).0.orders) == ps;
  }

  /**
   * A `createOrder` call on the shared seat service adds at most one order,
   * under the counter's fresh id, and changes no existing order; the payment
   * invariant holds over the new orders.
   */
  lemma CreateOrderKeepsSettled(st: Seats.SeatState, ps: PayState, clock: int, holdId: Id, now: int)
    requires Seats.Consistent(st) && ps.orders == st.orders && Settled(ps, clock)
    ensures OrdersExtend(st.orders, Seats.CreateOrderStep(st, holdId, now).0.orders)
    ensures Settled(ps.(orders := Seats.CreateOrderStep(st, holdId, now).0.orders), clock)
  {
    var orders2 := Seats.CreateOrderStep(st, holdId, now).0.orders;
    assert st.nextId !in st.orders by {
      assert Seats.IdsBelowCounter(st);
    }
    assert OrdersExtend(st.orders, orders2);
    SettledExtendOrders(ps, clock, orders2);
  }

  /** A payment call changes the shared orders only by setting one order's status, so the seat invariant survives it. */
  lemma PayStepKeepsSeats(st: Seats.SeatState, ps: PayState, req: PaymentRequest, key: Option<string>, injectFailure: bool, now: int)
    requires Seats.Consistent(st) && ps.orders == st.orders
    ensures Seats.Consistent(st.(orders := PayStep(ps, req, key, injectFailure, now).0.orders))
  {
    var orders2 := PayStep(ps, req, key, injectFailure, now).0.orders;
    if orders2 != st.orders {
      var o := req.orderId;
      if IsPaymentExpired(st.orders[o], now) {
        StatusChangeKeepsSeats(st, o, OrderStatus.EXPIRED);
      } else {
        StatusChangeKeepsSeats(st, o, OrderStatus.PAID);
      }
    }
  }

  /** One call on the shared services: a payment, a seat hold or an order creation. */
  datatype ShopCall =
    | Pay(call: PayCall)
    | HoldSeats(req: HoldRequest, key: Option<string>, at: int)
    | CreateOrder(holdId: Id, at: int)

  function Instant(c: ShopCall): int
  {
    match c
    case Pay(pc) => pc.now
    case HoldSeats(_, _, at) => at
    case CreateOrder(_, at) => at
  }

  /**
   * The seat service and the payment service built on it. The payment side's
   * `orders` is the seat service's map, which both services read and update.
   */
  datatype Shop = Shop(seats: Seats.SeatState, pay: PayState)

  /** The state after one call; whichever service is called, the two still share one map of orders. */
  function ShopStep(s: Shop, c: ShopCall): (r: Shop)
    ensures r.pay.orders == r.seats.orders
  {
    match c
    case Pay(pc) =>
      var ps := PayStep(s.pay.(orders := s.seats.orders), pc.req, pc.key, pc.injectFailure, pc.now).0;
      Shop(s.seats.(orders := ps.orders), ps)
    case HoldSeats(req, key, at) =>
      var st := Seats.HoldStep(s.seats, req, key, at).0;
      Shop(st, s.pay.(orders := st.orders))
    case CreateOrder(holdId, at) =>
      var st := Seats.CreateOrderStep(s.seats, holdId, at).0;
      Shop(st, s.pay.(orders := st.orders))
  }

  function ShopRun(s: Shop, calls: seq<ShopCall>): Shop
    decreases |calls|
  {
    if calls == [] then s else ShopRun(ShopStep(s, calls[0]), calls[1..])
  }

  /** Both services' invariants, over the one map of orders they share. */
  ghost predicate ShopValid(s: Shop, clock: int)
  {
    s.pay.orders == s.seats.orders && Seats.Consistent(s.seats) && Settled(s.pay, clock)
  }

  /** Every call, to either service, made no earlier than the clock keeps both invariants. */
  lemma ShopStepValid(s: Shop, clock: int, c: ShopCall)
    requires ShopValid(s, clock) && clock <= Instant(c)
    ensures ShopValid(ShopStep(s, c), Instant(c))
  {
    match c
    case Pay(pc) =>
      assert s.pay.(orders := s.seats.orders) == s.pay;
      PayStepSettled(s.pay, clock, pc.req, pc.key, pc.injectFailure, pc.now);
      PayStepKeepsSeats(s.seats, s.pay, pc.req, pc.key, pc.injectFailure, pc.now);
    case HoldSeats(req, key, at) =>
      Seats.HoldStepConsistent(s.seats, req, key, at);
      HoldKeepsSettled(s.seats, s.pay, clock, req, key, at);
      SettledLater(ShopStep(s, c).pay, clock, at);
    case CreateOrder(holdId, at) =>
      Seats.CreateOrderStepConsistent(s.seats, holdId, at);
      CreateOrderKeepsSettled(s.seats, s.pay, clock, holdId, at);
      SettledLater(ShopStep(s, c).pay, clock, at);
  }

  /** No call is made before `clock`, and the calls' instants never go back. */
  predicate ShopClockMonotone(calls: seq<ShopCall>, clock: int)
  {
    (|calls| > 0 ==> clock <= Instant(calls[0]))
    && forall k :: 0 < k < |calls| ==> Instant(calls[k - 1]) <= Instant(calls[k])
  }

  function ShopLastClock(clock: int, calls: seq<ShopCall>): int
  {
    if calls == [] then clock else Instant(calls[|calls| - 1])
  }

  /** Both invariants hold after any interleaving of calls whose clock never goes back. */
  lemma {:induction false} ShopRunValid(s: Shop, clock: int, calls: seq<ShopCall>)
    requires ShopValid(s, clock) && ShopClockMonotone(calls, clock)
    ensures ShopValid(ShopRun(s, calls), ShopLastClock(clock, calls))
    decreases |calls|
  {
    if calls != [] {
      ShopStepValid(s, clock, calls[0]);
      assert ShopClockMonotone(calls[1..], Instant(calls[0]));
      ShopRunValid(ShopStep(s, calls[0]), Instant(calls[0]), calls[1..]);
    }
  }

  const EmptyShop := Shop(Seats.EmptySeatState, PayState(map[], map[], map[], 0, []))

  /**
   * Starting from fresh services, across any interleaving of holds, order
   * creations and payments whose clock never goes back, an order has at most
   * one SUCCEEDED payment, and every payment names an order the seat service holds.
   */
  lemma AtMostOneSuccessInterleaved(clock: int, calls: seq<ShopCall>, id1: Id, id2: Id)
    requires ShopClockMonotone(calls, clock)
    ensures var s := ShopRun(EmptyShop, calls);
            id1 in s.pay.payments ==> s.pay.payments[id1].orderId in s.seats.orders
    ensures var s := ShopRun(EmptyShop, calls);
            id1 in s.pay.payments && id2 in s.pay.payments
            && Succeeded(s.pay.payments[id1]) && Succeeded(s.pay.payments[id2])
            && s.pay.payments[id1].orderId == s.pay.payments[id2].orderId
            ==> id1 == id2
  {
    Seats.EmptyConsistent();
    ShopRunValid(EmptyShop, clock, calls);
  }

  class PaymentService {
    const seats: Seats.SeatService
    var payments: map<Id, Payment>
    var paymentCache: map<string, PaymentResponse>
    var nextId: nat
    /** Sessions whose verification was reset, in call order. */
    ghost var resetLog: seq<string>
    /** The latest instant the service has seen. */
    ghost var clock: int

    ghost function State(): PayState
      reads this, seats
    {
      PayState(seats.orders, payments, paymentCache, nextId, resetLog)
    }

    ghost predicate Valid()
      reads this, seats
    {
      seats.Valid() && Settled(State(), clock)
    }

    constructor (seatService: Seats.SeatService)
      requires seatService.Valid()
      ensures Valid() && seats == seatService
      ensures payments == map[] && paymentCache == map[] && resetLog == [] && clock == 0
    {
      seats := seatService;
      payments, paymentCache, nextId := map[], map[], 0;
      resetLog, clock := [], 0;
    }

    method BuildAndCache(key: Option<string>, paymentId: Option<Id>, orderId: Id, status: string, reasonCode: Option<string>)
      returns (r: PaymentResponse)
      modifies this`paymentCache
      ensures r == PaymentResponse(paymentId, orderId, status, reasonCode)
      ensures paymentCache == if key.Some? then old(paymentCache)[key.value := r] else old(paymentCache)
    {
      r := PaymentResponse(paymentId, orderId, status, reasonCode);
      if key.Some? {
        paymentCache := paymentCache[key.value := r];
      }
    }

    method ProcessPayment(req: PaymentRequest, key: Option<string>, injectFailure: bool, now: int)
      returns (r: PaymentResponse)
      requires Valid() && clock <= now
      modifies this, seats`orders
      ensures Valid() && clock == now
      ensures (State(), r) == PayStep(old(State()), req, key, injectFailure, now)
    {
      ghost var ps0 := State();
      PayStepSettled(ps0, clock, req, key, injectFailure, now);
      clock := now;
      if key.Some? && key.value in paymentCache {
        return paymentCache[key.value];
      }
      var found := seats.GetOrder(req.orderId);
      if found.None? {
        r := BuildAndCache(key, None, req.orderId, "FAILED", Some("ORDER_NOT_FOUND"));
        return;
      }
      var order := found.value;
      var sessionId := order.sessionId;
      if IsPaymentExpired(order, now) {
        StatusChangeKeepsSeats(seats.State(), req.orderId, OrderStatus.EXPIRED);
        seats.orders := seats.orders[req.orderId := order.(status := OrderStatus.EXPIRED)];
        r := BuildAndCache(key, None, req.orderId, "EXPIRED", Some("PAYMENT_WINDOW_EXPIRED"));
        return;
      }
      if order.status == OrderStatus.PAID {
        r := BuildAndCache(key, None, req.orderId, "FAILED", Some("ALREADY_PAID"));
        return;
      }
      r := Charge(req, order, key, injectFailure, now);
    }

    /** Files the payment decided by the failure draw; a success also marks the order PAID. */
    method Charge(req: PaymentRequest, order: Order, key: Option<string>, injectFailure: bool, now: int)
      returns (r: PaymentResponse)
      requires seats.Valid() && req.orderId in seats.orders && order == seats.orders[req.orderId]
      modifies this, seats`orders
      ensures seats.Valid() && clock == old(clock)
      ensures (State(), r) == ChargeStep(old(State()), req, order, key, injectFailure, now)
    {
      var paymentId := nextId;
      nextId := nextId + 1;
      if injectFailure {
        payments := payments[paymentId := Payment(paymentId, req.orderId, order.sessionId, order.totalPrice, req.payMethod,
                                                  PaymentStatus.FAILED, Some("PAYMENT_FAILED"), now)];
        r := BuildAndCache(key, Some(paymentId), req.orderId, "FAILED", Some("PAYMENT_FAILED"));
        return;
      }
      payments := payments[paymentId := Payment(paymentId, req.orderId, order.sessionId, order.totalPrice, req.payMethod,
                                                PaymentStatus.SUCCEEDED, None, now)];
      StatusChangeKeepsSeats(seats.State(), req.orderId, OrderStatus.PAID);
      seats.orders := seats.orders[req.orderId := order.(status := OrderStatus.PAID)];
      resetLog := resetLog + [order.sessionId];
      r := BuildAndCache(key, Some(paymentId), req.orderId, "SUCCEEDED", None);
    }
  }
}

=== FILE: py_values.dfy ===
/**
 * The dynamically typed values the Python flow engine keeps in dictionaries:
 * event payloads, policy rules, assertion arguments and profile documents.
 * Floating-point numbers are not represented.
 */
module PyValues {
  import opened Wrappers

  datatype Value =
    | PyNone
    | PyBool(b: bool)
    | PyInt(i: int)
    | PyStr(s: string)
    | PyList(items: seq<Value>)
    | PyDict(entries: map<string, Value>)

  /** `d.get(key, default)`. */
  function Get<V>(d: map<string, V>, key: string, default: V): (r: V)
    ensures key in d ==> r == d[key]
    ensures key !in d ==> r == default
  {
    if key in d then d[key] else default
  }

  /** `isinstance(v, int)`, which is also true of a `bool`. */
  predicate IsPyInt(v: Value)
  {
    v.PyInt? || v.PyBool?
  }

  /** The integer a Python `int` or `bool` stands for. */
  function AsInt(v: Value): int
    requires IsPyInt(v)
  {
    match v
    case PyInt(i) => i
    case PyBool(b) => if b then 1 else 0
  }

  /** The text `str(v)` gives for a scalar; containers are rendered as an empty text. */
  function Str(v: Value): string
  {
    match v
    case PyNone => "None"
    case PyBool(b) => if b then "True" else "False"
    case PyInt(i) => IntToString(i)
    case PyStr(s) => s
    case PyList(_) => ""
    case PyDict(_) => ""
  }

  function DigitsOf(n: nat): (s: string)
    ensures |s| >= 1
    ensures forall k :: 0 <= k < |s| ==> '0' <= s[k] <= '9'
  {
    var d := ['0' + (n % 10) as char];
    if n < 10 then d else DigitsOf(n / 10) + d
  }

  function IntToString(i: int): string
  {
    if i < 0 then "-" + DigitsOf(-i) else DigitsOf(i)
  }

  /** The value of a decimal digit string, most significant digit first. */
  function DigitValue(s: string): nat
    requires forall k :: 0 <= k < |s| ==> '0' <= s[k] <= '9'
  {
    if s == [] then 0 else DigitValue(s[..|s| - 1]) * 10 + (s[|s| - 1] - '0') as nat
  }

  /** Printing a natural number in decimal loses nothing. */
  lemma {:induction false} DigitsRoundTrip(n: nat)
    ensures DigitValue(DigitsOf(n)) == n
  {
    var d := ['0' + (n % 10) as char];
    if n >= 10 {
      DigitsRoundTrip(n / 10);
      var s := DigitsOf(n / 10) + d;
      assert s[..|s| - 1] == DigitsOf(n / 10);
    }
  }

  /** The ASCII characters `int()` treats as whitespace: tab to carriage return, the separators 0x1C-0x1F, and space. */
  predicate IsIntSpace(c: char)
  {
    9 <= c as int <= 13 || 28 <= c as int <= 32
  }

  predicate IsDigit(c: char)
  {
    '0' <= c <= '9'
  }

  /** `s` without its leading whitespace. */
  function StripFront(s: string): (r: string)
    ensures r == [] || !IsIntSpace(r[0])
  {
    if s != [] && IsIntSpace(s[0]) then StripFront(s[1..]) else s
  }

  /** `s` without its trailing whitespace. */
  function StripBack(s: string): (r: string)
    ensures r == [] || !IsIntSpace(r[|r| - 1])
  {
    if s != [] && IsIntSpace(s[|s| - 1]) then StripBack(s[..|s| - 1]) else s
  }

  /** `s.strip()` as `int()` applies it. */
  function StripSpace(s: string): string
  {
    StripBack(StripFront(s))
  }

  predicate AllSpace(s: string)
  {
    forall k :: 0 <= k < |s| ==> IsIntSpace(s[k])
  }

  /** Leading whitespace is dropped whole; a text that does not start blank is kept, whatever follows it. */
  lemma {:induction false} StripFrontAppend(pre: string, s: string, post: string)
    requires AllSpace(pre)
    ensures StripFront(pre + s + post) == if StripFront(s) == [] then StripFront(post) else StripFront(s) + post
    decreases |pre| + |s|
  {
    if pre != [] {
      assert (pre + s + post)[1..] == pre[1..] + s + post;
      StripFrontAppend(pre[1..], s, post);
    } else if s != [] && IsIntSpace(s[0]) {
      assert pre + s + post == s + post && (s + post)[0] == s[0];
      assert (s + post)[1..] == [] + s[1..] + post;
      StripFrontAppend([], s[1..], post);
    } else if s == [] {
      assert pre + s + post == post;
    } else {
      assert pre + s + post == s + post;
    }
  }

  /** Trailing whitespace is dropped whole. */
  lemma {:induction false} StripBackAppend(s: string, post: string)
    requires AllSpace(post)
    ensures StripBack(s + post) == StripBack(s)
    decreases |post|
  {
    if post != [] {
      assert (s + post)[..|s + post| - 1] == s + post[..|post| - 1];
      StripBackAppend(s, post[..|post| - 1]);
    } else {
      assert s + post == s;
    }
  }

  /** Whitespace around a text does not change what `strip` leaves of it. */
  lemma StripPadding(pre: string, s: string, post: string)
    requires AllSpace(pre) && AllSpace(post)
    ensures StripSpace(pre + s + post) == StripSpace(s)
  {
    StripFrontAppend(pre, s, post);
    if StripFront(s) == [] {
      StripFrontAppend(post, [], []);
      assert post + [] + [] == post;
    } else {
      StripBackAppend(StripFront(s), post);
    }
  }

  /** Decimal digits, with single underscores allowed between two digits. */
  predicate DigitGroups(s: string)
  {
    |s| > 0 && IsDigit(s[0]) && IsDigit(s[|s| - 1])
    && (forall k :: 0 <= k < |s| ==> IsDigit(s[k]) || s[k] == '_')
    && (forall j, k :: 0 <= j < |s| && 0 <= k < |s| && k == j + 1 && s[j] == '_' ==> IsDigit(s[k]))
  }

  /** `s` with its underscores removed. */
  function DropUnderscores(s: string): (r: string)
    ensures (forall k :: 0 <= k < |s| ==> IsDigit(s[k]) || s[k] == '_') ==> forall k :: 0 <= k < |r| ==> IsDigit(r[k])
    ensures (forall k :: 0 <= k < |s| ==> s[k] != '_') ==> r == s
  {
    if s == [] then []
    else if s[|s| - 1] == '_' then DropUnderscores(s[..|s| - 1])
    else DropUnderscores(s[..|s| - 1]) + [s[|s| - 1]]
  }

  /** The number digit groups spell. */
  function GroupsValue(body: string): nat
    requires DigitGroups(body)
  {
    DigitValue(DropUnderscores(body))
  }

  /** A stripped text as `int()` reads it: one optional sign, then digit groups. */
  function ParseSigned(t: string): Option<int>
  {
    var signed := |t| > 0 && (t[0] == '+' || t[0] == '-');
    var body := if signed then t[1..] else t;
    if DigitGroups(body) then
      var n: int := GroupsValue(body);
      Some(if signed && t[0] == '-' then -n else n)
    else None
  }

  /**
   * `int(s)` on a string, in base 10: surrounding whitespace is stripped,
   * one `+` or `-` may lead, and the digits may be grouped by single
   * underscores; anything else is refused.
   */
  function ParseInt(s: string): Option<int>
  {
    ParseSigned(StripSpace(s))
  }

  /** Digit groups without a sign read as their value. */
  lemma ParseUnsigned(body: string)
    requires DigitGroups(body)
    ensures ParseSigned(body) == Some(GroupsValue(body) as int)
  {
    assert IsDigit(body[0]);
  }

  /** A sign followed by digit groups reads as the groups' value with that sign. */
  lemma ParseWithSign(c: char, body: string)
    requires c == '+' || c == '-'
    requires DigitGroups(body)
    ensures ParseSigned([c] + body) == Some(if c == '-' then -(GroupsValue(body) as int) else GroupsValue(body) as int)
  {
    var t := [c] + body;
    assert t[0] == c && t[1..] == body;
  }

  /** A printed natural number is one digit group, worth that number. */
  lemma PrintedDigits(n: nat)
    ensures DigitGroups(DigitsOf(n)) && GroupsValue(DigitsOf(n)) == n
  {
    var d := DigitsOf(n);
    assert DigitGroups(d);
    assert DropUnderscores(d) == d;
    DigitsRoundTrip(n);
  }

  /** A printed integer, sign included, reads back as itself once stripped. */
  lemma ParseSignedOfPrinted(i: int)
    ensures ParseSigned(IntToString(i)) == Some(i)
  {
    var n: nat := if i < 0 then -i else i;
    var d := DigitsOf(n);
    PrintedDigits(n);
    if i < 0 {
      ParseWithSign('-', d);
      assert IntToString(i) == ['-'] + d;
    } else {
      ParseUnsigned(d);
    }
  }

  /** `int(str(i))` gives back `i`, and so does any whitespace around the text. */
  lemma ParseIntOfPrinted(i: int, pre: string, post: string)
    requires AllSpace(pre) && AllSpace(post)
    ensures ParseInt(pre + IntToString(i) + post) == Some(i)
  {
    var p := IntToString(i);
    StripPadding(pre, p, post);
    assert StripFront(p) == p;
    assert StripBack(p) == p;
    ParseSignedOfPrinted(i);
  }

  /** An explicit `+` sign is accepted, with whitespace around it all. */
  lemma ParseIntPlus(n: nat, pre: string, post: string)
    requires AllSpace(pre) && AllSpace(post)
    ensures ParseInt(pre + "+" + DigitsOf(n) + post) == Some(n)
  {
    var d := DigitsOf(n);
    var p := ['+'] + d;
    assert pre + "+" + d + post == pre + p + post;
    StripPadding(pre, p, post);
    assert StripFront(p) == p;
    assert StripBack(p) == p;
    PrintedDigits(n);
    ParseWithSign('+', d);
  }

  /** A blank text, the empty one included, is refused. */
  lemma ParseIntBlank(s: string)
    requires AllSpace(s)
    ensures ParseInt(s) == None
  {
    StripFrontAppend(s, [], []);
    assert s + [] + [] == s;
  }

  /** Removing underscores distributes over concatenation. */
  lemma {:induction false} DropUnderscoresAppend(x: string, y: string)
    ensures DropUnderscores(x + y) == DropUnderscores(x) + DropUnderscores(y)
    decreases |y|
  {
    if y == [] {
      assert x + y == x;
    } else {
      var y' := y[..|y| - 1];
      assert (x + y)[..|x + y| - 1] == x + y' && (x + y)[|x + y| - 1] == y[|y| - 1];
      DropUnderscoresAppend(x, y');
    }
  }

  /** Two digit groups joined by one underscore read as the same number as the two joined directly. */
  lemma ParseIntGroups(a: string, b: string)
    requires DigitGroups(a) && DigitGroups(b)
    ensures ParseInt(a + "_" + b).Some?
    ensures ParseInt(a + "_" + b) == ParseInt(a + b)
  {
    var s := a + "_" + b;
    var c := a + b;
    assert forall k | 0 <= k < |s| :: s[k] == (if k < |a| then a[k] else if k == |a| then '_' else b[k - |a| - 1]);
    assert forall k | 0 <= k < |c| :: c[k] == (if k < |a| then a[k] else b[k - |a|]);
    assert DigitGroups(s);
    assert DigitGroups(c);
    assert StripFront(s) == s && StripBack(s) == s;
    assert StripFront(c) == c && StripBack(c) == c;
    DropUnderscoresAppend(a + "_", b);
    DropUnderscoresAppend(a, "_");
    DropUnderscoresAppend(a, b);
    assert DropUnderscores("_") == [];
    ParseUnsigned(s);
    ParseUnsigned(c);
  }

  /** `sub` appears in `s` starting at index `i`. */
  predicate OccursAt(s: string, sub: string, i: int)
  {
    0 <= i && i + |sub| <= |s| && s[i..i + |sub|] == sub
  }

  /** Python's `sub in s` on strings. */
  predicate Contains(s: string, sub: string)
  {
    exists i | 0 <= i <= |s| - |sub| :: OccursAt(s, sub, i)
  }

  /** A text never contains a longer one, and contains one of its own length only when equal to it. */
  lemma ContainsBySize(s: string, sub: string)
    ensures |sub| > |s| ==> !Contains(s, sub)
    ensures |sub| == |s| ==> (Contains(s, sub) <==> s == sub)
  {
    if |sub| == |s| && s == sub {
      assert s[0..|s|] == s;
      assert OccursAt(s, sub, 0);
    }
  }

  /** `str.lower()` restricted to the ASCII letters. */
  function LowerAscii(s: string): (r: string)
    ensures |r| == |s|
    ensures forall k :: 0 <= k < |s| ==> r[k] == (if 'A' <= s[k] <= 'Z' then s[k] - 'A' + 'a' else s[k])
  {
    if s == [] then []
    else [if 'A' <= s[0] <= 'Z' then s[0] - 'A' + 'a' else s[0]] + LowerAscii(s[1..])
  }

  /** `str.upper()` restricted to the ASCII letters. */
  function UpperAscii(s: string): (r: string)
    ensures |r| == |s|
    ensures forall k :: 0 <= k < |s| ==> r[k] == (if 'a' <= s[k] <= 'z' then s[k] - 'a' + 'A' else s[k])
  {
    if s == [] then []
    else [if 'a' <= s[0] <= 'z' then s[0] - 'a' + 'A' else s[0]] + UpperAscii(s[1..])
  }

  /** `s.startswith(prefix)`. */
  predicate StartsWith(s: string, prefix: string)
  {
    |prefix| <= |s| && s[..|prefix|] == prefix
  }
}

=== FILE: queue.dfy ===
/**
 * The stage-two virtual queue: a ticket enters at a random position, every poll
 * moves it forward by a random step, and it is granted once the position
 * reaches zero or the estimated wait has elapsed. The random start position and
 * step are parameters, constrained to the ranges the service draws them from.
 */
module Queue {
  import opened Wrappers

  type Id = nat

  const MIN_START_POSITION: int := 1000
  const MAX_START_POSITION: int := 20000
  const MIN_STEP: int := 100
  const MAX_STEP: int := 500
  const ESTIMATED_WAIT_MS: int := 5000

  datatype Mode = RECOMMEND | MAP
  datatype TicketStatus = WAITING | GRANTED | BLOCKED

  datatype QueueTicket = QueueTicket(
    queueTicketId: Id,
    sessionId: string,
    gameId: string,
    mode: Mode,
    position: int,
    initialPosition: int,
    status: TicketStatus,
    estimatedWaitMs: int,
    createdAt: Option<int>)

  /** The Lombok builder with only the identifying fields set. */
  function DefaultTicket(queueTicketId: Id, sessionId: string, gameId: string): (t: QueueTicket)
    ensures t.mode == RECOMMEND && t.status == WAITING && t.estimatedWaitMs == 5000
    ensures t.position == 0 && t.createdAt == None
  {
    QueueTicket(queueTicketId, sessionId, gameId, RECOMMEND, 0, 0, WAITING, ESTIMATED_WAIT_MS, None)
  }

  /** The wait is over once `estimatedWaitMs` has elapsed, boundary included; never without a creation time. */
  predicate IsTimeExpired(t: QueueTicket, now: int)
  {
    t.createdAt.Some? && now - t.createdAt.value >= t.estimatedWaitMs
  }

  lemma TimeExpiryBoundary(t: QueueTicket, now: int)
    ensures t.createdAt == None ==> !IsTimeExpired(t, now)
    ensures t.createdAt.Some? ==>
              IsTimeExpired(t, t.createdAt.value + t.estimatedWaitMs) &&
              !IsTimeExpired(t, t.createdAt.value + t.estimatedWaitMs - 1)
  {
  }

  /** `getProgress` in exact arithmetic: the share of the initial position already covered, clamped to [0, 1]. */
  function Progress(t: QueueTicket): (p: real)
    ensures 0.0 <= p <= 1.0
    ensures t.initialPosition > 0 && t.position <= 0 ==> p == 1.0
    ensures t.initialPosition > 0 && t.position == t.initialPosition ==> p == 0.0
  {
    if t.initialPosition <= 0 then 1.0
    else
      var covered := 1.0 - (if t.position > 0 then t.position as real else 0.0) / t.initialPosition as real;
      if covered < 0.0 then 0.0 else if covered > 1.0 then 1.0 else covered
  }

  function AsciiUpper(c: char): (u: char)
    ensures 'a' <= c <= 'z' ==> u as int == c as int - 32
    ensures !('a' <= c <= 'z') ==> u == c
  {
    if 'a' <= c <= 'z' then (c as int - 32) as char else c
  }

  function ToUpper(s: string): (u: string)
    ensures |u| == |s|
    ensures forall i :: 0 <= i < |s| ==> u[i] == AsciiUpper(s[i])
  {
    seq(|s|, i requires 0 <= i < |s| => AsciiUpper(s[i]))
  }

  /** `Mode.valueOf(mode.toUpperCase())`, with RECOMMEND for a missing or unknown name. */
  function ParseMode(mode: Option<string>): (m: Mode)
    ensures m == MAP <==> mode.Some? && |mode.value| == 3 && AsciiUpper(mode.value[0]) == 'M'
                          && AsciiUpper(mode.value[1]) == 'A' && AsciiUpper(mode.value[2]) == 'P'
  {
    if mode.Some? && ToUpper(mode.value) == "MAP" then MAP else RECOMMEND
  }

  function ModeName(m: Mode): (name: string)
    ensures name == "MAP" <==> m == MAP
  {
    match m
    case RECOMMEND => "RECOMMEND"
    case MAP => "MAP"
  }

  lemma ParseModeCases()
    ensures ParseMode(Some("map")) == MAP && ParseMode(Some("Map")) == MAP && ParseMode(Some("MAP")) == MAP
    ensures ParseMode(Some("recommend")) == RECOMMEND && ParseMode(Some("RECOMMEND")) == RECOMMEND
    ensures ParseMode(None) == RECOMMEND && ParseMode(Some("")) == RECOMMEND && ParseMode(Some("grid")) == RECOMMEND
  {
    assert ToUpper("map") == "MAP";
    assert ToUpper("Map") == "MAP";
    assert ToUpper("MAP") == "MAP";
  }

  /** Parsing a mode's own name gives the mode back, so the name a granted ticket reports round-trips. */
  lemma ParseModeName(m: Mode)
    ensures ParseMode(Some(ModeName(m))) == m
  {
    if m == MAP {
      assert ToUpper("MAP") == "MAP";
    } else {
      assert ToUpper("RECOMMEND")[0] == 'R';
    }
  }

  /** Case does not matter: a name and its upper-case form parse to the same mode. */
  lemma ParseModeIgnoresCase(s: string)
    ensures ParseMode(Some(ToUpper(s))) == ParseMode(Some(s))
  {
    assert ToUpper(ToUpper(s)) == ToUpper(s);
  }

  datatype EnterRequest = EnterRequest(sessionId: string, gameId: string, mode: Option<string>)

  /** status is "WAITING", "GRANTED" or "NOT_FOUND"; absent fields keep their Java defaults. */
  datatype TicketResponse = TicketResponse(
    queueTicketId: Id,
    position: int,
    estimatedWaitMs: int,
    status: string,
    progress: real,
    nextUrl: Option<string>)

  function GrantedResponse(t: QueueTicket): (r: TicketResponse)
    ensures r.status == "GRANTED" && r.position == 0 && r.progress == 1.0
    ensures r.nextUrl == Some("/seats?mode=" + ModeName(t.mode))
  {
    TicketResponse(t.queueTicketId, 0, t.estimatedWaitMs, "GRANTED", 1.0, Some("/seats?mode=" + ModeName(t.mode)))
  }

  function NotFound(queueTicketId: Id): TicketResponse
  {
    TicketResponse(queueTicketId, 0, 0, "NOT_FOUND", 0.0, None)
  }

  /** What one poll does to a WAITING ticket once the step `decrease` is drawn. */
  function Advance(t: QueueTicket, decrease: int, now: int): (t': QueueTicket)
  {
    var pos := if t.position - decrease > 0 then t.position - decrease else 0;
    var moved := t.(position := pos);
    if pos <= 0 || IsTimeExpired(moved, now) then moved.(status := GRANTED, position := 0) else moved
  }

  datatype QueueState = QueueState(tickets: map<Id, QueueTicket>, nextId: nat)

  /** A waiting ticket is somewhere in the line, a granted one at its head, and none is ever blocked. */
  predicate WellPlaced(t: QueueTicket)
  {
    && (t.status == WAITING ==> 0 < t.position <= t.initialPosition)
    && (t.status == GRANTED ==> t.position == 0)
    && t.status != BLOCKED
    && MIN_START_POSITION <= t.initialPosition <= MAX_START_POSITION
  }

  ghost predicate Consistent(st: QueueState)
  {
    forall id :: id in st.tickets ==> WellPlaced(st.tickets[id]) && st.tickets[id].queueTicketId == id && id < st.nextId
  }

  function EnterStep(st: QueueState, req: EnterRequest, initialPosition: int, now: int): (r: (QueueState, TicketResponse))
    ensures r.0.tickets.Keys == st.tickets.Keys + {r.1.queueTicketId}
    ensures forall id :: id in st.tickets && id != r.1.queueTicketId ==> r.0.tickets[id] == st.tickets[id]
  {
    var id := st.nextId;
    var t := QueueTicket(id, req.sessionId, req.gameId, ParseMode(req.mode), initialPosition, initialPosition,
                         WAITING, ESTIMATED_WAIT_MS, Some(now));
    (QueueState(st.tickets[id := t], id + 1), TicketResponse(id, initialPosition, ESTIMATED_WAIT_MS, "WAITING", 0.0, None))
  }

  function PollStep(st: QueueState, queueTicketId: Id, decrease: int, now: int): (r: (QueueState, TicketResponse))
    ensures r.0.nextId == st.nextId && r.0.tickets.Keys == st.tickets.Keys
    ensures forall id :: id in st.tickets && id != queueTicketId ==> r.0.tickets[id] == st.tickets[id]
  {
    if queueTicketId !in st.tickets then (st, NotFound(queueTicketId))
    else
      var t := st.tickets[queueTicketId];
      if t.status == GRANTED then (st, GrantedResponse(t))
      else
        var t' := Advance(t, decrease, now);
        var st' := st.(tickets := st.tickets[queueTicketId := t']);
        if t'.status == GRANTED then (st', GrantedResponse(t'))
        else (st', TicketResponse(queueTicketId, t'.position, t'.estimatedWaitMs, "WAITING", Progress(t'), None))
  }

  lemma EnterStepConsistent(st: QueueState, req: EnterRequest, initialPosition: int, now: int)
    requires Consistent(st)
    requires MIN_START_POSITION <= initialPosition <= MAX_START_POSITION
    ensures Consistent(EnterStep(st, req, initialPosition, now).0)
  {
  }

  /** A new ticket waits at its drawn position with nothing covered yet. */
  lemma EnterWaits(st: QueueState, req: EnterRequest, initialPosition: int, now: int)
    requires Consistent(st)
    requires MIN_START_POSITION <= initialPosition <= MAX_START_POSITION
    ensures var (st', r) := EnterStep(st, req, initialPosition, now);
            && r.status == "WAITING" && r.position == initialPosition && r.estimatedWaitMs == 5000 && r.progress == 0.0
            && r.queueTicketId !in st.tickets && r.queueTicketId in st'.tickets
            && st'.tickets[r.queueTicketId].status == WAITING
            && Progress(st'.tickets[r.queueTicketId]) == 0.0
            && st'.tickets[r.queueTicketId].mode == ParseMode(req.mode)
            && (forall id :: id in st.tickets ==> id in st'.tickets && st'.tickets[id] == st.tickets[id])
  {
  }

  lemma PollStepConsistent(st: QueueState, queueTicketId: Id, decrease: int, now: int)
    requires Consistent(st)
    requires MIN_STEP <= decrease <= MAX_STEP
    ensures Consistent(PollStep(st, queueTicketId, decrease, now).0)
  {
  }

  lemma PollNotFound(st: QueueState, queueTicketId: Id, decrease: int, now: int)
    requires queueTicketId !in st.tickets
    ensures PollStep(st, queueTicketId, decrease, now) == (st, NotFound(queueTicketId))
    ensures PollStep(st, queueTicketId, decrease, now).1.status == "NOT_FOUND"
  {
  }

  /** GRANTED is absorbing: polling a granted ticket changes nothing and repeats the granted answer. */
  lemma PollGrantedAbsorbing(st: QueueState, queueTicketId: Id, decrease: int, now: int)
    requires queueTicketId in st.tickets && st.tickets[queueTicketId].status == GRANTED
    ensures PollStep(st, queueTicketId, decrease, now).0 == st
    ensures PollStep(st, queueTicketId, decrease, now).1 == GrantedResponse(st.tickets[queueTicketId])
  {
  }

  /** On a waiting ticket the position never grows and never drops below zero, and grant happens exactly on the two conditions. */
  lemma PollAdvances(t: QueueTicket, decrease: int, now: int)
    requires t.status == WAITING && MIN_STEP <= decrease <= MAX_STEP
    ensures 0 <= Advance(t, decrease, now).position <= t.position || t.position < 0
    ensures var pos := if t.position - decrease > 0 then t.position - decrease else 0;
            (Advance(t, decrease, now).status == GRANTED <==> pos <= 0 || IsTimeExpired(t, now))
    ensures Advance(t, decrease, now).status == GRANTED ==> Advance(t, decrease, now).position == 0
    ensures Advance(t, decrease, now).status == WAITING ==> Advance(t, decrease, now).position == t.position - decrease
    ensures Advance(t, decrease, now).status != BLOCKED
  {
  }

  /** Polls applied one after another, each with its own drawn step and clock reading. */
  function PollRun(t: QueueTicket, steps: seq<int>, nows: seq<int>): QueueTicket
    requires |steps| == |nows|
    decreases |steps|
  {
    if steps == [] then t
    else
      var t' := if t.status == GRANTED then t else Advance(t, steps[0], nows[0]);
      PollRun(t', steps[1..], nows[1..])
  }

  /** A waiting ticket at position p is granted after at most ceil(p / 100) polls, whatever the clock says. */
  lemma {:induction false} GrantedWithin(t: QueueTicket, steps: seq<int>, nows: seq<int>)
    requires |steps| == |nows|
    requires WellPlaced(t)
    requires forall i :: 0 <= i < |steps| ==> MIN_STEP <= steps[i] <= MAX_STEP
    requires t.status == WAITING ==> t.position <= MIN_STEP * |steps|
    ensures PollRun(t, steps, nows).status == GRANTED
    ensures PollRun(t, steps, nows).position == 0
    decreases |steps|
  {
    if steps != [] {
      var t' := if t.status == GRANTED then t else Advance(t, steps[0], nows[0]);
      if t.status == WAITING {
        PollAdvances(t, steps[0], nows[0]);
      }
      GrantedWithin(t', steps[1..], nows[1..]);
    }
  }

  lemma {:induction false} PollRunKeepsGranted(t: QueueTicket, steps: seq<int>, nows: seq<int>)
    requires |steps| == |nows|
    requires t.status == GRANTED && t.position == 0
    ensures PollRun(t, steps, nows) == t
    decreases |steps|
  {
    if steps != [] {
      PollRunKeepsGranted(t, steps[1..], nows[1..]);
    }
  }

  class QueueService {
    var tickets: map<Id, QueueTicket>
    var nextId: nat

    function State(): QueueState
      reads this
    {
      QueueState(tickets, nextId)
    }

    ghost predicate Valid()
      reads this
    {
      Consistent(State())
    }

    constructor()
      ensures Valid() && tickets == map[] && nextId == 0
    {
      tickets := map[];
      nextId := 0;
    }

    method Enter(req: EnterRequest, initialPosition: int, now: int) returns (r: TicketResponse)
      requires Valid()
      requires MIN_START_POSITION <= initialPosition <= MAX_START_POSITION
      modifies this
      ensures Valid()
      ensures (State(), r) == EnterStep(old(State()), req, initialPosition, now)
    {
      EnterStepConsistent(State(), req, initialPosition, now);
      var id := nextId;
      nextId := nextId + 1;
      var t := QueueTicket(id, req.sessionId, req.gameId, ParseMode(req.mode), initialPosition, initialPosition,
                           WAITING, ESTIMATED_WAIT_MS, Some(now));
      tickets := tickets[id := t];
      r := TicketResponse(id, initialPosition, ESTIMATED_WAIT_MS, "WAITING", 0.0, None);
    }

    method Poll(queueTicketId: Id, decrease: int, now: int) returns (r: TicketResponse)
      requires Valid()
      requires MIN_STEP <= decrease <= MAX_STEP
      modifies this
      ensures Valid()
      ensures (State(), r) == PollStep(old(State()), queueTicketId, decrease, now)
    {
      PollStepConsistent(State(), queueTicketId, decrease, now);
      if queueTicketId !in tickets {
        return NotFound(queueTicketId);
      }
      var t := tickets[queueTicketId];
      if t.status == GRANTED {
        return GrantedResponse(t);
      }
      var newPosition := if t.position - decrease > 0 then t.position - decrease else 0;
      t := t.(position := newPosition);
      var shouldGrant := newPosition <= 0 || IsTimeExpired(t, now);
      if shouldGrant {
        t := t.(status := GRANTED, position := 0);
        tickets := tickets[queueTicketId := t];
        return GrantedResponse(t);
      }
      tickets := tickets[queueTicketId := t];
      r := TicketResponse(queueTicketId, newPosition, t.estimatedWaitMs, "WAITING", Progress(t), None);
    }
  }
}

=== FILE: seat_entities.dfy ===
/**
 * Records of the seat pipeline: holds, orders, payments and the responses the
 * services return. Instants are milliseconds since the epoch (`int`); ids that
 * the Java code draws from `UUID.randomUUID()` are natural numbers handed out
 * by a counter in the owning service.
 */
module SeatEntities {
  import opened Wrappers

  type Id = nat

  /** A hold lasts five minutes. */
  const HOLD_DURATION_MS: int := 5 * 60 * 1000
  /** An order may be paid during 300 seconds. */
  const PAYMENT_WINDOW_MS: int := 300 * 1000
  /** Mock price of one seat, in won. */
  const PRICE_PER_SEAT: int := 25000

  const INT32_MODULUS: int := 0x1_0000_0000
  const INT32_MAX: int := 0x7FFF_FFFF

  /** Java `int` arithmetic: the mathematical value wrapped into 32 bits. */
  function Int32(x: int): (r: int)
    ensures -INT32_MAX - 1 <= r <= INT32_MAX
    ensures (x - r) % INT32_MODULUS == 0
    ensures -INT32_MAX - 1 <= x <= INT32_MAX ==> r == x
  {
    var m := x % INT32_MODULUS;
    if m > INT32_MAX then m - INT32_MODULUS else m
  }

  /** The Java total `pricePerSeat * seatCount`, evaluated in `int`. */
  function TotalPrice(seatCount: nat): (total: int)
    ensures seatCount <= 85899 ==> total == PRICE_PER_SEAT * seatCount
    ensures seatCount == 85900 ==> total < 0
  {
    Int32(PRICE_PER_SEAT * seatCount)
  }

  datatype HoldStatus = ACTIVE | EXPIRED | FAILED

  datatype Hold = Hold(
    holdId: Id,
    sessionId: string,
    gameId: string,
    seatIds: seq<string>,
    status: HoldStatus,
    expiresAt: Option<int>,
    createdAt: Option<int>)

  /** A hold is expired strictly after its deadline; one without a deadline never is. */
  predicate IsExpired(h: Hold, now: int)
  {
    h.expiresAt.Some? && now > h.expiresAt.value
  }

  /** The Lombok builder with only the identifying fields set: status takes its default. */
  function DefaultHold(holdId: Id, sessionId: string, gameId: string, seatIds: seq<string>): (h: Hold)
    ensures h.status == HoldStatus.ACTIVE && h.expiresAt == None && h.createdAt == None
    ensures h.holdId == holdId && h.sessionId == sessionId && h.seatIds == seatIds
  {
    Hold(holdId, sessionId, gameId, seatIds, HoldStatus.ACTIVE, None, None)
  }

  lemma HoldExpiryBoundary(h: Hold, now: int)
    ensures h.expiresAt == None ==> !IsExpired(h, now)
    ensures h.expiresAt.Some? ==> (IsExpired(h, now) <==> now > h.expiresAt.value)
    ensures h.expiresAt.Some? ==> !IsExpired(h, h.expiresAt.value) && IsExpired(h, h.expiresAt.value + 1)
  {
  }

  /** Once expired, a hold stays expired at every later instant. */
  lemma HoldExpiryMonotone(h: Hold, now: int, later: int)
    requires IsExpired(h, now) && now <= later
    ensures IsExpired(h, later)
  {
  }

  datatype OrderStatus = ACTIVE | PAID | CANCELLED | EXPIRED

  datatype Order = Order(
    orderId: Id,
    holdId: Id,
    sessionId: string,
    gameId: string,
    seatIds: seq<string>,
    totalPrice: int,
    maskedPhone: Option<string>,
    expiresAt: Option<int>,
    status: OrderStatus,
    createdAt: Option<int>)

  /** The payment window is over strictly after its end, whatever the status. */
  predicate IsPaymentExpired(o: Order, now: int)
  {
    o.expiresAt.Some? && now > o.expiresAt.value
  }

  /** The Lombok builder with only the identifying fields set: status takes its default. */
  function DefaultOrder(orderId: Id, holdId: Id, sessionId: string): (o: Order)
    ensures o.status == OrderStatus.ACTIVE && o.expiresAt == None && o.maskedPhone == None
    ensures o.orderId == orderId && o.holdId == holdId && o.sessionId == sessionId
  {
    Order(orderId, holdId, sessionId, "", [], 0, None, None, OrderStatus.ACTIVE, None)
  }

  lemma PaymentExpiryBoundary(o: Order, now: int)
    ensures o.expiresAt == None ==> !IsPaymentExpired(o, now)
    ensures o.expiresAt.Some? ==> (IsPaymentExpired(o, now) <==> now > o.expiresAt.value)
    ensures forall st: OrderStatus :: IsPaymentExpired(o.(status := st), now) == IsPaymentExpired(o, now)
  {
  }

  datatype PaymentStatus = PENDING | SUCCEEDED | FAILED

  datatype Payment = Payment(
    paymentId: Id,
    orderId: Id,
    sessionId: string,
    amount: int,
    payMethod: string,
    status: PaymentStatus,
    reasonCode: Option<string>,
    createdAt: int)

  datatype HoldRequest = HoldRequest(sessionId: string, gameId: string, seatIds: seq<string>)

  /** status is "SUCCESS" or "FAIL"; reason is set on failures. */
  datatype HoldResponse = HoldResponse(
    holdId: Option<Id>,
    status: string,
    expiresAt: Option<int>,
    reason: Option<string>)

  /** status is "ACTIVE", "INVALID_HOLD" or "HOLD_EXPIRED". */
  datatype OrderResponse = OrderResponse(orderId: Option<Id>, holdId: Id, status: string)

  datatype PaymentRequest = PaymentRequest(orderId: Id, payMethod: string)

  /** status is "SUCCEEDED", "FAILED" or "EXPIRED"; reasonCode is set on failures. */
  datatype PaymentResponse = PaymentResponse(
    paymentId: Option<Id>,
    orderId: Id,
    status: string,
    reasonCode: Option<string>)
}

=== FILE: seats.dfy ===
/**
 * SeatService: the atomic multi-seat hold, order creation and phone masking.
 *
 * The service owns five in-memory maps. The functions below (`HoldStep`,
 * `CreateOrderStep`) state what one call does to a snapshot of those maps;
 * the class methods change the maps step by step, as the Java code does, and
 * are proved to agree with them. Every public method is one atomic step.
 */
module Seats {
  import opened Wrappers
  import opened SeatEntities

  /** A snapshot of the service's maps and of its id counter. */
  datatype SeatState = SeatState(
    seatStatus: map<string, string>,     // seatId -> session holding it
    holds: map<Id, Hold>,                // holdId -> hold
    activeHolds: map<string, Id>,        // sessionId -> its current hold
    holdCache: map<string, HoldResponse>,// idempotency key -> response
    orders: map<Id, Order>,              // orderId -> order
    nextId: nat)

  const EmptySeatState := SeatState(map[], map[], map[], map[], map[], 0)

  // ---------------------------------------------------------------------------
  // Specification of one call
  // ---------------------------------------------------------------------------

  /** The ledger without the given seats. */
  function Released(ledger: map<string, string>, seats: seq<string>): map<string, string>
  {
    map k | k in ledger && k !in seats :: ledger[k]
  }

  /** The ledger with every given seat assigned to `session`. */
  function Claimed(ledger: map<string, string>, seats: seq<string>, session: string): map<string, string>
  {
    map k | k in ledger.Keys + (set x | x in seats) :: if k in seats then session else ledger[k]
  }

  function CachedUnder(cache: map<string, HoldResponse>, key: Option<string>, r: HoldResponse): map<string, HoldResponse>
  {
    if key.Some? then cache[key.value := r] else cache
  }

  /** The recorded hold that makes a new request fail with ALREADY_HAS_ACTIVE_HOLD. */
  predicate BlocksNewHold(h: Hold, now: int)
  {
    h.status == HoldStatus.ACTIVE && !IsExpired(h, now)
  }

  predicate HasBlockingHold(st: SeatState, session: string, now: int)
  {
    session in st.activeHolds && st.activeHolds[session] in st.holds
    && BlocksNewHold(st.holds[st.activeHolds[session]], now)
  }

  /** Clean-up of a session's stale hold: the pointer goes, the hold is EXPIRED and its seats are released. */
  function ExpireStale(st: SeatState, session: string): SeatState
  {
    if session !in st.activeHolds then st
    else
      var id := st.activeHolds[session];
      var st1 := st.(activeHolds := st.activeHolds - {session});
      if id in st.holds then
        var h := st.holds[id];
        st1.(holds := st.holds[id := h.(status := HoldStatus.EXPIRED)],
             seatStatus := Released(st.seatStatus, h.seatIds))
      else st1
  }

  lemma ClaimedSnoc(ledger: map<string, string>, seats: seq<string>, x: string, session: string)
    ensures Claimed(ledger, seats + [x], session) == Claimed(ledger, seats, session)[x := session]
  {
    assert forall k :: k in seats + [x] <==> k in seats || k == x;
  }

  predicate AnyHeld(ledger: map<string, string>, seats: seq<string>)
  {
    exists i :: 0 <= i < |seats| && seats[i] in ledger
  }

  const ALREADY_HAS_ACTIVE_HOLD := HoldResponse(None, "FAIL", None, Some("ALREADY_HAS_ACTIVE_HOLD"))
  const HELD_BY_OTHERS := HoldResponse(None, "FAIL", None, Some("HELD_BY_OTHERS"))

  /** The new state and the response of `holdSeats(req, key)` at instant `now`. */
  function HoldStep(st: SeatState, req: HoldRequest, key: Option<string>, now: int): (r: (SeatState, HoldResponse))
    ensures r.0.orders == st.orders && r.0.nextId >= st.nextId
    ensures r.0.holdCache == if key.Some? then st.holdCache[key.value := r.1] else st.holdCache
  {
    if key.Some? && key.value in st.holdCache then (st, st.holdCache[key.value])
    else if HasBlockingHold(st, req.sessionId, now) then
      (st.(holdCache := CachedUnder(st.holdCache, key, ALREADY_HAS_ACTIVE_HOLD)), ALREADY_HAS_ACTIVE_HOLD)
    else
      var st1 := ExpireStale(st, req.sessionId);
      if AnyHeld(st1.seatStatus, req.seatIds) then
        (st1.(holdCache := CachedUnder(st1.holdCache, key, HELD_BY_OTHERS)), HELD_BY_OTHERS)
      else ClaimStep(st1, req, key, now)
  }

  /** The successful tail of `holdSeats`: a fresh hold takes every requested seat. */
  function ClaimStep(st: SeatState, req: HoldRequest, key: Option<string>, now: int): (SeatState, HoldResponse)
  {
    var id := st.nextId;
    var expiresAt := now + HOLD_DURATION_MS;
    var h := Hold(id, req.sessionId, req.gameId, req.seatIds, HoldStatus.ACTIVE, Some(expiresAt), Some(now));
    var r := HoldResponse(Some(id), "SUCCESS", Some(expiresAt), None);
    (st.(seatStatus := Claimed(st.seatStatus, req.seatIds, req.sessionId),
         holds := st.holds[id := h],
         activeHolds := st.activeHolds[req.sessionId := id],
         holdCache := CachedUnder(st.holdCache, key, r),
         nextId := id + 1), r)
  }

  const INVALID_HOLD := "INVALID_HOLD"
  const HOLD_EXPIRED := "HOLD_EXPIRED"

  /** The new state and the response of `createOrder(holdId)` at instant `now`. */
  function CreateOrderStep(st: SeatState, holdId: Id, now: int): (r: (SeatState, OrderResponse))
    ensures r.0.holdCache == st.holdCache && r.1.holdId == holdId
    ensures r.1.orderId.Some? <==> r.1.status == "ACTIVE"
    ensures r.1.status != "ACTIVE"
            ==> r.0.orders == st.orders && r.0.seatStatus == st.seatStatus && r.0.activeHolds == st.activeHolds
  {
    if holdId !in st.holds || st.holds[holdId].status != HoldStatus.ACTIVE then
      (st, OrderResponse(None, holdId, INVALID_HOLD))
    else
      var h := st.holds[holdId];
      if IsExpired(h, now) then
        (st.(holds := st.holds[holdId := h.(status := HoldStatus.EXPIRED)]), OrderResponse(None, holdId, HOLD_EXPIRED))
      else
        var id := st.nextId;
        var order := Order(id, holdId, h.sessionId, h.gameId, h.seatIds, TotalPrice(|h.seatIds|),
                           None, Some(now + PAYMENT_WINDOW_MS), OrderStatus.ACTIVE, Some(now));
        (st.(orders := st.orders[id := order],
             activeHolds := st.activeHolds - {h.sessionId},
             seatStatus := Released(st.seatStatus, h.seatIds),
             holds := st.holds[holdId := h.(status := HoldStatus.EXPIRED)],
             nextId := id + 1), OrderResponse(Some(id), holdId, "ACTIVE"))
  }

  // ---------------------------------------------------------------------------
  // The invariant the maps keep
  // ---------------------------------------------------------------------------

  /** Every session pointer names a stored hold of that session. */
  ghost predicate PointersSound(holds: map<Id, Hold>, active: map<string, Id>)
  {
    forall s :: s in active ==> active[s] in holds && holds[active[s]].sessionId == s
  }

  /** Every ACTIVE hold is the one its session's pointer names. */
  ghost predicate ActiveHoldsPointed(holds: map<Id, Hold>, active: map<string, Id>)
  {
    forall id :: id in holds && holds[id].status == HoldStatus.ACTIVE ==>
      holds[id].sessionId in active && active[holds[id].sessionId] == id
  }

  /** The ledger holds exactly the seats of the pointed-to holds, each under its session. */
  ghost predicate LedgerMatchesPointers(ledger: map<string, string>, holds: map<Id, Hold>, active: map<string, Id>)
  {
    && (forall seat :: seat in ledger ==>
          ledger[seat] in active && active[ledger[seat]] in holds && seat in holds[active[ledger[seat]]].seatIds)
    && (forall s, seat :: s in active && active[s] in holds && seat in holds[active[s]].seatIds ==>
          seat in ledger && ledger[seat] == s)
  }

  /** Every order consumed a hold that is no longer ACTIVE, and no hold was consumed twice. */
  ghost predicate OrdersConsumeHolds(orders: map<Id, Order>, holds: map<Id, Hold>)
  {
    && (forall o :: o in orders ==> orders[o].holdId in holds && holds[orders[o].holdId].status != HoldStatus.ACTIVE)
    && (forall o1, o2 :: o1 in orders && o2 in orders && orders[o1].holdId == orders[o2].holdId ==> o1 == o2)
  }

  ghost predicate IdsBelowCounter(st: SeatState)
  {
    && (forall id :: id in st.holds ==> id < st.nextId && st.holds[id].holdId == id)
    && (forall id :: id in st.orders ==> id < st.nextId && st.orders[id].orderId == id)
  }

  ghost predicate Consistent(st: SeatState)
  {
    && IdsBelowCounter(st)
    && PointersSound(st.holds, st.activeHolds)
    && ActiveHoldsPointed(st.holds, st.activeHolds)
    && LedgerMatchesPointers(st.seatStatus, st.holds, st.activeHolds)
    && OrdersConsumeHolds(st.orders, st.holds)
  }

  lemma EmptyConsistent()
    ensures Consistent(EmptySeatState)
  {
  }

  /** A session never has two ACTIVE holds. */
  lemma OneActiveHoldPerSession(st: SeatState, id1: Id, id2: Id)
    requires Consistent(st)
    requires id1 in st.holds && id2 in st.holds
    requires st.holds[id1].status == HoldStatus.ACTIVE && st.holds[id2].status == HoldStatus.ACTIVE
    requires st.holds[id1].sessionId == st.holds[id2].sessionId
    ensures id1 == id2
  {
  }

  /** Two seats under different sessions belong to different pointed holds: freeing one session's seats keeps the rest. */
  lemma {:induction false} LedgerSeatsOfSession(ledger: map<string, string>, holds: map<Id, Hold>, active: map<string, Id>, s: string, seat: string)
    requires LedgerMatchesPointers(ledger, holds, active)
    requires s in active && active[s] in holds
    requires seat in ledger && ledger[seat] != s
    ensures seat !in holds[active[s]].seatIds
  {
  }

  /** Marking the session's hold EXPIRED and dropping its pointer and its seats keeps the ledger exact. */
  lemma {:induction false} DropSessionLedger(ledger: map<string, string>, holds: map<Id, Hold>, active: map<string, Id>, s: string)
    requires PointersSound(holds, active) && LedgerMatchesPointers(ledger, holds, active)
    requires s in active
    ensures var id := active[s];
      var holds' := holds[id := holds[id].(status := HoldStatus.EXPIRED)];
      var ledger' := Released(ledger, holds[id].seatIds);
      && PointersSound(holds', active - {s})
      && LedgerMatchesPointers(ledger', holds', active - {s})
      && (forall seat :: seat in ledger' ==> ledger'[seat] != s)
      && (forall seat :: seat in ledger && ledger[seat] != s ==> seat in ledger' && ledger'[seat] == ledger[seat])
  {
    var id := active[s];
    var holds' := holds[id := holds[id].(status := HoldStatus.EXPIRED)];
    var ledger' := Released(ledger, holds[id].seatIds);
    var active' := active - {s};
    forall seat | seat in ledger && ledger[seat] != s
      ensures seat in ledger' && ledger'[seat] == ledger[seat]
    {
      LedgerSeatsOfSession(ledger, holds, active, s, seat);
    }
    forall s2, seat | s2 in active' && active'[s2] in holds' && seat in holds'[active'[s2]].seatIds
      ensures seat in ledger' && ledger'[seat] == s2
    {
      assert active[s2] != id;
      assert seat in ledger && ledger[seat] == s2;
    }
  }

  /** Marking a hold EXPIRED and dropping its session's pointer keeps every ACTIVE hold pointed. */
  lemma DropSessionActive(holds: map<Id, Hold>, active: map<string, Id>, s: string)
    requires ActiveHoldsPointed(holds, active) && PointersSound(holds, active)
    requires s in active
    ensures var id := active[s];
      ActiveHoldsPointed(holds[id := holds[id].(status := HoldStatus.EXPIRED)], active - {s})
  {
  }

  /** Clean-up keeps the invariant, leaves no pointer for the session and frees no other session's seat. */
  lemma {:induction false} ExpireStaleConsistent(st: SeatState, session: string)
    requires Consistent(st)
    ensures var st1 := ExpireStale(st, session);
      && Consistent(st1)
      && session !in st1.activeHolds
      && st1.nextId == st.nextId && st1.orders == st.orders
      && (forall seat :: seat in st1.seatStatus ==> st1.seatStatus[seat] != session)
      && (forall seat :: seat in st.seatStatus && st.seatStatus[seat] != session ==>
            seat in st1.seatStatus && st1.seatStatus[seat] == st.seatStatus[seat])
  {
    if session in st.activeHolds {
      DropSessionLedger(st.seatStatus, st.holds, st.activeHolds, session);
      DropSessionActive(st.holds, st.activeHolds, session);
    } else {
      forall seat | seat in st.seatStatus
        ensures st.seatStatus[seat] != session
      {
      }
    }
  }

  /** Giving free seats to a session without a pointer, under a fresh hold, keeps the ledger exact. */
  lemma {:induction false} AddSessionLedger(ledger: map<string, string>, holds: map<Id, Hold>, active: map<string, Id>, h: Hold)
    requires PointersSound(holds, active) && LedgerMatchesPointers(ledger, holds, active)
    requires h.sessionId !in active && h.holdId !in holds
    requires forall seat :: seat in h.seatIds ==> seat !in ledger
    ensures var ledger' := Claimed(ledger, h.seatIds, h.sessionId);
      var holds' := holds[h.holdId := h];
      var active' := active[h.sessionId := h.holdId];
      && PointersSound(holds', active')
      && LedgerMatchesPointers(ledger', holds', active')
  {
    var ledger' := Claimed(ledger, h.seatIds, h.sessionId);
    var holds' := holds[h.holdId := h];
    var active' := active[h.sessionId := h.holdId];
    forall s2, seat | s2 in active' && active'[s2] in holds' && seat in holds'[active'[s2]].seatIds
      ensures seat in ledger' && ledger'[seat] == s2
    {
      if s2 != h.sessionId {
        assert active[s2] != h.holdId;
        assert seat in ledger && ledger[seat] == s2;
      }
    }
  }

  lemma {:induction false} NoneHeld(ledger: map<string, string>, seats: seq<string>)
    requires !AnyHeld(ledger, seats)
    ensures forall seat :: seat in seats ==> seat !in ledger
  {
    forall seat | seat in seats
      ensures seat !in ledger
    {
      var i :| 0 <= i < |seats| && seats[i] == seat;
    }
  }

  /** A fresh hold on seats nobody holds, for a session with no active hold, keeps the invariant. */
  lemma ClaimStepConsistent(st: SeatState, req: HoldRequest, key: Option<string>, now: int)
    requires Consistent(st) && req.sessionId !in st.activeHolds && !AnyHeld(st.seatStatus, req.seatIds)
    ensures Consistent(ClaimStep(st, req, key, now).0)
  {
    var id := st.nextId;
    var h := Hold(id, req.sessionId, req.gameId, req.seatIds, HoldStatus.ACTIVE, Some(now + HOLD_DURATION_MS), Some(now));
    NoneHeld(st.seatStatus, req.seatIds);
    AddSessionLedger(st.seatStatus, st.holds, st.activeHolds, h);
    var st2 := ClaimStep(st, req, key, now).0;
    assert IdsBelowCounter(st2);
    assert ActiveHoldsPointed(st2.holds, st2.activeHolds);
    assert OrdersConsumeHolds(st2.orders, st2.holds) by {
      forall o | o in st2.orders
        ensures st2.orders[o].holdId != id
      {
        assert st.orders[o].holdId in st.holds;
      }
    }
  }

  /** The invariant holds after any `holdSeats` call. */
  lemma HoldStepConsistent(st: SeatState, req: HoldRequest, key: Option<string>, now: int)
    requires Consistent(st)
    ensures Consistent(HoldStep(st, req, key, now).0)
  {
    if key.Some? && key.value in st.holdCache {
    } else if HasBlockingHold(st, req.sessionId, now) {
    } else {
      var st1 := ExpireStale(st, req.sessionId);
      ExpireStaleConsistent(st, req.sessionId);
      if !AnyHeld(st1.seatStatus, req.seatIds) {
        ClaimStepConsistent(st1, req, key, now);
      }
    }
  }

  /** The invariant holds after any `createOrder` call. */
  lemma CreateOrderStepConsistent(st: SeatState, holdId: Id, now: int)
    requires Consistent(st)
    ensures Consistent(CreateOrderStep(st, holdId, now).0)
  {
    if holdId in st.holds && st.holds[holdId].status == HoldStatus.ACTIVE {
      if IsExpired(st.holds[holdId], now) {
        ExpiredHoldConsistent(st, holdId, now);
      } else {
        OrderFromHoldConsistent(st, holdId, now);
      }
    }
  }

  /** Marking an expired active hold EXPIRED keeps the invariant. */
  lemma ExpiredHoldConsistent(st: SeatState, holdId: Id, now: int)
    requires Consistent(st)
    requires holdId in st.holds && st.holds[holdId].status == HoldStatus.ACTIVE && IsExpired(st.holds[holdId], now)
    ensures Consistent(CreateOrderStep(st, holdId, now).0)
  {
    var st2 := CreateOrderStep(st, holdId, now).0;
    assert st2.holds == st.holds[holdId := st.holds[holdId].(status := HoldStatus.EXPIRED)];
    assert LedgerMatchesPointers(st2.seatStatus, st2.holds, st2.activeHolds);
  }

  /** Turning a live active hold into an order keeps the invariant. */
  lemma OrderFromHoldConsistent(st: SeatState, holdId: Id, now: int)
    requires Consistent(st)
    requires holdId in st.holds && st.holds[holdId].status == HoldStatus.ACTIVE && !IsExpired(st.holds[holdId], now)
    ensures Consistent(CreateOrderStep(st, holdId, now).0)
  {
    var h := st.holds[holdId];
    var st2 := CreateOrderStep(st, holdId, now).0;
    assert st.activeHolds[h.sessionId] == holdId;
    DropSessionLedger(st.seatStatus, st.holds, st.activeHolds, h.sessionId);
    DropSessionActive(st.holds, st.activeHolds, h.sessionId);
    assert IdsBelowCounter(st2);
    assert OrdersConsumeHolds(st2.orders, st2.holds);
  }

  // ---------------------------------------------------------------------------
  // What one call promises
  // ---------------------------------------------------------------------------

  /** A key already in the cache replays its response, whatever the request says, and changes nothing. */
  lemma HoldReplay(st: SeatState, req: HoldRequest, key: string, now: int)
    requires key in st.holdCache
    ensures HoldStep(st, req, Some(key), now) == (st, st.holdCache[key])
  {
  }

  /** A blocking hold yields ALREADY_HAS_ACTIVE_HOLD and only the cache changes. */
  lemma HoldRejectsSecondActiveHold(st: SeatState, req: HoldRequest, key: Option<string>, now: int)
    requires !(key.Some? && key.value in st.holdCache)
    requires HasBlockingHold(st, req.sessionId, now)
    ensures var (st2, r) := HoldStep(st, req, key, now);
      && r.status == "FAIL" && r.reason == Some("ALREADY_HAS_ACTIVE_HOLD") && r.holdId == None
      && st2 == st.(holdCache := st2.holdCache)
  {
  }

  /**
   * All or nothing: a failed request claims no seat (the ledger only loses the
   * session's stale seats); a successful one gives every requested seat to the
   * session and leaves every other entry as it was.
   */
  lemma {:induction false} HoldAllOrNothing(st: SeatState, req: HoldRequest, key: Option<string>, now: int)
    requires Consistent(st)
    requires !(key.Some? && key.value in st.holdCache)
    ensures var (st2, r) := HoldStep(st, req, key, now);
      && (r.status == "FAIL" ==>
            forall seat :: seat in st2.seatStatus ==> seat in st.seatStatus && st2.seatStatus[seat] == st.seatStatus[seat])
      && (r.status == "SUCCESS" ==>
            && (forall seat :: seat in req.seatIds ==> seat in st2.seatStatus && st2.seatStatus[seat] == req.sessionId)
            && (forall seat :: seat in st.seatStatus && st.seatStatus[seat] != req.sessionId ==>
                  seat in st2.seatStatus && st2.seatStatus[seat] == st.seatStatus[seat]))
      && (r.status == "FAIL" || r.status == "SUCCESS")
  {
    var st1 := ExpireStale(st, req.sessionId);
    ExpireStaleConsistent(st, req.sessionId);
    if !HasBlockingHold(st, req.sessionId, now) && st1 != st {
      var id := st.activeHolds[req.sessionId];
      if id in st.holds {
        assert st1.seatStatus == Released(st.seatStatus, st.holds[id].seatIds);
      }
    }
  }

  /** HELD_BY_OTHERS is reported exactly when a requested seat is still in the ledger after clean-up. */
  lemma HeldByOthersExactly(st: SeatState, req: HoldRequest, key: Option<string>, now: int)
    requires !(key.Some? && key.value in st.holdCache)
    requires !HasBlockingHold(st, req.sessionId, now)
    ensures (HoldStep(st, req, key, now).1 == HELD_BY_OTHERS) <==> AnyHeld(ExpireStale(st, req.sessionId).seatStatus, req.seatIds)
  {
  }

  /** A success records a fresh ACTIVE hold that expires five minutes later and becomes the session's active hold. */
  lemma HoldSuccessRecordsHold(st: SeatState, req: HoldRequest, key: Option<string>, now: int)
    requires Consistent(st)
    requires HoldStep(st, req, key, now).1.status == "SUCCESS"
    requires !(key.Some? && key.value in st.holdCache)
    ensures var (st2, r) := HoldStep(st, req, key, now);
      && r.holdId == Some(st.nextId) && r.expiresAt == Some(now + 300000)
      && st.nextId !in st.holds
      && st2.holds[st.nextId] == Hold(st.nextId, req.sessionId, req.gameId, req.seatIds, HoldStatus.ACTIVE, Some(now + 300000), Some(now))
      && st2.activeHolds[req.sessionId] == st.nextId
      && st2.orders == st.orders
  {
  }

  /**
   * Sequential form of the concurrent hold test: once a session holds a seat,
   * any other session asking for it with a fresh key fails and the seat stays
   * with its holder.
   */
  lemma {:induction false} HeldSeatBlocksOthers(st: SeatState, req: HoldRequest, key: Option<string>, now: int, seat: string)
    requires Consistent(st)
    requires seat in st.seatStatus && st.seatStatus[seat] != req.sessionId
    requires seat in req.seatIds
    requires !(key.Some? && key.value in st.holdCache)
    ensures var (st2, r) := HoldStep(st, req, key, now);
      && r.status == "FAIL"
      && seat in st2.seatStatus && st2.seatStatus[seat] == st.seatStatus[seat]
  {
    ExpireStaleConsistent(st, req.sessionId);
    var st1 := ExpireStale(st, req.sessionId);
    var i :| 0 <= i < |req.seatIds| && req.seatIds[i] == seat;
    assert seat in st1.seatStatus;
    assert AnyHeld(st1.seatStatus, req.seatIds);
  }

  /** A missing or non-ACTIVE hold gives INVALID_HOLD and changes nothing. */
  lemma CreateOrderInvalid(st: SeatState, holdId: Id, now: int)
    requires holdId !in st.holds || st.holds[holdId].status != HoldStatus.ACTIVE
    ensures CreateOrderStep(st, holdId, now) == (st, OrderResponse(None, holdId, "INVALID_HOLD"))
  {
  }

  /** An expired ACTIVE hold is marked EXPIRED; its seats and its session pointer stay. */
  lemma CreateOrderExpired(st: SeatState, holdId: Id, now: int)
    requires holdId in st.holds && st.holds[holdId].status == HoldStatus.ACTIVE && IsExpired(st.holds[holdId], now)
    ensures var (st2, r) := CreateOrderStep(st, holdId, now);
      && r == OrderResponse(None, holdId, "HOLD_EXPIRED")
      && st2.holds[holdId].status == HoldStatus.EXPIRED
      && st2.seatStatus == st.seatStatus && st2.activeHolds == st.activeHolds && st2.orders == st.orders
  {
  }

  /**
   * A successful order is ACTIVE, costs 25000 per seat, must be paid within
   * 300 s, and consumes the hold: its seats leave the ledger, the session's
   * pointer is cleared and the hold is EXPIRED.
   */
  lemma {:induction false} CreateOrderSuccess(st: SeatState, holdId: Id, now: int)
    requires Consistent(st)
    requires holdId in st.holds && st.holds[holdId].status == HoldStatus.ACTIVE && !IsExpired(st.holds[holdId], now)
    requires |st.holds[holdId].seatIds| <= 85899
    ensures var (st2, r) := CreateOrderStep(st, holdId, now);
      var h := st.holds[holdId];
      && r == OrderResponse(Some(st.nextId), holdId, "ACTIVE")
      && st.nextId !in st.orders
      && st2.orders[st.nextId].status == OrderStatus.ACTIVE
      && st2.orders[st.nextId].totalPrice == 25000 * |h.seatIds|
      && st2.orders[st.nextId].expiresAt == Some(now + 300000)
      && st2.orders[st.nextId].seatIds == h.seatIds
      && (forall seat :: seat in h.seatIds ==> seat !in st2.seatStatus)
      && h.sessionId !in st2.activeHolds
      && st2.holds[holdId].status == HoldStatus.EXPIRED
  {
  }

  /** A hold yields at most one order: asking again for the same hold gives INVALID_HOLD. */
  lemma {:induction false} HoldYieldsOneOrder(st: SeatState, holdId: Id, now: int, later: int)
    requires CreateOrderStep(st, holdId, now).1.status == "ACTIVE"
    ensures var st2 := CreateOrderStep(st, holdId, now).0;
      CreateOrderStep(st2, holdId, later).1.status == "INVALID_HOLD"
  {
    var st2 := CreateOrderStep(st, holdId, now).0;
    assert st2.holds[holdId].status == HoldStatus.EXPIRED;
  }

  /**
   * The availability scan ignores expiry: a timed-out hold that nobody cleaned
   * up still blocks other sessions.
   */
  lemma {:induction false} ExpiredHoldStillBlocks(st: SeatState, holdId: Id, req: HoldRequest, key: Option<string>, now: int, seat: string)
    requires Consistent(st)
    requires holdId in st.holds && IsExpired(st.holds[holdId], now)
    requires st.holds[holdId].sessionId in st.activeHolds && st.activeHolds[st.holds[holdId].sessionId] == holdId
    requires seat in st.holds[holdId].seatIds && req.sessionId != st.holds[holdId].sessionId && seat in req.seatIds
    requires !(key.Some? && key.value in st.holdCache)
    ensures HoldStep(st, req, key, now).1.status == "FAIL"
  {
    assert seat in st.seatStatus && st.seatStatus[seat] == st.holds[holdId].sessionId;
    HeldSeatBlocksOthers(st, req, key, now, seat);
  }

  // ---------------------------------------------------------------------------
  // Phone masking
  // ---------------------------------------------------------------------------

  /**
   * `maskPhone`: null or shorter than 10 characters comes back unchanged,
   * otherwise the first three characters, "-****-" and the last four.
   */
  function MaskPhone(phone: Option<string>): (r: Option<string>)
    ensures phone.None? ==> r.None?
    ensures phone.Some? && |phone.value| < 10 ==> r == phone
    ensures phone.Some? && |phone.value| >= 10 ==>
      && r.Some? && |r.value| == 13
      && r.value[..3] == phone.value[..3]
      && r.value[3..9] == "-****-"
      && r.value[9..] == phone.value[|phone.value| - 4..]
  {
    match phone
    case None => None
    case Some(p) =>
      if |p| < 10 then phone
      else Some(p[..3] + "-****-" + p[|p| - 4..])
  }

  lemma MaskPhoneExample()
    ensures MaskPhone(Some("01012345678")) == Some("010-****-5678")
  {
    var p := "01012345678";
    assert p[..3] == "010";
    assert p[|p| - 4..] == "5678";
    assert "010" + "-****-" + "5678" == "010-****-5678";
  }

  // ---------------------------------------------------------------------------
  // The service
  // ---------------------------------------------------------------------------

  class SeatService {
    var seatStatus: map<string, string>
    var holds: map<Id, Hold>
    var activeHolds: map<string, Id>
    var holdCache: map<string, HoldResponse>
    var orders: map<Id, Order>
    var nextId: nat

    function State(): SeatState
      reads this
    {
      SeatState(seatStatus, holds, activeHolds, holdCache, orders, nextId)
    }

    ghost predicate Valid()
      reads this
    {
      Consistent(State())
    }

    constructor ()
      ensures Valid() && State() == EmptySeatState
    {
      seatStatus, holds, activeHolds, holdCache, orders, nextId := map[], map[], map[], map[], map[], 0;
      EmptyConsistent();
    }

    method CacheIfKeyed(key: Option<string>, r: HoldResponse)
      modifies this`holdCache
      ensures holdCache == CachedUnder(old(holdCache), key, r)
    {
      if key.Some? {
        holdCache := holdCache[key.value := r];
      }
    }

    /** Removes each of `seats` from the ledger, one at a time. */
    method ReleaseSeats(seats: seq<string>)
      modifies this`seatStatus
      ensures seatStatus == Released(old(seatStatus), seats)
    {
      var i := 0;
      while i < |seats|
        invariant 0 <= i <= |seats|
        invariant seatStatus == Released(old(seatStatus), seats[..i])
      {
        assert seats[..i + 1] == seats[..i] + [seats[i]];
        seatStatus := seatStatus - {seats[i]};
        i := i + 1;
      }
      assert seats[..i] == seats;
    }

    /** Drops the session's pointer and, when its hold is stored, marks it EXPIRED and frees its seats. */
    method ExpireStaleHold(session: string)
      modifies this
      ensures State() == ExpireStale(old(State()), session)
    {
      if session in activeHolds {
        var existingId := activeHolds[session];
        activeHolds := activeHolds - {session};
        if existingId in holds {
          var existing := holds[existingId];
          holds := holds[existingId := existing.(status := HoldStatus.EXPIRED)];
          ReleaseSeats(existing.seatIds);
        }
      }
    }

    /** The availability scan: is any requested seat in the ledger? */
    method AnySeatHeld(seats: seq<string>) returns (held: bool)
      ensures held == AnyHeld(seatStatus, seats)
    {
      var i := 0;
      while i < |seats|
        invariant 0 <= i <= |seats|
        invariant forall j :: 0 <= j < i ==> seats[j] !in seatStatus
      {
        if seats[i] in seatStatus {
          return true;
        }
        i := i + 1;
      }
      return false;
    }

    /** Puts every given seat under `session`, one at a time. */
    method ClaimSeats(seats: seq<string>, session: string)
      modifies this`seatStatus
      ensures seatStatus == Claimed(old(seatStatus), seats, session)
    {
      var i := 0;
      while i < |seats|
        invariant 0 <= i <= |seats|
        invariant seatStatus == Claimed(old(seatStatus), seats[..i], session)
      {
        ClaimedSnoc(old(seatStatus), seats[..i], seats[i], session);
        assert seats[..i + 1] == seats[..i] + [seats[i]];
        seatStatus := seatStatus[seats[i] := session];
        i := i + 1;
      }
      assert seats[..i] == seats;
    }

    /** Records a fresh ACTIVE hold over the requested seats and points the session at it. */
    method RecordHold(req: HoldRequest, key: Option<string>, now: int) returns (r: HoldResponse)
      modifies this
      ensures (State(), r) == ClaimStep(old(State()), req, key, now)
    {
      var holdId := nextId;
      nextId := nextId + 1;
      var expiresAt := now + HOLD_DURATION_MS;
      ClaimSeats(req.seatIds, req.sessionId);
      holds := holds[holdId := Hold(holdId, req.sessionId, req.gameId, req.seatIds, HoldStatus.ACTIVE, Some(expiresAt), Some(now))];
      activeHolds := activeHolds[req.sessionId := holdId];
      r := HoldResponse(Some(holdId), "SUCCESS", Some(expiresAt), None);
      CacheIfKeyed(key, r);
    }

    /** Whether the session already holds an ACTIVE hold that has not expired. */
    method HasLiveHold(session: string, now: int) returns (b: bool)
      ensures b == HasBlockingHold(State(), session, now)
    {
      b := false;
      if session in activeHolds {
        var existingId := activeHolds[session];
        b := existingId in holds && holds[existingId].status == HoldStatus.ACTIVE && !IsExpired(holds[existingId], now);
      }
    }

    method HoldSeats(req: HoldRequest, key: Option<string>, now: int) returns (r: HoldResponse)
      requires Valid()
      modifies this
      ensures (State(), r) == HoldStep(old(State()), req, key, now)
      ensures Valid()
    {
      ghost var st0 := State();
      HoldStepConsistent(st0, req, key, now);
      if key.Some? && key.value in holdCache {
        return holdCache[key.value];
      }
      var blocked := HasLiveHold(req.sessionId, now);
      if blocked {
        r := ALREADY_HAS_ACTIVE_HOLD;
        CacheIfKeyed(key, r);
        return;
      }
      ExpireStaleHold(req.sessionId);
      var held := AnySeatHeld(req.seatIds);
      if held {
        r := HELD_BY_OTHERS;
        CacheIfKeyed(key, r);
        return;
      }
      r := RecordHold(req, key, now);
    }

    method CreateOrder(holdId: Id, now: int) returns (r: OrderResponse)
      requires Valid()
      modifies this
      ensures (State(), r) == CreateOrderStep(old(State()), holdId, now)
      ensures Valid()
    {
      ghost var st0 := State();
      CreateOrderStepConsistent(st0, holdId, now);
      if holdId !in holds || holds[holdId].status != HoldStatus.ACTIVE {
        return OrderResponse(None, holdId, INVALID_HOLD);
      }
      var hold := holds[holdId];
      if IsExpired(hold, now) {
        holds := holds[holdId := hold.(status := HoldStatus.EXPIRED)];
        return OrderResponse(None, holdId, HOLD_EXPIRED);
      }
      var orderId := nextId;
      nextId := nextId + 1;
      var totalPrice := TotalPrice(|hold.seatIds|);
      var order := Order(orderId, holdId, hold.sessionId, hold.gameId, hold.seatIds, totalPrice,
                         None, Some(now + PAYMENT_WINDOW_MS), OrderStatus.ACTIVE, Some(now));
      orders := orders[orderId := order];
      activeHolds := activeHolds - {hold.sessionId};
      ReleaseSeats(hold.seatIds);
      holds := holds[holdId := hold.(status := HoldStatus.EXPIRED)];
      r := OrderResponse(Some(orderId), holdId, "ACTIVE");
    }

    /** `getOrder`: the stored order, or none. */
    method GetOrder(orderId: Id) returns (o: Option<Order>)
      ensures orderId in orders ==> o == Some(orders[orderId])
      ensures orderId !in orders ==> o == None
    {
      o := if orderId in orders then Some(orders[orderId]) else None;
    }
  }
}

=== FILE: security.dfy ===
/**
 * The stage-three security challenge: a fixed quiz ("3 + 4 = ?") whose wrong
 * answers are counted per session, and a per-session "verified" flag that the
 * seat map checks and a successful payment clears.
 */
module Security {
  import opened Wrappers

  type Id = nat

  const MAX_ATTEMPTS: int := 3
  const CORRECT_ANSWER: string := "7"
  const QUIZ_PROMPT: string := "3 + 4 = ?"

  /** Java's `String.trim` drops every leading and trailing character up to U+0020. */
  predicate IsTrimmed(c: char)
  {
    c <= ' '
  }

  predicate AllTrimmed(s: string)
  {
    forall i :: 0 <= i < |s| ==> IsTrimmed(s[i])
  }

  function TrimStart(s: string): (r: string)
    ensures |r| <= |s|
  {
    if s == [] || !IsTrimmed(s[0]) then s else TrimStart(s[1..])
  }

  /** `TrimStart` removes exactly the blank prefix. */
  lemma {:induction false} TrimStartSpec(s: string)
    ensures TrimStart(s) == s[|s| - |TrimStart(s)|..]
    ensures AllTrimmed(s[..|s| - |TrimStart(s)|])
    ensures TrimStart(s) == [] || !IsTrimmed(TrimStart(s)[0])
  {
    if s != [] && IsTrimmed(s[0]) {
      var r := TrimStart(s[1..]);
      TrimStartSpec(s[1..]);
      assert s[1..][..|s| - 1 - |r|] == s[1..|s| - |r|];
      assert s[1..][|s| - 1 - |r|..] == s[|s| - |r|..];
    }
  }

  function TrimEnd(s: string): (r: string)
    ensures |r| <= |s|
  {
    if s == [] || !IsTrimmed(s[|s| - 1]) then s else TrimEnd(s[..|s| - 1])
  }

  /** `TrimEnd` removes exactly the blank suffix. */
  lemma {:induction false} TrimEndSpec(s: string)
    ensures TrimEnd(s) == s[..|TrimEnd(s)|]
    ensures AllTrimmed(s[|TrimEnd(s)|..])
    ensures TrimEnd(s) == [] || !IsTrimmed(TrimEnd(s)[|TrimEnd(s)| - 1])
  {
    if s != [] && IsTrimmed(s[|s| - 1]) {
      var r := TrimEnd(s[..|s| - 1]);
      TrimEndSpec(s[..|s| - 1]);
      assert s[|r|..] == s[..|s| - 1][|r|..] + [s[|s| - 1]];
      assert s[..|s| - 1][..|r|] == s[..|r|];
    }
  }

  function Trim(s: string): (r: string)
    ensures |r| <= |s|
    ensures s != [] && !IsTrimmed(s[0]) && !IsTrimmed(s[|s| - 1]) ==> r == s
  {
    if s != [] && !IsTrimmed(s[0]) && !IsTrimmed(s[|s| - 1]) then
      TrimStartKeeps(s);
      TrimEndPadding(s, []);
      assert s + [] == s;
      TrimEnd(TrimStart(s))
    else
      TrimEnd(TrimStart(s))
  }

  /** `trim` keeps a contiguous middle slice whose ends are not blank and drops only blanks around it. */
  lemma TrimSlice(s: string)
    ensures exists i, j :: 0 <= i <= j <= |s| && Trim(s) == s[i..j] && AllTrimmed(s[..i]) && AllTrimmed(s[j..])
    ensures Trim(s) == [] || (!IsTrimmed(Trim(s)[0]) && !IsTrimmed(Trim(s)[|Trim(s)| - 1]))
  {
    var t := TrimStart(s);
    var i := |s| - |t|;
    var r := TrimEnd(t);
    TrimStartSpec(s);
    TrimEndSpec(t);
    assert t == s[i..];
    assert r == s[i..i + |r|];
    assert s[i + |r|..] == t[|r|..];
    if r != [] {
      assert r[0] == t[0];
    }
  }

  /** Surrounding blanks never change the verdict on the answer. */
  lemma {:induction false} TrimIgnoresPadding(pre: string, core: string, post: string)
    requires AllTrimmed(pre) && AllTrimmed(post)
    requires core != [] && !IsTrimmed(core[0]) && !IsTrimmed(core[|core| - 1])
    ensures Trim(pre + core + post) == core
  {
    if pre != [] {
      assert (pre + core + post)[1..] == pre[1..] + core + post;
      TrimIgnoresPadding(pre[1..], core, post);
    } else if post != [] {
      assert pre + core + post == core + post;
      TrimEndPadding(core, post);
      TrimStartKeeps(core + post);
    } else {
      assert pre + core + post == core;
      TrimStartKeeps(core);
      TrimEndPadding(core, []);
    }
  }

  lemma TrimStartKeeps(s: string)
    requires s != [] && !IsTrimmed(s[0])
    ensures TrimStart(s) == s
  {
  }

  lemma {:induction false} TrimEndPadding(core: string, post: string)
    requires AllTrimmed(post)
    requires core != [] && !IsTrimmed(core[|core| - 1])
    ensures TrimEnd(core + post) == core
  {
    if post != [] {
      var s := core + post;
      assert s[..|s| - 1] == core + post[..|post| - 1];
      TrimEndPadding(core, post[..|post| - 1]);
    } else {
      assert core + post == core;
    }
  }

  lemma TrimIdempotent(s: string)
    ensures Trim(Trim(s)) == Trim(s)
  {
    TrimSlice(s);
    var t := Trim(s);
    if t != [] {
      assert [] + t + [] == t;
      TrimIgnoresPadding([], t, []);
    }
  }

  /** What `verify` compares with "7". */
  predicate IsCorrect(answer: string)
  {
    Trim(answer) == CORRECT_ANSWER
  }

  lemma CorrectAnswers(pre: string, post: string)
    requires AllTrimmed(pre) && AllTrimmed(post)
    ensures IsCorrect(pre + "7" + post)
    ensures !IsCorrect("8") && !IsCorrect("") && !IsCorrect("77")
  {
    TrimIgnoresPadding(pre, "7", post);
    TrimIgnoresPadding([], "8", []);
    assert [] + "8" + [] == "8";
    TrimIgnoresPadding([], "77", []);
    assert [] + "77" + [] == "77";
  }

  /** `Math.max(0, MAX_ATTEMPTS - attempts)`. */
  function Remaining(attempts: int): (r: int)
    ensures 0 <= r <= MAX_ATTEMPTS || attempts < 0
    ensures r >= 0
  {
    if MAX_ATTEMPTS - attempts > 0 then MAX_ATTEMPTS - attempts else 0
  }

  lemma RemainingCountdown()
    ensures Remaining(1) == 2 && Remaining(2) == 1 && Remaining(3) == 0
    ensures forall n: int {:trigger Remaining(n)} :: n >= 3 ==> Remaining(n) == 0
    ensures forall m: int, n: int {:trigger Remaining(m), Remaining(n)} :: 0 <= m <= n ==> Remaining(n) <= Remaining(m)
  {
  }

  datatype ChallengeResponse = ChallengeResponse(challengeId: Id, kind: string, prompt: string, imageUrl: Option<string>)
  datatype VerifyRequest = VerifyRequest(challengeId: Id, sessionId: string, answer: string)
  /** result is "PASS" or "FAIL". */
  datatype VerifyResponse = VerifyResponse(result: string, remainingAttempts: int)

  datatype SecState = SecState(
    challengeSessions: map<Id, string>,
    challengeTimestamps: map<Id, int>,
    attemptCounts: map<string, int>,
    sessionVerification: map<string, bool>,
    nextId: nat)

  /** Counters are never negative, every challenge has a timestamp, and ids come from the counter. */
  ghost predicate Consistent(st: SecState)
  {
    && (forall s :: s in st.attemptCounts ==> st.attemptCounts[s] >= 0)
    && st.challengeSessions.Keys == st.challengeTimestamps.Keys
    && (forall id :: id in st.challengeSessions ==> id < st.nextId)
  }

  function IssueStep(st: SecState, sessionId: string, now: int): (r: (SecState, ChallengeResponse))
    ensures r.0.sessionVerification == st.sessionVerification
    ensures r.1.challengeId in r.0.challengeSessions && r.0.challengeSessions[r.1.challengeId] == sessionId
    ensures r.1.challengeId < r.0.nextId
  {
    var id := st.nextId;
    var counts := if sessionId in st.attemptCounts then st.attemptCounts else st.attemptCounts[sessionId := 0];
    (st.(challengeSessions := st.challengeSessions[id := sessionId],
         challengeTimestamps := st.challengeTimestamps[id := now],
         attemptCounts := counts,
         nextId := id + 1),
     ChallengeResponse(id, "QUIZ", QUIZ_PROMPT, None))
  }

  function AttemptsOf(st: SecState, sessionId: string): int
  {
    if sessionId in st.attemptCounts then st.attemptCounts[sessionId] else 0
  }

  function VerifyStep(st: SecState, req: VerifyRequest): (r: (SecState, VerifyResponse))
    ensures r.1.result == "PASS" <==> IsCorrect(req.answer)
    ensures forall s :: IsVerifiedIn(st, s) ==> IsVerifiedIn(r.0, s)
  {
    if IsCorrect(req.answer) then
      (st.(challengeSessions := st.challengeSessions - {req.challengeId},
           challengeTimestamps := st.challengeTimestamps - {req.challengeId},
           attemptCounts := st.attemptCounts[req.sessionId := 0],
           sessionVerification := st.sessionVerification[req.sessionId := true]),
       VerifyResponse("PASS", MAX_ATTEMPTS))
    else
      var attempts := AttemptsOf(st, req.sessionId) + 1;
      (st.(attemptCounts := st.attemptCounts[req.sessionId := attempts]),
       VerifyResponse("FAIL", Remaining(attempts)))
  }

  function IsVerifiedIn(st: SecState, sessionId: string): bool
  {
    if sessionId in st.sessionVerification then st.sessionVerification[sessionId] else false
  }

  lemma IssueStepConsistent(st: SecState, sessionId: string, now: int)
    requires Consistent(st)
    ensures Consistent(IssueStep(st, sessionId, now).0)
    ensures IssueStep(st, sessionId, now).1.challengeId !in st.challengeSessions
  {
  }

  lemma VerifyStepConsistent(st: SecState, req: VerifyRequest)
    requires Consistent(st)
    ensures Consistent(VerifyStep(st, req).0)
  {
    var st1 := VerifyStep(st, req).0;
    if IsCorrect(req.answer) {
      assert st1.attemptCounts == st.attemptCounts[req.sessionId := 0];
    } else {
      assert st1.attemptCounts == st.attemptCounts[req.sessionId := AttemptsOf(st, req.sessionId) + 1];
    }
  }

  /** Issuing a challenge starts a counter for a new session and never resets an existing one. */
  lemma IssueKeepsCounter(st: SecState, sessionId: string, now: int)
    ensures AttemptsOf(IssueStep(st, sessionId, now).0, sessionId) == AttemptsOf(st, sessionId)
    ensures sessionId in IssueStep(st, sessionId, now).0.attemptCounts
    ensures forall s :: s != sessionId ==> AttemptsOf(IssueStep(st, sessionId, now).0, s) == AttemptsOf(st, s)
    ensures IssueStep(st, sessionId, now).1.kind == "QUIZ" && IssueStep(st, sessionId, now).1.prompt == QUIZ_PROMPT
  {
  }

  /** A correct answer passes whatever the attempt history, so there is no blocked outcome. */
  lemma VerifyPass(st: SecState, req: VerifyRequest)
    requires IsCorrect(req.answer)
    ensures VerifyStep(st, req).1 == VerifyResponse("PASS", 3)
    ensures AttemptsOf(VerifyStep(st, req).0, req.sessionId) == 0
    ensures IsVerifiedIn(VerifyStep(st, req).0, req.sessionId)
    ensures req.challengeId !in VerifyStep(st, req).0.challengeSessions
    ensures req.challengeId !in VerifyStep(st, req).0.challengeTimestamps
  {
  }

  lemma VerifyFail(st: SecState, req: VerifyRequest)
    requires !IsCorrect(req.answer)
    ensures AttemptsOf(VerifyStep(st, req).0, req.sessionId) == AttemptsOf(st, req.sessionId) + 1
    ensures VerifyStep(st, req).1 == VerifyResponse("FAIL", Remaining(AttemptsOf(st, req.sessionId) + 1))
    ensures VerifyStep(st, req).0.challengeSessions == st.challengeSessions
    ensures IsVerifiedIn(VerifyStep(st, req).0, req.sessionId) == IsVerifiedIn(st, req.sessionId)
  {
  }

  /** Only PASS and FAIL are ever returned, and remainingAttempts is never negative. */
  lemma VerifyOutcomes(st: SecState, req: VerifyRequest)
    requires Consistent(st)
    ensures VerifyStep(st, req).1.result in {"PASS", "FAIL"}
    ensures 0 <= VerifyStep(st, req).1.remainingAttempts <= MAX_ATTEMPTS
  {
  }

  /** The challenge id plays no part in the verdict or the counter: it is neither checked nor tied to the session. */
  lemma ChallengeIdIgnored(st: SecState, req: VerifyRequest, otherId: Id)
    ensures VerifyStep(st, req).1 == VerifyStep(st, req.(challengeId := otherId)).1
    ensures VerifyStep(st, req).0.attemptCounts == VerifyStep(st, req.(challengeId := otherId)).0.attemptCounts
  {
  }

  /** Three wrong answers in a row from a fresh session report 2, 1, 0 remaining, and a fourth still 0. */
  lemma {:induction false} WrongAnswersCountDown(st: SecState, sessionId: string, id: Id, wrong: string)
    requires sessionId !in st.attemptCounts && !IsCorrect(wrong)
    ensures var req := VerifyRequest(id, sessionId, wrong);
            var (s1, r1) := VerifyStep(st, req);
            var (s2, r2) := VerifyStep(s1, req);
            var (s3, r3) := VerifyStep(s2, req);
            var (s4, r4) := VerifyStep(s3, req);
            r1.remainingAttempts == 2 && r2.remainingAttempts == 1 && r3.remainingAttempts == 0 &&
            r4 == VerifyResponse("FAIL", 0) && AttemptsOf(s4, sessionId) == 4
  {
    var req := VerifyRequest(id, sessionId, wrong);
    VerifyFail(st, req);
    var s1 := VerifyStep(st, req).0;
    VerifyFail(s1, req);
    var s2 := VerifyStep(s1, req).0;
    VerifyFail(s2, req);
    var s3 := VerifyStep(s2, req).0;
    VerifyFail(s3, req);
  }

  lemma VerificationFlag(st: SecState, sessionId: string)
    ensures sessionId !in st.sessionVerification ==> !IsVerifiedIn(st, sessionId)
    ensures !IsVerifiedIn(st.(sessionVerification := st.sessionVerification - {sessionId}), sessionId)
  {
  }

  class SecurityService {
    var challengeSessions: map<Id, string>
    var challengeTimestamps: map<Id, int>
    var attemptCounts: map<string, int>
    var sessionVerification: map<string, bool>
    var nextId: nat

    function State(): SecState
      reads this
    {
      SecState(challengeSessions, challengeTimestamps, attemptCounts, sessionVerification, nextId)
    }

    ghost predicate Valid()
      reads this
    {
      Consistent(State())
    }

    constructor()
      ensures Valid() && State() == SecState(map[], map[], map[], map[], 0)
    {
      challengeSessions := map[];
      challengeTimestamps := map[];
      attemptCounts := map[];
      sessionVerification := map[];
      nextId := 0;
    }

    method IssueChallenge(sessionId: string, now: int) returns (r: ChallengeResponse)
      requires Valid()
      modifies this
      ensures Valid()
      ensures (State(), r) == IssueStep(old(State()), sessionId, now)
    {
      IssueStepConsistent(State(), sessionId, now);
      var id := nextId;
      nextId := nextId + 1;
      challengeSessions := challengeSessions[id := sessionId];
      challengeTimestamps := challengeTimestamps[id := now];
      if sessionId !in attemptCounts {
        attemptCounts := attemptCounts[sessionId := 0];
      }
      r := ChallengeResponse(id, "QUIZ", QUIZ_PROMPT, None);
    }

    method Verify(req: VerifyRequest) returns (r: VerifyResponse)
      requires Valid()
      modifies this
      ensures Valid()
      ensures (State(), r) == VerifyStep(old(State()), req)
    {
      VerifyStepConsistent(State(), req);
      ghost var st0 := State();
      var answer := Trim(req.answer);
      if req.sessionId !in attemptCounts {
        attemptCounts := attemptCounts[req.sessionId := 0];
      }
      assert attemptCounts[req.sessionId] == AttemptsOf(st0, req.sessionId);
      if answer == CORRECT_ANSWER {
        challengeSessions := challengeSessions - {req.challengeId};
        challengeTimestamps := challengeTimestamps - {req.challengeId};
        attemptCounts := attemptCounts[req.sessionId := 0];
        sessionVerification := sessionVerification[req.sessionId := true];
        r := VerifyResponse("PASS", MAX_ATTEMPTS);
        assert State() == VerifyStep(st0, req).0;
      } else {
        var attempts := attemptCounts[req.sessionId] + 1;
        attemptCounts := attemptCounts[req.sessionId := attempts];
        var remaining := if MAX_ATTEMPTS - attempts > 0 then MAX_ATTEMPTS - attempts else 0;
        r := VerifyResponse("FAIL", remaining);
        assert attemptCounts == st0.attemptCounts[req.sessionId := attempts];
      }
    }

    method IsVerified(sessionId: string) returns (verified: bool)
      ensures verified == IsVerifiedIn(State(), sessionId)
      ensures verified ==> sessionId in sessionVerification
    {
      verified := if sessionId in sessionVerification then sessionVerification[sessionId] else false;
    }

    method ResetVerification(sessionId: string)
      requires Valid()
      modifies this`sessionVerification
      ensures Valid()
      ensures sessionVerification == old(sessionVerification) - {sessionId}
      ensures !IsVerifiedIn(State(), sessionId)
    {
      sessionVerification := sessionVerification - {sessionId};
    }
  }
}

=== FILE: sessions.dfy ===
/**
 * The per-session record and its in-memory store. The store's `getOrCreate`
 * is the default method of the store interface; with one implementation in the
 * system it is modelled as a method of that implementation.
 */
module Sessions {
  import opened Wrappers
  import opened Dto

  datatype SessionData = SessionData(
    sessionId: string,
    currentStage: string,
    preferences: Preferences,
    createdAt: Option<int>,
    updatedAt: Option<int>)

  /** `SessionData.createNew`: stage S1, default preferences, both instants set to now. */
  function CreateNew(sessionId: string, now: int): (s: SessionData)
    ensures s.sessionId == sessionId && s.currentStage == "S1"
    ensures s.preferences == DefaultPreferences() && PreferenceViolations(s.preferences) == []
    ensures s.createdAt == Some(now) && s.updatedAt == Some(now)
  {
    SessionData(sessionId, "S1", DefaultPreferences(), Some(now), Some(now))
  }

  function Lookup(store: map<string, SessionData>, sessionId: string): Option<SessionData>
  {
    if sessionId in store then Some(store[sessionId]) else None
  }

  function Saved(store: map<string, SessionData>, session: SessionData): map<string, SessionData>
  {
    store[session.sessionId := session]
  }

  /** What `getOrCreate` leaves in the store and returns. */
  function GetOrCreateStep(store: map<string, SessionData>, sessionId: string, now: int): (map<string, SessionData>, SessionData)
  {
    match Lookup(store, sessionId)
    case Some(s) => (store, s)
    case None =>
      var s := CreateNew(sessionId, now);
      (Saved(store, s), s)
  }

  /** A saved session is read back unchanged, and saving touches no other id. */
  lemma SaveThenGet(store: map<string, SessionData>, session: SessionData, other: string)
    ensures Lookup(Saved(store, session), session.sessionId) == Some(session)
    ensures other != session.sessionId ==> Lookup(Saved(store, session), other) == Lookup(store, other)
  {
  }

  /** The store after saving the sessions one after the other. */
  function SaveAll(store: map<string, SessionData>, sessions: seq<SessionData>): map<string, SessionData>
    decreases |sessions|
  {
    if sessions == [] then store else SaveAll(Saved(store, sessions[0]), sessions[1..])
  }

  /**
   * After any run of saves, an id exists exactly when it was there before or
   * some saved session carries it; `get` finds nothing exactly when the id
   * does not exist. From the empty store, an id never saved is never found.
   */
  lemma {:induction false} NeverSaved(store: map<string, SessionData>, sessions: seq<SessionData>, sessionId: string)
    ensures (sessionId in SaveAll(store, sessions))
            <==> (sessionId in store || exists k :: 0 <= k < |sessions| && sessions[k].sessionId == sessionId)
    ensures Lookup(SaveAll(store, sessions), sessionId) == None <==> sessionId !in SaveAll(store, sessions)
    decreases |sessions|
  {
    if sessions != [] {
      var rest := sessions[1..];
      NeverSaved(Saved(store, sessions[0]), rest, sessionId);
      if exists k :: 0 <= k < |rest| && rest[k].sessionId == sessionId {
        var k :| 0 <= k < |rest| && rest[k].sessionId == sessionId;
        assert sessions[k + 1].sessionId == sessionId;
      }
      if exists k :: 0 <= k < |sessions| && sessions[k].sessionId == sessionId {
        var k :| 0 <= k < |sessions| && sessions[k].sessionId == sessionId;
        if k > 0 {
          assert rest[k - 1].sessionId == sessionId;
        }
      }
    }
  }

  /** An existing session is returned as stored; otherwise a fresh S1 session is stored and returned. */
  lemma GetOrCreateCases(store: map<string, SessionData>, sessionId: string, now: int)
    ensures sessionId in store ==> GetOrCreateStep(store, sessionId, now) == (store, store[sessionId])
    ensures sessionId !in store ==>
              GetOrCreateStep(store, sessionId, now).1 == CreateNew(sessionId, now) &&
              GetOrCreateStep(store, sessionId, now).0 == store[sessionId := CreateNew(sessionId, now)]
    ensures sessionId in GetOrCreateStep(store, sessionId, now).0
  {
  }

  /** A second `getOrCreate`, at any later time, returns what the first stored and changes nothing. */
  lemma GetOrCreateIdempotent(store: map<string, SessionData>, sessionId: string, now1: int, now2: int)
    ensures var (store1, s1) := GetOrCreateStep(store, sessionId, now1);
            GetOrCreateStep(store1, sessionId, now2) == (store1, s1)
  {
  }

  class InMemorySessionStore {
    var store: map<string, SessionData>

    constructor()
      ensures store == map[]
    {
      store := map[];
    }

    method Get(sessionId: string) returns (r: Option<SessionData>)
      ensures r == Lookup(store, sessionId)
      ensures r.Some? <==> sessionId in store
    {
      if sessionId in store {
        r := Some(store[sessionId]);
      } else {
        r := None;
      }
    }

    method Save(session: SessionData) returns (r: SessionData)
      modifies this
      ensures store == Saved(old(store), session) && r == session
    {
      store := store[session.sessionId := session];
      r := session;
    }

    method Exists(sessionId: string) returns (b: bool)
      ensures b <==> Lookup(store, sessionId).Some?
    {
      b := sessionId in store;
    }

    method GetOrCreate(sessionId: string, now: int) returns (s: SessionData)
      modifies this
      ensures (store, s) == GetOrCreateStep(old(store), sessionId, now)
      ensures sessionId in store && store[sessionId] == s
    {
      var found := Get(sessionId);
      if found.Some? {
        s := found.value;
      } else {
        s := Save(CreateNew(sessionId, now));
      }
    }
  }
}

=== FILE: wrappers.dfy ===
/** Optional values and error-carrying results shared by every module. */
module Wrappers {
  /** A value that may be absent (Java `null`, Python `None`). */
  datatype Option<T> = None | Some(value: T)

  /** Either a value or the error (exception) the source raises instead. */
  datatype Result<T, E> = Ok(value: T) | Err(error: E)
}
